=== FILE: README.md ===
# Document archive: storage tiers, restores and their bookkeeping

This project models, in Dafny, the core of a document archiving service. The
service keeps documents with a cloud storage provider (Amazon S3, Azure Blob
Storage or Google Cloud Storage). It keeps their metadata in a relational
table and moves them between four storage tiers: `standard`, `infrequent`,
`archive` and `deep_archive`.

An archived document must be restored before it can be read. Every record
therefore carries a restore status: `not_archived`, `archived`,
`in_progress` or `restored`. A lifecycle job moves old documents to colder
tiers, completes restores the provider reports as finished, and expires
restored copies whose time is up.

The model covers:

- the tier and status vocabulary, and the YAML configuration flattening;
- the provider contract, the three cloud adapters and the local-disk
  adapter;
- the provider factory and its instance cache;
- the metadata table and the lifecycle service;
- the service read paths: deep archive, restore, status probe, retrieval
  from Glacier, the embedding text and the report;
- the smaller services: PII anonymization, user management and
  permissions, audit log formatting and filtering, the HTTP middleware
  decisions, and the JSON Lines development metadata store.

Each remote store is a pure value: an S3 bucket, an Azure container, a GCS
bucket, or a file system map. Each adapter operation returns its result
together with the store after the call, and a flag saying whether it
changed anything. Provider errors other than "not found" come from a
per-key set of faults in the store.

The clock is an explicit `now` in seconds. Date parsing is a function
parameter. A database commit that fails is a map from document id to
error message. Where the source rolls the session back after a failed
commit, the table is as it was. Where it does not, as in the
restore-completion sweep of the lifecycle service, the failure escapes the
loop and the model says so.

One module per source file:

- `Config`, `StorageBase`, `Database`, `AwsS3`, `AzureBlob`, `GcpStorage`
  and `Local`;
- `Provider`, which dispatches to the configured adapter, and `Factory`;
- `Lifecycle`, `Services` and `Report`;
- `Anonymization`, `UserManagement`, `AuditService`, `Middleware` and
  `LocalIceberg`;
- `Events`, which holds the message-bus events as an append-only log;
- `Common`, which holds shared helpers: `Option`, string splitting and
  joining, and counting maps.

## Model

| member | source | states |
|---|---|---|
| Config.ParseTier | app/config.py:19-24 | a string names a storage tier exactly when it is one of the four tier values, and the tier parsed has that value |
| Config.ParseStatus | app/config.py:27-32 | a string names a restore status exactly when it is one of the four status values, and the status parsed has that value |
| Config.VocabularyRoundTrip | app/config.py:19-32 | every tier and every status parses back from its value; there are exactly four of each; the in-progress status is spelled `in_progress` |
| Config.AliasRows | app/config.py:125-171 | the alias table maps `AWS_BUCKET`, `APP_DEBUG`, `KAFKA_TOPICS_RESTORE_READY` and `DATABASE_URL` to their settings attributes, and has no entry for an unknown key |
| Config.AssignAllConcat | app/config.py:118-123 | writing leaves one after another composes: writing a then b is writing b over the result of writing a |
| Config.FlattenIsAssignLeaves | app/config.py:108-123 | flattening a mapping is exactly writing its leaves, in document order, through the alias table; nested mappings are never written themselves |
| Config.AssignAllSpec | app/config.py:125-171 | when several leaves map to the same attribute, the last one in document order wins |
| Config.FlattenYamlSpec | app/config.py:108-171 | an attribute appears in the flattened configuration exactly when some leaf maps to it, with the value of the last such leaf |
| Config.NestedLeafKey | app/config.py:119-123 | a leaf at path k1..kn is looked up under the upper-cased, underscore-joined key |
| Config.LeafAt | app/config.py:119-171 | a single nested leaf flattens to the alias-table entry for its upper-cased path |
| Config.TwoLevelAliases | app/config.py:128-139 | `aws: {bucket: v}` sets `aws_s3_bucket` to v and nothing else, and `app: {debug: v}` sets `debug` to v and nothing else |
| Config.KafkaTopicAlias | app/config.py:160-161 | the three-level `kafka.topics.restore_ready` leaf sets `kafka_topic_restore_ready` |
| Config.TopLevelKey | app/config.py:123 | a top-level leaf uses its upper-cased key without a prefix: `database_url` sets `database_url` |
| Config.UnknownKeyDropped | app/config.py:125-171 | a leaf whose key is not in the alias table is silently dropped |
| StorageBase.GenerateStoragePath | app/storage/base.py:172-185 | the object key starts with `archives/`, ends with the file name, and holds the document id as a whole path segment |
| StorageBase.RestoreFailure | app/storage/base.py:36-44 | a failed restore result has an empty status, no estimate, no expiry, and is not retrievable |
| StorageBase.ArchiveFailure | app/storage/base.py:26-33 | a failed archive result carries its message and empty tiers |
| StorageBase.UpdatedExpiry | app/services.py:581-586 | the stored expiry changes only when the provider reported one that parses, and an unparsable text leaves it as it was |
| Database.NewRecord | app/database.py:37-46 | a new record starts in `standard`, `not_archived`, with no expiry, no archive date, no tags, no metadata and no embedding |
| Database.TagsRoundTrip | app/database.py:53-63 | tags written through the setter read back unchanged, and an empty map is stored as NULL |
| Database.MetaRoundTrip | app/database.py:65-75 | metadata written through the setter reads back unchanged |
| Database.EmbeddingRoundTrip | app/database.py:85-98 | a non-empty vector reads back unchanged; an empty vector is stored as NULL and reads back as none |
| Database.Insert | app/database.py:31 | an insert fails exactly when the document id is already present (`unique=True`); otherwise the row is appended and every other row is unchanged |
| Database.Stamped | app/database.py:46 | `updated_at` moves to the flush time exactly when some other column changed; every other column is the assigned value |
| Database.Save | app/database.py:30-46 | documents are keyed by their unique document id: saving rewrites only the record with that id, leaves every other record and the row order alone, and keeps ids unique |
| Database.Select | app/lifecycle_service.py:70-75 | a query returns each matching record exactly once and nothing that fails the filter |
| AwsS3.TierMapsInverse | app/storage/aws_s3.py:15-24 | exactly the four tier values have a storage class, and the two maps are inverse, apart from the extra `GLACIER` row, which reads as `archive` |
| AwsS3.Estimate | app/storage/aws_s3.py:445-452 | Expedited gives `1-5 minutes`, Standard `3-5 hours` and Bulk `5-12 hours`; any other retrieval tier gives `Unknown` |
| AwsS3.ExtractExpirySound | app/storage/aws_s3.py:310-322 | the expiry found in the `x-amz-restore` header is a non-empty, quote-free text that occurs after `expiry-date="` and before a closing quote; when none is found there is no such occurrence |
| AwsS3.CompletedHeaderExpiry | app/storage/aws_s3.py:310-322 | the expiry S3 writes into a completed-restore header is the one read back |
| AwsS3.Download | app/storage/aws_s3.py:120-188 | a download succeeds exactly when both the head and the get calls succeed, and then returns the stored bytes; a Glacier or deep-archive object with no restore, or one still restoring, is refused before the get call; a missing key reports "not found" |
| AwsS3.MoveToArchive | app/storage/aws_s3.py:214-271 | the object is copied exactly when its class differs from the target's; on success it is in the target class and the previous tier is read from its old class |
| AwsS3.MoveIdempotent | app/storage/aws_s3.py:226-238 | after a successful move, moving again changes nothing |
| AwsS3.RestoreFromArchive | app/storage/aws_s3.py:273-366 | a failing head call is reported as the error; a STANDARD object is `not_archived` and retrievable; an ongoing restore is `in_progress` with the tier's estimate and not retrievable; a finished one is `restored`, retrievable, with the expiry from the header when there is one; otherwise a restore request is sent, giving `in_progress` with the estimate, or the request's error with the bucket unchanged; only a sent request changes the bucket, marking the object as restoring |
| AwsS3.GetArchiveStatus | app/storage/aws_s3.py:368-443 | a probe succeeds exactly when the head call does; the object is retrievable exactly when it is not archived or already restored |
| AwsS3.StatusTable | app/storage/aws_s3.py:380-425 | standard objects are `not_archived`; colder ones with no restore header are `archived`, restoring ones `in_progress`, and restored ones `restored` |
| AwsS3.FreshRequestSent | app/storage/aws_s3.py:287-344 | an archived object with no restore on record and no fault is probed as `archived`, and a restore call sends the request |
| AwsS3.NoDuplicateRestore | app/storage/aws_s3.py:301-309 | after a restore request a second one sends nothing, and a probe reports `in_progress` |
| AzureBlob.TierMapsInverse | app/storage/azure_blob.py:15-28 | the tier-to-blob-tier map and its reverse are inverse |
| AzureBlob.Download | app/storage/azure_blob.py:123-164 | a download succeeds exactly when both the download and the properties calls succeed, and returns the stored bytes |
| AzureBlob.MoveToArchive | app/storage/azure_blob.py:188-242 | the tier is set exactly when the blob exists and is not already in the target tier; the blob then carries the target tier |
| AzureBlob.Priority | app/storage/azure_blob.py:277-280 | rehydration uses High priority exactly when the requested tier is `expedited`, compared without case; otherwise Standard |
| AzureBlob.RestoreFromArchive | app/storage/azure_blob.py:244-314 | a missing blob fails with "Document not found", and any other failing properties call with "Failed to initiate rehydration: " and the error; a Hot, Cool or Cold blob is `not_archived` and retrievable; a blob rehydrating to hot or cool is `in_progress` with the standard-priority estimate; rehydration is started exactly when the blob exists, is not Hot, Cool or Cold (an unknown tier included) and is not already rehydrating: the blob is set to Hot with the requested priority and the result is `in_progress`, not retrievable, naming the priority, or the set-tier call's error; only a started rehydration changes the container |
| AzureBlob.FreshRehydrationSent | app/storage/azure_blob.py:277-296 | an Archive blob with no archive status, which the probe reports `archived`, gets a rehydration request, and the restore succeeds with `in_progress` |
| AzureBlob.GetArchiveStatus | app/storage/azure_blob.py:316-367 | a probe succeeds exactly when the properties call does, and its status is `not_archived`, `archived` or `in_progress`, never `restored` |
| AzureBlob.StatusTable | app/storage/azure_blob.py:326-349 | Hot blobs are `not_archived` and retrievable; Cool and Cold blobs are `archived` but retrievable; Archive blobs are `in_progress` and not retrievable while the archive status says rehydrate-pending, and `archived` and not retrievable otherwise; no blob is ever reported `restored` |
| AzureBlob.NoDuplicateRehydration | app/storage/azure_blob.py:266-275 | after rehydration starts, a second restore changes nothing and reports `in_progress` |
| AzureBlob.RehydratedIsHot | app/storage/azure_blob.py:326-342 | once a pending-to-hot rehydration has completed, the probe succeeds and reports `not_archived` and retrievable |
| GcpStorage.TierMapsInverse | app/storage/gcp_storage.py:15-23 | the tier-to-class map and its reverse are inverse |
| GcpStorage.Download | app/storage/gcp_storage.py:114-162 | a successful download means the object exists and returns its stored bytes; a missing object fails with "Document not found in Google Cloud Storage"; an existing object with no fault is always delivered |
| GcpStorage.MoveToArchive | app/storage/gcp_storage.py:183-237 | the storage class is rewritten exactly when it differs from the target's; on success the object is in the target class |
| GcpStorage.MoveIdempotent | app/storage/gcp_storage.py:200-206 | after a successful move, moving again changes nothing |
| GcpStorage.RestoreFromArchive | app/storage/gcp_storage.py:239-303 | a failing reload fails with "Document not found" or "Failed to restore: " and the error; a STANDARD object (a missing class counts as STANDARD) is `not_archived` with "Document is already in standard storage", and any class other than STANDARD, Nearline, Coldline and Archive is `not_archived` with "Document is accessible", both with the bucket unchanged; a Nearline, Coldline or Archive object is rewritten to STANDARD and reported `restored` with its old class in the message, or the update's error; every success is retrievable, with no expiry and no estimate |
| GcpStorage.RestoreIdempotent | app/storage/gcp_storage.py:259-278 | after a successful restore, restoring again changes nothing and reports `not_archived` |
| GcpStorage.GetArchiveStatus | app/storage/gcp_storage.py:305-344 | a probe succeeds exactly when the object exists and reloads; it is always retrievable; the status is `archived` exactly when the class is ARCHIVE or COLDLINE, and `not_archived` otherwise |
| GcpStorage.NearlineReadsNotArchived | app/storage/gcp_storage.py:322-330 | a Nearline object is reported `not_archived` by the probe, although its tier is `infrequent` |
| Local.TierRoot | app/storage/local.py:36-46 | `standard` lives under the base directory, `infrequent` and `archive` under the archive directory, `deep_archive` under the deep-archive directory, and anything else under the base |
| Local.StoragePath | app/storage/local.py:36-49 | a document's path is its tier root, then the day, then the document id |
| Local.MetadataPath | app/storage/local.py:51-53 | the sidecar sits next to the file, is named after it with `.meta.json`, and is never the file itself |
| Local.ArchiveToTier | app/storage/local.py:186-259 | a missing file fails with "Document not found at <path>" and nothing changed; success reports the previous tier as `standard` and the requested tier as the new one; after success the source path is gone, even when it is the target path, because opening the target for writing has already emptied the source |
| Local.ArchiveOntoItselfLosesFile | app/storage/local.py:218-243 | a lone standard file archived to `standard` on the same day is reported as a success, and the file system is left empty |
| Local.FailedSelfArchiveEmptiesFile | app/storage/local.py:218-243 | when a file is archived onto its own path and its unreadable sidecar makes the operation fail, the failure leaves the file in place but empty |
| Local.ArchiveToTierFixed | app/storage/local.py:186-259 | with the self-copy guarded, success leaves the contents at the target path, the source is removed only when it differs from the target, and a missing file changes nothing |
| Local.FixedAgreesElsewhere | app/storage/local.py:218-243 | when the target path differs from the source path, the guarded archive behaves exactly as the original |
| Local.RestoreFromArchive | app/storage/local.py:261-331 | a restore copies the file to `restored_<name>` under the base directory for the day and keeps the archived copy; the expiry is now plus the requested days; the status is `restored` and retrievable, never `in_progress` |
| Provider.MoveToArchive | app/storage/base.py:121-137 | whichever adapter runs, it stays the same kind of store, a failure changes nothing, and success reports the requested tier |
| Provider.MoveRepeat | app/storage/base.py:121-137 | on S3 and GCS a second move after a successful one changes nothing |
| Provider.RestoreFromArchive | app/storage/base.py:139-157 | whichever adapter runs, a successful restore reports one of the four statuses and a failed one is never retrievable |
| Provider.GetArchiveStatus | app/storage/base.py:159-170 | a successful probe reports one of the four statuses; a failed probe is never retrievable; Azure never reports `restored`; on GCS a successful probe is always retrievable and never `in_progress` |
| Provider.ProbeCoherent | app/storage/base.py:159-170 | a probe reporting `restored` is retrievable, and one reporting `in_progress` is not |
| Provider.OnlyS3ReportsRestored | app/storage/aws_s3.py:380-425 | only the S3 adapter's probe ever reports `restored` |
| Factory.GetStorageProvider | app/storage/factory.py:23-47 | an unregistered provider, `local` included, is refused; a registered one returns its cached instance, or a new instance that is then cached |
| Factory.DefaultResolves | app/storage/factory.py:37-38 | asking for no provider is asking for the configured one, and the configured one always resolves |
| Factory.CachedInstanceReturned | app/storage/factory.py:43-47 | asking again for the same provider returns the same instance and leaves the cache as it is |
| Factory.LocalNotSelectable | app/storage/factory.py:13-17 | the registry has three providers and `local` is not one of them |
| Factory.GetAllProviders | app/storage/factory.py:50-61 | the result holds exactly the registered providers and agrees with the new cache; instances already cached are kept |
| Factory.AllThenGet | app/storage/factory.py:50-61 | after listing all providers, getting one returns the instance the listing showed |
| Factory.ClearProviderCache | app/storage/factory.py:64-66 | clearing empties the cache |
| Factory.ClearGivesFreshInstance | app/storage/factory.py:64-66 | after clearing, getting a provider gives an instance different from every earlier one |
| Lifecycle.Threshold | app/lifecycle_service.py:55-59 | an explicit age wins; otherwise the deep-archive target uses the deep-archive setting and every other target uses the archive setting |
| Lifecycle.DefaultThresholds | app/config.py:75-76 | with default settings, deep archive waits 365 days and every other target 90 |
| Lifecycle.EligibleTiers | app/lifecycle_service.py:64-68 | `standard` is always eligible, every eligible tier is one of the four tier values, and neither archive target is eligible to move into itself |
| Lifecycle.EligibleAreWarmer | app/lifecycle_service.py:64-68 | for every target colder than standard, the eligible tiers are exactly the strictly warmer ones |
| Lifecycle.DocumentsForArchival | app/lifecycle_service.py:40-77 | the list holds exactly the records created at or before the cutoff whose tier is eligible |
| Lifecycle.ArchiveDocument | app/lifecycle_service.py:79-145 | a document is marked archived, with one moved-to-glacier event, exactly when the provider move succeeds and the commit does; otherwise the table is unchanged and the provider's message is reported |
| Lifecycle.ArchiveAll | app/lifecycle_service.py:190-196 | one result per eligible document; successful plus failed equals the number of documents |
| Lifecycle.ArchiveAllEntries | app/lifecycle_service.py:190-196 | the i-th result is about the i-th document and is never a dry-run entry |
| Lifecycle.ArchiveAllLog | app/lifecycle_service.py:117-123 | the run emits exactly one moved-to-glacier event per successful move, each naming the target tier |
| Lifecycle.ArchiveAllMovesAt | app/lifecycle_service.py:190-196 | the i-th document is archived exactly when its move succeeds against the provider state the earlier moves left and its commit succeeds |
| Lifecycle.ArchiveAllBackend | app/lifecycle_service.py:190-191 | the provider ends in the state the last move of the loop left |
| Lifecycle.ArchiveAllTableAt | app/lifecycle_service.py:190-196 | the i-th document ends up marked archived in the target tier when it was archived, and as it was otherwise |
| Lifecycle.ArchiveAllKeeps | app/lifecycle_service.py:190-196 | no record outside the batch changes |
| Lifecycle.ArchiveAllEffect | app/lifecycle_service.py:79-145 | over the whole loop: the final provider state, which documents are archived, how each ends up, and that every record outside the batch is unchanged |
| Lifecycle.AgeDays | app/lifecycle_service.py:184 | the age reported is the number of whole days since creation |
| Lifecycle.RunLifecycleArchival | app/lifecycle_service.py:147-204 | the report lists every eligible document in order; a dry run changes nothing and archives nothing; a live run counts each document once as a success or a failure, and emits one event per success; the table keeps its rows |
| Lifecycle.LiveRunIsBatch | app/lifecycle_service.py:188-196 | a live run reports the loop's results and keeps the table and provider state the loop leaves; the eligible documents have distinct ids and are the table's own records |
| Lifecycle.ArchivalEffect | app/lifecycle_service.py:164-196 | in a live run the i-th eligible document is archived exactly when its move succeeds, against the provider state the earlier moves left, and its commit succeeds; it is then marked archived in the target tier and is unchanged otherwise; the provider ends in the state the last move left |
| Lifecycle.ArchivalKeepsIneligible | app/lifecycle_service.py:164-196 | a live run leaves every record that is not eligible as it was |
| Lifecycle.CheckOne | app/lifecycle_service.py:229-284 | a record is completed, with one restore-ready event, exactly when the probe shows it restored and retrievable and the commit succeeds; a successful probe that does not is still in progress; everything else is an error with nothing changed |
| Lifecycle.CheckAll | app/lifecycle_service.py:229-286 | every entry counts once, as restored, still in progress or an error; the loop reports every listed record unless it raised, and it raises only on a failed commit that the handler does not roll back |
| Lifecycle.CheckAllRaised | app/lifecycle_service.py:245-284 | the loop raises exactly when the handler does not roll back and some listed record's restore completed with a failing commit |
| Lifecycle.CheckAllEntries | app/lifecycle_service.py:229-284 | each entry is about the record in the same place: completed exactly when the probe shows it restored and its commit succeeds, still in progress exactly when the probe succeeds without showing that |
| Lifecycle.CheckAllTableAt | app/lifecycle_service.py:229-286 | the i-th record ends up marked restored, with the probe's expiry, exactly when its probe shows it restored, its commit succeeds and no earlier record's failed commit stopped the loop; otherwise it is as it was |
| Lifecycle.CheckAllKeeps | app/lifecycle_service.py:229-286 | no record outside the list changes |
| Lifecycle.CheckAllLog | app/lifecycle_service.py:248-253 | the sweep emits only restore-ready events, one per completed restore, and with no completion the table is unchanged |
| Lifecycle.CheckAndUpdateRestoreStatus | app/lifecycle_service.py:206-286 | only records in progress are probed; the sweep raises exactly when a completed restore's commit fails and the handler does not roll back; otherwise every such record is checked once and checked equals restored plus still in progress plus errors; the provider is not changed; only restore-ready events are added, one per completed restore |
| Lifecycle.RestoreSweepEffect | app/lifecycle_service.py:229-286 | a record is marked restored exactly when it was in progress, its probe shows it restored, its commit succeeds and no earlier failed commit stopped the sweep; every other record is unchanged |
| Lifecycle.FailedCommitAbortsSweep | app/lifecycle_service.py:245-284 | as written, a completed restore whose commit fails makes the sweep raise, and every in-progress record after it is left in progress, never probed |
| Lifecycle.RollbackKeepsSweepGoing | app/lifecycle_service.py:229-286 | with a rollback in the handler, the sweep always returns its report, and each record is completed exactly when it was in progress, shows restored and its commit succeeds |
| Lifecycle.AzureNeverCompletes | app/lifecycle_service.py:234-235 | on Azure the sweep never completes a restore, never raises and changes nothing, because the Azure probe never reports `restored` |
| Lifecycle.MarkExpired | app/lifecycle_service.py:311-312 | an expired record goes back to `archived` with no expiry, and is no longer expired |
| Lifecycle.ExpireAll | app/lifecycle_service.py:310-323 | expiring a batch keeps the table's rows and ids |
| Lifecycle.ExpireAllMarks | app/lifecycle_service.py:310-312 | every record in the batch is marked expired |
| Lifecycle.ExpireAllKeeps | app/lifecycle_service.py:310-312 | every record outside the batch is unchanged |
| Lifecycle.CheckExpiredRestores | app/lifecycle_service.py:288-329 | one restore-expired event is published per restored record whose expiry has passed, in order, whether or not the commit succeeds; the sweep raises exactly when the commit of one of those records fails, and then the table is unchanged; otherwise the report counts exactly those records |
| Lifecycle.ExpirySweepEffect | app/lifecycle_service.py:298-326 | when the commit succeeds, expired records are marked and all others are untouched, and no record is expired afterwards |
| Lifecycle.LifecycleJob | app/lifecycle_service.py:348-370 | the four steps keep the table's rows and only append events; when the job finishes, no expired restore is left behind |
| Lifecycle.JobFinishes | app/lifecycle_service.py:348-370 | the job finishes exactly when the restore check does not raise and the expiry commit succeeds; a raising restore check ends the job with its world; with a rollback the restore check never raises |
| Lifecycle.CleanJobFinishes | app/lifecycle_service.py:348-370 | with no failing commit the job always finishes |
| Lifecycle.AbortedJobKeepsExpired | app/lifecycle_service.py:351-368 | as written, when the restore check raises, the job does not finish and a copy already past its expiry stays restored |
| Services.RestoreDefaults | app/services.py:567-568 | a missing or zero restore period means 7 days, and a missing or empty retrieval tier means `Standard`, the configured defaults |
| Services.MoveToDeepArchive | app/services.py:452-526 | an unknown id fails with "Document not found" and changes nothing; otherwise the provider move runs, and the record is marked archived in the requested tier exactly when the move and the commit succeed |
| Services.DeepArchiveRepeat | app/services.py:452-514 | on S3 or GCS, a second deep-archive request after a successful one does not touch the provider |
| Services.RestoreFromDeepArchive | app/services.py:528-608 | an unknown id fails; a standard document is reported `not_archived` without calling the provider; otherwise the status the provider reports is stored when the commit succeeds |
| Services.RestoreRequestedOnce | app/services.py:528-598 | on S3, restoring an archived object with no restore on record changes the bucket, and restoring it again changes nothing more |
| Services.GetArchiveStatus | app/services.py:610-671 | a successful probe overwrites the stored status, and a failed probe reports the stored status as not retrievable; the provider is never changed |
| Services.RecordRestoreIdempotent | app/database.py:46 | recording the same probe answer a second time, at any later instant, leaves the record as it was, `updated_at` included, because nothing changes and no row is written |
| Services.StatusProbeIdempotent | app/services.py:637-660 | probing twice, the second time at any later instant, answers the same as probing once and leaves the world as the first probe did |
| Services.ProbeAfterRecord | app/services.py:642-650 | after a successful probe is recorded, probing again at any later instant changes nothing, `updated_at` included |
| Services.RetrieveStandard | app/services.py:711-735 | a standard document is only downloaded, never probed, and is delivered exactly when the download succeeds |
| Services.DeliverRestored | app/services.py:738-788 | a retrievable archived document is downloaded; when the download succeeds it is marked `restored` with one restore-ready event |
| Services.RequestRestore | app/services.py:791-842 | a document that is not retrievable and not restoring gets a restore request; when it succeeds the record is marked `in_progress` |
| Services.RetrieveFromGlacier | app/services.py:673-854 | an unknown id fails with no provider call; every path keeps the record's storage path and tier |
| Services.RetrievalCalls | app/services.py:673-842 | at most two provider calls are made, and the provider changes only through a restore request for an archived document |
| Services.StandardNeverProbes | app/services.py:711-712 | a document whose tier is empty or `standard` is only downloaded: nothing changes, and success reports `not_archived` |
| Services.InProgressNeverRequests | app/services.py:791-801 | a document whose restore is in progress is answered from the probe alone, with nothing changed |
| Services.DeliveredOnce | app/services.py:740-778 | a retrievable archived document is delivered as `restored`, with exactly one restore-ready event |
| Services.NoDuplicateRestoreRequest | app/services.py:791-842 | on S3, the first retrieval of an archived object with no restore on record probes and then requests a restore, which changes the bucket; the next retrieval only probes, changes nothing and reports `in_progress` |
| Services.PrepareEmbeddingText | app/services.py:856-884 | the text starts with the file name and contains every tag and every scalar metadata entry as `key: value`; with no tags and no scalar metadata it is just the file name |
| Services.NonScalarIgnored | app/services.py:880-882 | a metadata entry that is not a string or a number adds nothing to the text |
| Report.DocumentsInPeriod | app/services.py:356-361 | the report covers exactly the documents created within the period, each once |
| Report.AddUpload | app/services.py:389-392 | counting one upload bumps exactly that day's count and size, and keeps the days sorted |
| Report.DailyUploads | app/services.py:386-397 | the days are in date order, and their counts and sizes add up to the documents and their bytes |
| Report.DailyUploadsPerDay | app/services.py:386-397 | each day's count and size are exactly those of the documents uploaded that day |
| Report.AddTag | app/services.py:382-383 | counting one tag row bumps exactly that key/value pair |
| Report.TagCounts | app/services.py:373-383 | the tag counts add up to the number of tag rows |
| Report.TagCountsPerPair | app/services.py:382-383 | each key/value count is the number of tag rows with that pair |
| Report.SortByCount | app/services.py:408 | the tags are rearranged into non-increasing count order |
| Report.SortByCountStable | app/services.py:408 | the sort is stable: tags with the same count keep their counting order |
| Report.TopTags | app/services.py:400-408 | ten tags when at least ten were counted and all of them otherwise, in non-increasing count order, all drawn from the counted tags |
| Report.TopTagsDominate | app/services.py:408 | no tag left out of the top ten has a higher count than one kept |
| Report.GenerateReport | app/services.py:344-432 | the totals are the count and bytes of the documents in the period; the daily uploads are in date order and add up to those totals; the tag counts add up to the tag rows of those documents; the top tags are at most ten, in non-increasing order, drawn from the tag counts |
| Report.ContentTypeCounts | app/services.py:368-370 | the content-type breakdown names exactly the types present, and its counts add up to the number of documents |
| Anonymization.Mask | app/anonymization_service.py:51-62 | every redaction mask is a bracketed word |
| Anonymization.MaskInjective | app/anonymization_service.py:51-62 | no two PII types share a mask, so a redaction names the type it hides |
| Anonymization.OverlapsHalfOpen | app/anonymization_service.py:158-160 | two non-empty spans overlap exactly when they share a character position; overlap is symmetric |
| Anonymization.RemoveOverlaps | app/anonymization_service.py:134-155 | the entities kept are drawn from the detected ones |
| Anonymization.Place | app/anonymization_service.py:142-153 | an entity already kept is dropped only for an overlapping newcomer with strictly higher confidence; a newcomer is dropped only for an overlapping kept entity of at least its confidence; a newcomer that overlaps nothing is appended |
| Anonymization.RemoveOverlapsClean | app/anonymization_service.py:134-155 | over entities sorted by start, the result stays sorted and no two kept entities overlap |
| Anonymization.SortByStart | app/anonymization_service.py:129 | the detected entities are rearranged into start order |
| Anonymization.DetectPiis | app/anonymization_service.py:86-132 | empty text has no entities, and the result is drawn from the matches |
| Anonymization.DetectPiisClean | app/anonymization_service.py:129-132 | detected entities are sorted by start and pairwise disjoint |
| Anonymization.Replacement | app/anonymization_service.py:188-192 | remove mode deletes the span, and every other mode writes the type's mask |
| Anonymization.Anonymize | app/anonymization_service.py:162-211 | with nothing detected the text is returned unchanged with no operations; otherwise there is one operation per detected entity, in text order, carrying its type, text, span, confidence and replacement |
| Anonymization.AnonymizeLength | app/anonymization_service.py:188-198 | the anonymized text is as long as the original, minus the replaced spans, plus the replacements |
| Anonymization.RemoveModeAddsNothing | app/anonymization_service.py:189-190 | in remove mode the replacements add no characters |
| Anonymization.OperationsAscending | app/anonymization_service.py:188-209 | the operations come out in ascending position order, although the text is edited from the end |
| Anonymization.GetSummary | app/anonymization_service.py:213-228 | the summary names exactly the types detected, each with its number of entities |
| Anonymization.SummaryTotal | app/anonymization_service.py:213-228 | the summary counts add up to the number of entities |
| UserManagement.ParseRole | app/user_management.py:14-20 | a string names a role exactly when it is that role's value |
| UserManagement.ValueInjective | app/user_management.py:23-55 | no two permissions share a value |
| UserManagement.ValueIn | app/user_management.py:57-86 | a permission's value is in a role's list exactly when the role grants it |
| UserManagement.AdminHoldsAll | app/user_management.py:58 | the admin role holds all twenty permissions |
| UserManagement.RolesNested | app/user_management.py:59-85 | viewer permissions are a subset of user permissions, user permissions of archive manager permissions, and archive manager permissions of admin permissions |
| UserManagement.AdministrationIsAdminOnly | app/user_management.py:57-86 | only the admin role may create users, manage roles or permissions, or administer the system |
| UserManagement.Hex | app/user_management.py:107-109 | a hex rendering is twice as long as its bytes and never contains the `$` separator |
| UserManagement.HexInjective | app/user_management.py:107-109 | different bytes have different hex renderings |
| UserManagement.HashPassword | app/user_management.py:97-109 | a stored hash is the 64-character salt and the key, separated by exactly one `$` |
| UserManagement.VerifyPassword | app/user_management.py:112-128 | verification can succeed only on a hash with exactly one `$` |
| UserManagement.VerifyHashed | app/user_management.py:97-128 | a password verifies against its own hash |
| UserManagement.VerifyOther | app/user_management.py:97-128 | another password verifies against the hash exactly when the key derivation gives it the same key |
| UserManagement.CreateUser | app/user_management.py:130-188 | a taken username is refused with nothing changed; a failed commit changes nothing; otherwise one user with a fresh id is appended |
| UserManagement.UpdateUser | app/user_management.py:190-222 | an unknown id fails; an empty email or full name keeps the old one; the active flag changes only when given; nothing else changes |
| UserManagement.AssignRole | app/user_management.py:224-244 | an unknown id fails with nothing changed; otherwise only that user's role changes |
| UserManagement.DeleteUser | app/user_management.py:301-321 | an unknown id fails with nothing changed; otherwise exactly that user is removed |
| UserManagement.CreateKeepsValid | app/user_management.py:156-173 | creating keeps usernames and ids unique |
| UserManagement.UpdateKeepsValid | app/user_management.py:190-222 | updating keeps usernames and ids unique |
| UserManagement.AssignKeepsValid | app/user_management.py:224-244 | assigning a role keeps usernames and ids unique |
| UserManagement.DeleteKeepsValid | app/user_management.py:301-321 | deleting keeps usernames and ids unique |
| UserManagement.GetUser | app/user_management.py:246-263 | a user is found exactly when the id is present |
| UserManagement.GetUserByUsername | app/user_management.py:265-281 | a user is found exactly when the username is present |
| UserManagement.ListUsers | app/user_management.py:283-299 | a listing is the window of users after the offset, at most `limit` long, in table order |
| UserManagement.CheckPermission | app/user_management.py:323-350 | an unknown or inactive user holds nothing; an active user holds exactly what the role grants; an unknown stored role raises |
| UserManagement.GetUserPermissions | app/user_management.py:352-361 | an unknown user has an empty list; otherwise the role's list, even for an inactive user |
| UserManagement.AuthenticateUser | app/user_management.py:364-391 | a login succeeds exactly when the username exists, the user is active, and the password verifies against the stored hash |
| UserManagement.CheckMatchesList | app/user_management.py:323-361 | for an active user, holding a permission is the same as finding it in the user's permission list |
| UserManagement.ValidNeverRaises | app/user_management.py:345-346 | with valid stored roles, neither permission query raises |
| UserManagement.CreateThenAuthenticate | app/user_management.py:130-188 | a newly created active user can log in with their password |
| UserManagement.CreateTwiceRefused | app/user_management.py:156-158 | creating the same username twice is refused the second time |
| UserManagement.DeleteThenGone | app/user_management.py:301-321 | after a delete the user is gone and every other user is still found |
| UserManagement.AssignThenCheck | app/user_management.py:224-244 | after a role is assigned, permission checks follow the new role |
| UserManagement.DeactivateShutsOut | app/user_management.py:205-210 | a deactivated user can no longer log in and holds no permission, while their permission list is unchanged |
| AuditService.ToDict | app/audit_service.py:103-117 | the dictionary exists exactly when the details can be written as JSON, and it carries the event type and the status as their string values |
| AuditService.ParseEventTypeValue | app/audit_service.py:12-48 | every event type parses back from its value, so no two event types share a value |
| AuditService.ToDictRoundTrip | app/audit_service.py:103-117 | the event type and status read back from the dictionary, and every other field is carried unchanged |
| AuditService.Actor | app/audit_service.py:165 | the user shown is never empty, and is the username whenever there is one |
| AuditService.FormatLogMessage | app/audit_service.py:161-176 | formatting fails only when there are details that cannot be written as JSON |
| AuditService.FormatShape | app/audit_service.py:161-176 | the message is event type, user and status, then the resource and the IP when present, joined by ` \| `, then the details when there are any |
| AuditService.OptionalNonEmpty | app/audit_service.py:167-168 | the resource part appears exactly when there is a resource type, and the IP part exactly when there is an IP |
| AuditService.LogEvent | app/audit_service.py:143-208 | an unformattable event is dropped; otherwise the line is always written to the log file; a database error stores no row, and without one exactly one row is appended, under the next id, with the event's type, status and time and no details exactly when there are none |
| AuditService.StoredMatchesDict | app/audit_service.py:178-199 | the stored row agrees with the dictionary form of the event |
| AuditService.Select | app/audit_service.py:241-259 | filtering keeps exactly the matching entries |
| AuditService.SortByTime | app/audit_service.py:262 | the entries are rearranged newest first |
| AuditService.Limit | app/audit_service.py:262 | the limit keeps that many leading entries, or all of them when it is negative or large enough |
| AuditService.GetAuditLogs | app/audit_service.py:210-280 | every result matches the filters and is drawn from the trail, results are newest first, and a non-negative limit bounds their number |
| AuditService.GetAuditLogsComplete | app/audit_service.py:238-262 | the result is as long as the limit allows, holds every matching entry when the limit does not bind, and no matching entry left out is newer than one kept |
| Middleware.ClaimText | app/middleware.py:96-98 | an absent claim gives nothing, and a non-negative number renders as digits |
| Middleware.Authenticate | app/middleware.py:51-124 | a refusal is always a 401; exempt paths and OPTIONS pass untouched; with authentication off the state is cleared; an authenticated request carries the token of its Bearer header, a non-empty user id and exactly the claims the verifier returned |
| Middleware.AuthenticateGate | app/middleware.py:80-111 | a guarded request gets through exactly when it carries a bearer token that verifies and names a user id |
| Middleware.BearerRoundTrip | app/middleware.py:89-111 | the token handed on is the one the client sent after `Bearer ` |
| Middleware.RejectReasons | app/middleware.py:82-120 | with authentication on, a header without the Bearer prefix gives "Missing or invalid Authorization header", a token the verifier refuses gives "Invalid or expired token", and a token without a user id gives "Invalid token" |
| Middleware.EventTypeOf | app/middleware.py:277-303 | classification raises exactly for a GET whose path matches no table pattern; otherwise the first matching pattern decides |
| Middleware.EventTypeByPattern | app/middleware.py:289-291 | the first table pattern found in the path decides the event type |
| Middleware.EventTypeFallback | app/middleware.py:294-303 | with no pattern, POST, PUT and PATCH are uploads, DELETE is a delete, and other methods are a plain API call |
| Middleware.LoggedEvent | app/middleware.py:236-254 | a plain API call is stored as a document upload |
| Middleware.ResourceTypeIsFirstMatch | app/middleware.py:305-324 | the resource type is the first matching table entry, or `unknown` |
| Middleware.QueryGet | app/middleware.py:343-350 | a query parameter is found exactly when it is present |
| Middleware.QueryGetLast | app/middleware.py:343-350 | a repeated query parameter gives its last value |
| Middleware.ResourceIdOf | app/middleware.py:326-352 | with no resource id, no `id`, `document_id` or `user_id` parameter was given |
| Middleware.PathIdRoundTrip | app/middleware.py:337-340 | the first all-digit path segment is the resource id |
| Middleware.QueryIdFallback | app/middleware.py:343-344 | without a numeric segment, an `id` parameter decides |
| Middleware.QueryPriority | app/middleware.py:343-350 | `document_id` is consulted only without `id`, and `user_id` only without both |
| Middleware.StatusOf | app/middleware.py:260 | codes 2xx are success, 3xx partial, and everything else failure |
| Middleware.StatusAgree | app/middleware.py:228-231 | the two status computations in the middleware agree for every code |
| Middleware.StateUser | app/middleware.py:197-198 | a request the authentication step never touched is logged as `anonymous`, one with authentication off as nobody, and an authenticated one under its own user id and username |
| Middleware.AuditEntry | app/middleware.py:190-269 | the log carries the user id and username read from the request state, the method as the action, the status from the response code, the resource type and id read from the path and query, the client address and agent (or `unknown`), and the time |
| Middleware.AuditDispatch | app/middleware.py:165-275 | a request is skipped exactly when its path is exempt, its method is OPTIONS or auditing is off; it raises exactly when an audited request maps to an event type that does not exist; otherwise it is logged |
| Middleware.UnlistedGetRaises | app/middleware.py:294-297 | a GET to a path outside the table raises inside the middleware |
| Middleware.EventTypeFixed | app/middleware.py:277-303 | with the fallback fixed, classification never raises and agrees with the original wherever that does not raise |
| Middleware.AuditDispatchFixed | app/middleware.py:165-275 | with the fallback fixed, the audit middleware never raises and logs exactly the audited requests |
| Middleware.AuditFixedAgrees | app/middleware.py:165-275 | the fixed middleware does exactly what the original does wherever the original does not raise, and where the original raises it logs a document retrieval |
| Middleware.CodeAfterAuth | app/main.py:102-104 | with authentication on, a refused request answers 401 and never reaches the route; otherwise the route's code comes back |
| Middleware.StateAfterAuth | app/main.py:102-104 | the state the route sees is untouched with authentication off, and otherwise is the one the authentication step leaves; it is authenticated only when that step let the request through |
| Middleware.ServeAsWired | app/main.py:102-109 | with the audit middleware outermost, it skips, raises and logs exactly as the audit rule says, records the status the inner layers return, and always logs no user id and the username `anonymous` |
| Middleware.AuditNeverRecordsUser | app/middleware.py:196-214 | a request with a token that verifies and names a user is still logged with no user id and as `anonymous` |
| Middleware.ServeFixed | app/middleware.py:196-214 | reading the user after the inner layers run logs the user the authentication step left |
| Middleware.FixedRecordsUser | app/middleware.py:196-214 | with that order, an authenticated request is logged under its own user id and username |
| Middleware.FixedAgreesOffUser | app/middleware.py:196-214 | the reordered middleware skips, raises and logs the same requests, and its logs differ only in the user fields; they are identical where authentication is off |
| Middleware.RequireRole | app/middleware.py:402-418 | with authentication on, a role is let through exactly when it is present and listed; no role is a 401 and an unlisted role a 403 |
| Middleware.RefusalNamesRoles | app/middleware.py:411-416 | a 403 refusal names every allowed role |
| Middleware.GuardOffAllows | app/middleware.py:405-411 | with authentication off every request passes with its role |
| LocalIceberg.DictToRecord | app/local_iceberg_database.py:52-55 | a row becomes a record only when its keys, apart from the time stamp, are exactly the record's fields |
| LocalIceberg.RecordRoundTrip | app/local_iceberg_database.py:46-55 | writing a record and reading it back gives the record, whatever the time stamp |
| LocalIceberg.RecordKeys | app/local_iceberg_database.py:46-50 | a written row holds the record's fields and the time stamp |
| LocalIceberg.RecordStamped | app/local_iceberg_database.py:48-49 | a written row carries its write time stamp and is found by its document id |
| LocalIceberg.RecordFields | app/local_iceberg_database.py:46-50 | each field is written under its own name |
| LocalIceberg.Insert | app/local_iceberg_database.py:57-79 | an insert appends one line, leaves the earlier lines alone, and the new line reads back as the record |
| LocalIceberg.Patch | app/local_iceberg_database.py:107-108 | an update overwrites the given keys, keeps the others, and refreshes the time stamp |
| LocalIceberg.Update | app/local_iceberg_database.py:81-126 | an update fails exactly when no row has the id, and then leaves the table as it was |
| LocalIceberg.UpdateFirstOnly | app/local_iceberg_database.py:105-110 | only the first row for the id changes |
| LocalIceberg.Get | app/local_iceberg_database.py:128-155 | a row is found exactly when some row has the id, and it is the first row with that id |
| LocalIceberg.Delete | app/local_iceberg_database.py:206-246 | a delete reports success exactly when some row had the id; the table left is the old one with exactly the rows for the id removed, and is the old table unchanged when none had it |
| LocalIceberg.DeleteThenGet | app/local_iceberg_database.py:216-239 | after a delete the id is not found, and the rows removed are exactly as many as had the id |
| LocalIceberg.GetAfterInsert | app/local_iceberg_database.py:57-75 | an inserted record is found by its id unless an earlier row for the same id shadows it |
| LocalIceberg.List | app/local_iceberg_database.py:157-204 | a listing keeps exactly the rows that pass every filter, none from outside the table, and is never longer than the table |
| LocalIceberg.ListFalsyFilters | app/local_iceberg_database.py:189-196 | with every filter falsy, including a start date of 0, the whole table is listed |
| LocalIceberg.Statistics | app/local_iceberg_database.py:289-348 | the total never exceeds the number of rows, and each breakdown lists only truthy values, each seen at least once |
| LocalIceberg.StatisticsBounds | app/local_iceberg_database.py:323-342 | the total counts the same rows a listing filtered by the dates alone returns, and no breakdown adds up to more than the total |
| LocalIceberg.StatisticsProviderExact | app/local_iceberg_database.py:332-334 | when every row has a provider, the provider breakdown adds up to the total |

## Left out

- Upload, delete and exists for the S3 and Azure adapters, and upload and delete for GCS, are not modelled. They are plain SDK calls with no tier logic; only the object key they use is modelled, as `StorageBase.GenerateStoragePath`.
- The local adapter's `upload`, `download`, `delete` and `get_object_metadata` are not modelled. They are plain file I/O; the tier paths they use are modelled.
- The local adapter is not a subclass of the provider contract: it offers `archive_to_tier` in place of `move_to_archive` and has neither `exists` nor `get_archive_status`. The model keeps it as its own module and never dispatches provider calls to it.
- SDK clients and credentials are not modelled. Each remote store is a value; failures other than "not found" come from its set of faults.
- Message-bus publishing is modelled as appending to an event log that never fails. The Kafka transport, its topics and its enable flag are left out.
- Time is an explicit integer `now`, and `datetime.utcnow()` is read once per operation. Date parsing with `dateutil` is a function parameter.
- The lifecycle service's commits fail per document: a commit fails when it flushes a record whose id is in the failure map.
- `Lifecycle.CheckExpiredRestores`: its events are published inside the loop, before the single commit, so a failed commit leaves them published while the table is unchanged. The model keeps both facts.
- `Lifecycle.CheckAll`: when the loop raises, the model reports no entries for that call, because the exception leaves the method before `results` is returned.
- `StorageBase.UpdatedExpiry`: how a text that fails to parse is read is left to the parsing parameter.
- The lifecycle scheduler and async execution are left out: `get_lifecycle_scheduler`, starting and stopping the scheduler, and the check interval.
- Document upload, delete, plain retrieve, document id generation, vector search and embedding generation are not modelled. They call out to encryption, hashing and embedding code, and vector search uses floating point.
- The `detect_piis` and `anonymize_document` methods of the service layer are not modelled. The anonymization logic they wrap is modelled in `Anonymization`.
- The report's `group_by` option is unused in the source and not modelled.
- The report's `total_size_mb` (a rounded float) and the provider name are not modelled.
- `Anonymization.DetectPiis`: the regular-expression matches are an input, listed in pattern order. The patterns themselves are not modelled.
- Confidence is a real number rather than a float.
- `UserManagement.HashPassword`: PBKDF2 is a function parameter, and the 32 random salt bytes are an argument.
- `UserManagement.AssignRole`: the success message is kept as structured data. The rendering of an enumeration in an f-string differs between Python versions.
- User ids come from a counter that stands in for the database's autoincrement.
- app/database.py defines only the document and tag tables. The `User` class that app/user_management.py:153-198 queries, and the `AuditLogEntry` class that app/audit_service.py:181-235 stores and queries, are defined nowhere in the source. `UserManagement` and `AuditService.LogEvent` / `AuditService.GetAuditLogs` assume both exist, with fields inferred from how they are used. As written, importing either name fails, `log_event` catches that failure and stores no row, and `get_audit_logs` raises.
- `Settings` at app/config.py:35-80 has no `auth_enabled`, `audit_enabled`, `audit_include_request_body` or `local_iceberg_warehouse` attribute, so app/main.py:102 raises when it builds the middleware stack. `Middleware.Authenticate` and `Middleware.AuditDispatch` take the two flags as inputs and assume the attributes exist; the request-body flag and the warehouse path are not modelled.
- `UserManagement.ListUsers`: a negative offset is read as 0.
- `str.isdigit` is ASCII only: Unicode digits are not modelled.
- `AuditService.ToDict`: `json.dumps` is a partial function parameter, and `json.loads` on read is not modelled.
- `AuditService.SortByTime`: ties between equal time stamps are kept in insertion order, where the database gives no guarantee.
- `to_json`, the ISO rendering of time stamps and the audit log file handler are left out.
- `Middleware.Authenticate`: `auth_enabled` and `audit_enabled` are inputs, and token verification is a function parameter.
- `Middleware.AuditDetails`: the elapsed time and the query dictionary are given as already-rendered texts.
- `Middleware.AuditDispatch`: the request state is an input. As app/main.py:102-109 wires the stack, the audit middleware is the outer layer and reads the state before the inner layers run, so it always sees the state untouched; `Middleware.ServeAsWired` models that order.
- Request body capture in the audit middleware is left out.
- `Common.Upper` / `Common.Lower`: only ASCII letters change case, where Python's `str.upper()` and `str.lower()` also change other Unicode letters. The configuration keys and the Azure priority texts they are applied to are ASCII.
- `get_current_user` and `require_permission` are not modelled. They read state that `RequireRole` already covers.
- The CLI, the HTTP routes, JWT issuing and encryption are not modelled.
- `LocalIceberg.CreatedAt`: a `created_at` or `size_bytes` value that is not an integer reads as 0, where Python would compare or add it and could raise.
- `LocalIceberg.DictToRecord`: a row converts only when every field has the JSON kind the record declares. Python's dataclass constructor does not check kinds.
- `get_time_travel_snapshot` is not modelled. It compares ISO time stamps as text.
- A missing data file is modelled as the empty table.
- `Report.GenerateReport`: the report's queries are modelled as never failing, so the error report of app/services.py:434-450 is not modelled.
- `updated_at` is stamped through `Database.Stamped` by the restore-status updates of the service layer. The lifecycle updates always change the status or the tier, so they stamp it directly.
- `LocalIceberg.Patch`: updates hold only JSON scalars.

## Findings

| source | as written | input that shows it | evidently intended | confidence | as-written member | corrected member |
|---|---|---|---|---|---|---|
| app/storage/local.py:218-243 | the copy opens the target path for writing before it reads the source, and the source is unlinked afterwards; when the two paths are the same file, the truncation empties it and the unlink then removes it | a file under the archive directory for today, archived again to `archive` (or a standard file archived to `standard`) on the same day | the file is left in place when it is already at the target path | not executed | Local.ArchiveOntoItselfLosesFile | Local.ArchiveToTierFixed |
| app/middleware.py:197-198 | the user id and username are read from the request state before `call_next`, and app/main.py:102-109 adds the audit middleware after the authentication middleware, which makes it the outer layer, so the authentication step has not run yet | a GET to `/api/v1/documents` with a valid Bearer token, with authentication and auditing enabled | the audit row names the authenticated user | not executed | Middleware.AuditNeverRecordsUser | Middleware.FixedRecordsUser |
| app/middleware.py:294-297 | the GET fallback returns `AuditEventType.DOCUMENT_VIEW`, which the enumeration at app/audit_service.py:12-48 does not define, so it raises `AttributeError` | a GET to `/api/v1/stats` with auditing enabled | an existing event type for reads, such as `DOCUMENT_RETRIEVE` | not executed | Middleware.UnlistedGetRaises | Middleware.AuditDispatchFixed |
| app/lifecycle_service.py:245-284 | the handler around a failed `self.db.commit()` does not call `self.db.rollback()`; the failed flush has expired every loaded record, so the handler's own read of `doc.document_id` raises again, the exception escapes the loop, and `lifecycle_job` at lines 348-370 ends before the expiry sweep | two in-progress documents A then B whose restores have both completed, with A's commit failing | roll the session back, count A as an error and go on to complete B | not executed | Lifecycle.FailedCommitAbortsSweep | Lifecycle.RollbackKeepsSweepGoing |

=== FILE: anonymization.dfy ===
/** PII redaction: resolving overlapping detections, splicing masks into
    the text from right to left, and the per-type summary. The regular
    expressions are not modelled: their matches are the input. */
module Anonymization {
  import opened Common

  datatype PiiType = Name | Email | Phone | Ssn | CreditCard | IpAddress | Address | DateOfBirth | Person | Organization {
    function Value(): string {
      match this
      case Name => "name"
      case Email => "email"
      case Phone => "phone"
      case Ssn => "ssn"
      case CreditCard => "credit_card"
      case IpAddress => "ip_address"
      case Address => "address"
      case DateOfBirth => "date_of_birth"
      case Person => "person"
      case Organization => "organization"
    }
  }

  /** `REDACTION_MAP`. Every type has an entry, so the `[REDACTED]`
      fallback of the lookup is never used. */
  function Mask(t: PiiType): (m: string)
    ensures |m| >= 3 && m[0] == '[' && m[|m| - 1] == ']'
  {
    match t
    case Name => "[NAME]"
    case Email => "[EMAIL]"
    case Phone => "[PHONE]"
    case Ssn => "[SSN]"
    case CreditCard => "[CREDIT_CARD]"
    case IpAddress => "[IP_ADDRESS]"
    case Address => "[ADDRESS]"
    case DateOfBirth => "[DOB]"
    case Person => "[PERSON]"
    case Organization => "[ORGANIZATION]"
  }

  /** No two types share a mask, so a redacted span names the type that
      was redacted. */
  lemma MaskInjective(a: PiiType, b: PiiType)
    ensures Mask(a) == Mask(b) ==> a == b
  {
    if Mask(a) == Mask(b) {
      assert |Mask(a)| == |Mask(b)| && Mask(a)[1] == Mask(b)[1] && Mask(a)[2] == Mask(b)[2];
    }
  }

  /** A detected span `[start, end)` of the text. */
  datatype Entity = Entity(kind: PiiType, text: string, start: int, end: int, confidence: real)

  // ---------------------------------------------------------------------
  // Overlap.
  // ---------------------------------------------------------------------

  /** `_overlaps`. */
  predicate Overlaps(a: Entity, b: Entity) {
    !(a.end <= b.start || a.start >= b.end)
  }

  /** Position `p` lies in the half-open span. */
  predicate Covers(e: Entity, p: int) {
    e.start <= p < e.end
  }

  /** Two non-empty spans overlap exactly when some position lies in both,
      so the test treats spans as half-open; it does not depend on the order
      of its arguments. */
  lemma OverlapsHalfOpen(a: Entity, b: Entity)
    requires a.start < a.end && b.start < b.end
    ensures Overlaps(a, b) <==> exists p :: Covers(a, p) && Covers(b, p)
    ensures Overlaps(a, b) <==> Overlaps(b, a)
  {
    if Overlaps(a, b) {
      var p := if a.start < b.start then b.start else a.start;
      assert Covers(a, p) && Covers(b, p);
    }
  }

  // ---------------------------------------------------------------------
  // _remove_overlaps.
  // ---------------------------------------------------------------------

  /** The first kept entity the new one overlaps: the `break` of the inner
      loop. */
  function FirstOverlap(f: seq<Entity>, e: Entity): (r: Option<nat>)
    ensures r.Some? ==> r.value < |f| && Overlaps(e, f[r.value]) && forall i | 0 <= i < r.value :: !Overlaps(e, f[i])
    ensures r.None? ==> forall i | 0 <= i < |f| :: !Overlaps(e, f[i])
  {
    if f == [] then None
    else if Overlaps(e, f[0]) then Some(0)
    else
      var rest := FirstOverlap(f[1..], e);
      assert forall i | 1 <= i < |f| :: f[i] == f[1..][i - 1];
      if rest.Some? then Some(rest.value + 1) else None
  }

  /** `list.remove(x)`: drops the first element equal to `x`. */
  function RemoveFirst(s: seq<Entity>, x: Entity): (r: seq<Entity>)
    ensures x in s ==> multiset(r) == multiset(s) - multiset{x}
    ensures x !in s ==> r == s
  {
    if s == [] then []
    else if s[0] == x then
      assert s == [s[0]] + s[1..];
      s[1..]
    else
      assert s == [s[0]] + s[1..];
      [s[0]] + RemoveFirst(s[1..], x)
  }

  /** Removing the value at `j` when no earlier element equals it drops
      exactly index `j`. */
  lemma {:induction false} RemoveFirstAt(s: seq<Entity>, j: nat)
    requires j < |s| && forall i | 0 <= i < j :: s[i] != s[j]
    ensures RemoveFirst(s, s[j]) == s[..j] + s[j + 1..]
  {
    if j > 0 {
      var t := s[1..];
      assert t[j - 1] == s[j];
      forall i | 0 <= i < j - 1 ensures t[i] != t[j - 1] {
        assert t[i] == s[i + 1];
      }
      RemoveFirstAt(t, j - 1);
      assert RemoveFirst(s, s[j]) == [s[0]] + RemoveFirst(t, s[j]);
      ConsSlices(s, j);
    }
  }

  /** Dropping index `j - 1` of the tail, then restoring the head, drops
      index `j`. */
  lemma ConsSlices(s: seq<Entity>, j: nat)
    requires 0 < j < |s|
    ensures [s[0]] + (s[1..][..j - 1] + s[1..][j..]) == s[..j] + s[j + 1..]
  {
    assert s[1..][..j - 1] == s[1..j] && s[1..][j..] == s[j + 1..];
    assert s[..j] == [s[0]] + s[1..j];
  }

  /** One pass of the outer loop: keep `e` when it overlaps nothing kept;
      otherwise it replaces the first kept entity it overlaps if its
      confidence is strictly higher, and is dropped if not. */
  function Place(f: seq<Entity>, e: Entity): (r: seq<Entity>)
    ensures multiset(r) <= multiset(f) + multiset{e}
    ensures forall x | x in f && x !in r :: Overlaps(e, x) && e.confidence > x.confidence
    ensures e !in r ==> exists x | x in f :: Overlaps(e, x) && x.confidence >= e.confidence
    ensures FirstOverlap(f, e).None? ==> r == f + [e]
  {
    match FirstOverlap(f, e)
    case None => f + [e]
    case Some(j) =>
      if e.confidence > f[j].confidence then
        RemoveFirstOverlap(f, e, j);
        RemoveFirst(f, f[j]) + [e]
      else f
  }

  /** `kept.remove(kept[j])` for the first overlap `j` drops exactly that
      entity. */
  lemma RemoveFirstOverlap(f: seq<Entity>, e: Entity, j: nat)
    requires FirstOverlap(f, e) == Some(j)
    ensures j < |f| && multiset(RemoveFirst(f, f[j])) == multiset(f) - multiset{f[j]}
    ensures forall x | x in f && x !in RemoveFirst(f, f[j]) :: x == f[j]
  {
    forall i | 0 <= i < j ensures f[i] != f[j] {
      assert !Overlaps(e, f[i]);
    }
    RemoveFirstAt(f, j);
    SliceOut(f, j);
  }

  /** Cutting index `j` out of a sequence removes one copy of `s[j]` and
      keeps every other value. */
  lemma SliceOut(s: seq<Entity>, j: nat)
    requires j < |s|
    ensures multiset(s[..j] + s[j + 1..]) == multiset(s) - multiset{s[j]}
    ensures forall x | x in s && x !in s[..j] + s[j + 1..] :: x == s[j]
  {
    assert s == s[..j] + [s[j]] + s[j + 1..];
    var r := s[..j] + s[j + 1..];
    forall x | x in s && x != s[j] ensures x in r {
      assert multiset(s)[x] > 0;
      assert multiset(r)[x] == multiset(s)[x];
    }
  }

  function RemoveOverlapsFrom(f: seq<Entity>, es: seq<Entity>): (r: seq<Entity>)
    ensures multiset(r) <= multiset(f) + multiset(es)
    decreases |es|
  {
    if es == [] then f
    else
      assert es == [es[0]] + es[1..];
      RemoveOverlapsFrom(Place(f, es[0]), es[1..])
  }

  /** `_remove_overlaps`: a sub-collection of its input. */
  function RemoveOverlaps(es: seq<Entity>): (r: seq<Entity>)
    ensures multiset(r) <= multiset(es) && |r| <= |es|
    ensures es == [] ==> r == []
  {
    var r := RemoveOverlapsFrom([], es);
    assert |multiset(r)| <= |multiset(es)| by {
      MultisetSubSize(multiset(r), multiset(es));
    }
    r
  }

  lemma MultisetSubSize(a: multiset<Entity>, b: multiset<Entity>)
    requires a <= b
    ensures |a| <= |b|
  {
    assert b == a + (b - a);
  }

  predicate SortedByStart(s: seq<Entity>) {
    forall i, j | 0 <= i < j < |s| :: s[i].start <= s[j].start
  }

  predicate Disjoint(s: seq<Entity>) {
    forall i, j | 0 <= i < j < |s| :: !Overlaps(s[i], s[j])
  }

  /** Every span is non-empty, as every regular-expression match here is. */
  predicate NonEmpty(s: seq<Entity>) {
    forall i | 0 <= i < |s| :: s[i].start < s[i].end
  }

  /** Only the last of sorted, disjoint, non-empty spans can overlap a span
      that starts no earlier than all of them. */
  lemma OnlyLastOverlaps(f: seq<Entity>, e: Entity, j: nat)
    requires SortedByStart(f) && Disjoint(f) && NonEmpty(f)
    requires forall x | x in f :: x.start <= e.start
    requires j < |f| && Overlaps(e, f[j])
    ensures j == |f| - 1
  {
    forall k | 0 <= k < |f| - 1 ensures !Overlaps(e, f[k]) {
      assert f[k + 1] in f;
      assert !Overlaps(f[k], f[k + 1]);
    }
  }

  predicate Clean(s: seq<Entity>) {
    SortedByStart(s) && Disjoint(s) && NonEmpty(s)
  }

  /** Appending a span that starts no earlier and overlaps nothing keeps a
      list clean. */
  lemma AppendClean(f: seq<Entity>, e: Entity)
    requires Clean(f) && e.start < e.end
    requires forall i | 0 <= i < |f| :: f[i].start <= e.start && !Overlaps(e, f[i])
    ensures Clean(f + [e])
  {
  }

  /** One pass keeps the kept list sorted, disjoint and non-empty. */
  lemma PlaceKeepsClean(f: seq<Entity>, e: Entity)
    requires Clean(f) && e.start < e.end
    requires forall x | x in f :: x.start <= e.start
    ensures Clean(Place(f, e))
  {
    assert forall i | 0 <= i < |f| :: f[i].start <= e.start by {
      forall i | 0 <= i < |f| ensures f[i].start <= e.start {
        assert f[i] in f;
      }
    }
    match FirstOverlap(f, e)
    case None =>
      AppendClean(f, e);
    case Some(j) =>
      if e.confidence > f[j].confidence {
        ReplaceLastClean(f, e, j);
      }
  }

  /** A newcomer that wins against the entity it overlaps takes the place
      of the last kept entity, and the list stays clean. */
  lemma ReplaceLastClean(f: seq<Entity>, e: Entity, j: nat)
    requires Clean(f) && e.start < e.end
    requires forall x | x in f :: x.start <= e.start
    requires forall i | 0 <= i < |f| :: f[i].start <= e.start
    requires FirstOverlap(f, e) == Some(j) && e.confidence > f[j].confidence
    ensures Clean(Place(f, e))
  {
    OnlyLastOverlaps(f, e, j);
    RemoveFirstAt(f, j);
    assert f[j + 1..] == [];
    assert Place(f, e) == f[..j] + [e];
    PrefixClean(f, j);
    AppendClean(f[..j], e);
  }

  lemma PrefixClean(f: seq<Entity>, j: nat)
    requires Clean(f) && j <= |f|
    ensures Clean(f[..j])
  {
    assert forall i | 0 <= i < j :: f[..j][i] == f[i];
  }

  lemma {:induction false} RemoveOverlapsFromClean(f: seq<Entity>, es: seq<Entity>)
    requires Clean(f)
    requires SortedByStart(es) && NonEmpty(es)
    requires forall x, i | x in f && 0 <= i < |es| :: x.start <= es[i].start
    ensures Clean(RemoveOverlapsFrom(f, es))
    decreases |es|
  {
    if es != [] {
      PlaceKeepsClean(f, es[0]);
      var f' := Place(f, es[0]);
      assert forall i | 1 <= i < |es| :: es[i] == es[1..][i - 1];
      assert forall x, i | x in f' && 0 <= i < |es[1..]| :: x.start <= es[1..][i].start by {
        forall x, i | x in f' && 0 <= i < |es[1..]| ensures x.start <= es[1..][i].start {
          assert x in multiset(f');
          assert x in f || x == es[0];
          assert es[1..][i] == es[i + 1];
        }
      }
      RemoveOverlapsFromClean(f', es[1..]);
    }
  }

  /** Given input sorted by start, the result is sorted by start and no two
      kept entities overlap. */
  lemma RemoveOverlapsClean(es: seq<Entity>)
    requires SortedByStart(es) && NonEmpty(es)
    ensures var r := RemoveOverlaps(es);
      SortedByStart(r) && Disjoint(r) && NonEmpty(r)
  {
    RemoveOverlapsFromClean([], es);
  }

  // ---------------------------------------------------------------------
  // detect_piis, with the matches as input.
  // ---------------------------------------------------------------------

  /** Inserting ahead of the first entity starting no earlier: processing
      the input back to front, equal starts keep their order, as Python's
      stable sort does. */
  function InsertByStart(x: Entity, s: seq<Entity>): (r: seq<Entity>)
    requires SortedByStart(s)
    ensures SortedByStart(r) && multiset(r) == multiset(s) + multiset{x}
  {
    if s == [] || x.start <= s[0].start then
      InsertAtHead(x, s);
      [x] + s
    else
      SortedTail(s);
      var rest := InsertByStart(x, s[1..]);
      InsertBehindHead(x, s, rest);
      [s[0]] + rest
  }

  lemma SortedTail(s: seq<Entity>)
    requires SortedByStart(s) && s != []
    ensures SortedByStart(s[1..])
  {
    forall i, k | 0 <= i < k < |s[1..]| ensures s[1..][i].start <= s[1..][k].start {
      assert s[1..][i] == s[i + 1] && s[1..][k] == s[k + 1];
    }
  }

  /** An entity starting no later than the head of a sorted sequence may
      go in front of it. */
  lemma InsertAtHead(x: Entity, s: seq<Entity>)
    requires SortedByStart(s) && (s == [] || x.start <= s[0].start)
    ensures SortedByStart([x] + s)
  {
    forall i, k | 0 <= i < k < |[x] + s| ensures ([x] + s)[i].start <= ([x] + s)[k].start {
      if i == 0 && k > 1 {
        assert s[0].start <= s[k - 1].start;
      }
    }
  }

  /** Putting the head of `s` in front of `x` inserted into the tail
      keeps the order and the entities. */
  lemma InsertBehindHead(x: Entity, s: seq<Entity>, rest: seq<Entity>)
    requires SortedByStart(s) && s != [] && s[0].start < x.start
    requires SortedByStart(rest) && multiset(rest) == multiset(s[1..]) + multiset{x}
    ensures SortedByStart([s[0]] + rest) && multiset([s[0]] + rest) == multiset(s) + multiset{x}
  {
    assert s == [s[0]] + s[1..];
    StartsFrom(s[0].start, rest, s[1..], x);
  }

  /** A lower bound on the starts of `t` and of `x` bounds every
      rearrangement of them. */
  lemma StartsFrom(lo: int, r: seq<Entity>, t: seq<Entity>, x: Entity)
    requires multiset(r) == multiset(t) + multiset{x}
    requires lo <= x.start && forall i | 0 <= i < |t| :: lo <= t[i].start
    ensures forall i | 0 <= i < |r| :: lo <= r[i].start
  {
    forall i | 0 <= i < |r| ensures lo <= r[i].start {
      assert r[i] in multiset(r);
      if r[i] != x {
        assert r[i] in multiset(t);
        var k :| 0 <= k < |t| && t[k] == r[i];
      }
    }
  }

  /** `detected.sort(key=lambda x: x.start)`. */
  function SortByStart(s: seq<Entity>): (r: seq<Entity>)
    ensures SortedByStart(r) && multiset(r) == multiset(s)
  {
    if s == [] then []
    else
      assert s == [s[0]] + s[1..];
      InsertByStart(s[0], SortByStart(s[1..]))
  }

  /** `detect_piis` given the pattern matches: empty text detects nothing;
      otherwise the matches are sorted by start and overlaps removed. */
  function DetectPiis(text: string, matches: seq<Entity>): (r: seq<Entity>)
    ensures text == [] ==> r == []
    ensures multiset(r) <= multiset(matches)
  {
    if text == [] then [] else RemoveOverlaps(SortByStart(matches))
  }

  /** The detected entities are sorted and pairwise non-overlapping. */
  lemma DetectPiisClean(text: string, matches: seq<Entity>)
    requires NonEmpty(matches)
    ensures var r := DetectPiis(text, matches);
      SortedByStart(r) && Disjoint(r) && NonEmpty(r)
  {
    if text != [] {
      var sorted := SortByStart(matches);
      forall i | 0 <= i < |sorted| ensures sorted[i].start < sorted[i].end {
        assert sorted[i] in multiset(matches);
      }
      RemoveOverlapsClean(sorted);
    }
  }

  // ---------------------------------------------------------------------
  // anonymize.
  // ---------------------------------------------------------------------

  /** The replacement for a span: nothing in "remove" mode, the type's
      mask otherwise. */
  function Replacement(e: Entity, mode: string): (r: string)
    ensures mode == "remove" ==> r == ""
    ensures mode != "remove" ==> r == Mask(e.kind)
  {
    if mode == "remove" then "" else Mask(e.kind)
  }

  /** Python's slice bound: a negative index counts from the end, and both
      sides are clamped to the string. */
  function PyIndex(i: int, n: nat): (k: nat)
    ensures k <= n
    ensures 0 <= i <= n ==> k == i
  {
    if i < 0 then (if n + i < 0 then 0 else n + i) else if i > n then n else i
  }

  /** `text[:start] + replacement + text[end:]`. */
  function Splice(t: string, e: Entity, mode: string): string {
    t[..PyIndex(e.start, |t|)] + Replacement(e, mode) + t[PyIndex(e.end, |t|)..]
  }

  /** The loop over `reversed(entities)`: the last entity first. */
  function SpliceAll(t: string, es: seq<Entity>, mode: string): string
    decreases |es|
  {
    if es == [] then t
    else SpliceAll(Splice(t, es[|es| - 1], mode), es[..|es| - 1], mode)
  }

  /** One line of the operations report. */
  datatype Operation = Operation(kind: PiiType, originalText: string, replacement: string, start: int, end: int, confidence: real)

  /** `anonymize`: the text with every detected span replaced, and one
      operation per entity in ascending position order. */
  function Anonymize(text: string, matches: seq<Entity>, mode: string): (out: (string, seq<Operation>))
    ensures var es := DetectPiis(text, matches);
      && (es == [] ==> out == (text, []))
      && |out.1| == |es|
      && (forall i | 0 <= i < |es| ::
            out.1[i] == Operation(es[i].kind, es[i].text, Replacement(es[i], mode), es[i].start, es[i].end, es[i].confidence))
  {
    var es := DetectPiis(text, matches);
    if es == [] then (text, [])
    else (SpliceAll(text, es, mode), Operations(es, mode))
  }

  /** The operations report, one line per entity in order. */
  function Operations(es: seq<Entity>, mode: string): (ops: seq<Operation>)
    ensures |ops| == |es|
    ensures forall i | 0 <= i < |es| ::
      ops[i] == Operation(es[i].kind, es[i].text, Replacement(es[i], mode), es[i].start, es[i].end, es[i].confidence)
  {
    seq(|es|, i requires 0 <= i < |es| =>
      Operation(es[i].kind, es[i].text, Replacement(es[i], mode), es[i].start, es[i].end, es[i].confidence))
  }

  // ---------------------------------------------------------------------
  // The left-to-right reading of the splice.
  // ---------------------------------------------------------------------

  /** Spans in order, each ending before the next starts, inside the text. */
  predicate Ordered(es: seq<Entity>, n: nat) {
    && (forall i | 0 <= i < |es| :: 0 <= es[i].start <= es[i].end <= n)
    && (forall i, j | 0 <= i < j < |es| :: es[i].end <= es[j].start)
  }

  /** The redacted text read left to right: the gap before each span, then
      its replacement, then the tail after the last span. */
  function Assemble(text: string, es: seq<Entity>, from: nat, mode: string): (r: string)
    requires Ordered(es, |text|) && from <= |text|
    requires es != [] ==> from <= es[0].start
    decreases |es|
  {
    if es == [] then text[from..]
    else
      assert forall i | 1 <= i < |es| :: es[i] == es[1..][i - 1];
      text[from..es[0].start] + Replacement(es[0], mode) + Assemble(text, es[1..], es[0].end, mode)
  }

  lemma OrderedTail(es: seq<Entity>, n: nat)
    requires Ordered(es, n) && es != []
    ensures Ordered(es[1..], n) && (|es| > 1 ==> es[0].end <= es[1..][0].start)
  {
    assert forall i | 0 <= i < |es[1..]| :: es[1..][i] == es[i + 1];
  }

  /** Dropping the last span: the others end before it starts. */
  lemma OrderedInit(es: seq<Entity>, n: nat)
    requires Ordered(es, n) && es != []
    ensures var last := es[|es| - 1];
      0 <= last.start <= last.end <= n && Ordered(es[..|es| - 1], last.start)
  {
    var k := |es| - 1;
    assert forall i | 0 <= i < k :: es[..k][i] == es[i];
  }

  /** Splicing a prefix leaves what follows it alone. */
  lemma {:induction false} SpliceLocal(t: string, u: string, es: seq<Entity>, mode: string)
    requires Ordered(es, |t|)
    ensures SpliceAll(t + u, es, mode) == SpliceAll(t, es, mode) + u
    decreases |es|
  {
    if es != [] {
      var n := |es| - 1;
      var last := es[n];
      OrderedInit(es, |t|);
      assert (t + u)[..last.start] == t[..last.start];
      assert (t + u)[last.end..] == t[last.end..] + u;
      var t' := Splice(t, last, mode);
      assert t' == t[..last.start] + Replacement(last, mode) + t[last.end..];
      assert Splice(t + u, last, mode) == t' + u;
      assert Ordered(es[..n], |t'|) by {
        assert forall i | 0 <= i < n :: es[..n][i].end <= last.start <= |t'|;
      }
      SpliceLocal(t', u, es[..n], mode);
    }
  }

  lemma OrderedSnoc(es: seq<Entity>, last: Entity, n: nat)
    requires 0 <= last.start <= last.end <= n && Ordered(es, last.start)
    ensures Ordered(es + [last], n)
  {
    var all := es + [last];
    assert all[|es|] == last;
    assert forall i | 0 <= i < |es| :: all[i] == es[i];
  }

  /** One step of the left-to-right reading. */
  lemma AssembleCons(text: string, head: string, es: seq<Entity>, from: nat, mode: string)
    requires |head| <= |text| && head == text[..|head|]
    requires Ordered(es, |head|) && from <= |head| && es != [] && from <= es[0].start
    ensures Ordered(es[1..], |head|) && Ordered(es[1..], |text|)
    ensures Assemble(head, es, from, mode) ==
            text[from..es[0].start] + Replacement(es[0], mode) + Assemble(head, es[1..], es[0].end, mode)
  {
    OrderedTail(es, |head|);
    assert head[from..es[0].start] == text[from..es[0].start];
  }

  /** Regrouping concatenations, kept apart from the sequence-heavy
      contexts where the solver would search for it. */
  lemma Regroup(a: string, b: string, c: string, x: string, y: string, r: string, t: string)
    requires a == x + b && b == y + r + t && c == x + y
    ensures a == c + r + t
  {
  }

  /** Appending a span after the others adds its replacement and the tail. */
  lemma {:induction false} AssembleSnoc(text: string, es: seq<Entity>, last: Entity, from: nat, mode: string)
    requires 0 <= last.start <= last.end <= |text| && Ordered(es, last.start)
    requires Ordered(es + [last], |text|)
    requires from <= last.start && (es != [] ==> from <= es[0].start)
    ensures Assemble(text, es + [last], from, mode) ==
            Assemble(text[..last.start], es, from, mode) + Replacement(last, mode) + text[last.end..]
    decreases |es|
  {
    var all := es + [last];
    var head := text[..last.start];
    if es == [] {
      assert all[1..] == [];
      assert head[from..] == text[from..last.start];
    } else {
      var a := es[0];
      assert all[0] == a;
      assert all[1..] == es[1..] + [last];
      AssembleCons(text, head, es, from, mode);
      OrderedSnoc(es[1..], last, |text|);
      AssembleSnoc(text, es[1..], last, a.end, mode);
      Regroup(Assemble(text, all, from, mode), Assemble(text, all[1..], a.end, mode), Assemble(head, es, from, mode),
              text[from..a.start] + Replacement(a, mode), Assemble(head, es[1..], a.end, mode),
              Replacement(last, mode), text[last.end..]);
    }
  }

  /** Splicing right to left, as the source does, gives the left-to-right
      reading: gaps and replacements interleaved. */
  lemma {:induction false} SpliceIsAssemble(text: string, es: seq<Entity>, mode: string)
    requires Ordered(es, |text|)
    ensures SpliceAll(text, es, mode) == Assemble(text, es, 0, mode)
    decreases |es|
  {
    if es != [] {
      var n := |es| - 1;
      var last := es[n];
      OrderedInit(es, |text|);
      SpliceLastFirst(text, es, mode);
      SpliceIsAssemble(text[..last.start], es[..n], mode);
      AssembleLast(text, es, mode);
      Associate(Assemble(text[..last.start], es[..n], 0, mode), Replacement(last, mode), text[last.end..]);
    }
  }

  /** The first splice is the last span; the rest of the loop works on
      the text before it. */
  lemma SpliceLastFirst(text: string, es: seq<Entity>, mode: string)
    requires Ordered(es, |text|) && es != []
    ensures var last := es[|es| - 1];
      0 <= last.start <= last.end <= |text| &&
      SpliceAll(text, es, mode) ==
        SpliceAll(text[..last.start], es[..|es| - 1], mode) + (Replacement(last, mode) + text[last.end..])
  {
    var n := |es| - 1;
    var last := es[n];
    var init := es[..n];
    OrderedInit(es, |text|);
    var head := text[..last.start];
    var tail := Replacement(last, mode) + text[last.end..];
    assert Splice(text, last, mode) == head + tail;
    assert SpliceAll(text, es, mode) == SpliceAll(head + tail, init, mode);
    SpliceLocal(head, tail, init, mode);
  }

  lemma Associate(a: string, b: string, c: string)
    ensures a + (b + c) == a + b + c
  {
  }

  /** The left-to-right reading split before the last span. */
  lemma AssembleLast(text: string, es: seq<Entity>, mode: string)
    requires Ordered(es, |text|) && es != []
    ensures var last := es[|es| - 1];
      0 <= last.start <= last.end <= |text| && Ordered(es[..|es| - 1], last.start) &&
      Assemble(text, es, 0, mode) ==
        Assemble(text[..last.start], es[..|es| - 1], 0, mode) + Replacement(last, mode) + text[last.end..]
  {
    var n := |es| - 1;
    var last := es[n];
    var init := es[..n];
    OrderedInit(es, |text|);
    assert es == init + [last];
    AssembleSnoc(text, init, last, 0, mode);
  }

  /** Total length of the spans, and of their replacements. */
  function SpanTotal(es: seq<Entity>): int {
    if es == [] then 0 else (es[0].end - es[0].start) + SpanTotal(es[1..])
  }

  function ReplacementTotal(es: seq<Entity>, mode: string): nat {
    if es == [] then 0 else |Replacement(es[0], mode)| + ReplacementTotal(es[1..], mode)
  }

  lemma {:induction false} AssembleLength(text: string, es: seq<Entity>, from: nat, mode: string)
    requires Ordered(es, |text|) && from <= |text|
    requires es != [] ==> from <= es[0].start
    ensures |Assemble(text, es, from, mode)| == |text| - from - SpanTotal(es) + ReplacementTotal(es, mode)
    decreases |es|
  {
    if es != [] {
      assert forall i | 1 <= i < |es| :: es[i] == es[1..][i - 1];
      AssembleLength(text, es[1..], es[0].end, mode);
    }
  }

  /** Sorted, disjoint, non-empty spans inside the text are ordered. */
  lemma CleanIsOrdered(es: seq<Entity>, n: nat)
    requires SortedByStart(es) && Disjoint(es) && NonEmpty(es)
    requires forall i | 0 <= i < |es| :: 0 <= es[i].start && es[i].end <= n
    ensures Ordered(es, n)
  {
    forall i, j | 0 <= i < j < |es| ensures es[i].end <= es[j].start {
      assert !Overlaps(es[i], es[j]);
    }
  }

  /** Matches as a pattern search returns them: non-empty spans of the
      text. */
  predicate MatchesOf(text: string, matches: seq<Entity>) {
    forall i | 0 <= i < |matches| :: 0 <= matches[i].start < matches[i].end <= |text|
  }

  /** The anonymized text is the left-to-right reading, and its length is
      the original's less the removed spans plus the replacements: in
      "remove" mode exactly the spans' total length shorter. */
  lemma AnonymizeLength(text: string, matches: seq<Entity>, mode: string)
    requires MatchesOf(text, matches)
    ensures var es := DetectPiis(text, matches);
      var out := Anonymize(text, matches, mode).0;
      && Ordered(es, |text|)
      && out == Assemble(text, es, 0, mode)
      && |out| == |text| - SpanTotal(es) + ReplacementTotal(es, mode)
      && (mode == "remove" ==> |out| == |text| - SpanTotal(es))
  {
    var es := DetectPiis(text, matches);
    DetectPiisClean(text, matches);
    forall i | 0 <= i < |es| ensures 0 <= es[i].start && es[i].end <= |text| {
      assert es[i] in multiset(matches);
    }
    CleanIsOrdered(es, |text|);
    SpliceIsAssemble(text, es, mode);
    AssembleLength(text, es, 0, mode);
    if mode == "remove" {
      RemoveModeAddsNothing(es, mode);
    }
  }

  lemma {:induction false} RemoveModeAddsNothing(es: seq<Entity>, mode: string)
    requires mode == "remove"
    ensures ReplacementTotal(es, mode) == 0
  {
    if es != [] {
      RemoveModeAddsNothing(es[1..], mode);
    }
  }

  /** The operations come in ascending position order. */
  lemma OperationsAscending(text: string, matches: seq<Entity>, mode: string)
    requires NonEmpty(matches)
    ensures var ops := Anonymize(text, matches, mode).1;
      forall i, j | 0 <= i < j < |ops| :: ops[i].end <= ops[j].start
  {
    var es := DetectPiis(text, matches);
    DetectPiisClean(text, matches);
    forall i, j | 0 <= i < j < |es| ensures es[i].end <= es[j].start {
      assert !Overlaps(es[i], es[j]);
    }
  }

  // ---------------------------------------------------------------------
  // get_summary.
  // ---------------------------------------------------------------------

  function Kinds(es: seq<Entity>): (r: seq<PiiType>)
    ensures |r| == |es| && forall i | 0 <= i < |es| :: r[i] == es[i].kind
  {
    seq(|es|, i requires 0 <= i < |es| => es[i].kind)
  }

  /** `get_summary`: the number of entities of each type. */
  function GetSummary(es: seq<Entity>): (r: map<PiiType, int>)
    ensures r.Keys == set i | 0 <= i < |es| :: es[i].kind
    ensures forall t | t in r :: r[t] == multiset(Kinds(es))[t] && r[t] >= 1
  {
    var kinds := Kinds(es);
    assert (set x | x in kinds) == (set i | 0 <= i < |es| :: es[i].kind) by {
      forall x | x in kinds ensures exists i | 0 <= i < |es| :: es[i].kind == x {
        var i :| 0 <= i < |kinds| && kinds[i] == x;
      }
    }
    Tally(kinds)
  }

  /** The per-type counts add up to the number of entities. */
  lemma SummaryTotal(es: seq<Entity>)
    ensures MapSum(GetSummary(es)) == |es|
  {
    TallySum(Kinds(es));
  }
}

=== FILE: audit_service.dfy ===
/** The audit trail: log entries with their defaults, the one-line log
    message, recording an event (which never fails its caller), and the
    filtered, newest-first query over the stored entries. JSON encoding of
    the details is a partial function given as a parameter. */
module AuditService {
  import opened Common

  datatype EventType =
    | Login | Logout | LoginFailed | TokenRefresh
    | DocumentUpload | DocumentRetrieve | DocumentDelete | DocumentArchive | DocumentRestore
    | UserCreate | UserUpdate | UserDelete | UserRoleAssign | UserRoleRevoke
    | RoleCreate | RoleUpdate | RoleDelete | PermissionGrant | PermissionRevoke
    | AccessDenied | UnauthorizedAccess
    | ConfigurationChange | SystemError | EncryptionKeyAccess
  {
    function Value(): string {
      match this
      case Login => "login"
      case Logout => "logout"
      case LoginFailed => "login_failed"
      case TokenRefresh => "token_refresh"
      case DocumentUpload => "document_upload"
      case DocumentRetrieve => "document_retrieve"
      case DocumentDelete => "document_delete"
      case DocumentArchive => "document_archive"
      case DocumentRestore => "document_restore"
      case UserCreate => "user_create"
      case UserUpdate => "user_update"
      case UserDelete => "user_delete"
      case UserRoleAssign => "user_role_assign"
      case UserRoleRevoke => "user_role_revoke"
      case RoleCreate => "role_create"
      case RoleUpdate => "role_update"
      case RoleDelete => "role_delete"
      case PermissionGrant => "permission_grant"
      case PermissionRevoke => "permission_revoke"
      case AccessDenied => "access_denied"
      case UnauthorizedAccess => "unauthorized_access"
      case ConfigurationChange => "configuration_change"
      case SystemError => "system_error"
      case EncryptionKeyAccess => "encryption_key_access"
    }
  }

  datatype Status = Success | Failure | Partial {
    function Value(): string {
      match this
      case Success => "success"
      case Failure => "failure"
      case Partial => "partial"
    }
  }

  /** The free-form details: keys with their values, in insertion order. */
  type Details = seq<(string, string)>

  /** `json.dumps`: the encoded text, or nothing when a value cannot be
      encoded (the call raises `TypeError`). */
  type Dumps = Details -> Option<string>

  /** An `AuditLog` once constructed: the details and the time are always
      present. */
  datatype AuditLog = AuditLog(
    eventType: EventType, userId: Option<string>, username: Option<string>,
    resourceType: Option<string>, resourceId: Option<string>, action: Option<string>,
    status: Status, details: Details, ipAddress: Option<string>, userAgent: Option<string>,
    timestamp: int)

  /** `AuditLog(...)`: missing details become the empty dictionary and a
      missing time becomes the current time; given values are kept. */
  function NewAuditLog(
    eventType: EventType, userId: Option<string>, username: Option<string>,
    resourceType: Option<string>, resourceId: Option<string>, action: Option<string>,
    status: Status, details: Option<Details>, ipAddress: Option<string>, userAgent: Option<string>,
    timestamp: Option<int>, now: int
  ): (log: AuditLog)
    ensures log.details == (if details.Some? then details.value else [])
    ensures log.timestamp == (if timestamp.Some? then timestamp.value else now)
    ensures log.eventType == eventType && log.status == status && log.userId == userId
    ensures log.username == username && log.resourceType == resourceType && log.resourceId == resourceId
  {
    AuditLog(eventType, userId, username, resourceType, resourceId, action, status,
             if details.Some? then details.value else [], ipAddress, userAgent,
             if timestamp.Some? then timestamp.value else now)
  }

  /** The dictionary `to_dict` builds: enumerations as their values, the
      details encoded. */
  datatype Record = Record(
    eventType: string, userId: Option<string>, username: Option<string>,
    resourceType: Option<string>, resourceId: Option<string>, action: Option<string>,
    status: string, details: string, ipAddress: Option<string>, userAgent: Option<string>,
    timestamp: int)

  /** `to_dict`; it raises when the details cannot be encoded. */
  function ToDict(log: AuditLog, dumps: Dumps): (r: Option<Record>)
    ensures r.Some? <==> dumps(log.details).Some?
    ensures r.Some? ==> r.value.eventType == log.eventType.Value() && r.value.status == log.status.Value()
  {
    match dumps(log.details)
    case None => None
    case Some(d) =>
      Some(Record(log.eventType.Value(), log.userId, log.username, log.resourceType, log.resourceId,
                  log.action, log.status.Value(), d, log.ipAddress, log.userAgent, log.timestamp))
  }

  /** `AuditEventType(s)`, reading a stored value back; the values are
      told apart by their first letter first. */
  function ParseEventType(s: string): Option<EventType> {
    if s == [] then None
    else if s[0] == 'l' then
      (if s == "login" then Some(Login) else if s == "logout" then Some(Logout)
       else if s == "login_failed" then Some(LoginFailed) else None)
    else if s[0] == 't' then (if s == "token_refresh" then Some(TokenRefresh) else None)
    else if s[0] == 'd' then
      (if s == "document_upload" then Some(DocumentUpload)
       else if s == "document_retrieve" then Some(DocumentRetrieve)
       else if s == "document_delete" then Some(DocumentDelete)
       else if s == "document_archive" then Some(DocumentArchive)
       else if s == "document_restore" then Some(DocumentRestore) else None)
    else if s[0] == 'u' then
      (if s == "user_create" then Some(UserCreate)
       else if s == "user_update" then Some(UserUpdate)
       else if s == "user_delete" then Some(UserDelete)
       else if s == "user_role_assign" then Some(UserRoleAssign)
       else if s == "user_role_revoke" then Some(UserRoleRevoke)
       else if s == "unauthorized_access" then Some(UnauthorizedAccess) else None)
    else if s[0] == 'r' then
      (if s == "role_create" then Some(RoleCreate)
       else if s == "role_update" then Some(RoleUpdate)
       else if s == "role_delete" then Some(RoleDelete) else None)
    else if s[0] == 'p' then
      (if s == "permission_grant" then Some(PermissionGrant)
       else if s == "permission_revoke" then Some(PermissionRevoke) else None)
    else if s == "access_denied" then Some(AccessDenied)
    else if s == "configuration_change" then Some(ConfigurationChange)
    else if s == "system_error" then Some(SystemError)
    else if s == "encryption_key_access" then Some(EncryptionKeyAccess)
    else None
  }

  function ParseStatus(s: string): Option<Status> {
    if s == "success" then Some(Success)
    else if s == "failure" then Some(Failure)
    else if s == "partial" then Some(Partial)
    else None
  }

  /** Every event type reads back from its value. */
  lemma ParseEventTypeValue(e: EventType)
    ensures ParseEventType(e.Value()) == Some(e)
  {
    if e.Login? || e.Logout? || e.LoginFailed? || e.TokenRefresh? || e.DocumentUpload? || e.DocumentRetrieve? {
      ParseFirst(e);
    } else if e.DocumentDelete? || e.DocumentArchive? || e.DocumentRestore? || e.UserCreate? || e.UserUpdate? || e.UserDelete? {
      ParseSecond(e);
    } else if e.UserRoleAssign? || e.UserRoleRevoke? || e.RoleCreate? || e.RoleUpdate? || e.RoleDelete? || e.PermissionGrant? {
      ParseThird(e);
    } else {
      ParseFourth(e);
    }
  }

  lemma ParseFirst(e: EventType)
    requires e.Login? || e.Logout? || e.LoginFailed? || e.TokenRefresh? || e.DocumentUpload? || e.DocumentRetrieve?
    ensures ParseEventType(e.Value()) == Some(e)
  {
  }

  lemma ParseSecond(e: EventType)
    requires e.DocumentDelete? || e.DocumentArchive? || e.DocumentRestore? || e.UserCreate? || e.UserUpdate? || e.UserDelete?
    ensures ParseEventType(e.Value()) == Some(e)
  {
  }

  lemma ParseThird(e: EventType)
    requires e.UserRoleAssign? || e.UserRoleRevoke? || e.RoleCreate? || e.RoleUpdate? || e.RoleDelete? || e.PermissionGrant?
    ensures ParseEventType(e.Value()) == Some(e)
  {
  }

  lemma ParseFourth(e: EventType)
    requires e.PermissionRevoke? || e.AccessDenied? || e.UnauthorizedAccess? || e.ConfigurationChange?
             || e.SystemError? || e.EncryptionKeyAccess?
    ensures ParseEventType(e.Value()) == Some(e)
  {
  }

  /** The stored dictionary gives back the entry's event type, status and
      other fields. */
  lemma ToDictRoundTrip(log: AuditLog, dumps: Dumps)
    requires dumps(log.details).Some?
    ensures var r := ToDict(log, dumps).value;
      && ParseEventType(r.eventType) == Some(log.eventType)
      && ParseStatus(r.status) == Some(log.status)
      && r.userId == log.userId && r.username == log.username && r.resourceType == log.resourceType
      && r.resourceId == log.resourceId && r.action == log.action && r.timestamp == log.timestamp
  {
    ParseEventTypeValue(log.eventType);
  }

  // ---------------------------------------------------------------------
  // _format_log_message.
  // ---------------------------------------------------------------------

  /** An f-string of an optional value: `None` prints as "None". */
  function Str(s: Option<string>): string {
    if s.Some? then s.value else "None"
  }

  /** `username or user_id or 'UNKNOWN'`. */
  function Actor(log: AuditLog): (who: string)
    ensures who != ""
    ensures Truthy(log.username) ==> who == log.username.value
  {
    if Truthy(log.username) then log.username.value
    else if Truthy(log.userId) then log.userId.value
    else "UNKNOWN"
  }

  /** The parts that survive `if p`. */
  function NonEmptyParts(parts: seq<string>): seq<string> {
    if parts == [] then []
    else if parts[0] == "" then NonEmptyParts(parts[1..])
    else [parts[0]] + NonEmptyParts(parts[1..])
  }

  const Separator := " | "

  function EventPart(log: AuditLog): string { "EventType=" + log.eventType.Value() }

  function UserPart(log: AuditLog): string { "User=" + Actor(log) }

  function StatusPart(log: AuditLog): string { "Status=" + log.status.Value() }

  function ResourcePart(log: AuditLog): string {
    if Truthy(log.resourceType) then "Resource=" + log.resourceType.value + ":" + Str(log.resourceId) else ""
  }

  function IpPart(log: AuditLog): string {
    if Truthy(log.ipAddress) then "IP=" + log.ipAddress.value else ""
  }

  /** `_format_log_message`: the non-empty parts joined by " | ", then the
      encoded details when there are any. Encoding can raise. */
  function FormatLogMessage(log: AuditLog, dumps: Dumps): (r: Option<string>)
    ensures r.None? <==> |log.details| > 0 && dumps(log.details).None?
  {
    var parts := [EventPart(log), UserPart(log), StatusPart(log), ResourcePart(log), IpPart(log)];
    var message := Join(NonEmptyParts(parts), Separator);
    if |log.details| == 0 then Some(message)
    else match dumps(log.details)
      case None => None
      case Some(d) => Some(message + (Separator + "Details=" + d))
  }

  /** The first three parts, always present. */
  function Head(log: AuditLog): string {
    EventPart(log) + Separator + UserPart(log) + Separator + StatusPart(log)
  }

  /** The message read left to right: event type, user and status always;
      the resource and the address only when set; the details only when
      there are any. */
  lemma FormatShape(log: AuditLog, dumps: Dumps)
    requires |log.details| == 0 || dumps(log.details).Some?
    ensures FormatLogMessage(log, dumps).Some?
    ensures FormatLogMessage(log, dumps).value ==
      Head(log)
      + (if Truthy(log.resourceType) then Separator + ResourcePart(log) else "")
      + (if Truthy(log.ipAddress) then Separator + IpPart(log) else "")
      + (if |log.details| > 0 then Separator + "Details=" + dumps(log.details).value else "")
  {
    var a, b, c := EventPart(log), UserPart(log), StatusPart(log);
    var res, ip := ResourcePart(log), IpPart(log);
    OptionalNonEmpty(log);
    var opt1 := if res != "" then Separator + res else "";
    var opt2 := if ip != "" then Separator + ip else "";
    var message := Join(NonEmptyParts([a, b, c, res, ip]), Separator);
    MessageShape(a, b, c, res, ip, Separator);
    assert message == Head(log) + opt1 + opt2;
  }

  lemma OptionalNonEmpty(log: AuditLog)
    ensures ResourcePart(log) != "" <==> Truthy(log.resourceType)
    ensures IpPart(log) != "" <==> Truthy(log.ipAddress)
  {
    if Truthy(log.resourceType) { assert |ResourcePart(log)| >= 9; }
    if Truthy(log.ipAddress) { assert |IpPart(log)| >= 3; }
  }

  /** The joined message: the three fixed parts, then each optional part
      with its separator in front. */
  lemma MessageShape(a: string, b: string, c: string, res: string, ip: string, sep: string)
    requires a != "" && b != "" && c != ""
    ensures Join(NonEmptyParts([a, b, c, res, ip]), sep) ==
      a + sep + b + sep + c + (if res != "" then sep + res else "") + (if ip != "" then sep + ip else "")
  {
    var tail := (if res != "" then [res] else []) + (if ip != "" then [ip] else []);
    KeptParts(a, b, c, res, ip);
    var x := if |tail| >= 1 then sep + tail[0] else "";
    var y := if |tail| == 2 then sep + tail[1] else "";
    JoinCons(a, [b, c] + tail, sep);
    assert [a, b, c] + tail == [a] + ([b, c] + tail);
    JoinCons(b, [c] + tail, sep);
    assert [b, c] + tail == [b] + ([c] + tail);
    JoinTail(c, tail, sep);
    Regroup(a, sep, b, c, x, y);
    var opt1 := if res != "" then sep + res else "";
    var opt2 := if ip != "" then sep + ip else "";
    assert x + y == opt1 + opt2;
    Regroup2(a + sep + b + sep + c, opt1, opt2);
  }

  /** Which parts survive the filter: the first three always. */
  lemma KeptParts(a: string, b: string, c: string, res: string, ip: string)
    requires a != "" && b != "" && c != ""
    ensures NonEmptyParts([a, b, c, res, ip]) ==
      [a, b, c] + ((if res != "" then [res] else []) + (if ip != "" then [ip] else []))
  {
    assert [a, b, c, res, ip] == [a, b, c] + [res, ip];
    KeepThree(a, b, c, [res, ip]);
    OptionalParts(res, ip);
  }

  lemma KeepThree(a: string, b: string, c: string, rest: seq<string>)
    requires a != "" && b != "" && c != ""
    ensures NonEmptyParts([a, b, c] + rest) == [a, b, c] + NonEmptyParts(rest)
  {
    Keep(c, rest);
    assert [b, c] + rest == [b] + ([c] + rest);
    Keep(b, [c] + rest);
    assert [a, b, c] + rest == [a] + ([b, c] + rest);
    Keep(a, [b, c] + rest);
  }

  lemma OptionalParts(res: string, ip: string)
    ensures NonEmptyParts([res, ip]) == (if res != "" then [res] else []) + (if ip != "" then [ip] else [])
  {
    assert [ip] == [ip] + [];
    if ip != "" { Keep(ip, []); } else { Drop(ip, []); }
    assert [res, ip] == [res] + [ip];
    if res != "" { Keep(res, [ip]); } else { Drop(res, [ip]); }
  }

  lemma Keep(x: string, rest: seq<string>)
    requires x != ""
    ensures NonEmptyParts([x] + rest) == [x] + NonEmptyParts(rest)
  {
    assert ([x] + rest)[1..] == rest;
  }

  lemma Drop(x: string, rest: seq<string>)
    requires x == ""
    ensures NonEmptyParts([x] + rest) == NonEmptyParts(rest)
  {
    assert ([x] + rest)[1..] == rest;
  }

  lemma JoinCons(x: string, rest: seq<string>, sep: string)
    requires rest != []
    ensures Join([x] + rest, sep) == x + sep + Join(rest, sep)
  {
    assert ([x] + rest)[1..] == rest;
  }

  /** The last part and up to two optional ones after it. */
  lemma JoinTail(c: string, tail: seq<string>, sep: string)
    requires |tail| <= 2
    ensures Join([c] + tail, sep) ==
      c + ((if |tail| >= 1 then sep + tail[0] else "") + (if |tail| == 2 then sep + tail[1] else ""))
  {
    if |tail| == 0 {
      assert [c] + tail == [c];
    } else if |tail| == 1 {
      JoinCons(c, tail, sep);
      Assoc(c, sep, tail[0]);
    } else {
      JoinCons(c, tail, sep);
      assert tail == [tail[0]] + [tail[1]];
      JoinCons(tail[0], [tail[1]], sep);
      Assoc4(c, sep, tail[0], tail[1]);
    }
  }

  lemma Assoc(c: string, s: string, t: string)
    ensures c + s + t == c + ((s + t) + "")
  {
  }

  lemma Assoc4(c: string, s: string, t: string, u: string)
    ensures c + s + (t + s + u) == c + ((s + t) + (s + u))
  {
  }

  lemma Regroup(a: string, s: string, b: string, c: string, x: string, y: string)
    ensures a + s + (b + s + (c + (x + y))) == a + s + b + s + c + (x + y)
  {
  }

  lemma Regroup2(h: string, x: string, y: string)
    ensures h + (x + y) == h + x + y
  {
  }

  // ---------------------------------------------------------------------
  // log_event.
  // ---------------------------------------------------------------------

  /** A row of the `audit_logs` table. */
  datatype Entry = Entry(
    id: int, eventType: string, userId: Option<string>, username: Option<string>,
    resourceType: Option<string>, resourceId: Option<string>, action: Option<string>,
    status: string, details: Option<string>, ipAddress: Option<string>, userAgent: Option<string>,
    timestamp: int)

  /** The audit log file's lines, the table's rows in row order, and the
      next row id. */
  datatype Trail = Trail(lines: seq<string>, entries: seq<Entry>, nextId: int)

  /** `log_event`. It returns normally whatever happens: an encoding error
      loses the whole event, a database error (rolled back) loses only the
      row. Empty details are stored as no details. */
  function LogEvent(t: Trail, log: AuditLog, dumps: Dumps, dbError: Option<string>): (t': Trail)
    ensures FormatLogMessage(log, dumps).None? ==> t' == t
    ensures FormatLogMessage(log, dumps).Some? ==>
      && t'.lines == t.lines + [FormatLogMessage(log, dumps).value]
      && (dbError.Some? ==> t'.entries == t.entries && t'.nextId == t.nextId)
      && (dbError.None? ==>
           && |t'.entries| == |t.entries| + 1 && t'.entries[..|t.entries|] == t.entries
           && t'.nextId == t.nextId + 1
           && var e := t'.entries[|t.entries|];
              && e.id == t.nextId && e.eventType == log.eventType.Value() && e.status == log.status.Value()
              && e.timestamp == log.timestamp
              && (e.details.None? <==> |log.details| == 0))
  {
    match FormatLogMessage(log, dumps)
    case None => t
    case Some(message) =>
      var lines := t.lines + [message];
      if dbError.Some? then t.(lines := lines)
      else
        var details := if |log.details| > 0 then dumps(log.details) else None;
        var e := Entry(t.nextId, log.eventType.Value(), log.userId, log.username, log.resourceType,
                       log.resourceId, log.action, log.status.Value(), details, log.ipAddress,
                       log.userAgent, log.timestamp);
        assert (t.entries + [e])[..|t.entries|] == t.entries;
        Trail(lines, t.entries + [e], t.nextId + 1)
  }

  /** A stored row agrees with the entry's dictionary except for empty
      details, which the dictionary encodes and the row leaves out. */
  lemma StoredMatchesDict(t: Trail, log: AuditLog, dumps: Dumps)
    requires dumps(log.details).Some?
    ensures var e := LogEvent(t, log, dumps, None).entries[|t.entries|];
      var r := ToDict(log, dumps).value;
      && e.eventType == r.eventType && e.status == r.status && e.userId == r.userId
      && e.resourceType == r.resourceType && e.resourceId == r.resourceId && e.timestamp == r.timestamp
      && (|log.details| > 0 ==> e.details == Some(r.details))
      && (|log.details| == 0 ==> e.details.None?)
  {
  }

  // ---------------------------------------------------------------------
  // get_audit_logs.
  // ---------------------------------------------------------------------

  /** The optional filters; a start or end time is a `datetime`, which is
      always truthy. */
  datatype Filter = Filter(
    userId: Option<string>, eventType: Option<string>, resourceType: Option<string>,
    startDate: Option<int>, endDate: Option<int>)

  /** The conjunction of the given filters. */
  predicate Matches(e: Entry, f: Filter) {
    && (Truthy(f.userId) ==> e.userId == f.userId)
    && (Truthy(f.eventType) ==> e.eventType == f.eventType.value)
    && (Truthy(f.resourceType) ==> e.resourceType == f.resourceType)
    && (f.startDate.Some? ==> e.timestamp >= f.startDate.value)
    && (f.endDate.Some? ==> e.timestamp <= f.endDate.value)
  }

  function Select(es: seq<Entry>, f: Filter): (r: seq<Entry>)
    ensures forall e | e in r :: Matches(e, f)
    ensures forall e | e in es && Matches(e, f) :: e in r
    ensures multiset(r) <= multiset(es)
  {
    if es == [] then []
    else
      assert es == [es[0]] + es[1..];
      if Matches(es[0], f) then [es[0]] + Select(es[1..], f) else Select(es[1..], f)
  }

  predicate NewestFirst(s: seq<Entry>) {
    forall i | 0 <= i < |s| - 1 :: s[i].timestamp >= s[i + 1].timestamp
  }

  /** Inserting ahead of the first entry no newer: inserted back to front,
      entries with equal times keep their row order. */
  function InsertByTime(x: Entry, s: seq<Entry>): (r: seq<Entry>)
    requires NewestFirst(s)
    ensures NewestFirst(r) && multiset(r) == multiset(s) + multiset{x}
    ensures r[0] == x || (s != [] && r[0] == s[0])
  {
    if s == [] || s[0].timestamp <= x.timestamp then [x] + s
    else
      var rest := InsertByTime(x, s[1..]);
      assert s == [s[0]] + s[1..];
      [s[0]] + rest
  }

  /** `ORDER BY timestamp DESC`. */
  function SortByTime(s: seq<Entry>): (r: seq<Entry>)
    ensures NewestFirst(r) && multiset(r) == multiset(s)
  {
    if s == [] then []
    else
      assert s == [s[0]] + s[1..];
      InsertByTime(s[0], SortByTime(s[1..]))
  }

  /** SQLite's `LIMIT`: a negative limit means none. */
  function Limit(s: seq<Entry>, limit: int): (r: seq<Entry>)
    ensures |r| == if limit < 0 || limit >= |s| then |s| else limit
    ensures r == s[..|r|]
  {
    if limit < 0 || limit >= |s| then s else s[..limit]
  }

  /** A prefix of a list is a sub-collection of it, and a prefix of a
      newest-first list is newest first. */
  lemma PrefixOf(s: seq<Entry>, n: nat)
    requires n <= |s|
    ensures multiset(s[..n]) <= multiset(s)
    ensures forall e | e in s[..n] :: e in s
    ensures NewestFirst(s) ==> NewestFirst(s[..n])
  {
    assert s == s[..n] + s[n..];
  }

  /** `get_audit_logs`, as the table rows it returns. */
  function GetAuditLogs(t: Trail, f: Filter, limit: int): (r: seq<Entry>)
    ensures forall e | e in r :: Matches(e, f)
    ensures NewestFirst(r)
    ensures multiset(r) <= multiset(t.entries)
    ensures limit >= 0 ==> |r| <= limit
  {
    var matching := Select(t.entries, f);
    var sorted := SortByTime(matching);
    var r := Limit(sorted, limit);
    PrefixOf(sorted, |r|);
    assert forall e | e in sorted :: e in multiset(matching);
    r
  }

  /** Every matching row is returned when the limit allows, and a matching
      row left out is no newer than any row returned. */
  lemma GetAuditLogsComplete(t: Trail, f: Filter, limit: int)
    ensures var r := GetAuditLogs(t, f, limit);
      var matching := Select(t.entries, f);
      && |r| == (if limit < 0 || limit >= |matching| then |matching| else limit)
      && ((limit < 0 || limit >= |matching|) ==> multiset(r) == multiset(matching))
      && forall i, e | 0 <= i < |r| && e in t.entries && Matches(e, f) && e !in r :: e.timestamp <= r[i].timestamp
  {
    var matching := Select(t.entries, f);
    var sorted := SortByTime(matching);
    var r := GetAuditLogs(t, f, limit);
    assert r == Limit(sorted, limit);
    LeftOutIsOlder(sorted, |r|);
    forall i, e | 0 <= i < |r| && e in t.entries && Matches(e, f) && e !in r
      ensures e.timestamp <= r[i].timestamp
    {
      assert e in multiset(sorted);
    }
  }

  /** Anything in a newest-first list but not in a prefix of it is no newer
      than anything in the prefix. */
  lemma LeftOutIsOlder(s: seq<Entry>, n: nat)
    requires NewestFirst(s) && n <= |s|
    ensures forall i, e | 0 <= i < n && e in s && e !in s[..n] :: e.timestamp <= s[i].timestamp
  {
    NewestFirstBound(s);
    assert forall j | 0 <= j < n :: s[..n][j] == s[j];
    forall i, e | 0 <= i < n && e in s && e !in s[..n] ensures e.timestamp <= s[i].timestamp {
      var k :| 0 <= k < |s| && s[k] == e;
      assert k >= n;
    }
  }

  /** In a newest-first list every earlier time bounds every later one. */
  lemma {:induction false} NewestFirstBound(s: seq<Entry>)
    requires NewestFirst(s)
    ensures forall i, j | 0 <= i <= j < |s| :: s[i].timestamp >= s[j].timestamp
  {
    forall i, j | 0 <= i <= j < |s| ensures s[i].timestamp >= s[j].timestamp {
      var k := i;
      while k < j
        invariant i <= k <= j && s[i].timestamp >= s[k].timestamp
      {
        k := k + 1;
      }
    }
  }
}

=== FILE: aws_s3.dfy ===
/** The AWS S3 adapter over an abstract bucket: storage classes, the
    `Restore` header that tracks Glacier restores, and the four archive
    operations. */
module AwsS3 {
  import opened Common
  import opened StorageBase

  /** What `head_object` reports for a key: the storage class (absent for
      STANDARD objects), the `Restore` header, and the object body. */
  datatype S3Object = S3Object(storageClass: Option<string>, restore: Option<string>, data: Bytes)

  /** A botocore `ClientError`: its error code and message. */
  datatype ClientError = ClientError(code: string, message: string)

  /** The SDK calls the adapter issues. */
  datatype Call = HeadObject | GetObject | CopyObject | RestoreObject

  /** The bucket: its objects, and the calls that fail on a key with a
      given error (access denied, throttling, a restore already running). */
  datatype Bucket = Bucket(objects: map<string, S3Object>, faults: map<(string, Call), ClientError>)

  const OngoingTrue: string := "ongoing-request=\"true\""
  const OngoingFalse: string := "ongoing-request=\"false\""
  const ExpiryMarker: string := "expiry-date=\""

  /** `STORAGE_TIER_MAP.get(tier)`. */
  function TierToClass(tier: string): Option<string> {
    if tier == "standard" then Some("STANDARD")
    else if tier == "infrequent" then Some("STANDARD_IA")
    else if tier == "archive" then Some("GLACIER_IR")
    else if tier == "deep_archive" then Some("DEEP_ARCHIVE")
    else None
  }

  /** `STORAGE_CLASS_TO_TIER.get(cls)`: the reverse map plus legacy GLACIER. */
  function ClassToTier(cls: string): Option<string> {
    if cls == "STANDARD" then Some("standard")
    else if cls == "STANDARD_IA" then Some("infrequent")
    else if cls == "GLACIER_IR" then Some("archive")
    else if cls == "DEEP_ARCHIVE" then Some("deep_archive")
    else if cls == "GLACIER" then Some("archive")
    else None
  }

  /** The reverse map undoes the forward map on the four tiers, the forward
      map undoes the reverse map on its image, and GLACIER reads as archive. */
  lemma TierMapsInverse(tier: string, cls: string)
    ensures TierToClass(tier).Some? <==> tier in {"standard", "infrequent", "archive", "deep_archive"}
    ensures TierToClass(tier).Some? ==> ClassToTier(TierToClass(tier).value) == Some(tier)
    ensures ClassToTier(cls).Some? && cls != "GLACIER" ==> TierToClass(ClassToTier(cls).value) == Some(cls)
    ensures ClassToTier("GLACIER") == Some("archive")
  {
  }

  /** `head_response.get('StorageClass', 'STANDARD')`. */
  function ClassOf(o: S3Object): string {
    o.storageClass.GetOr("STANDARD")
  }

  /** The error a call on `key` raises, if any: an injected fault, or the
      missing-key error (404 from HEAD, NoSuchKey from GET). */
  function Raises(b: Bucket, key: string, call: Call): (e: Option<ClientError>)
    ensures e.None? ==> key in b.objects
  {
    if (key, call) in b.faults then Some(b.faults[(key, call)])
    else if key !in b.objects then Some(ClientError(if call == GetObject then "NoSuchKey" else "404", "Not Found"))
    else None
  }

  predicate IsNotFound(e: ClientError) {
    e.code == "404" || e.code == "NoSuchKey"
  }

  /** `_get_restore_estimate`. */
  function Estimate(restoreTier: string): (r: string)
    ensures restoreTier == "Expedited" ==> r == "1-5 minutes"
    ensures restoreTier == "Standard" ==> r == "3-5 hours"
    ensures restoreTier == "Bulk" ==> r == "5-12 hours"
    ensures restoreTier !in {"Expedited", "Standard", "Bulk"} ==> r == "Unknown"
  {
    if restoreTier == "Expedited" then "1-5 minutes"
    else if restoreTier == "Standard" then "3-5 hours"
    else if restoreTier == "Bulk" then "5-12 hours"
    else "Unknown"
  }

  // ---------------------------------------------------------------------
  // `re.search(r'expiry-date="([^"]+)"', header)`
  // ---------------------------------------------------------------------

  /** The longest quote-free prefix of `s`. */
  function QuoteFree(s: string): (r: string)
    ensures |r| <= |s| && r == s[..|r|] && '"' !in r
    ensures |r| < |s| ==> s[|r|] == '"'
  {
    if s == [] || s[0] == '"' then [] else [s[0]] + QuoteFree(s[1..])
  }

  /** The regex matches at `i`: the marker, one or more non-quote
      characters, then a closing quote. */
  predicate MatchAt(h: string, i: int) {
    OccursAt(h, ExpiryMarker, i) &&
    var run := QuoteFree(h[i + |ExpiryMarker|..]);
    run != [] && i + |ExpiryMarker| + |run| < |h|
  }

  function GroupAt(h: string, i: int): string
    requires 0 <= i <= |h| - |ExpiryMarker|
  {
    QuoteFree(h[i + |ExpiryMarker|..])
  }

  /** The leftmost match at or after `i`, and its group. */
  function SearchFrom(h: string, i: nat): Option<string>
    decreases |h| - i
  {
    if i + |ExpiryMarker| > |h| then None
    else if MatchAt(h, i) then Some(GroupAt(h, i))
    else SearchFrom(h, i + 1)
  }

  /** The search finds a match and returns its group, or there is none. */
  lemma {:induction false} SearchFromSound(h: string, i: nat)
    ensures SearchFrom(h, i).Some? ==> exists k | i <= k <= |h| - |ExpiryMarker| ::
      MatchAt(h, k) && SearchFrom(h, i).value == GroupAt(h, k)
    ensures SearchFrom(h, i).None? ==> forall k | i <= k :: !MatchAt(h, k)
    decreases |h| - i
  {
    if i + |ExpiryMarker| <= |h| && !MatchAt(h, i) {
      SearchFromSound(h, i + 1);
    }
  }

  /** The `expiry-date` group of the first match, if any. */
  function ExtractExpiry(h: string): Option<string> {
    SearchFrom(h, 0)
  }

  /** What the search returns is a non-empty quote-free value that the
      header carries between the marker and a closing quote; when it
      returns nothing, the pattern matches nowhere. */
  lemma ExtractExpirySound(h: string)
    ensures ExtractExpiry(h).Some? ==>
      ExtractExpiry(h).value != [] && '"' !in ExtractExpiry(h).value
      && Contains(h, ExpiryMarker + ExtractExpiry(h).value + "\"")
    ensures ExtractExpiry(h).None? ==> forall k :: !MatchAt(h, k)
  {
    SearchFromSound(h, 0);
    var r := ExtractExpiry(h);
    if r.Some? {
      var k :| 0 <= k <= |h| - |ExpiryMarker| && MatchAt(h, k) && r.value == GroupAt(h, k);
      MatchCarries(h, k);
    }
  }

  lemma MatchCarries(h: string, k: nat)
    requires k <= |h| - |ExpiryMarker| && MatchAt(h, k)
    ensures GroupAt(h, k) != [] && '"' !in GroupAt(h, k)
    ensures Contains(h, ExpiryMarker + GroupAt(h, k) + "\"")
  {
    var run := GroupAt(h, k);
    var rest := h[k + |ExpiryMarker|..];
    assert rest[..|run|] == run && rest[|run|] == '"';
    assert h[k..k + |ExpiryMarker + run + "\""|] == ExpiryMarker + run + "\"";
    assert OccursAt(h, ExpiryMarker + run + "\"", k);
  }

  /** A header with no earlier match gives back the expiry it carries. */
  lemma {:induction false} ExtractExpiryFinds(pre: string, v: string, post: string)
    requires v != [] && '"' !in v
    requires forall k | 0 <= k < |pre| :: !MatchAt(pre + ExpiryMarker + v + "\"" + post, k)
    ensures ExtractExpiry(pre + ExpiryMarker + v + "\"" + post) == Some(v)
  {
    var h := pre + ExpiryMarker + v + "\"" + post;
    var p := |pre|;
    assert h[p..p + |ExpiryMarker|] == ExpiryMarker;
    var rest := h[p + |ExpiryMarker|..];
    assert rest == v + ("\"" + post);
    QuoteFreeStops(v, "\"" + post);
    assert GroupAt(h, p) == v;
    assert |h| == p + |ExpiryMarker| + |v| + 1 + |post|;
    assert MatchAt(h, p);
    SearchSkips(h, 0, p);
  }

  lemma {:induction false} QuoteFreeStops(v: string, tail: string)
    requires '"' !in v && tail != [] && tail[0] == '"'
    ensures QuoteFree(v + tail) == v
    decreases |v|
  {
    if v == [] {
      assert v + tail == tail;
    } else {
      assert (v + tail)[1..] == v[1..] + tail;
      QuoteFreeStops(v[1..], tail);
      assert [v[0]] + v[1..] == v;
    }
  }

  lemma {:induction false} SearchSkips(h: string, i: nat, p: nat)
    requires i <= p <= |h| - |ExpiryMarker| && MatchAt(h, p)
    requires forall k | i <= k < p :: !MatchAt(h, k)
    ensures SearchFrom(h, i) == Some(GroupAt(h, p))
    decreases p - i
  {
    if i < p {
      SearchStep(h, i);
      SearchSkips(h, i + 1, p);
    } else {
      SearchHit(h, p);
    }
  }

  lemma SearchStep(h: string, i: nat)
    requires i + |ExpiryMarker| <= |h| && !MatchAt(h, i)
    ensures SearchFrom(h, i) == SearchFrom(h, i + 1)
  {
  }

  lemma SearchHit(h: string, p: nat)
    requires p + |ExpiryMarker| <= |h| && MatchAt(h, p)
    ensures SearchFrom(h, p) == Some(GroupAt(h, p))
  {
  }

  lemma MatchSecondChar(h: string, k: int)
    ensures MatchAt(h, k) ==> h[k + 1] == 'x'
  {
    if MatchAt(h, k) {
      assert h[k..k + |ExpiryMarker|][1] == h[k + 1];
    }
  }

  /** The header S3 sends once a restore has completed. */
  function CompletedHeader(expiry: string): string {
    OngoingFalse + ", " + ExpiryMarker + expiry + "\""
  }

  /** The expiry of a completed-restore header is read back exactly. */
  lemma CompletedHeaderExpiry(expiry: string)
    requires expiry != [] && '"' !in expiry
    ensures ExtractExpiry(CompletedHeader(expiry)) == Some(expiry)
  {
    var pre := OngoingFalse + ", ";
    var h := pre + ExpiryMarker + expiry + "\"" + "";
    assert h == CompletedHeader(expiry);
    assert 'x' !in pre;
    forall k | 0 <= k < |pre|
      ensures !MatchAt(h, k)
    {
      if k + 1 < |pre| {
        assert h[k + 1] == pre[k + 1];
      } else {
        assert h[k + 1] == 'e';
      }
      MatchSecondChar(h, k);
    }
    ExtractExpiryFinds(pre, expiry, "");
  }

  // ---------------------------------------------------------------------
  // The adapter operations.
  // ---------------------------------------------------------------------

  const GatedClasses: set<string> := {"GLACIER", "DEEP_ARCHIVE", "GLACIER_IR"}

  /** `download`: the result, and whether `get_object` was called. */
  function Download(b: Bucket, key: string): (out: (RetrieveResult, bool))
    ensures out.0.success <==> out.1 && Raises(b, key, HeadObject).None? && Raises(b, key, GetObject).None?
    ensures out.0.success ==> out.0.data == b.objects[key].data
    ensures Raises(b, key, HeadObject).None? && ClassOf(b.objects[key]) in GatedClasses &&
            (!Truthy(b.objects[key].restore) || Contains(b.objects[key].restore.value, OngoingTrue))
            ==> !out.1 && !out.0.success
    ensures key !in b.objects && (key, HeadObject) !in b.faults ==> out.0.message == "Document not found in S3"
  {
    match Raises(b, key, HeadObject)
    case Some(e) => (DownloadError(e), false)
    case None =>
      var o := b.objects[key];
      var cls := ClassOf(o);
      if cls in GatedClasses && !Truthy(o.restore) then
        (RetrieveFailure("Document is in " + cls + " and must be restored before retrieval. Use the restore endpoint first."), false)
      else if cls in GatedClasses && Contains(o.restore.value, OngoingTrue) then
        (RetrieveFailure("Document restore is in progress. Please try again later."), false)
      else
        match Raises(b, key, GetObject)
        case Some(e) => (DownloadError(e), true)
        case None => (RetrieveResult(true, o.data, "Document retrieved successfully from AWS S3"), true)
  }

  function DownloadError(e: ClientError): (r: RetrieveResult)
    ensures !r.success
  {
    if IsNotFound(e) then RetrieveFailure("Document not found in S3")
    else RetrieveFailure("Failed to download from S3: " + e.message)
  }

  /** `move_to_archive`: a self-copy into the target class, unless the object
      is already there. An unknown tier targets DEEP_ARCHIVE. */
  function MoveToArchive(b: Bucket, key: string, tier: string): (out: Outcome<ArchiveResult, Bucket>)
    ensures var target := TierToClass(tier).GetOr("DEEP_ARCHIVE");
      && (out.mutated <==> Raises(b, key, HeadObject).None? && ClassOf(b.objects[key]) != target)
      && (out.result.success <==> Raises(b, key, HeadObject).None? && (!out.mutated || Raises(b, key, CopyObject).None?))
      && (out.result.success ==> out.result.newTier == tier && key in out.state.objects && ClassOf(out.state.objects[key]) == target)
      && (out.result.success ==> out.result.previousTier == ClassToTier(ClassOf(b.objects[key])).GetOr("standard"))
      && (!out.result.success ==> out.state == b && out.result.previousTier == "" && out.result.newTier == "")
      && out.state.faults == b.faults && out.state.objects.Keys == b.objects.Keys
      && (forall k | k in b.objects && k != key :: out.state.objects[k] == b.objects[k])
  {
    match Raises(b, key, HeadObject)
    case Some(e) => Outcome(ArchiveFailure("Failed to move to archive: " + e.message), b, false)
    case None =>
      var o := b.objects[key];
      var current := ClassOf(o);
      var currentTier := ClassToTier(current).GetOr("standard");
      var target := TierToClass(tier).GetOr("DEEP_ARCHIVE");
      if current == target then
        Outcome(ArchiveResult(true, "Document is already in " + tier + " storage", currentTier, tier), b, false)
      else
        match Raises(b, key, CopyObject)
        case Some(e) => Outcome(ArchiveFailure("Failed to move to archive: " + e.message), b, true)
        case None =>
          var copy := o.(storageClass := Some(target), restore := None);
          Outcome(ArchiveResult(true, "Document moved to " + tier + " successfully", currentTier, tier),
            b.(objects := b.objects[key := copy]), true)
  }

  /** A second move to the same tier after a successful one copies nothing
      and reports the tier it reached. */
  lemma MoveIdempotent(b: Bucket, key: string, tier: string)
    requires MoveToArchive(b, key, tier).result.success
    ensures var b' := MoveToArchive(b, key, tier).state;
      && !MoveToArchive(b', key, tier).mutated
      && MoveToArchive(b', key, tier).state == b'
      && (MoveToArchive(b', key, tier).result.success <==> (key, HeadObject) !in b.faults)
  {
  }

  /** The except clause of `restore_from_archive`. */
  function RestoreError(e: ClientError): (r: RestoreResult)
    ensures r.success <==> e.code == "RestoreAlreadyInProgress"
    ensures r.success ==> r.restoreStatus == "in_progress" && !r.isRetrievable && r.estimatedCompletion.None?
  {
    if e.code == "RestoreAlreadyInProgress" then
      RestoreResult(true, "Restore is already in progress", "in_progress", None, None, false)
    else RestoreFailure("Failed to initiate restore: " + e.message)
  }

  /** Whether a `restore_object` request is due: the object is archived and
      carries no restore header that the adapter recognises. */
  predicate NeedsRestoreRequest(o: S3Object) {
    ClassOf(o) != "STANDARD" &&
    !(Truthy(o.restore) && (Contains(o.restore.value, OngoingTrue) || Contains(o.restore.value, OngoingFalse)))
  }

  /** `restore_from_archive`. `restore_days` goes into the request only. */
  function RestoreFromArchive(b: Bucket, key: string, days: int, restoreTier: string): (out: Outcome<RestoreResult, Bucket>)
    ensures out.mutated <==> Raises(b, key, HeadObject).None? && NeedsRestoreRequest(b.objects[key])
    ensures !out.mutated || Raises(b, key, RestoreObject).Some? ==> out.state == b
    ensures out.result.success && out.mutated ==> out.result.restoreStatus == "in_progress"
    ensures out.state != b ==>
      (out.result.success && key in out.state.objects &&
       out.state.objects[key] == b.objects[key].(restore := Some(OngoingTrue)))
    ensures out.result.success ==> (out.result.isRetrievable <==> out.result.restoreStatus in {"not_archived", "restored"})
    ensures out.state.faults == b.faults && out.state.objects.Keys == b.objects.Keys
    ensures Raises(b, key, HeadObject).Some? ==> out.result == RestoreError(Raises(b, key, HeadObject).value)
    ensures Raises(b, key, HeadObject).None? ==> var o := b.objects[key];
      && (ClassOf(o) == "STANDARD" ==>
            out.result.success && out.result.restoreStatus == "not_archived" && out.result.isRetrievable)
      && (ClassOf(o) != "STANDARD" && Truthy(o.restore) && Contains(o.restore.value, OngoingTrue) ==>
            && out.result.success && out.result.restoreStatus == "in_progress" && !out.result.isRetrievable
            && out.result.estimatedCompletion == Some(Estimate(restoreTier)))
      && (ClassOf(o) != "STANDARD" && Truthy(o.restore) && !Contains(o.restore.value, OngoingTrue) && Contains(o.restore.value, OngoingFalse) ==>
            && out.result.success && out.result.restoreStatus == "restored" && out.result.isRetrievable
            && (ExtractExpiry(o.restore.value).Some? ==> out.result.restoreExpiry == Some(Raw(ExtractExpiry(o.restore.value).value)))
            && (ExtractExpiry(o.restore.value).None? ==> out.result.restoreExpiry.None?))
      && (NeedsRestoreRequest(o) && Raises(b, key, RestoreObject).None? ==>
            && out.result.success && out.result.restoreStatus == "in_progress" && !out.result.isRetrievable
            && out.result.estimatedCompletion == Some(Estimate(restoreTier)))
      && (NeedsRestoreRequest(o) && Raises(b, key, RestoreObject).Some? ==>
            out.result == RestoreError(Raises(b, key, RestoreObject).value))
  {
    match Raises(b, key, HeadObject)
    case Some(e) => Outcome(RestoreError(e), b, false)
    case None =>
      var o := b.objects[key];
      if ClassOf(o) == "STANDARD" then
        Outcome(RestoreResult(true, "Document is already in standard storage and immediately retrievable",
          "not_archived", None, None, true), b, false)
      else if Truthy(o.restore) && Contains(o.restore.value, OngoingTrue) then
        Outcome(RestoreResult(true, "Restore is already in progress", "in_progress",
          Some(Estimate(restoreTier)), None, false), b, false)
      else if Truthy(o.restore) && Contains(o.restore.value, OngoingFalse) then
        var expiry := ExtractExpiry(o.restore.value);
        Outcome(RestoreResult(true, "Document is already restored and available", "restored",
          None, if expiry.Some? then Some(Raw(expiry.value)) else None, true), b, false)
      else
        match Raises(b, key, RestoreObject)
        case Some(e) => Outcome(RestoreError(e), b, true)
        case None =>
          Outcome(RestoreResult(true, "Restore initiated successfully with " + restoreTier + " tier", "in_progress",
            Some(Estimate(restoreTier)), None, false),
            b.(objects := b.objects[key := o.(restore := Some(OngoingTrue))]), true)
  }

  /** `get_archive_status`: a read-only probe. */
  function GetArchiveStatus(b: Bucket, key: string): (r: RestoreResult)
    ensures r.success <==> Raises(b, key, HeadObject).None?
    ensures r.success ==> (r.isRetrievable <==> r.restoreStatus in {"not_archived", "restored"})
    ensures r.success ==> r.restoreStatus in {"not_archived", "archived", "in_progress", "restored"}
    ensures key !in b.objects && (key, HeadObject) !in b.faults ==> r.message == "Document not found"
  {
    match Raises(b, key, HeadObject)
    case Some(e) =>
      if IsNotFound(e) then RestoreFailure("Document not found")
      else RestoreFailure("Failed to get status: " + e.message)
    case None =>
      var o := b.objects[key];
      var cls := ClassOf(o);
      var tier := ClassToTier(cls).GetOr("standard");
      if cls == "STANDARD" then
        RestoreResult(true, "Document is in standard storage", "not_archived", None, None, true)
      else if !Truthy(o.restore) then
        RestoreResult(true, "Document is in " + tier + " storage and requires restore", "archived", None, None, false)
      else if Contains(o.restore.value, OngoingTrue) then
        RestoreResult(true, "Restore is in progress", "in_progress", None, None, false)
      else if Contains(o.restore.value, OngoingFalse) then
        var expiry := ExtractExpiry(o.restore.value);
        var shown := if expiry.Some? then expiry.value else "None";
        RestoreResult(true, "Document is restored and available (expires: " + shown + ")", "restored",
          None, if expiry.Some? then Some(Raw(expiry.value)) else None, true)
      else
        RestoreResult(true, "Document is in " + tier + " storage", "archived", None, None, false)
  }

  /** The status mapping of `get_archive_status`, case by case. */
  lemma StatusTable(b: Bucket, key: string)
    requires Raises(b, key, HeadObject).None?
    ensures var o := b.objects[key]; var r := GetArchiveStatus(b, key);
      && (ClassOf(o) == "STANDARD" ==> r.restoreStatus == "not_archived")
      && (ClassOf(o) != "STANDARD" && !Truthy(o.restore) ==> r.restoreStatus == "archived")
      && (ClassOf(o) != "STANDARD" && Truthy(o.restore) && Contains(o.restore.value, OngoingTrue) ==> r.restoreStatus == "in_progress")
      && (ClassOf(o) != "STANDARD" && Truthy(o.restore) && !Contains(o.restore.value, OngoingTrue) && Contains(o.restore.value, OngoingFalse) ==>
            r.restoreStatus == "restored" && r.restoreExpiry == (if ExtractExpiry(o.restore.value).Some? then Some(Raw(ExtractExpiry(o.restore.value).value)) else None))
      && (ClassOf(o) != "STANDARD" && Truthy(o.restore) && !Contains(o.restore.value, OngoingTrue) && !Contains(o.restore.value, OngoingFalse) ==> r.restoreStatus == "archived")
  {
  }

  /** An archived object with no restore on record and no fault is probed as
      `archived`, and a restore call does send the request. */
  lemma FreshRequestSent(b: Bucket, key: string, days: int, restoreTier: string)
    requires Raises(b, key, HeadObject).None? && Raises(b, key, RestoreObject).None?
    requires NeedsRestoreRequest(b.objects[key])
    ensures GetArchiveStatus(b, key).restoreStatus == "archived"
    ensures RestoreFromArchive(b, key, days, restoreTier).state != b
  {
    var o := b.objects[key];
    if o.restore == Some(OngoingTrue) {
      ContainsSelf(OngoingTrue, "", OngoingTrue, "");
      assert false;
    }
    var b' := RestoreFromArchive(b, key, days, restoreTier).state;
    assert b'.objects[key].restore == Some(OngoingTrue);
  }

  /** After a restore request went out, the probe reports in_progress and a
      second restore call sends no duplicate request. */
  lemma NoDuplicateRestore(b: Bucket, key: string, days: int, restoreTier: string)
    requires var out := RestoreFromArchive(b, key, days, restoreTier); out.state != b
    ensures var b' := RestoreFromArchive(b, key, days, restoreTier).state;
      && !RestoreFromArchive(b', key, days, restoreTier).mutated
      && ((key, HeadObject) !in b.faults ==> GetArchiveStatus(b', key).restoreStatus == "in_progress")
  {
    ContainsSelf(OngoingTrue, "", OngoingTrue, "");
  }
}

=== FILE: azure_blob.dfy ===
/** The Azure Blob adapter over an abstract container: access tiers,
    rehydration from the Archive tier, and the four archive operations. */
module AzureBlob {
  import opened Common
  import opened StorageBase

  /** Blob properties the adapter reads: the access tier (absent when the
      service does not report one), the archive status while a rehydration
      is pending, the requested rehydration priority, and the content. */
  datatype Blob = Blob(tier: Option<string>, archiveStatus: Option<string>, priority: Option<string>, data: Bytes)

  /** The SDK calls the adapter issues. */
  datatype Call = GetProperties | SetTier | DownloadBlob

  /** The container, and the calls that raise an `AzureError` (with its
      text) on a given blob. */
  datatype Container = Container(blobs: map<string, Blob>, faults: map<(string, Call), string>)

  /** How a call ends: normally, with `ResourceNotFoundError`, or with
      another `AzureError`. */
  datatype Raised = Ok | NotFound | Failed(text: string)

  function Raises(c: Container, key: string, call: Call): (r: Raised)
    ensures r.Ok? ==> key in c.blobs
    ensures r.NotFound? <==> (key, call) !in c.faults && key !in c.blobs
  {
    if (key, call) in c.faults then Failed(c.faults[(key, call)])
    else if key !in c.blobs then NotFound
    else if call == DownloadBlob && c.blobs[key].tier == Some("Archive") then
      Failed("This operation is not permitted on an archived blob.")
    else Ok
  }

  /** `STORAGE_TIER_MAP.get(tier)`. */
  function TierToBlob(tier: string): Option<string> {
    if tier == "standard" then Some("Hot")
    else if tier == "infrequent" then Some("Cool")
    else if tier == "archive" then Some("Cold")
    else if tier == "deep_archive" then Some("Archive")
    else None
  }

  /** `BLOB_TIER_TO_STORAGE.get(tier)`. */
  function BlobToTier(blobTier: string): Option<string> {
    if blobTier == "Hot" then Some("standard")
    else if blobTier == "Cool" then Some("infrequent")
    else if blobTier == "Cold" then Some("archive")
    else if blobTier == "Archive" then Some("deep_archive")
    else None
  }

  /** The two tables are mutual inverses on the four tiers. */
  lemma TierMapsInverse(tier: string, blobTier: string)
    ensures TierToBlob(tier).Some? ==> BlobToTier(TierToBlob(tier).value) == Some(tier)
    ensures BlobToTier(blobTier).Some? ==> TierToBlob(BlobToTier(blobTier).value) == Some(blobTier)
    ensures TierToBlob(tier).Some? <==> tier in {"standard", "infrequent", "archive", "deep_archive"}
  {
  }

  /** What `set_standard_blob_tier` does on the service: leaving the Archive
      tier starts a rehydration (the blob stays archived, with a pending
      status); any other change takes effect at once. */
  function SetTierEffect(b: Blob, target: string, priority: Option<string>): Blob {
    if b.tier == Some("Archive") && target != "Archive" then
      b.(archiveStatus := Some("rehydrate-pending-to-" + Lower(target)), priority := priority)
    else b.(tier := Some(target), archiveStatus := None, priority := None)
  }

  /** The service finishing a pending rehydration. */
  function CompleteRehydration(c: Container, key: string): Container {
    if key in c.blobs && c.blobs[key].archiveStatus.Some? then
      var b := c.blobs[key];
      var target := if b.archiveStatus == Some("rehydrate-pending-to-cool") then "Cool"
                    else if b.archiveStatus == Some("rehydrate-pending-to-cold") then "Cold" else "Hot";
      c.(blobs := c.blobs[key := b.(tier := Some(target), archiveStatus := None, priority := None)])
    else c
  }

  function TierText(t: Option<string>): string {
    if t.Some? then t.value else "None"
  }

  /** `download`: `download_blob`, then `get_blob_properties`. */
  function Download(c: Container, key: string): (r: RetrieveResult)
    ensures r.success <==> Raises(c, key, DownloadBlob).Ok? && Raises(c, key, GetProperties).Ok?
    ensures r.success ==> r.data == c.blobs[key].data
    ensures key in c.blobs && c.blobs[key].tier == Some("Archive") ==> !r.success
    ensures Raises(c, key, DownloadBlob).NotFound? ==> r.message == "Document not found in Azure Blob Storage"
  {
    match Raises(c, key, DownloadBlob)
    case NotFound => RetrieveFailure("Document not found in Azure Blob Storage")
    case Failed(t) => RetrieveFailure("Failed to download from Azure Blob: " + t)
    case Ok =>
      match Raises(c, key, GetProperties)
      case NotFound => RetrieveFailure("Document not found in Azure Blob Storage")
      case Failed(t) => RetrieveFailure("Failed to download from Azure Blob: " + t)
      case Ok => RetrieveResult(true, c.blobs[key].data, "Document retrieved successfully from Azure Blob Storage")
  }

  /** `move_to_archive`: one tier change unless the blob is already in the
      target tier. An unknown tier targets Archive. */
  function MoveToArchive(c: Container, key: string, tier: string): (out: Outcome<ArchiveResult, Container>)
    ensures var target := TierToBlob(tier).GetOr("Archive");
      && (out.mutated <==> Raises(c, key, GetProperties).Ok? && c.blobs[key].tier != Some(target))
      && (out.result.success <==> Raises(c, key, GetProperties).Ok? && (!out.mutated || Raises(c, key, SetTier).Ok?))
      && (out.result.success ==> out.result.newTier == tier && out.result.previousTier == BlobToTier(TierText(c.blobs[key].tier)).GetOr("standard"))
      && (out.result.success && out.mutated ==> out.state.blobs == c.blobs[key := SetTierEffect(c.blobs[key], target, None)])
      && (!out.result.success || !out.mutated ==> out.state == c)
      && (Raises(c, key, GetProperties).NotFound? ==> out.result.message == "Document not found")
      && out.state.faults == c.faults && out.state.blobs.Keys == c.blobs.Keys
  {
    match Raises(c, key, GetProperties)
    case NotFound => Outcome(ArchiveFailure("Document not found"), c, false)
    case Failed(t) => Outcome(ArchiveFailure("Failed to move to archive: " + t), c, false)
    case Ok =>
      var b := c.blobs[key];
      var currentName := BlobToTier(TierText(b.tier)).GetOr("standard");
      var target := TierToBlob(tier).GetOr("Archive");
      // Python reads the guard as `(current == target.value) if hasattr(...)
      // else target`; the target is always an enum member here, so only
      // the comparison arm is ever taken.
      if b.tier == Some(target) then
        Outcome(ArchiveResult(true, "Document is already in " + tier + " storage", currentName, tier), c, false)
      else
        match Raises(c, key, SetTier)
        case NotFound => Outcome(ArchiveFailure("Document not found"), c, true)
        case Failed(t) => Outcome(ArchiveFailure("Failed to move to archive: " + t), c, true)
        case Ok =>
          Outcome(ArchiveResult(true, "Document moved to " + tier + " successfully", currentName, tier),
            c.(blobs := c.blobs[key := SetTierEffect(b, target, None)]), true)
  }

  const AccessibleTiers: set<string> := {"Hot", "Cool", "Cold"}

  /** The rehydration priority for a restore tier: High only for expedited,
      in any letter case. */
  function Priority(restoreTier: string): (p: string)
    ensures p == "High" <==> Lower(restoreTier) == "expedited"
    ensures p in {"High", "Standard"}
  {
    if Lower(restoreTier) == "expedited" then "High" else "Standard"
  }

  /** The blob sits in a tier that can be read directly. */
  predicate Accessible(b: Blob) {
    b.tier.Some? && b.tier.value in AccessibleTiers
  }

  /** The blob's archive status says a rehydration is already under way. */
  predicate Rehydrating(b: Blob) {
    b.archiveStatus == Some("rehydrate-pending-to-hot") || b.archiveStatus == Some("rehydrate-pending-to-cool")
  }

  /** `restore_from_archive`: rehydrate to Hot unless the blob is accessible
      or already rehydrating. `restore_days` plays no part. Any tier other
      than Hot, Cool and Cold, an unknown one included, is rehydrated. */
  function RestoreFromArchive(c: Container, key: string, days: int, restoreTier: string): (out: Outcome<RestoreResult, Container>)
    ensures out.mutated <==>
      Raises(c, key, GetProperties).Ok? && !Accessible(c.blobs[key]) && !Rehydrating(c.blobs[key])
    ensures out.state != c ==>
      out.mutated && out.result.success && out.result.restoreStatus == "in_progress" &&
      out.state.blobs == c.blobs[key := SetTierEffect(c.blobs[key], "Hot", Some(Priority(restoreTier)))]
    ensures out.result.success ==> out.result.restoreStatus in {"not_archived", "in_progress"}
    ensures out.result.success ==> (out.result.isRetrievable <==> out.result.restoreStatus == "not_archived")
    ensures out.state.faults == c.faults && out.state.blobs.Keys == c.blobs.Keys
    // The properties call fails.
    ensures Raises(c, key, GetProperties).NotFound? ==> out.result == RestoreFailure("Document not found") && out.state == c
    ensures Raises(c, key, GetProperties).Failed? ==>
      out.result == RestoreFailure("Failed to initiate rehydration: " + Raises(c, key, GetProperties).text) && out.state == c
    // Already readable.
    ensures Raises(c, key, GetProperties).Ok? && Accessible(c.blobs[key]) ==>
      out.result == RestoreResult(true, "Document is already in an accessible storage tier", "not_archived", None, None, true)
      && out.state == c
    // Already rehydrating.
    ensures Raises(c, key, GetProperties).Ok? && !Accessible(c.blobs[key]) && Rehydrating(c.blobs[key]) ==>
      out.result == RestoreResult(true, "Rehydration is already in progress", "in_progress",
        Some("Up to 15 hours for standard priority"), None, false)
      && out.state == c
    // A rehydration request is sent.
    ensures out.mutated && Raises(c, key, SetTier).Ok? ==>
      && out.result == RestoreResult(true, "Rehydration initiated with " + Priority(restoreTier) + " priority", "in_progress",
           Some("Up to 15 hours for standard, or within hours for high priority"), None, false)
      && out.state.blobs == c.blobs[key := SetTierEffect(c.blobs[key], "Hot", Some(Priority(restoreTier)))]
    ensures out.mutated && Raises(c, key, SetTier).NotFound? ==> out.result == RestoreFailure("Document not found") && out.state == c
    ensures out.mutated && Raises(c, key, SetTier).Failed? ==>
      out.result == RestoreFailure("Failed to initiate rehydration: " + Raises(c, key, SetTier).text) && out.state == c
  {
    match Raises(c, key, GetProperties)
    case NotFound => Outcome(RestoreFailure("Document not found"), c, false)
    case Failed(t) => Outcome(RestoreFailure("Failed to initiate rehydration: " + t), c, false)
    case Ok =>
      var b := c.blobs[key];
      if Accessible(b) then
        Outcome(RestoreResult(true, "Document is already in an accessible storage tier", "not_archived", None, None, true), c, false)
      else if Rehydrating(b) then
        Outcome(RestoreResult(true, "Rehydration is already in progress", "in_progress",
          Some("Up to 15 hours for standard priority"), None, false), c, false)
      else
        var priority := Priority(restoreTier);
        match Raises(c, key, SetTier)
        case NotFound => Outcome(RestoreFailure("Document not found"), c, true)
        case Failed(t) => Outcome(RestoreFailure("Failed to initiate rehydration: " + t), c, true)
        case Ok =>
          Outcome(RestoreResult(true, "Rehydration initiated with " + priority + " priority", "in_progress",
            Some("Up to 15 hours for standard, or within hours for high priority"), None, false),
            c.(blobs := c.blobs[key := SetTierEffect(b, "Hot", Some(priority))]), true)
  }

  /** `get_archive_status`: a read-only probe. Any error other than a missing
      blob surfaces as an unexpected error. */
  function GetArchiveStatus(c: Container, key: string): (r: RestoreResult)
    ensures r.success <==> Raises(c, key, GetProperties).Ok?
    ensures r.success ==> r.restoreStatus in {"not_archived", "archived", "in_progress"}
    ensures Raises(c, key, GetProperties).NotFound? ==> r.message == "Document not found"
  {
    match Raises(c, key, GetProperties)
    case NotFound => RestoreFailure("Document not found")
    case Failed(t) => RestoreFailure("Unexpected error: " + t)
    case Ok =>
      var b := c.blobs[key];
      if b.tier.Some? && b.tier.value in AccessibleTiers then
        RestoreResult(true, "Document is in " + b.tier.value + " tier and immediately accessible",
          if b.tier.value == "Hot" then "not_archived" else "archived", None, None, true)
      else if b.tier == Some("Archive") then
        if Truthy(b.archiveStatus) && Contains(b.archiveStatus.value, "rehydrate-pending") then
          RestoreResult(true, "Rehydration is in progress", "in_progress", None, None, false)
        else
          RestoreResult(true, "Document is in Archive tier and requires rehydration", "archived", None, None, false)
      else
        RestoreResult(true, "Document is in " + TierText(b.tier) + " tier", "archived", None, None, true)
  }

  /** The status mapping, case by case; "restored" never occurs. */
  lemma StatusTable(c: Container, key: string)
    requires Raises(c, key, GetProperties).Ok?
    ensures var b := c.blobs[key]; var r := GetArchiveStatus(c, key);
      && (b.tier == Some("Hot") ==> r.restoreStatus == "not_archived" && r.isRetrievable)
      && (b.tier in {Some("Cool"), Some("Cold")} ==> r.restoreStatus == "archived" && r.isRetrievable)
      && (b.tier == Some("Archive") && Truthy(b.archiveStatus) && Contains(b.archiveStatus.value, "rehydrate-pending") ==>
            r.restoreStatus == "in_progress" && !r.isRetrievable)
      && (b.tier == Some("Archive") && !(Truthy(b.archiveStatus) && Contains(b.archiveStatus.value, "rehydrate-pending")) ==>
            r.restoreStatus == "archived" && !r.isRetrievable)
      && r.restoreStatus != "restored"
  {
  }

  /** An archived blob that is not rehydrating, with no fault on either
      call, is probed as archived; a restore then sends the rehydration
      request, reports in_progress, and changes the container. */
  lemma FreshRehydrationSent(c: Container, key: string, days: int, restoreTier: string)
    requires (key, GetProperties) !in c.faults && (key, SetTier) !in c.faults
    requires key in c.blobs && c.blobs[key].tier == Some("Archive") && c.blobs[key].archiveStatus.None?
    ensures GetArchiveStatus(c, key).restoreStatus == "archived"
    ensures var out := RestoreFromArchive(c, key, days, restoreTier);
      && out.mutated && out.result.success && out.result.restoreStatus == "in_progress"
      && out.state != c
  {
    var b := c.blobs[key];
    assert Raises(c, key, GetProperties).Ok? && Raises(c, key, SetTier).Ok?;
    assert !Accessible(b) && !Rehydrating(b);
  }

  /** A rehydration request is visible to the probe as in_progress, and a
      repeated restore call sends no second request. */
  lemma NoDuplicateRehydration(c: Container, key: string, days: int, restoreTier: string)
    requires (key, GetProperties) !in c.faults
    requires key in c.blobs && c.blobs[key].tier == Some("Archive")
    requires RestoreFromArchive(c, key, days, restoreTier).state != c
    ensures var c' := RestoreFromArchive(c, key, days, restoreTier).state;
      && GetArchiveStatus(c', key).restoreStatus == "in_progress"
      && !RestoreFromArchive(c', key, days, restoreTier).mutated
  {
    var c' := RestoreFromArchive(c, key, days, restoreTier).state;
    PendingToHot(c.blobs[key], Some(Priority(restoreTier)));
    assert c'.blobs[key] == SetTierEffect(c.blobs[key], "Hot", Some(Priority(restoreTier)));
    PendingReadsInProgress(c', key, days, restoreTier);
  }

  /** Rehydrating an archived blob to Hot leaves it archived and pending. */
  lemma PendingToHot(b: Blob, priority: Option<string>)
    requires b.tier == Some("Archive")
    ensures SetTierEffect(b, "Hot", priority).tier == Some("Archive")
    ensures SetTierEffect(b, "Hot", priority).archiveStatus == Some("rehydrate-pending-to-hot")
  {
    assert Lower("Hot") == "hot";
    assert "rehydrate-pending-to-" + Lower("Hot") == "rehydrate-pending-to-hot";
  }

  /** A blob pending rehydration to Hot reads as in progress, and a second
      restore request changes nothing. */
  lemma PendingReadsInProgress(c: Container, key: string, days: int, restoreTier: string)
    requires (key, GetProperties) !in c.faults && key in c.blobs
    requires c.blobs[key].tier == Some("Archive") && c.blobs[key].archiveStatus == Some("rehydrate-pending-to-hot")
    ensures GetArchiveStatus(c, key).restoreStatus == "in_progress"
    ensures !RestoreFromArchive(c, key, days, restoreTier).mutated
  {
    ContainsSelf("rehydrate-pending-to-hot", "", "rehydrate-pending", "-to-hot");
  }

  /** Once the service finishes rehydrating, the blob reads as not_archived
      and retrievable. */
  lemma RehydratedIsHot(c: Container, key: string)
    requires (key, GetProperties) !in c.faults
    requires key in c.blobs && c.blobs[key].archiveStatus == Some("rehydrate-pending-to-hot")
    ensures var r := GetArchiveStatus(CompleteRehydration(c, key), key);
      r.success && r.restoreStatus == "not_archived" && r.isRetrievable
  {
  }
}

=== FILE: common.dfy ===
/** Shared vocabulary: optional values, the string helpers the Python code
    gets from `str` (substring test, prefix test, ASCII case mapping, split,
    join) and a sum over the values of a counting map. */
module Common {

  datatype Option<+T> = None | Some(value: T) {
    function GetOr(default: T): T {
      match this
      case Some(v) => v
      case None => default
    }
  }

  /** The result of one call against a remote store: what the adapter
      returns, the remote state afterwards, and whether the call issued a
      mutating request to the remote side. */
  datatype Outcome<+R, +S> = Outcome(result: R, state: S, mutated: bool)

  /** Python's truthiness of an optional string: None and "" are falsy. */
  predicate Truthy(s: Option<string>) {
    s.Some? && s.value != ""
  }

  /** `pat in s` for strings. */
  predicate Contains(s: string, pat: string) {
    exists i | 0 <= i <= |s| - |pat| :: OccursAt(s, pat, i)
  }

  /** `pat` is found in `s` starting at index `i`. */
  predicate OccursAt(s: string, pat: string, i: int) {
    0 <= i <= |s| - |pat| && s[i..i + |pat|] == pat
  }

  lemma ContainsSelf(s: string, pre: string, pat: string, post: string)
    requires s == pre + pat + post
    ensures Contains(s, pat)
  {
    assert s[|pre|..|pre| + |pat|] == pat;
    assert OccursAt(s, pat, |pre|);
  }

  /** `s.startswith(p)`. */
  predicate StartsWith(s: string, p: string) {
    |p| <= |s| && s[..|p|] == p
  }

  function LowerChar(c: char): char {
    if 'A' <= c <= 'Z' then (c as int + 32) as char else c
  }

  function UpperChar(c: char): char {
    if 'a' <= c <= 'z' then (c as int - 32) as char else c
  }

  /** `s.lower()` restricted to ASCII letters. */
  function Lower(s: string): (r: string)
    ensures |r| == |s|
  {
    seq(|s|, i requires 0 <= i < |s| => LowerChar(s[i]))
  }

  /** `s.upper()` restricted to ASCII letters. */
  function Upper(s: string): (r: string)
    ensures |r| == |s|
  {
    seq(|s|, i requires 0 <= i < |s| => UpperChar(s[i]))
  }

  lemma UpperConcat(a: string, b: string)
    ensures Upper(a + b) == Upper(a) + Upper(b)
  {
  }

  /** A decimal digit in the ASCII range (what `str.isdigit` accepts for ASCII input). */
  predicate IsDigit(c: char) {
    '0' <= c <= '9'
  }

  /** `s.isdigit()`: non-empty and every character a digit. */
  predicate AllDigits(s: string) {
    |s| > 0 && forall i | 0 <= i < |s| :: IsDigit(s[i])
  }

  /** `s.split(sep)` for a one-character separator: always at least one
      part, and the parts joined by `sep` give back `s`. */
  function Split(s: string, sep: char): (parts: seq<string>)
    ensures |parts| >= 1
    ensures forall i | 0 <= i < |parts| :: sep !in parts[i]
    ensures Join(parts, [sep]) == s
  {
    if s == [] then [""]
    else
      var rest := Split(s[1..], sep);
      if s[0] == sep then
        assert s == [sep] + s[1..];
        [""] + rest
      else
        assert Join(rest, [sep]) == s[1..];
        JoinConsFirst(s[0], rest, [sep]);
        [[s[0]] + rest[0]] + rest[1..]
  }

  /** `sep.join(parts)`. */
  function Join(parts: seq<string>, sep: string): string {
    if parts == [] then ""
    else if |parts| == 1 then parts[0]
    else parts[0] + sep + Join(parts[1..], sep)
  }

  /** Text found in a suffix is found in the whole. */
  lemma ContainsAfter(pre: string, s: string, pat: string)
    requires Contains(s, pat)
    ensures Contains(pre + s, pat)
  {
    var k :| 0 <= k <= |s| - |pat| && OccursAt(s, pat, k);
    assert (pre + s)[|pre| + k..|pre| + k + |pat|] == s[k..k + |pat|];
    assert OccursAt(pre + s, pat, |pre| + k);
  }

  /** Every part occurs in the joined text, and the text starts with the
      first part. */
  lemma {:induction false} JoinContainsParts(parts: seq<string>, sep: string)
    ensures forall i | 0 <= i < |parts| :: Contains(Join(parts, sep), parts[i])
    ensures parts != [] ==> StartsWith(Join(parts, sep), parts[0])
  {
    if |parts| == 1 {
      ContainsSelf(parts[0], "", parts[0], "");
    } else if |parts| > 1 {
      var rest := Join(parts[1..], sep);
      JoinContainsParts(parts[1..], sep);
      assert Join(parts, sep) == parts[0] + (sep + rest);
      ContainsSelf(Join(parts, sep), "", parts[0], sep + rest);
      forall i | 1 <= i < |parts| ensures Contains(Join(parts, sep), parts[i]) {
        assert parts[i] == parts[1..][i - 1];
        ContainsAfter(parts[0] + sep, rest, parts[i]);
        assert parts[0] + sep + rest == Join(parts, sep);
      }
    }
  }

  lemma JoinConsFirst(c: char, parts: seq<string>, sep: string)
    requires |parts| >= 1
    ensures Join([[c] + parts[0]] + parts[1..], sep) == [c] + Join(parts, sep)
  {
    var ps := [[c] + parts[0]] + parts[1..];
    assert ps[1..] == parts[1..];
  }

  /** Splitting text that contains the separator exactly once gives the two
      sides. */
  lemma {:induction false} SplitOnce(a: string, b: string, sep: char)
    requires sep !in a && sep !in b
    ensures Split(a + [sep] + b, sep) == [a, b]
  {
    if a == [] {
      assert a + [sep] + b == [sep] + b;
      SplitNone(b, sep);
    } else {
      var s := a + [sep] + b;
      assert s[1..] == a[1..] + [sep] + b;
      SplitOnce(a[1..], b, sep);
      assert [a[0]] + a[1..] == a;
    }
  }

  /** There is one more part than there are separators. */
  lemma {:induction false} SplitParts(s: string, sep: char)
    ensures |Split(s, sep)| == multiset(s)[sep] + 1
  {
    if s != [] {
      SplitParts(s[1..], sep);
      assert s == [s[0]] + s[1..];
    }
  }

  lemma {:induction false} SplitNone(s: string, sep: char)
    requires sep !in s
    ensures Split(s, sep) == [s]
  {
    if s != [] {
      SplitNone(s[1..], sep);
      assert [s[0]] + s[1..] == s;
    }
  }

  /** A leading part free of the separator splits off as one part. */
  lemma {:induction false} SplitPrefix(a: string, s: string, sep: char)
    requires sep !in a
    ensures Split(a + [sep] + s, sep) == [a] + Split(s, sep)
  {
    if a == [] {
      assert a + [sep] + s == [sep] + s;
    } else {
      var t := a + [sep] + s;
      assert t[1..] == a[1..] + [sep] + s;
      SplitPrefix(a[1..], s, sep);
      assert [a[0]] + a[1..] == a;
    }
  }

  /** Splitting undoes joining when no part holds the separator. */
  lemma {:induction false} SplitJoin(parts: seq<string>, sep: char)
    requires |parts| >= 1
    requires forall i | 0 <= i < |parts| :: sep !in parts[i]
    ensures Split(Join(parts, [sep]), sep) == parts
  {
    if |parts| == 1 {
      SplitNone(parts[0], sep);
    } else {
      SplitJoin(parts[1..], sep);
      SplitPrefix(parts[0], Join(parts[1..], [sep]), sep);
      assert [parts[0]] + parts[1..] == parts;
    }
  }

  /** Sum of the values of a counting map, in no particular key order. */
  ghost function MapSum<K>(m: map<K, int>): int
    decreases |m|
  {
    if m == map[] then 0
    else
      var k :| k in m;
      m[k] + MapSum(m - {k})
  }

  /** The sum does not depend on which key is taken first. */
  lemma {:induction false} MapSumPick<K>(m: map<K, int>, k: K)
    requires k in m
    ensures MapSum(m) == m[k] + MapSum(m - {k})
    decreases |m|
  {
    var j :| j in m && MapSum(m) == m[j] + MapSum(m - {j});
    if j != k {
      var mj := m - {j};
      var mk := m - {k};
      assert k in mj && j in mk;
      MapSumPick(mj, k);
      MapSumPick(mk, j);
      assert mj - {k} == mk - {j};
    }
  }

  /** Counting one more occurrence of `k` adds one to the total. */
  lemma Bump<K>(m: map<K, int>, k: K)
    ensures MapSum(Inc(m, k)) == MapSum(m) + 1
  {
    var m' := Inc(m, k);
    MapSumPick(m', k);
    if k in m {
      MapSumPick(m, k);
      assert m' - {k} == m - {k};
    } else {
      assert m' - {k} == m;
    }
  }

  /** `d[k] = d.get(k, 0) + 1`. */
  function Inc<K>(m: map<K, int>, k: K): (r: map<K, int>)
    ensures r.Keys == m.Keys + {k}
    ensures r[k] == (if k in m then m[k] else 0) + 1
    ensures forall j | j in m && j != k :: r[j] == m[j]
  {
    m[k := (if k in m then m[k] else 0) + 1]
  }

  /** Counting the occurrences of each element, first to last: the
      `defaultdict(int)` idiom. */
  function Tally<K>(s: seq<K>): (r: map<K, int>)
    ensures r.Keys == set x | x in s
    ensures forall k | k in r :: r[k] == multiset(s)[k]
  {
    if s == [] then map[]
    else
      var n := |s| - 1;
      assert s == s[..n] + [s[n]];
      Inc(Tally(s[..n]), s[n])
  }

  /** The tallies add up to the number of elements counted. */
  lemma {:induction false} TallySum<K>(s: seq<K>)
    ensures MapSum(Tally(s)) == |s|
  {
    if s != [] {
      var n := |s| - 1;
      TallySum(s[..n]);
      Bump(Tally(s[..n]), s[n]);
    }
  }

  /** `str(n)` for an integer: decimal digits, with a leading '-' when negative. */
  function IntToString(n: int): (s: string)
    ensures n >= 0 ==> AllDigits(s)
    ensures n < 0 ==> |s| >= 2 && s[0] == '-' && AllDigits(s[1..])
  {
    if n < 0 then "-" + NatToString(-n) else NatToString(n)
  }

  function NatToString(n: nat): (s: string)
    ensures AllDigits(s)
    decreases n
  {
    var d := [('0' as int + n % 10) as char];
    if n < 10 then d else NatToString(n / 10) + d
  }

  /** The decimal value of a digit string. */
  function DigitsValue(s: string): nat
    requires forall i | 0 <= i < |s| :: IsDigit(s[i])
    decreases |s|
  {
    if s == [] then 0
    else
      assert IsDigit(s[|s| - 1]);
      10 * DigitsValue(s[..|s| - 1]) + (s[|s| - 1] as int - '0' as int)
  }

  /** Rendering then reading back a natural number gives it back. */
  lemma {:induction false} NatToStringValue(n: nat)
    ensures DigitsValue(NatToString(n)) == n
    decreases n
  {
    var s := NatToString(n);
    if n >= 10 {
      NatToStringValue(n / 10);
      assert s[..|s| - 1] == NatToString(n / 10);
    }
  }
}

=== FILE: config.dfy ===
/** The canonical vocabulary (storage providers, storage tiers, restore
    statuses), the settings the lifecycle core reads with their defaults,
    and the flattening of a nested YAML configuration into settings keys. */
module Config {
  import opened Common

  datatype StorageProvider = AwsS3 | AzureBlob | GcpStorage {
    function Value(): string {
      match this
      case AwsS3 => "aws_s3"
      case AzureBlob => "azure_blob"
      case GcpStorage => "gcp_storage"
    }
  }

  /** Durable placement of a document, from hot to coldest. */
  datatype StorageTier = Standard | Infrequent | Archive | DeepArchive {
    function Value(): string {
      match this
      case Standard => "standard"
      case Infrequent => "infrequent"
      case Archive => "archive"
      case DeepArchive => "deep_archive"
    }
  }

  /** Transient accessibility of a document. */
  datatype RestoreStatus = NotArchived | Archived | RestoreInProgress | Restored {
    function Value(): string {
      match this
      case NotArchived => "not_archived"
      case Archived => "archived"
      case RestoreInProgress => "in_progress"
      case Restored => "restored"
    }
  }

  const TierValues: set<string> := {"standard", "infrequent", "archive", "deep_archive"}
  const StatusValues: set<string> := {"not_archived", "archived", "in_progress", "restored"}

  /** `StorageTier(s)`: the enum member whose value is `s`, if any. */
  function ParseTier(s: string): (r: Option<StorageTier>)
    ensures r.Some? <==> s in TierValues
    ensures r.Some? ==> r.value.Value() == s
  {
    if s == "standard" then Some(Standard)
    else if s == "infrequent" then Some(Infrequent)
    else if s == "archive" then Some(Archive)
    else if s == "deep_archive" then Some(DeepArchive)
    else None
  }

  /** `RestoreStatus(s)`: the enum member whose value is `s`, if any. */
  function ParseStatus(s: string): (r: Option<RestoreStatus>)
    ensures r.Some? <==> s in StatusValues
    ensures r.Some? ==> r.value.Value() == s
  {
    if s == "not_archived" then Some(NotArchived)
    else if s == "archived" then Some(Archived)
    else if s == "in_progress" then Some(RestoreInProgress)
    else if s == "restored" then Some(Restored)
    else None
  }

  /** Each enum has exactly four members, with four distinct string values,
      and parsing a member's value gives the member back. */
  lemma VocabularyRoundTrip(t: StorageTier, st: RestoreStatus)
    ensures ParseTier(t.Value()) == Some(t) && t.Value() in TierValues
    ensures ParseStatus(st.Value()) == Some(st) && st.Value() in StatusValues
    ensures |TierValues| == 4 && |StatusValues| == 4
    ensures RestoreInProgress.Value() == "in_progress"
  {
  }

  /** The settings the modelled core reads. */
  datatype Settings = Settings(
    storageProvider: StorageProvider,
    awsGlacierRestoreDays: int,
    awsGlacierRestoreTier: string,
    lifecycleEnabled: bool,
    lifecycleArchiveAfterDays: int,
    lifecycleDeepArchiveAfterDays: int,
    lifecycleCheckIntervalHours: int
  )

  /** The class defaults of `Settings`. */
  const Defaults: Settings := Settings(AwsS3, 7, "Standard", false, 90, 365, 24)

  // ---------------------------------------------------------------------
  // Flattening a nested YAML document into settings attribute names.
  // ---------------------------------------------------------------------

  /** A YAML value: a scalar (kept as its text) or a mapping whose entries
      keep their document order. */
  datatype Yaml = Scalar(text: string) | Mapping(entries: seq<Entry>)
  datatype Entry = Entry(key: string, value: Yaml)

  /** The attribute a flattened environment-style key sets: the fixed
      `elif` chain of `_flatten_yaml_config`; keys outside it are ignored. */
  function AttributeFor(envKey: string): Option<string> {
    if envKey == "APP_NAME" then Some("app_name")
    else if envKey == "APP_DEBUG" then Some("debug")
    else if envKey == "STORAGE_PROVIDER" then Some("storage_provider")
    else if envKey == "AWS_ACCESS_KEY_ID" then Some("aws_access_key_id")
    else if envKey == "AWS_SECRET_ACCESS_KEY" then Some("aws_secret_access_key")
    else if envKey == "AWS_REGION" then Some("aws_region")
    else if envKey == "AWS_BUCKET" then Some("aws_s3_bucket")
    else if envKey == "AWS_GLACIER_RESTORE_DAYS" then Some("aws_glacier_restore_days")
    else if envKey == "AWS_GLACIER_RESTORE_TIER" then Some("aws_glacier_restore_tier")
    else if envKey == "AZURE_CONNECTION_STRING" then Some("azure_connection_string")
    else if envKey == "AZURE_CONTAINER_NAME" then Some("azure_container_name")
    else if envKey == "GCP_PROJECT_ID" then Some("gcp_project_id")
    else if envKey == "GCP_CREDENTIALS_PATH" then Some("gcp_credentials_path")
    else if envKey == "GCP_BUCKET_NAME" then Some("gcp_bucket_name")
    else if envKey == "DATABASE_URL" then Some("database_url")
    else if envKey == "KAFKA_ENABLED" then Some("kafka_enabled")
    else if envKey == "KAFKA_BOOTSTRAP_SERVERS" then Some("kafka_bootstrap_servers")
    else if envKey == "KAFKA_TOPICS_RESTORE_READY" then Some("kafka_topic_restore_ready")
    else if envKey == "KAFKA_TOPICS_ARCHIVED" then Some("kafka_topic_archived")
    else if envKey == "LIFECYCLE_ENABLED" then Some("lifecycle_enabled")
    else if envKey == "LIFECYCLE_ARCHIVE_AFTER_DAYS" then Some("lifecycle_archive_after_days")
    else if envKey == "LIFECYCLE_DEEP_ARCHIVE_AFTER_DAYS" then Some("lifecycle_deep_archive_after_days")
    else if envKey == "LIFECYCLE_CHECK_INTERVAL_HOURS" then Some("lifecycle_check_interval_hours")
    else None
  }

  lemma AliasRows()
    ensures AttributeFor("AWS_BUCKET") == Some("aws_s3_bucket")
    ensures AttributeFor("APP_DEBUG") == Some("debug")
    ensures AttributeFor("KAFKA_TOPICS_RESTORE_READY") == Some("kafka_topic_restore_ready")
    ensures AttributeFor("DATABASE_URL") == Some("database_url")
    ensures AttributeFor("UNKNOWN") == None
  {
  }

  /** `f"{prefix}_{key}" if prefix else key`. */
  function JoinKey(prefix: string, key: string): string {
    if prefix == "" then key else prefix + "_" + key
  }

  /** A key-to-attribute table; the model's flattening is stated for any
      table and instantiated with `AttributeFor`. */
  type KeyMap = string -> Option<string>

  /** Writes one leaf: known keys set their attribute, unknown keys are dropped. */
  function Assign(table: KeyMap, flat: map<string, string>, envKey: string, text: string): map<string, string> {
    match table(envKey)
    case Some(attr) => flat[attr := text]
    case None => flat
  }

  /** `_flatten_yaml_config(data, flat, prefix)` from entry `i` of mapping `v` on. */
  function FlattenFrom(table: KeyMap, v: Yaml, i: nat, prefix: string, flat: map<string, string>): map<string, string>
    requires v.Mapping? && i <= |v.entries|
    decreases v, |v.entries| - i
  {
    if i == |v.entries| then flat
    else
      var e := v.entries[i];
      assert e in v.entries;
      var flat' :=
        match e.value
        case Mapping(_) => FlattenFrom(table, e.value, 0, JoinKey(prefix, e.key), flat)
        case Scalar(s) => Assign(table, flat, Upper(JoinKey(prefix, e.key)), s);
      FlattenFrom(table, v, i + 1, prefix, flat')
  }

  /** `Settings.from_yaml` input: the flat attribute map built from a
      top-level YAML mapping. */
  function FlattenYaml(doc: Yaml): map<string, string>
    requires doc.Mapping?
  {
    FlattenFrom(AttributeFor, doc, 0, "", map[])
  }

  /** Reference reading: the leaves of the document in document order, each
      with its upper-cased, `_`-joined key. Mapping entries contribute only
      their own leaves. */
  function LeavesFrom(v: Yaml, i: nat, prefix: string): seq<(string, string)>
    requires v.Mapping? && i <= |v.entries|
    decreases v, |v.entries| - i
  {
    if i == |v.entries| then []
    else
      var e := v.entries[i];
      assert e in v.entries;
      var here :=
        match e.value
        case Mapping(_) => LeavesFrom(e.value, 0, JoinKey(prefix, e.key))
        case Scalar(s) => [(Upper(JoinKey(prefix, e.key)), s)];
      here + LeavesFrom(v, i + 1, prefix)
  }

  function AssignAll(table: KeyMap, flat: map<string, string>, leaves: seq<(string, string)>): map<string, string>
    decreases |leaves|
  {
    if leaves == [] then flat
    else AssignAll(table, Assign(table, flat, leaves[0].0, leaves[0].1), leaves[1..])
  }

  lemma {:induction false} AssignAllConcat(table: KeyMap, flat: map<string, string>, a: seq<(string, string)>, b: seq<(string, string)>)
    ensures AssignAll(table, flat, a + b) == AssignAll(table, AssignAll(table, flat, a), b)
    decreases |a|
  {
    if a != [] {
      assert (a + b)[1..] == a[1..] + b;
      AssignAllConcat(table, Assign(table, flat, a[0].0, a[0].1), a[1..], b);
    } else {
      assert a + b == b;
    }
  }

  /** Flattening writes exactly the leaves, in document order, through the
      key table. */
  lemma {:induction false} FlattenIsAssignLeaves(table: KeyMap, v: Yaml, i: nat, prefix: string, flat: map<string, string>)
    requires v.Mapping? && i <= |v.entries|
    ensures FlattenFrom(table, v, i, prefix, flat) == AssignAll(table, flat, LeavesFrom(v, i, prefix))
    decreases v, |v.entries| - i
  {
    if i < |v.entries| {
      var e := v.entries[i];
      assert e in v.entries;
      match e.value {
        case Mapping(_) =>
          var flat' := FlattenFrom(table, e.value, 0, JoinKey(prefix, e.key), flat);
          FlattenIsAssignLeaves(table, e.value, 0, JoinKey(prefix, e.key), flat);
          FlattenIsAssignLeaves(table, v, i + 1, prefix, flat');
          AssignAllConcat(table, flat, LeavesFrom(e.value, 0, JoinKey(prefix, e.key)), LeavesFrom(v, i + 1, prefix));
        case Scalar(s) =>
          var leaf := [(Upper(JoinKey(prefix, e.key)), s)];
          FlattenIsAssignLeaves(table, v, i + 1, prefix, Assign(table, flat, leaf[0].0, s));
          AssignAllConcat(table, flat, leaf, LeavesFrom(v, i + 1, prefix));
      }
    }
  }

  /** The value the last leaf for attribute `attr` carries, if any leaf maps to it. */
  function LastFor(table: KeyMap, leaves: seq<(string, string)>, attr: string): Option<string>
    decreases |leaves|
  {
    if leaves == [] then None
    else
      var last := leaves[|leaves| - 1];
      if table(last.0) == Some(attr) then Some(last.1)
      else LastFor(table, leaves[..|leaves| - 1], attr)
  }

  lemma {:induction false} AssignAllSpec(table: KeyMap, flat: map<string, string>, leaves: seq<(string, string)>, attr: string)
    ensures LastFor(table, leaves, attr).Some? ==>
      attr in AssignAll(table, flat, leaves) && AssignAll(table, flat, leaves)[attr] == LastFor(table, leaves, attr).value
    ensures LastFor(table, leaves, attr).None? ==>
      (attr in AssignAll(table, flat, leaves) <==> attr in flat) &&
      (attr in flat ==> AssignAll(table, flat, leaves)[attr] == flat[attr])
    decreases |leaves|
  {
    if leaves != [] {
      var init := leaves[..|leaves| - 1];
      var last := leaves[|leaves| - 1];
      assert leaves == init + [last];
      AssignAllConcat(table, flat, init, [last]);
      AssignAllSpec(table, flat, init, attr);
    }
  }

  /** The flattened map holds, for each attribute, exactly the text of the
      last leaf whose upper-cased joined key the table maps to it; keys the
      table does not know are dropped without error, and no attribute
      appears without such a leaf. */
  lemma FlattenYamlSpec(doc: Yaml, attr: string)
    requires doc.Mapping?
    ensures var leaves := LeavesFrom(doc, 0, "");
      && (attr in FlattenYaml(doc) <==> LastFor(AttributeFor, leaves, attr).Some?)
      && (attr in FlattenYaml(doc) ==> FlattenYaml(doc)[attr] == LastFor(AttributeFor, leaves, attr).value)
  {
    FlattenIsAssignLeaves(AttributeFor, doc, 0, "", map[]);
    AssignAllSpec(AttributeFor, map[], LeavesFrom(doc, 0, ""), attr);
  }

  /** The chain of one-entry mappings that puts `text` at `path`. */
  function Nest(path: seq<string>, text: string): (v: Yaml)
    requires |path| >= 1
    ensures v.Mapping? && |v.entries| == 1
    decreases |path|
  {
    Mapping([Entry(path[0], if |path| == 1 then Scalar(text) else Nest(path[1..], text))])
  }

  /** The joined key of a path below `prefix`. */
  function JoinPath(prefix: string, path: seq<string>): string
    decreases |path|
  {
    if path == [] then prefix else JoinPath(JoinKey(prefix, path[0]), path[1..])
  }

  /** A leaf at path k1..kn is looked up under the upper-cased, `_`-joined
      key; the mappings on the way are never written themselves. */
  lemma {:induction false} NestedLeafKey(table: KeyMap, path: seq<string>, text: string, prefix: string, flat: map<string, string>)
    requires |path| >= 1
    ensures FlattenFrom(table, Nest(path, text), 0, prefix, flat) == Assign(table, flat, Upper(JoinPath(prefix, path)), text)
    decreases |path|
  {
    var v := Nest(path, text);
    if |path| > 1 {
      NestedLeafKey(table, path[1..], text, JoinKey(prefix, path[0]), flat);
    }
  }

  /** A single leaf at `path` sets exactly the attribute its joined key names. */
  lemma LeafAt(path: seq<string>, envKey: string, text: string)
    requires |path| >= 1 && Upper(JoinPath("", path)) == envKey
    ensures FlattenYaml(Nest(path, text)) == Assign(AttributeFor, map[], envKey, text)
  {
    NestedLeafKey(AttributeFor, path, text, "", map[]);
  }

  /** Two-level alias rows of the key table: `aws.bucket` sets
      `aws_s3_bucket` and `app.debug` sets `debug`. */
  lemma TwoLevelAliases(text: string)
    ensures FlattenYaml(Nest(["aws", "bucket"], text)) == map["aws_s3_bucket" := text]
    ensures FlattenYaml(Nest(["app", "debug"], text)) == map["debug" := text]
  {
    assert JoinPath("", ["aws", "bucket"]) == "aws_bucket";
    LeafAt(["aws", "bucket"], "AWS_BUCKET", text);
    assert JoinPath("", ["app", "debug"]) == "app_debug";
    LeafAt(["app", "debug"], "APP_DEBUG", text);
  }

  lemma KafkaTopicKey()
    ensures Upper(JoinPath("", ["kafka", "topics", "restore_ready"])) == "KAFKA_TOPICS_RESTORE_READY"
  {
    assert JoinPath("", ["kafka", "topics", "restore_ready"]) == "kafka_topics_restore_ready";
    KafkaTopicUpper();
  }

  lemma KafkaTopicUpper()
    ensures Upper("kafka_topics_restore_ready") == "KAFKA_TOPICS_RESTORE_READY"
  {
  }

  /** `kafka.topics.restore_ready` sets `kafka_topic_restore_ready`. */
  lemma KafkaTopicAlias(text: string)
    ensures FlattenYaml(Nest(["kafka", "topics", "restore_ready"], text)) == map["kafka_topic_restore_ready" := text]
  {
    KafkaTopicKey();
    LeafAt(["kafka", "topics", "restore_ready"], "KAFKA_TOPICS_RESTORE_READY", text);
  }

  /** A top-level key is just upper-cased. */
  lemma TopLevelKey(text: string)
    ensures FlattenYaml(Nest(["database_url"], text)) == map["database_url" := text]
  {
    LeafAt(["database_url"], "DATABASE_URL", text);
  }

  /** A key outside the table is dropped without error. */
  lemma UnknownKeyDropped(text: string)
    ensures FlattenYaml(Nest(["unknown"], text)) == map[]
  {
    LeafAt(["unknown"], "UNKNOWN", text);
  }
}

=== FILE: database.dfy ===
/** The document metadata record, its column defaults and JSON-backed
    accessors, and the metadata table it lives in. */
module Database {
  import opened Common
  import opened Config

  type DocId = string

  /** A value of the free-form metadata dictionary, by the Python type the
      JSON decoder gives it. */
  datatype MetaValue = Text(s: string) | Integer(n: int) | Boolean(b: bool) | Float(repr: string) | Other

  /** One row of `document_metadata`. The three JSON text columns are kept
      decoded: `None` is SQL NULL. Timestamps are seconds. */
  datatype DocumentRecord = DocumentRecord(
    documentId: DocId,
    filename: string,
    contentType: string,
    sizeBytes: int,
    storageProvider: string,
    storagePath: string,
    storageTier: string,
    restoreStatus: Option<string>,
    restoreExpiry: Option<int>,
    archivedAt: Option<int>,
    tagsJson: Option<map<string, string>>,
    metadataJson: Option<map<string, MetaValue>>,
    embedding: Option<seq<real>>,
    createdAt: int,
    updatedAt: int)
  {
    /** The `tags` property: the decoded column, or `{}` when it is NULL. */
    function Tags(): map<string, string> {
      if tagsJson.Some? then tagsJson.value else map[]
    }

    /** The `tags` setter: an empty dictionary is stored as NULL. */
    function WithTags(value: map<string, string>): (r: DocumentRecord)
      ensures r.tagsJson.None? <==> value == map[]
      ensures r == this.(tagsJson := r.tagsJson)
    {
      this.(tagsJson := if value != map[] then Some(value) else None)
    }

    /** The `meta` property. */
    function Meta(): map<string, MetaValue> {
      if metadataJson.Some? then metadataJson.value else map[]
    }

    /** The `meta` setter. */
    function WithMeta(value: map<string, MetaValue>): (r: DocumentRecord)
      ensures r.metadataJson.None? <==> value == map[]
      ensures r == this.(metadataJson := r.metadataJson)
    {
      this.(metadataJson := if value != map[] then Some(value) else None)
    }

    /** The `embedding_vector` property. */
    function EmbeddingVector(): Option<seq<real>> {
      embedding
    }

    /** The `embedding_vector` setter: `None` and `[]` are both falsy and
        stored as NULL. */
    function WithEmbeddingVector(value: Option<seq<real>>): (r: DocumentRecord)
      ensures r.embedding.None? <==> (value.None? || value.value == [])
      ensures r == this.(embedding := r.embedding)
    {
      this.(embedding := if value.Some? && value.value != [] then value else None)
    }
  }

  /** A freshly inserted record: the column defaults apply. */
  function NewRecord(documentId: DocId, filename: string, contentType: string, sizeBytes: int,
                     provider: string, storagePath: string, now: int): (r: DocumentRecord)
    ensures r.storageTier == Standard.Value() && r.restoreStatus == Some(NotArchived.Value())
    ensures r.restoreExpiry.None? && r.archivedAt.None?
    ensures r.Tags() == map[] && r.Meta() == map[] && r.EmbeddingVector().None?
    ensures r.documentId == documentId && r.createdAt == now && r.updatedAt == now
  {
    DocumentRecord(documentId, filename, contentType, sizeBytes, provider, storagePath,
      "standard", Some("not_archived"), None, None, None, None, None, now, now)
  }

  /** The record a flush leaves once `changed` has been assigned over `d`.
      `updated_at` has an `onupdate` default, which fires only when the
      flush writes the row, so it moves to `now` exactly when some other
      column differs. */
  function Stamped(d: DocumentRecord, changed: DocumentRecord, now: int): (r: DocumentRecord)
    ensures r.(updatedAt := changed.updatedAt) == changed
    ensures r == d <==> changed.(updatedAt := d.updatedAt) == d
    ensures r != d ==> r.updatedAt == now
  {
    if changed.(updatedAt := d.updatedAt) == d then d else changed.(updatedAt := now)
  }

  /** Tags round-trip for every dictionary, the empty one included. */
  lemma TagsRoundTrip(d: DocumentRecord, value: map<string, string>)
    ensures d.WithTags(value).Tags() == value
  {
  }

  /** Metadata round-trips the same way. */
  lemma MetaRoundTrip(d: DocumentRecord, value: map<string, MetaValue>)
    ensures d.WithMeta(value).Meta() == value
  {
  }

  /** The embedding reads back what was set, except that an empty list
      reads back as `None`. */
  lemma EmbeddingRoundTrip(d: DocumentRecord, value: Option<seq<real>>)
    ensures value.Some? && value.value != [] ==> d.WithEmbeddingVector(value).EmbeddingVector() == value
    ensures value == Some([]) ==> d.WithEmbeddingVector(value).EmbeddingVector() == None
  {
  }

  /** The `document_metadata` table: ids in insertion (rowid) order and the
      row for each id. */
  datatype Table = Table(rows: seq<DocId>, docs: map<DocId, DocumentRecord>) {
    /** `document_id` is unique: each id has exactly one row. */
    ghost predicate Valid() {
      && (forall i, j | 0 <= i < j < |rows| :: rows[i] != rows[j])
      && (forall i | 0 <= i < |rows| :: rows[i] in docs)
      && (forall id | id in docs :: id in rows && docs[id].documentId == id)
    }
  }

  const EmptyTable: Table := Table([], map[])

  /** `query.filter_by(document_id=id).first()`. */
  function Find(t: Table, id: DocId): (r: Option<DocumentRecord>)
    ensures r.Some? <==> id in t.docs
    ensures r.Some? ==> r.value == t.docs[id]
  {
    if id in t.docs then Some(t.docs[id]) else None
  }

  /** Every record is stored under its own id. */
  predicate Keyed(docs: map<DocId, DocumentRecord>) {
    forall id | id in docs :: docs[id].documentId == id
  }

  /** Committing a changed record in place: the rows and ids stay as they
      are and no other record changes. */
  function Save(t: Table, r: DocumentRecord): (t': Table)
    requires r.documentId in t.docs
    ensures t'.rows == t.rows && t'.docs.Keys == t.docs.Keys
    ensures Find(t', r.documentId) == Some(r)
    ensures forall id | id in t.docs && id != r.documentId :: t'.docs[id] == t.docs[id]
    ensures Keyed(t.docs) ==> Keyed(t'.docs)
  {
    Table(t.rows, t.docs[r.documentId := r])
  }

  /** A table with the same rows and ids as a valid one, each record under
      its own id, is valid. */
  lemma Reshaped(t: Table, t': Table)
    requires t.Valid() && t'.rows == t.rows && t'.docs.Keys == t.docs.Keys && Keyed(t'.docs)
    ensures t'.Valid()
  {
  }

  /** A valid table keeps each record under its own id. */
  lemma ValidKeyed(t: Table)
    requires t.Valid()
    ensures Keyed(t.docs)
  {
  }

  /** Inserting a new row; the unique index rejects a second row with the same id. */
  function Insert(t: Table, r: DocumentRecord): (t': Option<Table>)
    requires t.Valid()
    ensures t'.None? <==> r.documentId in t.docs
    ensures t'.Some? ==> t'.value.Valid() && t'.value.rows == t.rows + [r.documentId]
    ensures t'.Some? ==> Find(t'.value, r.documentId) == Some(r)
    ensures t'.Some? ==> forall id | id in t.docs :: Find(t'.value, id) == Find(t, id)
  {
    if r.documentId in t.docs then None
    else Some(Table(t.rows + [r.documentId], t.docs[r.documentId := r]))
  }

  /** `query.filter(p).all()`: the matching rows in rowid order. */
  function SelectRows(rows: seq<DocId>, docs: map<DocId, DocumentRecord>, p: DocumentRecord -> bool): (r: seq<DocumentRecord>)
    requires forall i | 0 <= i < |rows| :: rows[i] in docs
    ensures |r| <= |rows|
    ensures forall i | 0 <= i < |r| :: p(r[i]) && exists k | 0 <= k < |rows| :: rows[k] in docs && docs[rows[k]] == r[i]
    ensures forall k | 0 <= k < |rows| :: p(docs[rows[k]]) ==> docs[rows[k]] in r
  {
    if rows == [] then []
    else
      var rest := SelectRows(rows[1..], docs, p);
      assert forall k | 1 <= k < |rows| :: rows[k] == rows[1..][k - 1];
      if p(docs[rows[0]]) then [docs[rows[0]]] + rest else rest
  }

  /** No two records of a result share an id. */
  predicate DistinctIds(s: seq<DocumentRecord>) {
    forall i, j | 0 <= i < j < |s| :: s[i].documentId != s[j].documentId
  }

  /** Selecting from distinct, correctly keyed rows yields records with
      distinct ids, each one of the rows. */
  lemma {:induction false} SelectRowsDistinct(rows: seq<DocId>, docs: map<DocId, DocumentRecord>, p: DocumentRecord -> bool)
    requires forall i | 0 <= i < |rows| :: rows[i] in docs && docs[rows[i]].documentId == rows[i]
    requires forall i, j | 0 <= i < j < |rows| :: rows[i] != rows[j]
    ensures var r := SelectRows(rows, docs, p);
      (forall i | 0 <= i < |r| :: r[i].documentId in rows) && DistinctIds(r)
  {
    if rows != [] {
      var rest := SelectRows(rows[1..], docs, p);
      SelectRowsDistinct(rows[1..], docs, p);
      assert rows[0] !in rows[1..] by {
        assert forall k | 1 <= k < |rows| :: rows[k] == rows[1..][k - 1];
      }
      if p(docs[rows[0]]) {
        assert SelectRows(rows, docs, p) == [docs[rows[0]]] + rest;
        ConsDistinct(docs[rows[0]], rest, rows);
      } else {
        assert SelectRows(rows, docs, p) == rest;
      }
    }
  }

  lemma ConsDistinct(x: DocumentRecord, rest: seq<DocumentRecord>, rows: seq<DocId>)
    requires rows != [] && x.documentId == rows[0] && rows[0] !in rows[1..]
    requires (forall i | 0 <= i < |rest| :: rest[i].documentId in rows[1..]) && DistinctIds(rest)
    ensures (forall i | 0 <= i < |rest| + 1 :: ([x] + rest)[i].documentId in rows) && DistinctIds([x] + rest)
  {
    var r := [x] + rest;
    forall i | 1 <= i < |r| ensures r[i] == rest[i - 1] {}
  }

  function Select(t: Table, p: DocumentRecord -> bool): (r: seq<DocumentRecord>)
    requires t.Valid()
    ensures forall i | 0 <= i < |r| :: p(r[i]) && r[i].documentId in t.docs && t.docs[r[i].documentId] == r[i]
    ensures forall id | id in t.docs && p(t.docs[id]) :: t.docs[id] in r
    ensures DistinctIds(r)
  {
    SelectRowsDistinct(t.rows, t.docs, p);
    SelectRows(t.rows, t.docs, p)
  }
}

=== FILE: events.dfy ===
/** The events published to the message bus, as an append-only log. Only
    the kind of event and the document it concerns are kept; the transport
    itself is outside the model. */
module Events {
  datatype Event =
    | MovedToGlacier(documentId: string, previousTier: string, newTier: string)
    | RestoreInitiated(documentId: string)
    | RestoreReady(documentId: string)
    | RestoreExpired(documentId: string)

  function DocumentOf(e: Event): string {
    e.documentId
  }
}

=== FILE: factory.dfy ===
/** The provider factory: a fixed registry of three cloud providers and a
    memo cache of their instances. An instance is identified by the serial
    number of its construction. */
module Factory {
  import opened Common
  import Config

  /** The registry keys, in declaration order. */
  const Registry: seq<string> := ["aws_s3", "azure_blob", "gcp_storage"]

  predicate Registered(p: string) {
    p in Registry
  }

  /** A provider object; two instances are the same object iff their serials
      agree. */
  datatype Instance = Instance(provider: string, serial: nat)

  /** `_provider_instances`, and the serial the next construction gets. */
  datatype Cache = Cache(instances: map<string, Instance>, next: nat) {
    /** Cached instances are registered, keyed by their provider, and were
        constructed before `next`. */
    ghost predicate Valid() {
      forall p | p in instances :: Registered(p) && instances[p].provider == p && instances[p].serial < next
    }
  }

  const EmptyCache: Cache := Cache(map[], 0)

  datatype Got = Got(instance: Instance, cache: Cache) | Unsupported(message: string)

  /** `get_storage_provider(provider)`: `None` means the configured provider;
      an unregistered provider raises `ValueError`; otherwise the cached
      instance, constructed on first use. */
  function GetStorageProvider(c: Cache, provider: Option<string>, settings: Config.Settings): (g: Got)
    requires c.Valid()
    ensures var p := if provider.None? then settings.storageProvider.Value() else provider.value;
      && (g.Unsupported? <==> !Registered(p))
      && (g.Unsupported? ==> g.message == "Unsupported storage provider: " + p)
      && (g.Got? ==> g.cache.Valid() && g.instance.provider == p && p in g.cache.instances && g.cache.instances[p] == g.instance)
      && (g.Got? && p in c.instances ==> g.instance == c.instances[p] && g.cache == c)
      && (g.Got? ==> forall q | q in c.instances :: q in g.cache.instances && g.cache.instances[q] == c.instances[q])
      && (g.Got? && p !in c.instances ==> g.instance.serial == c.next)
  {
    var p := if provider.None? then settings.storageProvider.Value() else provider.value;
    if !Registered(p) then Unsupported("Unsupported storage provider: " + p)
    else if p in c.instances then Got(c.instances[p], c)
    else
      var inst := Instance(p, c.next);
      Got(inst, Cache(c.instances[p := inst], c.next + 1))
  }

  /** The configured provider is always registered, so the default call
      never raises. */
  lemma DefaultResolves(c: Cache, settings: Config.Settings)
    requires c.Valid()
    ensures GetStorageProvider(c, None, settings) == GetStorageProvider(c, Some(settings.storageProvider.Value()), settings)
    ensures GetStorageProvider(c, None, settings).Got?
  {
  }

  /** A second call for the same provider returns the same instance and
      changes nothing. */
  lemma CachedInstanceReturned(c: Cache, provider: Option<string>, settings: Config.Settings)
    requires c.Valid() && GetStorageProvider(c, provider, settings).Got?
    ensures var g := GetStorageProvider(c, provider, settings);
      GetStorageProvider(g.cache, provider, settings) == g
  {
  }

  /** The local provider cannot be selected. */
  lemma LocalNotSelectable(c: Cache, settings: Config.Settings)
    requires c.Valid()
    ensures GetStorageProvider(c, Some("local"), settings).Unsupported?
    ensures |Registry| == 3
  {
  }

  /** Fill the cache for `Registry[i..]`. */
  function FillFrom(c: Cache, i: nat): (c': Cache)
    requires c.Valid() && i <= |Registry|
    ensures c'.Valid()
    ensures forall j | i <= j < |Registry| :: Registry[j] in c'.instances
    ensures forall q | q in c.instances :: q in c'.instances && c'.instances[q] == c.instances[q]
    ensures forall q | q in c'.instances && q !in c.instances :: q in Registry[i..] && c'.instances[q].serial >= c.next
    ensures c'.next >= c.next
    decreases |Registry| - i
  {
    if i == |Registry| then c
    else
      var p := Registry[i];
      var c1 := if p in c.instances then c else Cache(c.instances[p := Instance(p, c.next)], c.next + 1);
      var c' := FillFrom(c1, i + 1);
      FillStep(c, c1, c', i);
      c'
  }

  /** One step of the fill, as the recursive call's contract sees it. */
  lemma FillStep(c: Cache, c1: Cache, c': Cache, i: nat)
    requires c.Valid() && i < |Registry|
    requires c1 == if Registry[i] in c.instances then c else Cache(c.instances[Registry[i] := Instance(Registry[i], c.next)], c.next + 1)
    requires forall q | q in c1.instances :: q in c'.instances && c'.instances[q] == c1.instances[q]
    requires forall q | q in c'.instances && q !in c1.instances :: q in Registry[i + 1..] && c'.instances[q].serial >= c1.next
    ensures Registry[i] in c'.instances
    ensures forall q | q in c.instances :: q in c'.instances && c'.instances[q] == c.instances[q]
    ensures forall q | q in c'.instances && q !in c.instances :: q in Registry[i..] && c'.instances[q].serial >= c.next
  {
    assert Registry[i..] == [Registry[i]] + Registry[i + 1..];
  }

  /** `get_all_providers`: every registered provider instantiated once,
      existing instances kept, and a copy of the cache returned. */
  function GetAllProviders(c: Cache): (out: (map<string, Instance>, Cache))
    requires c.Valid()
    ensures out.1.Valid() && out.0 == out.1.instances
    ensures out.0.Keys == set p | p in Registry
    ensures forall q | q in c.instances :: out.0[q] == c.instances[q]
  {
    var c' := FillFrom(c, 0);
    (c'.instances, c')
  }

  /** After `get_all_providers`, `get_storage_provider` hands out the very
      instances it returned. */
  lemma AllThenGet(c: Cache, p: string, settings: Config.Settings)
    requires c.Valid() && Registered(p)
    ensures var (all, c') := GetAllProviders(c);
      GetStorageProvider(c', Some(p), settings) == Got(all[p], c')
  {
  }

  /** `clear_provider_cache`. */
  function ClearProviderCache(c: Cache): (c': Cache)
    ensures c'.instances == map[] && c'.next == c.next
  {
    c.(instances := map[])
  }

  /** After clearing, the next call constructs a new object, distinct from
      every instance handed out before. */
  lemma ClearGivesFreshInstance(c: Cache, p: string, settings: Config.Settings)
    requires c.Valid() && Registered(p)
    ensures var g := GetStorageProvider(ClearProviderCache(c), Some(p), settings);
      g.Got? && forall q | q in c.instances :: g.instance != c.instances[q]
  {
  }
}

=== FILE: gcp_storage.dfy ===
/** The Google Cloud Storage adapter over an abstract bucket. Storage
    classes change by rewriting the object; every class is readable at
    once, so there is no pending restore. */
module GcpStorage {
  import opened Common
  import opened StorageBase

  /** An object: its storage class as reported (possibly empty), and content. */
  datatype GcsObject = GcsObject(storageClass: Option<string>, data: Bytes)

  /** The SDK calls the adapter issues. */
  datatype Call = ExistsCall | Reload | DownloadBytes | UpdateClass

  /** The bucket, and the calls that raise a `GoogleCloudError` (with its
      text) on a given object. */
  datatype Bucket = Bucket(objects: map<string, GcsObject>, faults: map<(string, Call), string>)

  datatype Raised = Ok | NotFound | Failed(text: string)

  function Raises(b: Bucket, key: string, call: Call): (r: Raised)
    ensures r.Ok? ==> key in b.objects || call == ExistsCall
    ensures r.NotFound? <==> (key, call) !in b.faults && key !in b.objects && call != ExistsCall
  {
    if (key, call) in b.faults then Failed(b.faults[(key, call)])
    else if key !in b.objects && call != ExistsCall then NotFound
    else Ok
  }

  /** `blob.exists()`, when it does not raise. */
  predicate Exists(b: Bucket, key: string) {
    key in b.objects
  }

  /** `STORAGE_TIER_MAP.get(tier)`. */
  function TierToClass(tier: string): Option<string> {
    if tier == "standard" then Some("STANDARD")
    else if tier == "infrequent" then Some("NEARLINE")
    else if tier == "archive" then Some("COLDLINE")
    else if tier == "deep_archive" then Some("ARCHIVE")
    else None
  }

  /** `STORAGE_CLASS_TO_TIER.get(cls)`. */
  function ClassToTier(cls: string): Option<string> {
    if cls == "STANDARD" then Some("standard")
    else if cls == "NEARLINE" then Some("infrequent")
    else if cls == "COLDLINE" then Some("archive")
    else if cls == "ARCHIVE" then Some("deep_archive")
    else None
  }

  /** The two maps are mutual inverses. */
  lemma TierMapsInverse(tier: string, cls: string)
    ensures TierToClass(tier).Some? ==> ClassToTier(TierToClass(tier).value) == Some(tier)
    ensures ClassToTier(cls).Some? ==> TierToClass(ClassToTier(cls).value) == Some(cls)
  {
  }

  /** `blob.storage_class or 'STANDARD'`. */
  function ClassOf(o: GcsObject): string {
    if Truthy(o.storageClass) then o.storageClass.value else "STANDARD"
  }

  /** `download`: an existence check, then the content. */
  function Download(b: Bucket, key: string): (r: RetrieveResult)
    ensures r.success ==> key in b.objects && r.data == b.objects[key].data
    ensures (key, ExistsCall) !in b.faults && key !in b.objects ==> !r.success && r.message == "Document not found in Google Cloud Storage"
    ensures key in b.objects && (forall c :: (key, c) !in b.faults) ==> r.success
  {
    var probe := Raises(b, key, ExistsCall);
    if probe.Failed? then RetrieveFailure("Failed to download from GCP Storage: " + probe.text)
    else if !Exists(b, key) then RetrieveFailure("Document not found in Google Cloud Storage")
    else
      match Raises(b, key, DownloadBytes)
      case NotFound => RetrieveFailure("Document not found in Google Cloud Storage")
      case Failed(t) => RetrieveFailure("Failed to download from GCP Storage: " + t)
      case Ok =>
        match Raises(b, key, Reload)
        case NotFound => RetrieveFailure("Document not found in Google Cloud Storage")
        case Failed(t) => RetrieveFailure("Failed to download from GCP Storage: " + t)
        case Ok => RetrieveResult(true, b.objects[key].data, "Document retrieved successfully from Google Cloud Storage")
  }

  /** `move_to_archive`: rewrite into the target class unless already there.
      An unknown tier targets ARCHIVE. */
  function MoveToArchive(b: Bucket, key: string, tier: string): (out: Outcome<ArchiveResult, Bucket>)
    ensures var target := TierToClass(tier).GetOr("ARCHIVE");
      && (out.mutated <==> Raises(b, key, Reload).Ok? && ClassOf(b.objects[key]) != target)
      && (out.result.success <==> Raises(b, key, Reload).Ok? && (!out.mutated || Raises(b, key, UpdateClass).Ok?))
      && (out.result.success ==> out.result.newTier == tier && key in out.state.objects && ClassOf(out.state.objects[key]) == target)
      && (out.result.success ==> out.result.previousTier == ClassToTier(ClassOf(b.objects[key])).GetOr("standard"))
      && (!out.result.success ==> out.state == b)
      && (Raises(b, key, Reload).NotFound? ==> out.result.message == "Document not found")
      && out.state.faults == b.faults && out.state.objects.Keys == b.objects.Keys
  {
    match Raises(b, key, Reload)
    case NotFound => Outcome(ArchiveFailure("Document not found"), b, false)
    case Failed(t) => Outcome(ArchiveFailure("Failed to move to archive: " + t), b, false)
    case Ok =>
      var o := b.objects[key];
      var current := ClassOf(o);
      var currentTier := ClassToTier(current).GetOr("standard");
      var target := TierToClass(tier).GetOr("ARCHIVE");
      if current == target then
        Outcome(ArchiveResult(true, "Document is already in " + tier + " storage", currentTier, tier), b, false)
      else
        match Raises(b, key, UpdateClass)
        case NotFound => Outcome(ArchiveFailure("Document not found"), b, true)
        case Failed(t) => Outcome(ArchiveFailure("Failed to move to archive: " + t), b, true)
        case Ok =>
          Outcome(ArchiveResult(true, "Document moved to " + tier + " successfully", currentTier, tier),
            b.(objects := b.objects[key := o.(storageClass := Some(target))]), true)
  }

  /** Moving to the tier an object already has is a successful no-op. */
  lemma MoveIdempotent(b: Bucket, key: string, tier: string)
    requires MoveToArchive(b, key, tier).result.success
    ensures var b' := MoveToArchive(b, key, tier).state;
      && !MoveToArchive(b', key, tier).mutated
      && MoveToArchive(b', key, tier).state == b'
  {
  }

  const ColdClasses: set<string> := {"ARCHIVE", "COLDLINE", "NEARLINE"}

  /** `restore_from_archive`: a cold object is rewritten to STANDARD at once.
      Neither `restore_days` nor `restore_tier` plays a part. */
  function RestoreFromArchive(b: Bucket, key: string, days: int, restoreTier: string): (out: Outcome<RestoreResult, Bucket>)
    ensures out.mutated <==> Raises(b, key, Reload).Ok? && ClassOf(b.objects[key]) in ColdClasses
    ensures out.result.success ==> out.result.isRetrievable && out.result.restoreStatus in {"not_archived", "restored"}
    ensures out.result.success ==> out.result.restoreExpiry.None? && out.result.estimatedCompletion.None?
    ensures out.result.success && out.mutated ==>
      out.result.restoreStatus == "restored" && key in out.state.objects && ClassOf(out.state.objects[key]) == "STANDARD"
    ensures !out.result.success || !out.mutated ==> out.state == b
    ensures Raises(b, key, Reload).NotFound? ==> out.result.message == "Document not found"
    ensures out.state.faults == b.faults && out.state.objects.Keys == b.objects.Keys
    // The reload fails.
    ensures Raises(b, key, Reload).NotFound? ==> out.result == RestoreFailure("Document not found") && out.state == b
    ensures Raises(b, key, Reload).Failed? ==>
      out.result == RestoreFailure("Failed to restore: " + Raises(b, key, Reload).text) && out.state == b
    // STANDARD, or a class outside the three cold ones.
    ensures Raises(b, key, Reload).Ok? && ClassOf(b.objects[key]) == "STANDARD" ==>
      out.result == RestoreResult(true, "Document is already in standard storage", "not_archived", None, None, true)
      && out.state == b
    ensures Raises(b, key, Reload).Ok? && ClassOf(b.objects[key]) != "STANDARD" && ClassOf(b.objects[key]) !in ColdClasses ==>
      out.result == RestoreResult(true, "Document is accessible", "not_archived", None, None, true)
      && out.state == b
    // A cold class is rewritten to STANDARD.
    ensures out.mutated && Raises(b, key, UpdateClass).Ok? ==>
      && out.result == RestoreResult(true, "Document moved from " + ClassOf(b.objects[key]) + " to STANDARD storage class",
           "restored", None, None, true)
      && out.state.objects == b.objects[key := b.objects[key].(storageClass := Some("STANDARD"))]
    ensures out.mutated && Raises(b, key, UpdateClass).NotFound? ==> out.result == RestoreFailure("Document not found")
    ensures out.mutated && Raises(b, key, UpdateClass).Failed? ==>
      out.result == RestoreFailure("Failed to restore: " + Raises(b, key, UpdateClass).text)
  {
    match Raises(b, key, Reload)
    case NotFound => Outcome(RestoreFailure("Document not found"), b, false)
    case Failed(t) => Outcome(RestoreFailure("Failed to restore: " + t), b, false)
    case Ok =>
      var o := b.objects[key];
      var current := ClassOf(o);
      if current == "STANDARD" then
        Outcome(RestoreResult(true, "Document is already in standard storage", "not_archived", None, None, true), b, false)
      else if current in ColdClasses then
        match Raises(b, key, UpdateClass)
        case NotFound => Outcome(RestoreFailure("Document not found"), b, true)
        case Failed(t) => Outcome(RestoreFailure("Failed to restore: " + t), b, true)
        case Ok =>
          Outcome(RestoreResult(true, "Document moved from " + current + " to STANDARD storage class", "restored", None, None, true),
            b.(objects := b.objects[key := o.(storageClass := Some("STANDARD"))]), true)
      else
        Outcome(RestoreResult(true, "Document is accessible", "not_archived", None, None, true), b, false)
  }

  /** After a successful restore the object is in STANDARD: restoring it
      again is a successful no-op that reports not_archived. */
  lemma RestoreIdempotent(b: Bucket, key: string, days: int, restoreTier: string)
    requires RestoreFromArchive(b, key, days, restoreTier).result.success
    ensures var b' := RestoreFromArchive(b, key, days, restoreTier).state;
      var again := RestoreFromArchive(b', key, days, restoreTier);
      && !again.mutated && again.state == b'
      && again.result.success && again.result.restoreStatus == "not_archived"
  {
  }

  /** `get_archive_status`: always retrievable; archived exactly for
      ARCHIVE and COLDLINE. */
  function GetArchiveStatus(b: Bucket, key: string): (r: RestoreResult)
    ensures r.success <==> Raises(b, key, ExistsCall).Ok? && key in b.objects && Raises(b, key, Reload).Ok?
    ensures r.success ==> r.isRetrievable
    ensures r.success ==> (r.restoreStatus == "archived" <==> ClassOf(b.objects[key]) in {"ARCHIVE", "COLDLINE"})
    ensures r.success ==> r.restoreStatus in {"archived", "not_archived"}
    ensures Raises(b, key, ExistsCall).Ok? && key !in b.objects ==> r.message == "Document not found"
  {
    var probe := Raises(b, key, ExistsCall);
    if probe.Failed? then RestoreFailure("Unexpected error: " + probe.text)
    else if !Exists(b, key) then RestoreFailure("Document not found")
    else
      match Raises(b, key, Reload)
      case NotFound => RestoreFailure("Document not found")
      case Failed(t) => RestoreFailure("Unexpected error: " + t)
      case Ok =>
        var current := ClassOf(b.objects[key]);
        RestoreResult(true, "Document is in " + current + " storage class (immediately accessible)",
          if current in {"ARCHIVE", "COLDLINE"} then "archived" else "not_archived", None, None, true)
  }

  /** NEARLINE, the infrequent tier, reads as not archived. */
  lemma NearlineReadsNotArchived(b: Bucket, key: string)
    requires key in b.objects && ClassOf(b.objects[key]) == "NEARLINE"
    requires (key, ExistsCall) !in b.faults && (key, Reload) !in b.faults
    ensures GetArchiveStatus(b, key).restoreStatus == "not_archived"
  {
  }
}

=== FILE: lifecycle.dfy ===
/** Age-based archival and the two restore sweeps, over the metadata table,
    the configured provider and the event log. The clock is the input `now`
    (seconds); the date parser is the input `parse`; `commitErrors` names
    the documents whose database commit raises, with the error text. */
module Lifecycle {
  import opened Common
  import opened StorageBase
  import opened Config
  import opened Database
  import opened Events
  import Provider

  const DAY: int := 86400

  /** Everything a sweep reads and writes. */
  datatype World = World(table: Table, backend: Provider.Backend, events: seq<Event>)

  // ---------------------------------------------------------------------
  // Eligibility.
  // ---------------------------------------------------------------------

  /** The age threshold in days: an explicit value, else the deep-archive
      setting for a DEEP_ARCHIVE target and the archive setting otherwise. */
  function Threshold(days: Option<int>, target: StorageTier, settings: Settings): (d: int)
    ensures days.Some? ==> d == days.value
    ensures days.None? ==> d == (if target == DeepArchive then settings.lifecycleDeepArchiveAfterDays else settings.lifecycleArchiveAfterDays)
  {
    if days.Some? then days.value
    else if target == DeepArchive then settings.lifecycleDeepArchiveAfterDays
    else settings.lifecycleArchiveAfterDays
  }

  /** With the shipped settings a document is archived after 90 days and
      deep-archived after 365. */
  lemma DefaultThresholds(target: StorageTier)
    ensures Threshold(None, target, Defaults) == (if target == DeepArchive then 365 else 90)
  {
  }

  /** The tiers a document may be moved out of for a given target. */
  function EligibleTiers(target: StorageTier): (r: set<string>)
    ensures "standard" in r && r <= TierValues
    ensures target in {Archive, DeepArchive} ==> target.Value() !in r
  {
    if target == DeepArchive then {"standard", "infrequent", "archive"}
    else if target == Archive then {"standard", "infrequent"}
    else {"standard"}
  }

  /** How cold a tier is. */
  function Rank(t: StorageTier): nat {
    match t
    case Standard => 0
    case Infrequent => 1
    case Archive => 2
    case DeepArchive => 3
  }

  /** For every target colder than standard, the eligible tiers are exactly
      the strictly warmer ones. */
  lemma EligibleAreWarmer(target: StorageTier)
    requires target != Standard
    ensures forall t: StorageTier :: t.Value() in EligibleTiers(target) <==> Rank(t) < Rank(target)
  {
    forall t: StorageTier ensures t.Value() in EligibleTiers(target) <==> Rank(t) < Rank(target) {
      VocabularyRoundTrip(t, RestoreStatus.NotArchived);
    }
  }

  predicate Eligible(d: DocumentRecord, target: StorageTier, cutoff: int) {
    d.createdAt <= cutoff && d.storageTier in EligibleTiers(target)
  }

  /** `get_documents_for_archival`: every record created at or before
      `now - days` whose tier is eligible, in table order. */
  function DocumentsForArchival(t: Table, days: Option<int>, target: StorageTier, settings: Settings, now: int): (r: seq<DocumentRecord>)
    requires t.Valid()
    ensures var cutoff := now - Threshold(days, target, settings) * DAY;
      && (forall i | 0 <= i < |r| :: Eligible(r[i], target, cutoff) && r[i].documentId in t.docs && t.docs[r[i].documentId] == r[i])
      && (forall id | id in t.docs && Eligible(t.docs[id], target, cutoff) :: t.docs[id] in r)
    ensures DistinctIds(r)
  {
    var cutoff := now - Threshold(days, target, settings) * DAY;
    Select(t, d => Eligible(d, target, cutoff))
  }

  // ---------------------------------------------------------------------
  // Archiving one document and a batch.
  // ---------------------------------------------------------------------

  /** One line of an archival run's report. */
  datatype ArchiveEntry =
    | WouldArchive(documentId: string, filename: string, currentTier: string, ageDays: int)
    | Moved(documentId: string, filename: string, previousTier: string, newTier: string, archivedAt: int)
    | MoveFailed(documentId: string, error: string)

  /** `storage_tier or "standard"`. */
  function PreviousTier(d: DocumentRecord): (t: string)
    ensures t != ""
    ensures d.storageTier != "" ==> t == d.storageTier
  {
    if d.storageTier == "" then "standard" else d.storageTier
  }

  /** The record after a successful move to `tier`. */
  function MarkArchived(d: DocumentRecord, tier: string, now: int): (d': DocumentRecord)
    ensures d'.documentId == d.documentId && d'.storagePath == d.storagePath
    ensures d'.storageTier == tier && d'.restoreStatus == Some("archived") && d'.archivedAt == Some(now)
  {
    Stamped(d, d.(storageTier := tier, restoreStatus := Some("archived"), archivedAt := Some(now)), now)
  }

  /** What handling one document does: its report line, the table
      afterwards, and the events it published. */
  datatype Step<E> = Step(entry: E, table: Table, emitted: seq<Event>)

  /** `archive_document`, given what the provider's `move_to_archive`
      answered: a provider failure or a failing commit (rolled back) leaves
      the table as it was and publishes nothing; success archives the
      record and publishes exactly one moved-to-glacier event. */
  function ArchiveDocument(t: Table, d: DocumentRecord, o: Outcome<ArchiveResult, Provider.Backend>, target: StorageTier, now: int, commitErrors: map<DocId, string>): (s: Step<ArchiveEntry>)
    requires Keyed(t.docs) && d.documentId in t.docs
    ensures s.entry.Moved? <==> o.result.success && d.documentId !in commitErrors
    ensures !o.result.success ==> s.entry == MoveFailed(d.documentId, o.result.message)
    ensures s.entry.documentId == d.documentId && !s.entry.WouldArchive?
    ensures Keyed(s.table.docs) && s.table.rows == t.rows && s.table.docs.Keys == t.docs.Keys
    ensures s.entry.Moved? ==>
      && s.table.docs[d.documentId] == MarkArchived(d, target.Value(), now)
      && s.emitted == [MovedToGlacier(d.documentId, PreviousTier(d), target.Value())]
      && s.entry.previousTier == PreviousTier(d) && s.entry.newTier == target.Value()
    ensures !s.entry.Moved? ==> s.table == t && s.emitted == []
    ensures forall id | id in t.docs && id != d.documentId :: s.table.docs[id] == t.docs[id]
  {
    if !o.result.success then
      Step(MoveFailed(d.documentId, o.result.message), t, [])
    else if d.documentId in commitErrors then
      Step(MoveFailed(d.documentId, commitErrors[d.documentId]), t, [])
    else
      var prev := PreviousTier(d);
      Step(Moved(d.documentId, d.filename, prev, target.Value(), now),
        Save(t, MarkArchived(d, target.Value(), now)),
        [MovedToGlacier(d.documentId, prev, target.Value())])
  }

  /** The provider's `move_to_archive` with the target tier fixed. */
  type Mover = (Provider.Backend, string) -> Outcome<ArchiveResult, Provider.Backend>

  function MoverFor(target: StorageTier): Mover {
    (be: Provider.Backend, path: string) => Provider.MoveToArchive(be, path, target.Value())
  }

  /** The live loop of `run_lifecycle_archival`, with its two counters. */
  datatype ArchiveBatch = ArchiveBatch(
    entries: seq<ArchiveEntry>, successful: nat, failed: nat,
    table: Table, backend: Provider.Backend, emitted: seq<Event>)

  function ArchiveAll(t: Table, be: Provider.Backend, move: Mover, docs: seq<DocumentRecord>, target: StorageTier, now: int, commitErrors: map<DocId, string>): (b: ArchiveBatch)
    requires Keyed(t.docs)
    requires forall i | 0 <= i < |docs| :: docs[i].documentId in t.docs
    ensures |b.entries| == |docs| && b.successful + b.failed == |docs|
    ensures Keyed(b.table.docs) && b.table.rows == t.rows && b.table.docs.Keys == t.docs.Keys
    decreases |docs|
  {
    if docs == [] then ArchiveBatch([], 0, 0, t, be, [])
    else
      var o := move(be, docs[0].storagePath);
      var s := ArchiveDocument(t, docs[0], o, target, now, commitErrors);
      var rest := ArchiveAll(s.table, o.state, move, docs[1..], target, now, commitErrors);
      ArchiveBatch([s.entry] + rest.entries,
        rest.successful + (if s.entry.Moved? then 1 else 0),
        rest.failed + (if s.entry.Moved? then 0 else 1),
        rest.table, rest.backend, s.emitted + rest.emitted)
  }

  /** The provider's state before each move of a batch, and after the last:
      each move sees the state the earlier moves left. */
  function MoveStates(be: Provider.Backend, move: Mover, docs: seq<DocumentRecord>): (bs: seq<Provider.Backend>)
    ensures |bs| == |docs| + 1 && bs[0] == be
    ensures forall i | 0 <= i < |docs| :: bs[i + 1] == move(bs[i], docs[i].storagePath).state
    decreases |docs|
  {
    if docs == [] then [be]
    else
      var rest := MoveStates(move(be, docs[0].storagePath).state, move, docs[1..]);
      assert forall i | 1 <= i < |docs| :: docs[i] == docs[1..][i - 1] && ([be] + rest)[i + 1] == rest[i];
      [be] + rest
  }

  /** The states after the first move are those of the rest of the batch. */
  lemma MoveStatesTail(be: Provider.Backend, move: Mover, docs: seq<DocumentRecord>, i: nat)
    requires 0 < i <= |docs|
    ensures MoveStates(be, move, docs)[i] == MoveStates(move(be, docs[0].storagePath).state, move, docs[1..])[i - 1]
  {
  }

  /** One turn of the batch loop: the rest of the batch runs on the table
      and provider state the first document left. */
  lemma ArchiveAllStep(t: Table, be: Provider.Backend, move: Mover, docs: seq<DocumentRecord>, target: StorageTier, now: int, commitErrors: map<DocId, string>)
    requires Keyed(t.docs) && docs != [] && InTable(docs, t)
    ensures var o := move(be, docs[0].storagePath);
      var s := ArchiveDocument(t, docs[0], o, target, now, commitErrors);
      var b := ArchiveAll(t, be, move, docs, target, now, commitErrors);
      var rest := ArchiveAll(s.table, o.state, move, docs[1..], target, now, commitErrors);
      && Keyed(s.table.docs) && InTable(docs[1..], s.table)
      && b.entries == [s.entry] + rest.entries && b.table == rest.table && b.backend == rest.backend
  {
    var o := move(be, docs[0].storagePath);
    var s := ArchiveDocument(t, docs[0], o, target, now, commitErrors);
    InTableTail(docs, t, s.table);
  }

  /** The i-th document is archived exactly when its move succeeds against
      the provider state the earlier moves left and its commit succeeds. */
  lemma {:induction false} ArchiveAllMovesAt(t: Table, be: Provider.Backend, move: Mover, docs: seq<DocumentRecord>, target: StorageTier, now: int, commitErrors: map<DocId, string>, i: nat)
    requires Keyed(t.docs) && i < |docs| && InTable(docs, t)
    ensures ArchiveAll(t, be, move, docs, target, now, commitErrors).entries[i].Moved? <==>
      move(MoveStates(be, move, docs)[i], docs[i].storagePath).result.success && docs[i].documentId !in commitErrors
    decreases i
  {
    ArchiveAllStep(t, be, move, docs, target, now, commitErrors);
    if i > 0 {
      var o := move(be, docs[0].storagePath);
      var s := ArchiveDocument(t, docs[0], o, target, now, commitErrors);
      ArchiveAllMovesAt(s.table, o.state, move, docs[1..], target, now, commitErrors, i - 1);
      MoveStatesTail(be, move, docs, i);
      assert docs[i] == docs[1..][i - 1];
    }
  }

  /** The provider ends in the state the last move left. */
  lemma {:induction false} ArchiveAllBackend(t: Table, be: Provider.Backend, move: Mover, docs: seq<DocumentRecord>, target: StorageTier, now: int, commitErrors: map<DocId, string>)
    requires Keyed(t.docs) && InTable(docs, t)
    ensures ArchiveAll(t, be, move, docs, target, now, commitErrors).backend == MoveStates(be, move, docs)[|docs|]
    decreases |docs|
  {
    if docs != [] {
      ArchiveAllStep(t, be, move, docs, target, now, commitErrors);
      var o := move(be, docs[0].storagePath);
      var s := ArchiveDocument(t, docs[0], o, target, now, commitErrors);
      ArchiveAllBackend(s.table, o.state, move, docs[1..], target, now, commitErrors);
      MoveStatesTail(be, move, docs, |docs|);
    }
  }

  /** No record outside the batch changes. */
  lemma {:induction false} ArchiveAllKeeps(t: Table, be: Provider.Backend, move: Mover, docs: seq<DocumentRecord>, target: StorageTier, now: int, commitErrors: map<DocId, string>, id: DocId)
    requires Keyed(t.docs) && id in t.docs && !Listed(docs, id) && InTable(docs, t)
    ensures ArchiveAll(t, be, move, docs, target, now, commitErrors).table.docs[id] == t.docs[id]
    decreases |docs|
  {
    if docs != [] {
      ArchiveAllStep(t, be, move, docs, target, now, commitErrors);
      ListedTail(docs, id);
      var o := move(be, docs[0].storagePath);
      var s := ArchiveDocument(t, docs[0], o, target, now, commitErrors);
      ArchiveAllKeeps(s.table, o.state, move, docs[1..], target, now, commitErrors, id);
    }
  }

  /** The i-th document ends up marked archived when it was archived, and as
      it was otherwise. */
  lemma {:induction false} ArchiveAllTableAt(t: Table, be: Provider.Backend, move: Mover, docs: seq<DocumentRecord>, target: StorageTier, now: int, commitErrors: map<DocId, string>, i: nat)
    requires Keyed(t.docs) && DistinctIds(docs) && i < |docs| && InTable(docs, t)
    ensures var b := ArchiveAll(t, be, move, docs, target, now, commitErrors);
      b.table.docs[docs[i].documentId] ==
        if b.entries[i].Moved? then MarkArchived(docs[i], target.Value(), now) else t.docs[docs[i].documentId]
    decreases i
  {
    ArchiveAllStep(t, be, move, docs, target, now, commitErrors);
    DistinctTail(docs);
    var o := move(be, docs[0].storagePath);
    var s := ArchiveDocument(t, docs[0], o, target, now, commitErrors);
    if i == 0 {
      ArchiveAllKeeps(s.table, o.state, move, docs[1..], target, now, commitErrors, docs[0].documentId);
    } else {
      ArchiveAllTableAt(s.table, o.state, move, docs[1..], target, now, commitErrors, i - 1);
      assert docs[i] == docs[1..][i - 1] && docs[i].documentId != docs[0].documentId;
    }
  }

  /** An id not listed in a list is not listed in its tail, and is not the
      head's. */
  lemma ListedTail(docs: seq<DocumentRecord>, id: DocId)
    requires docs != [] && !Listed(docs, id)
    ensures !Listed(docs[1..], id) && docs[0].documentId != id
  {
    assert forall k | 0 <= k < |docs| - 1 :: docs[1..][k] == docs[k + 1];
  }

  /** A later record is the rest's and is not the first. */
  lemma DistinctAt(docs: seq<DocumentRecord>, i: nat)
    requires DistinctIds(docs) && 0 < i < |docs|
    ensures docs[i] == docs[1..][i - 1] && docs[i].documentId != docs[0].documentId
  {
  }

  /** Every record of the list has a row in the table. */
  predicate InTable(docs: seq<DocumentRecord>, t: Table) {
    forall k | 0 <= k < |docs| :: docs[k].documentId in t.docs
  }

  /** The tail of a list with rows in a table has rows in any table with the
      same ids. */
  lemma InTableTail(docs: seq<DocumentRecord>, t: Table, t': Table)
    requires docs != [] && InTable(docs, t) && t'.docs.Keys == t.docs.Keys
    ensures InTable(docs[1..], t') && docs[0].documentId in t.docs
  {
    assert forall k | 0 <= k < |docs| - 1 :: docs[1..][k] == docs[k + 1];
  }

  /** The tail of a list with distinct ids has distinct ids and does not
      list the head's id. */
  lemma DistinctTail(docs: seq<DocumentRecord>)
    requires docs != [] && DistinctIds(docs)
    ensures DistinctIds(docs[1..]) && !Listed(docs[1..], docs[0].documentId)
  {
    assert forall i | 0 <= i < |docs| - 1 :: docs[1..][i] == docs[i + 1];
  }

  /** The batch reports each document in turn. */
  lemma {:induction false} ArchiveAllEntries(t: Table, be: Provider.Backend, move: Mover, docs: seq<DocumentRecord>, target: StorageTier, now: int, commitErrors: map<DocId, string>)
    requires Keyed(t.docs)
    requires forall i | 0 <= i < |docs| :: docs[i].documentId in t.docs
    ensures LiveEntries(ArchiveAll(t, be, move, docs, target, now, commitErrors).entries, docs)
    decreases |docs|
  {
    if docs != [] {
      var o := move(be, docs[0].storagePath);
      var s := ArchiveDocument(t, docs[0], o, target, now, commitErrors);
      ArchiveAllEntries(s.table, o.state, move, docs[1..], target, now, commitErrors);
      var rest := ArchiveAll(s.table, o.state, move, docs[1..], target, now, commitErrors);
      assert ArchiveAll(t, be, move, docs, target, now, commitErrors).entries == [s.entry] + rest.entries;
      LiveEntriesCons(s.entry, rest.entries, docs);
    }
  }

  /** Report lines of a live run, one per document in order. */
  predicate LiveEntries(entries: seq<ArchiveEntry>, docs: seq<DocumentRecord>) {
    |entries| == |docs| &&
    forall i | 0 <= i < |docs| :: entries[i].documentId == docs[i].documentId && !entries[i].WouldArchive?
  }

  lemma LiveEntriesCons(e: ArchiveEntry, rest: seq<ArchiveEntry>, docs: seq<DocumentRecord>)
    requires docs != [] && e.documentId == docs[0].documentId && !e.WouldArchive?
    requires |rest| == |docs| - 1
    requires forall i | 0 <= i < |docs| - 1 :: rest[i].documentId == docs[1..][i].documentId && !rest[i].WouldArchive?
    ensures LiveEntries([e] + rest, docs)
  {
    forall i | 1 <= i < |docs| ensures ([e] + rest)[i].documentId == docs[i].documentId {
      assert ([e] + rest)[i] == rest[i - 1] && docs[i] == docs[1..][i - 1];
    }
  }

  /** The batch publishes one moved-to-glacier event per success, for the
      target tier. */
  lemma {:induction false} ArchiveAllLog(t: Table, be: Provider.Backend, move: Mover, docs: seq<DocumentRecord>, target: StorageTier, now: int, commitErrors: map<DocId, string>)
    requires Keyed(t.docs)
    requires forall i | 0 <= i < |docs| :: docs[i].documentId in t.docs
    ensures var b := ArchiveAll(t, be, move, docs, target, now, commitErrors);
      |b.emitted| == b.successful && MovedLog(b.emitted, target.Value())
    decreases |docs|
  {
    if docs != [] {
      var o := move(be, docs[0].storagePath);
      var s := ArchiveDocument(t, docs[0], o, target, now, commitErrors);
      ArchiveAllLog(s.table, o.state, move, docs[1..], target, now, commitErrors);
      var rest := ArchiveAll(s.table, o.state, move, docs[1..], target, now, commitErrors);
      assert ArchiveAll(t, be, move, docs, target, now, commitErrors).emitted == s.emitted + rest.emitted;
      assert MovedLog(s.emitted, target.Value());
      MovedLogAppend(s.emitted, rest.emitted, target.Value());
    }
  }

  /** Only moved-to-glacier events for `tier`. */
  predicate MovedLog(events: seq<Event>, tier: string) {
    forall j | 0 <= j < |events| :: events[j].MovedToGlacier? && events[j].newTier == tier
  }

  lemma MovedLogAppend(a: seq<Event>, b: seq<Event>, tier: string)
    requires MovedLog(a, tier) && MovedLog(b, tier)
    ensures MovedLog(a + b, tier)
  {
    forall j | |a| <= j < |a + b| ensures (a + b)[j] == b[j - |a|] {}
  }

  /** The summary `run_lifecycle_archival` returns. */
  datatype ArchivalReport = ArchivalReport(
    targetTier: string, dryRun: bool, totalEligible: nat, successful: nat, failed: nat, documents: seq<ArchiveEntry>)

  /** `(now - created_at).days`: whole days, rounded down. */
  function AgeDays(d: DocumentRecord, now: int): (a: int)
    ensures a * DAY <= now - d.createdAt < (a + 1) * DAY
  {
    (now - d.createdAt) / DAY
  }

  /** A run's report and the world afterwards. */
  datatype Run<R> = Run(report: R, world: World)

  /** `run_lifecycle_archival`: a dry run reports one would-archive entry
      per eligible document and touches nothing; a live run tries every
      eligible document once, and the successes and failures add up. */
  function RunLifecycleArchival(w: World, target: StorageTier, dryRun: bool, now: int, settings: Settings, commitErrors: map<DocId, string>): (out: Run<ArchivalReport>)
    requires w.table.Valid()
    ensures var docs := DocumentsForArchival(w.table, None, target, settings, now);
      && out.report.totalEligible == |docs| && |out.report.documents| == |docs|
      && (forall i | 0 <= i < |docs| :: out.report.documents[i].documentId == docs[i].documentId)
    ensures out.report.targetTier == target.Value() && out.report.dryRun == dryRun
    ensures out.world.table.Valid() && out.world.table.rows == w.table.rows && out.world.table.docs.Keys == w.table.docs.Keys
    ensures dryRun ==> out.world == w && out.report.successful == 0 && out.report.failed == 0
    ensures dryRun ==> forall i | 0 <= i < |out.report.documents| :: out.report.documents[i].WouldArchive?
    ensures !dryRun ==> out.report.successful + out.report.failed == out.report.totalEligible
    ensures !dryRun ==> exists added :: out.world.events == w.events + added && |added| == out.report.successful
  {
    var docs := DocumentsForArchival(w.table, None, target, settings, now);
    if dryRun then
      var entries := seq(|docs|, i requires 0 <= i < |docs| =>
        WouldArchive(docs[i].documentId, docs[i].filename, docs[i].storageTier, AgeDays(docs[i], now)));
      Run(ArchivalReport(target.Value(), true, |docs|, 0, 0, entries), w)
    else
      ValidKeyed(w.table);
      var b := ArchiveAll(w.table, w.backend, MoverFor(target), docs, target, now, commitErrors);
      Reshaped(w.table, b.table);
      ArchiveAllEntries(w.table, w.backend, MoverFor(target), docs, target, now, commitErrors);
      ArchiveAllLog(w.table, w.backend, MoverFor(target), docs, target, now, commitErrors);
      Run(ArchivalReport(target.Value(), false, |docs|, b.successful, b.failed, b.entries),
        World(b.table, b.backend, w.events + b.emitted))
  }

  /** A live run reports the batch loop's entries and keeps its table and
      provider state. */
  lemma LiveRunIsBatch(w: World, target: StorageTier, now: int, settings: Settings, commitErrors: map<DocId, string>)
    requires w.table.Valid()
    ensures Keyed(w.table.docs)
    ensures var docs := DocumentsForArchival(w.table, None, target, settings, now);
      var out := RunLifecycleArchival(w, target, false, now, settings, commitErrors);
      var b := ArchiveAll(w.table, w.backend, MoverFor(target), docs, target, now, commitErrors);
      && DistinctIds(docs) && InTable(docs, w.table)
      && (forall i | 0 <= i < |docs| :: w.table.docs[docs[i].documentId] == docs[i])
      && out.report.documents == b.entries && out.world.table == b.table && out.world.backend == b.backend
  {
    ValidKeyed(w.table);
  }

  /** The batch loop in full: the i-th document is archived exactly when its
      move succeeds, against the provider state the earlier moves left, and
      its commit succeeds; it is then marked archived and is otherwise
      unchanged, as is every record outside the batch. */
  lemma ArchiveAllEffect(t: Table, be: Provider.Backend, move: Mover, docs: seq<DocumentRecord>, target: StorageTier, now: int, commitErrors: map<DocId, string>)
    requires Keyed(t.docs) && DistinctIds(docs) && InTable(docs, t)
    ensures var b := ArchiveAll(t, be, move, docs, target, now, commitErrors);
      var bs := MoveStates(be, move, docs);
      && b.backend == bs[|docs|]
      && (forall i | 0 <= i < |docs| :: b.entries[i].Moved? <==>
            move(bs[i], docs[i].storagePath).result.success && docs[i].documentId !in commitErrors)
      && (forall i | 0 <= i < |docs| :: b.table.docs[docs[i].documentId] ==
            if b.entries[i].Moved? then MarkArchived(docs[i], target.Value(), now) else t.docs[docs[i].documentId])
      && (forall id | id in t.docs && !Listed(docs, id) :: b.table.docs[id] == t.docs[id])
  {
    ArchiveAllBackend(t, be, move, docs, target, now, commitErrors);
    var b := ArchiveAll(t, be, move, docs, target, now, commitErrors);
    var bs := MoveStates(be, move, docs);
    forall i | 0 <= i < |docs|
      ensures b.entries[i].Moved? <==> move(bs[i], docs[i].storagePath).result.success && docs[i].documentId !in commitErrors
      ensures b.table.docs[docs[i].documentId] ==
        if b.entries[i].Moved? then MarkArchived(docs[i], target.Value(), now) else t.docs[docs[i].documentId]
    {
      ArchiveAllMovesAt(t, be, move, docs, target, now, commitErrors, i);
      ArchiveAllTableAt(t, be, move, docs, target, now, commitErrors, i);
    }
    forall id | id in t.docs && !Listed(docs, id)
      ensures b.table.docs[id] == t.docs[id]
    {
      ArchiveAllKeeps(t, be, move, docs, target, now, commitErrors, id);
    }
  }

  /** What a live run does to the eligible documents and the provider: the
      i-th is archived exactly when its move succeeds, against the provider
      state the earlier moves left, and its commit succeeds; it is then
      marked archived, and is unchanged otherwise. */
  lemma ArchivalEffect(w: World, target: StorageTier, now: int, settings: Settings, commitErrors: map<DocId, string>)
    requires w.table.Valid()
    ensures var out := RunLifecycleArchival(w, target, false, now, settings, commitErrors);
      var docs := DocumentsForArchival(w.table, None, target, settings, now);
      var bs := MoveStates(w.backend, MoverFor(target), docs);
      && out.world.backend == bs[|docs|]
      && (forall i | 0 <= i < |docs| :: out.report.documents[i].Moved? <==>
            Provider.MoveToArchive(bs[i], docs[i].storagePath, target.Value()).result.success && docs[i].documentId !in commitErrors)
      && (forall i | 0 <= i < |docs| :: out.world.table.docs[docs[i].documentId] ==
            if out.report.documents[i].Moved? then MarkArchived(docs[i], target.Value(), now) else docs[i])
  {
    var docs := DocumentsForArchival(w.table, None, target, settings, now);
    LiveRunIsBatch(w, target, now, settings, commitErrors);
    ArchiveAllEffect(w.table, w.backend, MoverFor(target), docs, target, now, commitErrors);
  }

  /** A live run leaves every record that is not eligible as it was. */
  lemma ArchivalKeepsIneligible(w: World, target: StorageTier, now: int, settings: Settings, commitErrors: map<DocId, string>, id: DocId)
    requires w.table.Valid() && id in w.table.docs
    requires !Eligible(w.table.docs[id], target, now - Threshold(None, target, settings) * DAY)
    ensures RunLifecycleArchival(w, target, false, now, settings, commitErrors).world.table.docs[id] == w.table.docs[id]
  {
    var docs := DocumentsForArchival(w.table, None, target, settings, now);
    LiveRunIsBatch(w, target, now, settings, commitErrors);
    assert !Listed(docs, id);
    ArchiveAllKeeps(w.table, w.backend, MoverFor(target), docs, target, now, commitErrors, id);
  }

  // ---------------------------------------------------------------------
  // The restore-completion sweep.
  // ---------------------------------------------------------------------

  /** One line of the restore-status report. */
  datatype SweepEntry =
    | Completed(documentId: string, expiry: Option<int>)
    | StillInProgress(documentId: string)
    | SweepError(documentId: string, message: string)

  /** A probe that shows a completed restore. */
  predicate ShowsRestored(r: RestoreResult) {
    r.success && r.isRetrievable && r.restoreStatus == "restored"
  }

  /** The record once its restore completed. */
  function MarkRestored(d: DocumentRecord, parse: string -> Option<int>, probe: RestoreResult, now: int): (d': DocumentRecord)
    ensures d'.documentId == d.documentId && d'.storagePath == d.storagePath && d'.storageTier == d.storageTier
    ensures d'.restoreStatus == Some("restored")
    ensures d'.restoreExpiry == UpdatedExpiry(parse, probe.restoreExpiry, d.restoreExpiry)
  {
    Stamped(d, d.(restoreStatus := Some("restored"), restoreExpiry := UpdatedExpiry(parse, probe.restoreExpiry, d.restoreExpiry)), now)
  }

  /** One document of `check_and_update_restore_status`, given what the
      provider's `get_archive_status` reported. A failing commit counts as
      an error and changes nothing. */
  function CheckOne(t: Table, d: DocumentRecord, probe: RestoreResult, parse: string -> Option<int>, now: int, commitErrors: map<DocId, string>): (s: Step<SweepEntry>)
    requires Keyed(t.docs) && d.documentId in t.docs
    ensures s.entry.Completed? <==> ShowsRestored(probe) && d.documentId !in commitErrors
    ensures s.entry.StillInProgress? <==> probe.success && !ShowsRestored(probe)
    ensures s.entry.Completed? ==> s.table == Save(t, MarkRestored(d, parse, probe, now))
    ensures s.entry.documentId == d.documentId
    ensures s.entry.Completed? ==> s.emitted == [RestoreReady(d.documentId)]
    ensures !s.entry.Completed? ==> s.table == t && s.emitted == []
    ensures Keyed(s.table.docs) && s.table.rows == t.rows && s.table.docs.Keys == t.docs.Keys
    ensures forall id | id in t.docs && id != d.documentId :: s.table.docs[id] == t.docs[id]
  {
    if !probe.success then Step(SweepError(d.documentId, probe.message), t, [])
    else if !ShowsRestored(probe) then Step(StillInProgress(d.documentId), t, [])
    else if d.documentId in commitErrors then Step(SweepError(d.documentId, commitErrors[d.documentId]), t, [])
    else
      var d' := MarkRestored(d, parse, probe, now);
      Step(Completed(d.documentId, d'.restoreExpiry), Save(t, d'), [RestoreReady(d.documentId)])
  }

  /** The counts of `check_and_update_restore_status`, and what the loop
      leaves behind. */
  datatype SweepReport = SweepReport(checked: nat, restored: nat, stillInProgress: nat, errors: nat, documents: seq<SweepEntry>)

  /** What the loop leaves behind. `raised` is set when a commit failure
      escaped the loop, which then stopped at that document. */
  datatype SweepBatch = SweepBatch(report: SweepReport, table: Table, emitted: seq<Event>, raised: bool)

  /** The provider's `get_archive_status` against a fixed remote state: the
      sweep issues no mutating call, so every probe sees the same state. */
  type Probe = string -> RestoreResult

  function ProbeOf(be: Provider.Backend): Probe {
    (path: string) => Provider.GetArchiveStatus(be, path)
  }

  /** The document's restore has completed but committing it raises. */
  predicate CommitFailsAt(probe: Probe, d: DocumentRecord, commitErrors: map<DocId, string>) {
    ShowsRestored(probe(d.storagePath)) && d.documentId in commitErrors
  }

  /** The loop of `check_and_update_restore_status`. The handler for a
      failing commit does not roll the session back, and the failed flush
      has expired every loaded record, so the handler's own read of the
      document id raises again and the exception leaves the loop: earlier
      completions stay committed, later documents are never probed. With
      `rollsBack` the handler is taken to roll back first, and the failure
      is counted as an error like any other. */
  function CheckAll(t: Table, probe: Probe, docs: seq<DocumentRecord>, parse: string -> Option<int>, now: int, commitErrors: map<DocId, string>, rollsBack: bool): (b: SweepBatch)
    requires Keyed(t.docs) && InTable(docs, t)
    ensures b.report.checked == |b.report.documents| <= |docs|
    ensures !b.raised ==> b.report.checked == |docs|
    ensures b.report.checked == b.report.restored + b.report.stillInProgress + b.report.errors
    ensures Keyed(b.table.docs) && b.table.rows == t.rows && b.table.docs.Keys == t.docs.Keys
    decreases |docs|
  {
    if docs == [] then SweepBatch(SweepReport(0, 0, 0, 0, []), t, [], false)
    else if !rollsBack && CommitFailsAt(probe, docs[0], commitErrors) then
      SweepBatch(SweepReport(0, 0, 0, 0, []), t, [], true)
    else
      var s := CheckOne(t, docs[0], probe(docs[0].storagePath), parse, now, commitErrors);
      InTableTail(docs, t, s.table);
      var rest := CheckAll(s.table, probe, docs[1..], parse, now, commitErrors, rollsBack);
      var r := rest.report;
      SweepBatch(SweepReport(r.checked + 1,
          r.restored + (if s.entry.Completed? then 1 else 0),
          r.stillInProgress + (if s.entry.StillInProgress? then 1 else 0),
          r.errors + (if s.entry.SweepError? then 1 else 0),
          [s.entry] + r.documents),
        rest.table, s.emitted + rest.emitted, rest.raised)
  }

  /** One turn of the sweep loop that does not raise. */
  lemma CheckAllStep(t: Table, probe: Probe, docs: seq<DocumentRecord>, parse: string -> Option<int>, now: int, commitErrors: map<DocId, string>, rollsBack: bool)
    requires Keyed(t.docs) && docs != [] && InTable(docs, t)
    requires rollsBack || !CommitFailsAt(probe, docs[0], commitErrors)
    ensures var s := CheckOne(t, docs[0], probe(docs[0].storagePath), parse, now, commitErrors);
      var b := CheckAll(t, probe, docs, parse, now, commitErrors, rollsBack);
      var rest := CheckAll(s.table, probe, docs[1..], parse, now, commitErrors, rollsBack);
      && Keyed(s.table.docs) && InTable(docs[1..], s.table)
      && b.report.documents == [s.entry] + rest.report.documents
      && b.table == rest.table && b.raised == rest.raised && b.emitted == s.emitted + rest.emitted
      && b.report.restored == rest.report.restored + (if s.entry.Completed? then 1 else 0)
  {
    var s := CheckOne(t, docs[0], probe(docs[0].storagePath), parse, now, commitErrors);
    InTableTail(docs, t, s.table);
  }

  /** Some listed document's restore completed with a failing commit. */
  predicate AnyCommitFails(probe: Probe, docs: seq<DocumentRecord>, commitErrors: map<DocId, string>) {
    exists j | 0 <= j < |docs| :: CommitFailsAt(probe, docs[j], commitErrors)
  }

  lemma AnyCommitFailsCons(probe: Probe, docs: seq<DocumentRecord>, commitErrors: map<DocId, string>)
    requires docs != []
    ensures AnyCommitFails(probe, docs, commitErrors) <==>
      CommitFailsAt(probe, docs[0], commitErrors) || AnyCommitFails(probe, docs[1..], commitErrors)
  {
    assert forall j | 1 <= j < |docs| :: docs[j] == docs[1..][j - 1];
  }

  /** The loop raises exactly when the handler does not roll back and some
      listed document's restore completed with a failing commit. */
  lemma {:induction false} CheckAllRaised(t: Table, probe: Probe, docs: seq<DocumentRecord>, parse: string -> Option<int>, now: int, commitErrors: map<DocId, string>, rollsBack: bool)
    requires Keyed(t.docs) && InTable(docs, t)
    ensures CheckAll(t, probe, docs, parse, now, commitErrors, rollsBack).raised <==>
      !rollsBack && AnyCommitFails(probe, docs, commitErrors)
    decreases |docs|
  {
    if docs != [] {
      AnyCommitFailsCons(probe, docs, commitErrors);
      if rollsBack || !CommitFailsAt(probe, docs[0], commitErrors) {
        CheckAllStep(t, probe, docs, parse, now, commitErrors, rollsBack);
        var s := CheckOne(t, docs[0], probe(docs[0].storagePath), parse, now, commitErrors);
        CheckAllRaised(s.table, probe, docs[1..], parse, now, commitErrors, rollsBack);
      }
    }
  }

  /** Each line of a report is about the record in the same place:
      completed exactly when the probe shows it restored and its commit
      succeeds, still in progress exactly when the probe succeeds without
      showing that. */
  predicate EntriesMatch(ds: seq<SweepEntry>, probe: Probe, docs: seq<DocumentRecord>, commitErrors: map<DocId, string>)
    requires |ds| <= |docs|
  {
    forall i | 0 <= i < |ds| ::
      && ds[i].documentId == docs[i].documentId
      && (ds[i].Completed? <==> ShowsRestored(probe(docs[i].storagePath)) && docs[i].documentId !in commitErrors)
      && (ds[i].StillInProgress? <==> probe(docs[i].storagePath).success && !ShowsRestored(probe(docs[i].storagePath)))
  }

  lemma EntriesMatchCons(e: SweepEntry, rest: seq<SweepEntry>, probe: Probe, docs: seq<DocumentRecord>, commitErrors: map<DocId, string>)
    requires docs != [] && |rest| <= |docs| - 1
    requires e.documentId == docs[0].documentId
    requires e.Completed? <==> ShowsRestored(probe(docs[0].storagePath)) && docs[0].documentId !in commitErrors
    requires e.StillInProgress? <==> probe(docs[0].storagePath).success && !ShowsRestored(probe(docs[0].storagePath))
    requires EntriesMatch(rest, probe, docs[1..], commitErrors)
    ensures EntriesMatch([e] + rest, probe, docs, commitErrors)
  {
    forall i | 1 <= i < |rest| + 1 ensures ([e] + rest)[i] == rest[i - 1] && docs[i] == docs[1..][i - 1] {}
  }

  /** The report, line by line. */
  lemma {:induction false} CheckAllEntries(t: Table, probe: Probe, docs: seq<DocumentRecord>, parse: string -> Option<int>, now: int, commitErrors: map<DocId, string>, rollsBack: bool)
    requires Keyed(t.docs) && InTable(docs, t)
    ensures EntriesMatch(CheckAll(t, probe, docs, parse, now, commitErrors, rollsBack).report.documents, probe, docs, commitErrors)
    decreases |docs|
  {
    if docs != [] && (rollsBack || !CommitFailsAt(probe, docs[0], commitErrors)) {
      CheckAllStep(t, probe, docs, parse, now, commitErrors, rollsBack);
      var s := CheckOne(t, docs[0], probe(docs[0].storagePath), parse, now, commitErrors);
      CheckAllEntries(s.table, probe, docs[1..], parse, now, commitErrors, rollsBack);
      EntriesMatchCons(s.entry, CheckAll(s.table, probe, docs[1..], parse, now, commitErrors, rollsBack).report.documents, probe, docs, commitErrors);
    }
  }

  /** The i-th record is completed by the sweep: its probe shows it
      restored, its commit succeeds, and the loop got to it. */
  predicate Completes(probe: Probe, docs: seq<DocumentRecord>, commitErrors: map<DocId, string>, rollsBack: bool, i: nat)
    requires i < |docs|
  {
    && ShowsRestored(probe(docs[i].storagePath)) && docs[i].documentId !in commitErrors
    && (rollsBack || forall j | 0 <= j < i :: !CommitFailsAt(probe, docs[j], commitErrors))
  }

  lemma CompletesTail(probe: Probe, docs: seq<DocumentRecord>, commitErrors: map<DocId, string>, rollsBack: bool, i: nat)
    requires 0 < i < |docs|
    requires rollsBack || !CommitFailsAt(probe, docs[0], commitErrors)
    ensures Completes(probe, docs, commitErrors, rollsBack, i) <==> Completes(probe, docs[1..], commitErrors, rollsBack, i - 1)
  {
    assert docs[i] == docs[1..][i - 1];
    assert forall j | 1 <= j < i :: docs[j] == docs[1..][j - 1];
  }

  /** The i-th record ends up marked restored when the sweep completes it,
      and as it was otherwise. */
  lemma {:induction false} CheckAllTableAt(t: Table, probe: Probe, docs: seq<DocumentRecord>, parse: string -> Option<int>, now: int, commitErrors: map<DocId, string>, rollsBack: bool, i: nat)
    requires Keyed(t.docs) && DistinctIds(docs) && i < |docs| && InTable(docs, t)
    ensures CheckAll(t, probe, docs, parse, now, commitErrors, rollsBack).table.docs[docs[i].documentId] ==
      if Completes(probe, docs, commitErrors, rollsBack, i) then MarkRestored(docs[i], parse, probe(docs[i].storagePath), now)
      else t.docs[docs[i].documentId]
    decreases i, 1
  {
    if !rollsBack && CommitFailsAt(probe, docs[0], commitErrors) {
      CheckAllTableRaised(t, probe, docs, parse, now, commitErrors, i);
    } else if i == 0 {
      CheckAllTableHead(t, probe, docs, parse, now, commitErrors, rollsBack);
    } else {
      CheckAllTableLater(t, probe, docs, parse, now, commitErrors, rollsBack, i);
    }
  }

  /** A later record, when the loop does not raise on the first. */
  lemma {:induction false} CheckAllTableLater(t: Table, probe: Probe, docs: seq<DocumentRecord>, parse: string -> Option<int>, now: int, commitErrors: map<DocId, string>, rollsBack: bool, i: nat)
    requires Keyed(t.docs) && DistinctIds(docs) && 0 < i < |docs| && InTable(docs, t)
    requires rollsBack || !CommitFailsAt(probe, docs[0], commitErrors)
    ensures CheckAll(t, probe, docs, parse, now, commitErrors, rollsBack).table.docs[docs[i].documentId] ==
      if Completes(probe, docs, commitErrors, rollsBack, i) then MarkRestored(docs[i], parse, probe(docs[i].storagePath), now)
      else t.docs[docs[i].documentId]
    decreases i, 0
  {
    var s := CheckOne(t, docs[0], probe(docs[0].storagePath), parse, now, commitErrors);
    CheckAllStep(t, probe, docs, parse, now, commitErrors, rollsBack);
    DistinctTail(docs);
    CheckAllTableAt(s.table, probe, docs[1..], parse, now, commitErrors, rollsBack, i - 1);
    DistinctAt(docs, i);
    CheckAllTableTail(t, s.table, CheckAll(t, probe, docs, parse, now, commitErrors, rollsBack).table, probe, docs, parse, now, commitErrors, rollsBack, i);
  }

  /** When the loop raises on the first record, nothing changes. */
  lemma CheckAllTableRaised(t: Table, probe: Probe, docs: seq<DocumentRecord>, parse: string -> Option<int>, now: int, commitErrors: map<DocId, string>, i: nat)
    requires Keyed(t.docs) && i < |docs| && InTable(docs, t)
    requires CommitFailsAt(probe, docs[0], commitErrors)
    ensures CheckAll(t, probe, docs, parse, now, commitErrors, false).table == t
    ensures !Completes(probe, docs, commitErrors, false, i)
  {
    if i > 0 {
      assert CommitFailsAt(probe, docs[0], commitErrors);
    }
  }

  /** A later record fares as it does in the rest of the batch, whose
      starting table `s0` still holds it as it was. */
  lemma CheckAllTableTail(t: Table, s0: Table, final: Table, probe: Probe, docs: seq<DocumentRecord>, parse: string -> Option<int>, now: int, commitErrors: map<DocId, string>, rollsBack: bool, i: nat)
    requires 0 < i < |docs| && docs[i].documentId in t.docs && docs[i].documentId in s0.docs
    requires rollsBack || !CommitFailsAt(probe, docs[0], commitErrors)
    requires s0.docs[docs[i].documentId] == t.docs[docs[i].documentId]
    requires final.docs.Keys == t.docs.Keys
    requires final.docs[docs[1..][i - 1].documentId] ==
      if Completes(probe, docs[1..], commitErrors, rollsBack, i - 1) then MarkRestored(docs[1..][i - 1], parse, probe(docs[1..][i - 1].storagePath), now)
      else s0.docs[docs[1..][i - 1].documentId]
    ensures final.docs[docs[i].documentId] ==
      if Completes(probe, docs, commitErrors, rollsBack, i) then MarkRestored(docs[i], parse, probe(docs[i].storagePath), now)
      else t.docs[docs[i].documentId]
  {
    CompletesTail(probe, docs, commitErrors, rollsBack, i);
    assert docs[i] == docs[1..][i - 1];
  }

  /** The first record, when the loop does not raise on it. */
  lemma CheckAllTableHead(t: Table, probe: Probe, docs: seq<DocumentRecord>, parse: string -> Option<int>, now: int, commitErrors: map<DocId, string>, rollsBack: bool)
    requires Keyed(t.docs) && DistinctIds(docs) && docs != [] && InTable(docs, t)
    requires rollsBack || !CommitFailsAt(probe, docs[0], commitErrors)
    ensures CheckAll(t, probe, docs, parse, now, commitErrors, rollsBack).table.docs[docs[0].documentId] ==
      if ShowsRestored(probe(docs[0].storagePath)) && docs[0].documentId !in commitErrors
      then MarkRestored(docs[0], parse, probe(docs[0].storagePath), now)
      else t.docs[docs[0].documentId]
  {
    CheckAllStep(t, probe, docs, parse, now, commitErrors, rollsBack);
    DistinctTail(docs);
    var s := CheckOne(t, docs[0], probe(docs[0].storagePath), parse, now, commitErrors);
    CheckAllKeeps(s.table, probe, docs[1..], parse, now, commitErrors, rollsBack, docs[0].documentId);
  }

  /** No record outside the list changes. */
  lemma {:induction false} CheckAllKeeps(t: Table, probe: Probe, docs: seq<DocumentRecord>, parse: string -> Option<int>, now: int, commitErrors: map<DocId, string>, rollsBack: bool, id: DocId)
    requires Keyed(t.docs) && id in t.docs && !Listed(docs, id) && InTable(docs, t)
    ensures CheckAll(t, probe, docs, parse, now, commitErrors, rollsBack).table.docs[id] == t.docs[id]
    decreases |docs|
  {
    if docs != [] && (rollsBack || !CommitFailsAt(probe, docs[0], commitErrors)) {
      CheckAllStep(t, probe, docs, parse, now, commitErrors, rollsBack);
      ListedTail(docs, id);
      var s := CheckOne(t, docs[0], probe(docs[0].storagePath), parse, now, commitErrors);
      CheckAllKeeps(s.table, probe, docs[1..], parse, now, commitErrors, rollsBack, id);
    }
  }

  /** The sweep publishes one restore-ready event per completion; with no
      completion the table is untouched. */
  lemma {:induction false} CheckAllLog(t: Table, probe: Probe, docs: seq<DocumentRecord>, parse: string -> Option<int>, now: int, commitErrors: map<DocId, string>, rollsBack: bool)
    requires Keyed(t.docs) && InTable(docs, t)
    ensures var b := CheckAll(t, probe, docs, parse, now, commitErrors, rollsBack);
      && |b.emitted| == b.report.restored
      && ReadyLog(b.emitted)
      && (b.report.restored == 0 ==> b.table == t)
    decreases |docs|
  {
    if docs != [] && (rollsBack || !CommitFailsAt(probe, docs[0], commitErrors)) {
      var s := CheckOne(t, docs[0], probe(docs[0].storagePath), parse, now, commitErrors);
      CheckAllStep(t, probe, docs, parse, now, commitErrors, rollsBack);
      CheckAllLog(s.table, probe, docs[1..], parse, now, commitErrors, rollsBack);
      CheckAllLogStep(t, probe, docs, parse, now, commitErrors, rollsBack);
    }
  }

  /** One turn of `CheckAllLog`'s induction. */
  lemma CheckAllLogStep(t: Table, probe: Probe, docs: seq<DocumentRecord>, parse: string -> Option<int>, now: int, commitErrors: map<DocId, string>, rollsBack: bool)
    requires Keyed(t.docs) && docs != [] && InTable(docs, t)
    requires rollsBack || !CommitFailsAt(probe, docs[0], commitErrors)
    requires var s := CheckOne(t, docs[0], probe(docs[0].storagePath), parse, now, commitErrors);
      var rest := CheckAll(s.table, probe, docs[1..], parse, now, commitErrors, rollsBack);
      var b := CheckAll(t, probe, docs, parse, now, commitErrors, rollsBack);
      && Keyed(s.table.docs) && InTable(docs[1..], s.table)
      && b.table == rest.table && b.emitted == s.emitted + rest.emitted
      && b.report.restored == rest.report.restored + (if s.entry.Completed? then 1 else 0)
      && |rest.emitted| == rest.report.restored && ReadyLog(rest.emitted)
      && (rest.report.restored == 0 ==> rest.table == s.table)
    ensures var b := CheckAll(t, probe, docs, parse, now, commitErrors, rollsBack);
      && |b.emitted| == b.report.restored
      && ReadyLog(b.emitted)
      && (b.report.restored == 0 ==> b.table == t)
  {
    var s := CheckOne(t, docs[0], probe(docs[0].storagePath), parse, now, commitErrors);
    var rest := CheckAll(s.table, probe, docs[1..], parse, now, commitErrors, rollsBack);
    assert ReadyLog(s.emitted);
    ReadyLogAppend(s.emitted, rest.emitted);
  }

  /** Only restore-ready events. */
  predicate ReadyLog(events: seq<Event>) {
    forall j | 0 <= j < |events| :: events[j].RestoreReady?
  }

  lemma ReadyLogAppend(a: seq<Event>, b: seq<Event>)
    requires ReadyLog(a) && ReadyLog(b)
    ensures ReadyLog(a + b)
  {
    forall j | |a| <= j < |a + b| ensures (a + b)[j] == b[j - |a|] {}
  }

  predicate InProgress(d: DocumentRecord) {
    d.restoreStatus == Some("in_progress")
  }

  /** A sweep that may raise: the report is absent when it did, and the
      world is what it left behind either way. */
  datatype Attempt<R> = Attempt(report: Option<R>, world: World)

  /** `check_and_update_restore_status`: only in-progress records are
      probed; when the sweep finishes each is counted exactly once as
      restored, still in progress or an error; it raises exactly when a
      completed restore's commit fails and the handler does not roll back;
      one restore-ready event accompanies each completion either way. */
  function CheckAndUpdateRestoreStatus(w: World, parse: string -> Option<int>, now: int, commitErrors: map<DocId, string>, rollsBack: bool): (out: Attempt<SweepReport>)
    requires w.table.Valid()
    ensures var docs := Select(w.table, InProgress);
      && (forall i | 0 <= i < |docs| :: InProgress(docs[i]))
      && (out.report.None? <==> !rollsBack && AnyCommitFails(ProbeOf(w.backend), docs, commitErrors))
      && (out.report.Some? ==> out.report.value.checked == |docs| && |out.report.value.documents| == |docs|)
    ensures out.report.Some? ==> out.report.value.checked == out.report.value.restored + out.report.value.stillInProgress + out.report.value.errors
    ensures out.world.backend == w.backend
    ensures out.world.table.Valid() && out.world.table.rows == w.table.rows && out.world.table.docs.Keys == w.table.docs.Keys
    ensures exists added ::
      && out.world.events == w.events + added && ReadyLog(added)
      && (out.report.Some? ==> |added| == out.report.value.restored)
  {
    var docs := Select(w.table, InProgress);
    ValidKeyed(w.table);
    var b := CheckAll(w.table, ProbeOf(w.backend), docs, parse, now, commitErrors, rollsBack);
    Reshaped(w.table, b.table);
    CheckAllLog(w.table, ProbeOf(w.backend), docs, parse, now, commitErrors, rollsBack);
    CheckAllRaised(w.table, ProbeOf(w.backend), docs, parse, now, commitErrors, rollsBack);
    Attempt(if b.raised then None else Some(b.report), World(b.table, w.backend, w.events + b.emitted))
  }

  /** Some document listed before `id` had a completed restore whose commit
      failed. */
  predicate AbortsBefore(probe: Probe, docs: seq<DocumentRecord>, commitErrors: map<DocId, string>, id: DocId) {
    exists i, j | 0 <= j < i < |docs| :: docs[i].documentId == id && CommitFailsAt(probe, docs[j], commitErrors)
  }

  /** What the sweep does to each record: it is marked restored exactly when
      it was in progress, the provider reports its restore complete, its
      commit succeeds, and no earlier failing commit stopped the sweep;
      every other record is unchanged. */
  lemma RestoreSweepEffect(w: World, parse: string -> Option<int>, now: int, commitErrors: map<DocId, string>, rollsBack: bool, id: DocId)
    requires w.table.Valid() && id in w.table.docs
    ensures var d := w.table.docs[id];
      var r := Provider.GetArchiveStatus(w.backend, d.storagePath);
      var docs := Select(w.table, InProgress);
      CheckAndUpdateRestoreStatus(w, parse, now, commitErrors, rollsBack).world.table.docs[id] ==
        if InProgress(d) && ShowsRestored(r) && id !in commitErrors && (rollsBack || !AbortsBefore(ProbeOf(w.backend), docs, commitErrors, id))
        then MarkRestored(d, parse, r, now) else d
  {
    var docs := Select(w.table, InProgress);
    ValidKeyed(w.table);
    assert InTable(docs, w.table);
    if InProgress(w.table.docs[id]) {
      SweepInProgress(w, docs, parse, now, commitErrors, rollsBack, id);
    } else {
      assert !Listed(docs, id);
      CheckAllKeeps(w.table, ProbeOf(w.backend), docs, parse, now, commitErrors, rollsBack, id);
    }
  }

  /** An in-progress record is one of the listed ones. */
  lemma SweepInProgress(w: World, docs: seq<DocumentRecord>, parse: string -> Option<int>, now: int, commitErrors: map<DocId, string>, rollsBack: bool, id: DocId)
    requires w.table.Valid() && Keyed(w.table.docs) && id in w.table.docs && InProgress(w.table.docs[id])
    requires docs == Select(w.table, InProgress) && InTable(docs, w.table)
    ensures var d := w.table.docs[id];
      var r := Provider.GetArchiveStatus(w.backend, d.storagePath);
      CheckAll(w.table, ProbeOf(w.backend), docs, parse, now, commitErrors, rollsBack).table.docs[id] ==
        if ShowsRestored(r) && id !in commitErrors && (rollsBack || !AbortsBefore(ProbeOf(w.backend), docs, commitErrors, id))
        then MarkRestored(d, parse, r, now) else d
  {
    var d := w.table.docs[id];
    assert d in docs;
    var i :| 0 <= i < |docs| && docs[i] == d;
    CheckAllTableAt(w.table, ProbeOf(w.backend), docs, parse, now, commitErrors, rollsBack, i);
    AbortsBeforeAt(ProbeOf(w.backend), docs, commitErrors, id, i);
  }

  /** With distinct ids, "some earlier document failed" is the index form. */
  lemma AbortsBeforeAt(probe: Probe, docs: seq<DocumentRecord>, commitErrors: map<DocId, string>, id: DocId, i: nat)
    requires DistinctIds(docs) && i < |docs| && docs[i].documentId == id
    ensures AbortsBefore(probe, docs, commitErrors, id) <==> exists j | 0 <= j < i :: CommitFailsAt(probe, docs[j], commitErrors)
  {
  }

  /** As written, a completed restore whose commit fails stops the sweep:
      it raises, and a record listed after it stays in progress even when
      its own restore has completed. */
  lemma FailedCommitAbortsSweep(w: World, parse: string -> Option<int>, now: int, commitErrors: map<DocId, string>, i: nat, k: nat)
    requires w.table.Valid()
    requires var docs := Select(w.table, InProgress);
      i < k < |docs| && CommitFailsAt(ProbeOf(w.backend), docs[i], commitErrors)
    ensures var docs := Select(w.table, InProgress);
      var out := CheckAndUpdateRestoreStatus(w, parse, now, commitErrors, false);
      && out.report.None?
      && out.world.table.docs[docs[k].documentId] == docs[k]
      && InProgress(out.world.table.docs[docs[k].documentId])
  {
    var docs := Select(w.table, InProgress);
    ValidKeyed(w.table);
    var id := docs[k].documentId;
    RestoreSweepEffect(w, parse, now, commitErrors, false, id);
    assert AbortsBefore(ProbeOf(w.backend), docs, commitErrors, id);
  }

  /** With a rollback in the handler, the sweep always finishes, and every
      in-progress record whose restore completed and whose commit succeeds
      is marked restored, whatever failed before it. */
  lemma RollbackKeepsSweepGoing(w: World, parse: string -> Option<int>, now: int, commitErrors: map<DocId, string>, id: DocId)
    requires w.table.Valid() && id in w.table.docs
    ensures var d := w.table.docs[id];
      var r := Provider.GetArchiveStatus(w.backend, d.storagePath);
      var out := CheckAndUpdateRestoreStatus(w, parse, now, commitErrors, true);
      && out.report.Some?
      && out.world.table.docs[id] ==
        if InProgress(d) && ShowsRestored(r) && id !in commitErrors then MarkRestored(d, parse, r, now) else d
  {
    RestoreSweepEffect(w, parse, now, commitErrors, true, id);
  }

  /** On Azure the probe never reports "restored", so the sweep completes
      nothing, never raises, and leaves every record in progress. */
  lemma {:induction false} AzureNeverCompletes(t: Table, be: Provider.Backend, docs: seq<DocumentRecord>, parse: string -> Option<int>, now: int, commitErrors: map<DocId, string>, rollsBack: bool)
    requires be.Azure? && Keyed(t.docs) && InTable(docs, t)
    ensures CheckAll(t, ProbeOf(be), docs, parse, now, commitErrors, rollsBack).report.restored == 0
    ensures CheckAll(t, ProbeOf(be), docs, parse, now, commitErrors, rollsBack).table == t
    ensures !CheckAll(t, ProbeOf(be), docs, parse, now, commitErrors, rollsBack).raised
    decreases |docs|
  {
    if docs != [] {
      var s := CheckOne(t, docs[0], ProbeOf(be)(docs[0].storagePath), parse, now, commitErrors);
      assert s.table == t;
      AzureNeverCompletes(t, be, docs[1..], parse, now, commitErrors, rollsBack);
    }
  }

  // ---------------------------------------------------------------------
  // The expiry sweep.
  // ---------------------------------------------------------------------

  /** A restored copy whose expiry has passed. A record without an expiry
      never qualifies. */
  predicate Expired(d: DocumentRecord, now: int) {
    d.restoreStatus == Some("restored") && d.restoreExpiry.Some? && d.restoreExpiry.value <= now
  }

  function MarkExpired(d: DocumentRecord, now: int): (d': DocumentRecord)
    ensures d'.documentId == d.documentId && d'.restoreStatus == Some("archived") && d'.restoreExpiry.None?
    ensures !Expired(d', now)
  {
    Stamped(d, d.(restoreStatus := Some("archived"), restoreExpiry := None), now)
  }

  predicate Listed(docs: seq<DocumentRecord>, id: DocId) {
    exists i | 0 <= i < |docs| :: docs[i].documentId == id
  }

  /** The loop of `check_expired_restores`. */
  function ExpireAll(t: Table, docs: seq<DocumentRecord>, now: int): (t': Table)
    requires Keyed(t.docs) && DistinctIds(docs)
    requires forall i | 0 <= i < |docs| :: docs[i].documentId in t.docs
    ensures Keyed(t'.docs) && t'.rows == t.rows && t'.docs.Keys == t.docs.Keys
    decreases |docs|
  {
    if docs == [] then t
    else ExpireAll(Save(t, MarkExpired(docs[0], now)), docs[1..], now)
  }

  /** Each listed record ends up expired. */
  lemma {:induction false} ExpireAllMarks(t: Table, docs: seq<DocumentRecord>, now: int)
    requires Keyed(t.docs) && DistinctIds(docs)
    requires forall i | 0 <= i < |docs| :: docs[i].documentId in t.docs
    ensures var t' := ExpireAll(t, docs, now);
      forall d | d in docs :: t'.docs[d.documentId] == MarkExpired(d, now)
    decreases |docs|
  {
    if docs != [] {
      var t1 := Save(t, MarkExpired(docs[0], now));
      ExpireAllMarks(t1, docs[1..], now);
      ExpireAllKeeps(t1, docs[1..], now);
      assert forall i | 1 <= i < |docs| :: docs[i] == docs[1..][i - 1];
      assert !Listed(docs[1..], docs[0].documentId);
      assert forall d | d in docs :: d == docs[0] || d in docs[1..];
    }
  }

  /** No record outside the list changes. */
  lemma {:induction false} ExpireAllKeeps(t: Table, docs: seq<DocumentRecord>, now: int)
    requires Keyed(t.docs) && DistinctIds(docs)
    requires forall i | 0 <= i < |docs| :: docs[i].documentId in t.docs
    ensures var t' := ExpireAll(t, docs, now);
      forall id | id in t.docs && !Listed(docs, id) :: t'.docs[id] == t.docs[id]
    decreases |docs|
  {
    if docs != [] {
      var t1 := Save(t, MarkExpired(docs[0], now));
      ExpireAllKeeps(t1, docs[1..], now);
      assert forall i | 1 <= i < |docs| :: docs[i] == docs[1..][i - 1];
    }
  }

  /** The summary `check_expired_restores` returns. */
  datatype ExpiryReport = ExpiryReport(expired: nat, documents: seq<(string, string)>)

  /** The single commit of the expiry sweep flushes every expired record,
      so it fails when any of them fails. */
  predicate ExpiryCommitFails(t: Table, now: int, commitErrors: map<DocId, string>) {
    exists id | id in t.docs :: Expired(t.docs[id], now) && id in commitErrors
  }

  /** `check_expired_restores`: every restored record whose expiry has
      passed goes back to archived with its expiry cleared, with one
      expired event each, published as the loop goes. The one commit at the
      end makes the changes stick; when it fails the sweep raises and the
      table is as it was, though the events are already out. */
  function CheckExpiredRestores(w: World, now: int, commitErrors: map<DocId, string>): (out: Attempt<ExpiryReport>)
    requires w.table.Valid()
    ensures var docs := Select(w.table, d => Expired(d, now));
      && out.world.events == w.events + seq(|docs|, i requires 0 <= i < |docs| => RestoreExpired(docs[i].documentId))
      && (out.report.Some? ==> out.report.value.expired == |docs| == |out.report.value.documents|)
    ensures out.report.None? <==> ExpiryCommitFails(w.table, now, commitErrors)
    ensures out.report.None? ==> out.world.table == w.table
    ensures out.world.backend == w.backend
    ensures out.world.table.Valid() && out.world.table.rows == w.table.rows && out.world.table.docs.Keys == w.table.docs.Keys
  {
    var docs := Select(w.table, d => Expired(d, now));
    var events := w.events + seq(|docs|, i requires 0 <= i < |docs| => RestoreExpired(docs[i].documentId));
    if ExpiryCommitFails(w.table, now, commitErrors) then
      Attempt(None, World(w.table, w.backend, events))
    else
      ValidKeyed(w.table);
      var t' := ExpireAll(w.table, docs, now);
      Reshaped(w.table, t');
      Attempt(Some(ExpiryReport(|docs|, seq(|docs|, i requires 0 <= i < |docs| => (docs[i].documentId, docs[i].filename)))),
        World(t', w.backend, events))
  }

  /** When its commit succeeds, the expiry sweep changes exactly the expired
      records, each to its archived form, so that afterwards no record is
      expired. */
  lemma ExpirySweepEffect(w: World, now: int, commitErrors: map<DocId, string>)
    requires w.table.Valid()
    ensures var out := CheckExpiredRestores(w, now, commitErrors);
      out.report.Some? ==>
      forall id | id in w.table.docs ::
        && (Expired(w.table.docs[id], now) ==> out.world.table.docs[id] == MarkExpired(w.table.docs[id], now))
        && (!Expired(w.table.docs[id], now) ==> out.world.table.docs[id] == w.table.docs[id])
        && !Expired(out.world.table.docs[id], now)
  {
    var docs := Select(w.table, d => Expired(d, now));
    ValidKeyed(w.table);
    SettlesExpired(w.table, docs, now);
    SettlesOthers(w.table, docs, now);
  }

  /** An expired record is in the selection, so it is expired. */
  lemma SettlesExpired(t: Table, docs: seq<DocumentRecord>, now: int)
    requires t.Valid() && docs == Select(t, d => Expired(d, now))
    ensures Keyed(t.docs)
    ensures forall id | id in t.docs && Expired(t.docs[id], now) ::
      ExpireAll(t, docs, now).docs[id] == MarkExpired(t.docs[id], now)
  {
    ValidKeyed(t);
    ExpireAllMarks(t, docs, now);
    var t' := ExpireAll(t, docs, now);
    SelectsEveryExpired(t, docs, now);
  }

  lemma SelectsEveryExpired(t: Table, docs: seq<DocumentRecord>, now: int)
    requires t.Valid() && docs == Select(t, d => Expired(d, now))
    ensures forall id | id in t.docs && Expired(t.docs[id], now) :: t.docs[id] in docs
  {
  }

  /** A record that is not expired is not in the selection, so it stays. */
  lemma SettlesOthers(t: Table, docs: seq<DocumentRecord>, now: int)
    requires t.Valid() && docs == Select(t, d => Expired(d, now))
    ensures Keyed(t.docs)
    ensures forall id | id in t.docs && !Expired(t.docs[id], now) ::
      ExpireAll(t, docs, now).docs[id] == t.docs[id]
  {
    ValidKeyed(t);
    ExpireAllKeeps(t, docs, now);
    assert forall id | id in t.docs && !Expired(t.docs[id], now) :: !Listed(docs, id);
  }

  // ---------------------------------------------------------------------
  // The scheduled job.
  // ---------------------------------------------------------------------

  /** The two archival runs that open the job. */
  function ArchivalStages(w: World, now: int, settings: Settings, commitErrors: map<DocId, string>): (w2: World)
    requires w.table.Valid()
    ensures w2.table.Valid() && w2.table.rows == w.table.rows && w2.table.docs.Keys == w.table.docs.Keys
    ensures exists added :: w2.events == w.events + added
  {
    var w1 := RunLifecycleArchival(w, Archive, false, now, settings, commitErrors).world;
    var w2 := RunLifecycleArchival(w1, DeepArchive, false, now, settings, commitErrors).world;
    LogGrows(w.events, w1.events, w2.events);
    w2
  }

  /** How the job ended: `finished` when all four steps ran without raising. */
  datatype Job = Job(world: World, finished: bool)

  /** `lifecycle_job`: archive, then deep-archive, then the restore check,
      then the expiry sweep, with nothing to catch an exception: a step
      that raises ends the job. The log only grows, and when the job
      finishes no restored copy past its expiry survives it. */
  function LifecycleJob(w: World, now: int, settings: Settings, parse: string -> Option<int>, commitErrors: map<DocId, string>, rollsBack: bool): (j: Job)
    requires w.table.Valid()
    ensures j.world.table.Valid() && j.world.table.rows == w.table.rows && j.world.table.docs.Keys == w.table.docs.Keys
    ensures exists added :: j.world.events == w.events + added
    ensures j.finished ==> forall id | id in j.world.table.docs :: !Expired(j.world.table.docs[id], now)
  {
    var w2 := ArchivalStages(w, now, settings, commitErrors);
    var s := CheckAndUpdateRestoreStatus(w2, parse, now, commitErrors, rollsBack);
    LogGrows(w.events, w2.events, s.world.events);
    if s.report.None? then Job(s.world, false)
    else
      var e := CheckExpiredRestores(s.world, now, commitErrors);
      ExpirySweepEffect(s.world, now, commitErrors);
      LogGrows(w.events, s.world.events, e.world.events);
      Job(e.world, e.report.Some?)
  }

  /** The job finishes exactly when the restore check does not raise and
      the expiry sweep's commit succeeds; with a rollback in the restore
      check's handler only the expiry commit can stop it. */
  lemma JobFinishes(w: World, now: int, settings: Settings, parse: string -> Option<int>, commitErrors: map<DocId, string>, rollsBack: bool)
    requires w.table.Valid()
    ensures var s := CheckAndUpdateRestoreStatus(ArchivalStages(w, now, settings, commitErrors), parse, now, commitErrors, rollsBack);
      var j := LifecycleJob(w, now, settings, parse, commitErrors, rollsBack);
      && (j.finished <==> s.report.Some? && !ExpiryCommitFails(s.world.table, now, commitErrors))
      && (s.report.None? ==> j.world == s.world)
      && (rollsBack ==> s.report.Some?)
  {
  }

  /** With no failing commit the job always finishes. */
  lemma CleanJobFinishes(w: World, now: int, settings: Settings, parse: string -> Option<int>, commitErrors: map<DocId, string>, rollsBack: bool)
    requires w.table.Valid()
    requires forall id | id in w.table.docs :: id !in commitErrors
    ensures LifecycleJob(w, now, settings, parse, commitErrors, rollsBack).finished
  {
    var w2 := ArchivalStages(w, now, settings, commitErrors);
    var s := CheckAndUpdateRestoreStatus(w2, parse, now, commitErrors, rollsBack);
    JobFinishes(w, now, settings, parse, commitErrors, rollsBack);
    assert !ExpiryCommitFails(s.world.table, now, commitErrors);
  }

  /** As written, a restore check that raises leaves every copy that had
      expired before it still restored: the expiry sweep never runs. */
  lemma AbortedJobKeepsExpired(w: World, now: int, settings: Settings, parse: string -> Option<int>, commitErrors: map<DocId, string>, id: DocId)
    requires w.table.Valid() && id in w.table.docs
    requires var w2 := ArchivalStages(w, now, settings, commitErrors);
      && Expired(w2.table.docs[id], now)
      && CheckAndUpdateRestoreStatus(w2, parse, now, commitErrors, false).report.None?
    ensures var j := LifecycleJob(w, now, settings, parse, commitErrors, false);
      !j.finished && Expired(j.world.table.docs[id], now)
  {
    var w2 := ArchivalStages(w, now, settings, commitErrors);
    RestoreSweepEffect(w2, parse, now, commitErrors, false, id);
  }

  lemma LogGrows(e0: seq<Event>, e1: seq<Event>, e2: seq<Event>)
    requires exists a :: e1 == e0 + a
    requires exists a :: e2 == e1 + a
    ensures exists a :: e2 == e0 + a
  {
    var a1 :| e1 == e0 + a1;
    var a2 :| e2 == e1 + a2;
    assert e2 == e0 + (a1 + a2);
  }
}

=== FILE: local.dfy ===
/** The local filesystem provider: tier directories, metadata sidecar
    files, archiving by copy-then-unlink and restoring by copy. Paths are
    sequences of segments; the date directory (`YYYY/MM/DD`) and the clock
    are inputs. */
module Local {
  import opened Common
  import opened StorageBase

  type Path = seq<string>

  /** The contents of a sidecar `.meta.json` file: JSON strings, and
      timestamps written with `isoformat()`. */
  datatype MetaField = Str(s: string) | At(t: int)

  /** A file: a document's bytes, or a sidecar holding a JSON object. */
  datatype Content = Data(bytes: Bytes) | Sidecar(fields: map<string, MetaField>)

  type FileSystem = map<Path, Content>

  /** The three configured root directories. */
  datatype Roots = Roots(base: Path, archive: Path, deepArchive: Path)

  const DAY: int := 86400

  /** `Path.name`. */
  function Name(p: Path): string {
    if p == [] then "" else p[|p| - 1]
  }

  /** `Path.parent`. */
  function Parent(p: Path): Path {
    if p == [] then [] else p[..|p| - 1]
  }

  function Render(p: Path): string {
    Join(p, "/")
  }

  /** The root directory a tier lives under. */
  function TierRoot(roots: Roots, tier: string): (dir: Path)
    ensures tier == "standard" ==> dir == roots.base
    ensures tier in {"infrequent", "archive"} ==> dir == roots.archive
    ensures tier == "deep_archive" ==> dir == roots.deepArchive
    ensures tier !in {"standard", "infrequent", "archive", "deep_archive"} ==> dir == roots.base
  {
    if tier == "standard" then roots.base
    else if tier == "infrequent" || tier == "archive" then roots.archive
    else if tier == "deep_archive" then roots.deepArchive
    else roots.base
  }

  /** `_get_storage_path`: `<tier root>/<today>/<document_id>`. */
  function StoragePath(roots: Roots, today: Path, documentId: string, tier: string): (p: Path)
    ensures p == TierRoot(roots, tier) + today + [documentId]
    ensures Name(p) == documentId && Parent(p) == TierRoot(roots, tier) + today
  {
    var p := TierRoot(roots, tier) + today + [documentId];
    assert p[..|p| - 1] == TierRoot(roots, tier) + today;
    p
  }

  /** `_get_metadata_path`: the sibling file `<name>.meta.json`. */
  function MetadataPath(p: Path): (m: Path)
    ensures Parent(m) == Parent(p) && Name(m) == Name(p) + ".meta.json"
    ensures m != p
  {
    var m := Parent(p) + [Name(p) + ".meta.json"];
    assert m[..|m| - 1] == Parent(p);
    m
  }

  const JsonErrorText: string := "Expecting value: line 1 column 1 (char 0)"

  /** The sidecar of a file is never a file of the same name. */
  lemma SidecarIsNotTarget(current: Path, target: Path)
    requires Name(target) == Name(current)
    ensures MetadataPath(current) != target
  {
    assert |Name(MetadataPath(current))| == |Name(current)| + 10;
  }

  /** The restored copy is neither the archived file nor the restored
      copy's sidecar the archived file. */
  lemma RestorePaths(restored: Path, archived: Path)
    requires Name(restored) == "restored_" + Name(archived)
    ensures restored != archived && MetadataPath(restored) != archived
  {
    assert |Name(restored)| == |Name(archived)| + 9;
    assert |Name(MetadataPath(restored))| == |Name(archived)| + 19;
  }

  /** `archive_to_tier` as written: copy to `<target root>/<today>/<name>`,
      update the sidecar, then unlink the original and its sidecar. The
      copy opens the target for writing, which empties it, before reading
      the source; when the two are the same file the copy is empty. */
  function ArchiveToTier(fs: FileSystem, roots: Roots, today: Path, now: int, current: Path, targetTier: string): (out: Outcome<ArchiveResult, FileSystem>)
    ensures out.result.success ==> current in fs
    ensures out.result.success ==> out.result.previousTier == "standard" && out.result.newTier == targetTier
    ensures current !in fs ==> out.state == fs && !out.mutated && out.result.message == "Document not found at " + Render(current)
    ensures out.result.success ==> current !in out.state
  {
    if current !in fs then
      Outcome(ArchiveFailure("Document not found at " + Render(current)), fs, false)
    else
      var target := TierRoot(roots, targetTier) + today + [Name(current)];
      var fs1 := if target == current then fs[current := Data([])] else fs[target := fs[current]];
      var currentMeta := MetadataPath(current);
      var targetMeta := MetadataPath(target);
      if currentMeta in fs1 && fs1[currentMeta].Data? then
        Outcome(ArchiveFailure("Archive failed: " + JsonErrorText), fs1, true)
      else
        var fs2 :=
          if currentMeta in fs1 then
            fs1[targetMeta := Sidecar(fs1[currentMeta].fields["storage_tier" := Str(targetTier)]["archived_at" := At(now)])]
          else fs1;
        var fs3 := fs2 - {current};
        var fs4 := if currentMeta in fs3 then fs3 - {currentMeta} else fs3;
        Outcome(ArchiveResult(true, "Document archived to " + targetTier, "standard", targetTier), fs4, true)
  }

  /** Archiving a file into the directory it already sits in (same tier
      root, same day) reports success and leaves no copy of it anywhere. */
  lemma ArchiveOntoItselfLosesFile(fs: FileSystem, roots: Roots, today: Path, now: int, documentId: string, data: Bytes)
    requires fs == map[roots.base + today + [documentId] := Data(data)]
    ensures var current := roots.base + today + [documentId];
      var out := ArchiveToTier(fs, roots, today, now, current, "standard");
      out.result.success && out.state == map[]
  {
    var current := roots.base + today + [documentId];
    assert Name(current) == documentId;
    var out := ArchiveToTier(fs, roots, today, now, current, "standard");
    assert MetadataPath(current) !in fs;
    assert out.state == map[];
  }

  /** When the sidecar beside such a file cannot be parsed, the operation
      reports failure, yet the file is already empty. */
  lemma FailedSelfArchiveEmptiesFile(fs: FileSystem, roots: Roots, today: Path, now: int, documentId: string, data: Bytes, junk: Bytes)
    requires var current := roots.base + today + [documentId];
      fs == map[current := Data(data), MetadataPath(current) := Data(junk)]
    ensures var current := roots.base + today + [documentId];
      var out := ArchiveToTier(fs, roots, today, now, current, "standard");
      !out.result.success && current in out.state && out.state[current] == Data([])
  {
    var current := roots.base + today + [documentId];
    assert Name(current) == documentId;
  }

  /** `archive_to_tier` with the original kept when the target is the
      original itself: the document's bytes always survive a successful
      archive, at the target path. */
  function ArchiveToTierFixed(fs: FileSystem, roots: Roots, today: Path, now: int, current: Path, targetTier: string): (out: Outcome<ArchiveResult, FileSystem>)
    ensures var target := TierRoot(roots, targetTier) + today + [Name(current)];
      out.result.success ==> current in fs && target in out.state && out.state[target] == fs[current]
    ensures out.result.success ==> out.result.previousTier == "standard" && out.result.newTier == targetTier
    ensures current !in fs ==> out.state == fs && !out.mutated
    ensures var target := TierRoot(roots, targetTier) + today + [Name(current)];
      out.result.success && target != current ==> current !in out.state
  {
    if current !in fs then
      Outcome(ArchiveFailure("Document not found at " + Render(current)), fs, false)
    else
      var target := TierRoot(roots, targetTier) + today + [Name(current)];
      var fs1 := fs[target := fs[current]];
      var currentMeta := MetadataPath(current);
      var targetMeta := MetadataPath(target);
      if currentMeta in fs1 && fs1[currentMeta].Data? then
        Outcome(ArchiveFailure("Archive failed: " + JsonErrorText), fs1, true)
      else
        var fs2 :=
          if currentMeta in fs1 then
            fs1[targetMeta := Sidecar(fs1[currentMeta].fields["storage_tier" := Str(targetTier)]["archived_at" := At(now)])]
          else fs1;
        assert target in fs2 && fs2[target] == fs[current];
        if target == current then
          Outcome(ArchiveResult(true, "Document archived to " + targetTier, "standard", targetTier), fs2, true)
        else
          SidecarIsNotTarget(current, target);
          var fs3 := fs2 - {current};
          var fs4 := if currentMeta in fs3 then fs3 - {currentMeta} else fs3;
          assert target in fs4 && fs4[target] == fs[current] && current !in fs4;
          Outcome(ArchiveResult(true, "Document archived to " + targetTier, "standard", targetTier), fs4, true)
  }

  /** Whenever the target is not the original, the corrected operation is
      the operation as written. */
  lemma FixedAgreesElsewhere(fs: FileSystem, roots: Roots, today: Path, now: int, current: Path, targetTier: string)
    requires TierRoot(roots, targetTier) + today + [Name(current)] != current
    ensures ArchiveToTierFixed(fs, roots, today, now, current, targetTier) == ArchiveToTier(fs, roots, today, now, current, targetTier)
  {
  }

  /** `restore_from_archive`: copy to `<base>/<today>/restored_<name>` with a
      sidecar recording the restore; the archived original is untouched. */
  function RestoreFromArchive(fs: FileSystem, roots: Roots, today: Path, now: int, archived: Path, days: int): (out: Outcome<RestoreResult, FileSystem>)
    ensures var restored := roots.base + today + ["restored_" + Name(archived)];
      out.result.success ==>
        && archived in fs && restored in out.state && out.state[restored] == fs[archived]
        && out.result.restoreStatus == "restored" && out.result.isRetrievable
        && out.result.restoreExpiry == Some(Iso(now + days * DAY))
    ensures !out.result.success ==> !out.result.isRetrievable
    ensures out.result.restoreStatus != "in_progress"
    ensures archived in fs ==> archived in out.state && out.state[archived] == fs[archived]
    ensures archived !in fs ==> out.state == fs && out.result.message == "Document not found at " + Render(archived)
  {
    if archived !in fs then
      Outcome(RestoreFailure("Document not found at " + Render(archived)), fs, false)
    else
      var restored := roots.base + today + ["restored_" + Name(archived)];
      RestorePaths(restored, archived);
      var fs1 := fs[restored := fs[archived]];
      var restoreMeta := MetadataPath(restored);
      var archiveMeta := MetadataPath(archived);
      if archiveMeta in fs1 && fs1[archiveMeta].Data? then
        Outcome(RestoreFailure("Restore failed: " + JsonErrorText), fs1, true)
      else
        var fields := if archiveMeta in fs1 then fs1[archiveMeta].fields else map[];
        var expiry := now + days * DAY;
        var fields' := fields["restore_status" := Str("restored")]["restore_expiry" := At(expiry)]["restored_at" := At(now)];
        Outcome(RestoreResult(true, "Document restored for " + IntToString(days) + " days", "restored",
          None, Some(Iso(expiry)), true), fs1[restoreMeta := Sidecar(fields')], true)
  }
}

=== FILE: local_iceberg.dfy ===
/** The development metadata table: a JSON Lines file read as a sequence of
    JSON objects, one per non-blank line, in file order. A missing file reads
    as the empty sequence, which is how every operation treats it. Rows are
    dictionaries, so updates can add or change any key. */
module LocalIceberg {
  import opened Common

  /** The JSON values a row holds. */
  datatype Json = JStr(str: string) | JInt(num: int) | JNull

  /** One decoded line. */
  type Row = map<string, Json>

  /** The table file, first line first. */
  type Table = seq<Row>

  /** `DocumentMetadataRecord`. */
  datatype MetadataRecord = MetadataRecord(
    documentId: string, filename: string, contentType: string, sizeBytes: int,
    storageProvider: string, storagePath: string, storageTier: string,
    restoreStatus: Option<string>, restoreExpiry: Option<int>, archivedAt: Option<int>,
    tagsJson: Option<string>, metadataJson: Option<string>, embedding: Option<string>,
    embeddingText: Option<string>, createdAt: int, updatedAt: int)

  const TimestampKey := "_timestamp"

  /** The field names `asdict` produces. */
  const FieldNames: set<string> := {
    "document_id", "filename", "content_type", "size_bytes", "storage_provider", "storage_path",
    "storage_tier", "restore_status", "restore_expiry", "archived_at", "tags_json", "metadata_json",
    "embedding", "embedding_text", "created_at", "updated_at"}

  function OptStr(v: Option<string>): Json {
    if v.Some? then JStr(v.value) else JNull
  }

  function OptInt(v: Option<int>): Json {
    if v.Some? then JInt(v.value) else JNull
  }

  /** `_record_to_dict`: every field under its own name, plus the write
      time under `_timestamp`. */
  function RecordToDict(r: MetadataRecord, stamp: string): Row {
    map[
      "document_id" := JStr(r.documentId), "filename" := JStr(r.filename),
      "content_type" := JStr(r.contentType), "size_bytes" := JInt(r.sizeBytes),
      "storage_provider" := JStr(r.storageProvider), "storage_path" := JStr(r.storagePath),
      "storage_tier" := JStr(r.storageTier), "restore_status" := OptStr(r.restoreStatus),
      "restore_expiry" := OptInt(r.restoreExpiry), "archived_at" := OptInt(r.archivedAt),
      "tags_json" := OptStr(r.tagsJson), "metadata_json" := OptStr(r.metadataJson),
      "embedding" := OptStr(r.embedding), "embedding_text" := OptStr(r.embeddingText),
      "created_at" := JInt(r.createdAt), "updated_at" := JInt(r.updatedAt),
      TimestampKey := JStr(stamp)]
  }

  function AsStr(v: Json): Option<string> {
    if v.JStr? then Some(v.str) else None
  }

  function AsInt(v: Json): Option<int> {
    if v.JInt? then Some(v.num) else None
  }

  /** A nullable text field: `null` or a string. */
  function AsOptStr(v: Json): Option<Option<string>> {
    match v
    case JNull => Some(None)
    case JStr(s) => Some(Some(s))
    case JInt(_) => None
  }

  /** A nullable integer field: `null` or an integer. */
  function AsOptInt(v: Json): Option<Option<int>> {
    match v
    case JNull => Some(None)
    case JInt(n) => Some(Some(n))
    case JStr(_) => None
  }

  /** `_dict_to_record`: drop `_timestamp`, then build the record from
      exactly the field names. Unknown or missing keys make the constructor
      raise; so does, in this model, a value of the wrong JSON kind. */
  function DictToRecord(d: Row): (r: Option<MetadataRecord>)
    ensures r.Some? ==> d.Keys - {TimestampKey} == FieldNames
  {
    var e := d - {TimestampKey};
    if e.Keys != FieldNames then None
    else
      var id, name, ctype := AsStr(e["document_id"]), AsStr(e["filename"]), AsStr(e["content_type"]);
      var size, provider, path := AsInt(e["size_bytes"]), AsStr(e["storage_provider"]), AsStr(e["storage_path"]);
      var tier, status, expiry := AsStr(e["storage_tier"]), AsOptStr(e["restore_status"]), AsOptInt(e["restore_expiry"]);
      var archived, tags, meta := AsOptInt(e["archived_at"]), AsOptStr(e["tags_json"]), AsOptStr(e["metadata_json"]);
      var emb, embText := AsOptStr(e["embedding"]), AsOptStr(e["embedding_text"]);
      var created, updated := AsInt(e["created_at"]), AsInt(e["updated_at"]);
      if id.None? || name.None? || ctype.None? || size.None? || provider.None? || path.None?
         || tier.None? || status.None? || expiry.None? || archived.None? || tags.None? || meta.None?
         || emb.None? || embText.None? || created.None? || updated.None?
      then None
      else Some(MetadataRecord(
        id.value, name.value, ctype.value, size.value, provider.value, path.value, tier.value,
        status.value, expiry.value, archived.value, tags.value, meta.value, emb.value, embText.value,
        created.value, updated.value))
  }

  /** Writing a record and reading it back gives the record: the time
      stamp added on the way out is dropped on the way in. */
  lemma RecordRoundTrip(r: MetadataRecord, stamp: string)
    ensures DictToRecord(RecordToDict(r, stamp)) == Some(r)
  {
    var d := RecordToDict(r, stamp);
    RecordKeys(r, stamp);
    var e := d - {TimestampKey};
    assert e.Keys == FieldNames;
    RecordFields(r, stamp);
  }

  /** The dictionary holds the field names and the time stamp. */
  lemma RecordKeys(r: MetadataRecord, stamp: string)
    ensures RecordToDict(r, stamp).Keys == FieldNames + {TimestampKey}
  {
  }

  lemma RecordStamped(r: MetadataRecord, stamp: string)
    ensures TimestampKey in RecordToDict(r, stamp) && RecordToDict(r, stamp)[TimestampKey] == JStr(stamp)
    ensures Matches(RecordToDict(r, stamp), r.documentId)
  {
  }

  /** Each field sits under its own name. */
  lemma RecordFields(r: MetadataRecord, stamp: string)
    ensures var e := RecordToDict(r, stamp) - {TimestampKey};
      "document_id" in e && e["document_id"] == JStr(r.documentId)
      && "filename" in e && e["filename"] == JStr(r.filename)
      && "content_type" in e && e["content_type"] == JStr(r.contentType)
      && "size_bytes" in e && e["size_bytes"] == JInt(r.sizeBytes)
      && "storage_provider" in e && e["storage_provider"] == JStr(r.storageProvider)
      && "storage_path" in e && e["storage_path"] == JStr(r.storagePath)
      && "storage_tier" in e && e["storage_tier"] == JStr(r.storageTier)
      && "restore_status" in e && e["restore_status"] == OptStr(r.restoreStatus)
      && "restore_expiry" in e && e["restore_expiry"] == OptInt(r.restoreExpiry)
      && "archived_at" in e && e["archived_at"] == OptInt(r.archivedAt)
      && "tags_json" in e && e["tags_json"] == OptStr(r.tagsJson)
      && "metadata_json" in e && e["metadata_json"] == OptStr(r.metadataJson)
      && "embedding" in e && e["embedding"] == OptStr(r.embedding)
      && "embedding_text" in e && e["embedding_text"] == OptStr(r.embeddingText)
      && "created_at" in e && e["created_at"] == JInt(r.createdAt)
      && "updated_at" in e && e["updated_at"] == JInt(r.updatedAt)
  {
    RecordFieldsFirst(r, stamp);
    RecordFieldsMiddle(r, stamp);
    RecordFieldsLast(r, stamp);
  }

  lemma RecordFieldsFirst(r: MetadataRecord, stamp: string)
    ensures var e := RecordToDict(r, stamp) - {TimestampKey};
      "document_id" in e && e["document_id"] == JStr(r.documentId)
      && "filename" in e && e["filename"] == JStr(r.filename)
      && "content_type" in e && e["content_type"] == JStr(r.contentType)
      && "size_bytes" in e && e["size_bytes"] == JInt(r.sizeBytes)
  {
  }

  lemma RecordFieldsMiddle(r: MetadataRecord, stamp: string)
    ensures var e := RecordToDict(r, stamp) - {TimestampKey};
      "storage_provider" in e && e["storage_provider"] == JStr(r.storageProvider)
      && "storage_path" in e && e["storage_path"] == JStr(r.storagePath)
      && "storage_tier" in e && e["storage_tier"] == JStr(r.storageTier)
      && "restore_status" in e && e["restore_status"] == OptStr(r.restoreStatus)
  {
  }

  lemma RecordFieldsLast(r: MetadataRecord, stamp: string)
    ensures var e := RecordToDict(r, stamp) - {TimestampKey};
      "restore_expiry" in e && e["restore_expiry"] == OptInt(r.restoreExpiry)
      && "archived_at" in e && e["archived_at"] == OptInt(r.archivedAt)
      && "tags_json" in e && e["tags_json"] == OptStr(r.tagsJson)
      && "metadata_json" in e && e["metadata_json"] == OptStr(r.metadataJson)
      && "embedding" in e && e["embedding"] == OptStr(r.embedding)
      && "embedding_text" in e && e["embedding_text"] == OptStr(r.embeddingText)
      && "created_at" in e && e["created_at"] == JInt(r.createdAt)
      && "updated_at" in e && e["updated_at"] == JInt(r.updatedAt)
  {
  }

  // ---------------------------------------------------------------------
  // Row matching.
  // ---------------------------------------------------------------------

  /** `record.get("document_id") == document_id`. */
  predicate Matches(row: Row, id: string) {
    "document_id" in row && row["document_id"] == JStr(id)
  }

  /** `record.get(key)` compared with a string. */
  predicate FieldIs(row: Row, key: string, value: string) {
    key in row && row[key] == JStr(value)
  }

  /** `record.get("created_at", 0)`, read as 0 when it is not an integer. */
  function CreatedAt(row: Row): int {
    if "created_at" in row && row["created_at"].JInt? then row["created_at"].num else 0
  }

  /** `record.get("size_bytes", 0)`, read as 0 when it is not an integer. */
  function SizeOf(row: Row): int {
    if "size_bytes" in row && row["size_bytes"].JInt? then row["size_bytes"].num else 0
  }

  /** Python truthiness of an optional integer argument. */
  predicate IntTruthy(v: Option<int>) {
    v.Some? && v.value != 0
  }

  /** Python truthiness of a JSON value. */
  predicate JsonTruthy(v: Json) {
    match v
    case JStr(s) => s != ""
    case JInt(n) => n != 0
    case JNull => false
  }

  /** The position of the first row for `id`. */
  function FirstIndex(t: Table, id: string): (r: Option<nat>)
    ensures r.None? <==> forall i | 0 <= i < |t| :: !Matches(t[i], id)
    ensures r.Some? ==> (r.value < |t| && Matches(t[r.value], id)
                         && forall j | 0 <= j < r.value :: !Matches(t[j], id))
  {
    if t == [] then None
    else if Matches(t[0], id) then Some(0)
    else
      var r := FirstIndex(t[1..], id);
      assert forall i | 1 <= i < |t| :: t[i] == t[1..][i - 1];
      if r.Some? then Some(r.value + 1) else None
  }

  /** The first row for the id is at `i` when `i` matches and no row
      before it does. */
  lemma {:induction false} FirstIndexAt(t: Table, id: string, i: nat)
    requires i < |t| && Matches(t[i], id)
    requires forall j | 0 <= j < i :: !Matches(t[j], id)
    ensures FirstIndex(t, id) == Some(i)
  {
    if i > 0 {
      assert !Matches(t[0], id);
      assert forall j | 0 <= j < i - 1 :: t[1..][j] == t[j + 1];
      FirstIndexAt(t[1..], id, i - 1);
    }
  }

  // ---------------------------------------------------------------------
  // Operations.
  // ---------------------------------------------------------------------

  /** `insert_metadata`: the record is appended as the last line. */
  function Insert(t: Table, r: MetadataRecord, stamp: string): (t': Table)
    ensures |t'| == |t| + 1 && t'[..|t|] == t
    ensures DictToRecord(t'[|t|]) == Some(r)
  {
    RecordRoundTrip(r, stamp);
    t + [RecordToDict(r, stamp)]
  }

  /** `record.update(updates)` followed by a fresh `_timestamp`. */
  function Patch(row: Row, updates: Row, stamp: string): (p: Row)
    ensures p.Keys == row.Keys + updates.Keys + {TimestampKey}
    ensures forall k | k in updates && k != TimestampKey :: p[k] == updates[k]
    ensures forall k | k in row && k !in updates && k != TimestampKey :: p[k] == row[k]
    ensures p[TimestampKey] == JStr(stamp)
  {
    (row + updates)[TimestampKey := JStr(stamp)]
  }

  /** `update_metadata`: whether a row was found, and the table after. */
  function Update(t: Table, id: string, updates: Row, stamp: string): (r: (bool, Table))
    ensures !r.0 <==> forall i | 0 <= i < |t| :: !Matches(t[i], id)
    ensures !r.0 ==> r.1 == t
    ensures |r.1| == |t|
  {
    match FirstIndex(t, id)
    case None => (false, t)
    case Some(i) => (true, t[i := Patch(t[i], updates, stamp)])
  }

  /** Only the first row for the id changes; rows before it do not match,
      and every other row is kept as it was. */
  lemma UpdateFirstOnly(t: Table, id: string, updates: Row, stamp: string, i: nat)
    requires i < |t| && Matches(t[i], id)
    requires forall j | 0 <= j < i :: !Matches(t[j], id)
    ensures Update(t, id, updates, stamp) == (true, t[i := Patch(t[i], updates, stamp)])
    ensures forall j | 0 <= j < |t| && j != i :: Update(t, id, updates, stamp).1[j] == t[j]
  {
    FirstIndexAt(t, id, i);
  }

  /** `get_metadata`: the first row for the id. */
  function Get(t: Table, id: string): (r: Option<Row>)
    ensures r.None? <==> forall i | 0 <= i < |t| :: !Matches(t[i], id)
    ensures r.Some? ==> r.value in t && Matches(r.value, id)
    ensures r.Some? ==> exists i | 0 <= i < |t| :: t[i] == r.value && forall j | 0 <= j < i :: !Matches(t[j], id)
  {
    match FirstIndex(t, id)
    case None => None
    case Some(i) => Some(t[i])
  }

  /** The rows for other ids, in their order. */
  function Without(t: Table, id: string): (r: Table)
    ensures |r| <= |t|
    ensures forall i | 0 <= i < |r| :: !Matches(r[i], id) && r[i] in t
    ensures forall x | x in t && !Matches(x, id) :: x in r
  {
    if t == [] then []
    else if Matches(t[0], id) then Without(t[1..], id)
    else [t[0]] + Without(t[1..], id)
  }

  /** `delete_metadata`: whether any row was found, and the table after. */
  function Delete(t: Table, id: string): (r: (bool, Table))
    ensures r.0 <==> exists i | 0 <= i < |t| :: Matches(t[i], id)
    ensures forall i | 0 <= i < |r.1| :: !Matches(r.1[i], id)
    ensures r.1 == Without(t, id)
    ensures !r.0 ==> r.1 == t
  {
    var kept := Without(t, id);
    if kept == t then
      assert forall i | 0 <= i < |t| :: !Matches(t[i], id) by {
        forall i | 0 <= i < |t| ensures !Matches(t[i], id) { assert t[i] == kept[i]; }
      }
      (false, t)
    else
      WithoutChanges(t, id);
      (true, kept)
  }

  lemma {:induction false} WithoutChanges(t: Table, id: string)
    requires Without(t, id) != t
    ensures exists i | 0 <= i < |t| :: Matches(t[i], id)
  {
    if Matches(t[0], id) {
      assert Matches(t[0], id);
    } else {
      WithoutChanges(t[1..], id);
      var i :| 0 <= i < |t[1..]| && Matches(t[1..][i], id);
      assert t[i + 1] == t[1..][i];
    }
  }

  /** Deleting works line by line: on a concatenation it is the
      concatenation of the two deletions, so the order of the kept rows is
      the order of the file. */
  lemma {:induction false} WithoutAppend(a: Table, b: Table, id: string)
    ensures Without(a + b, id) == Without(a, id) + Without(b, id)
  {
    if a == [] {
      assert a + b == b;
    } else {
      assert (a + b)[1..] == a[1..] + b;
      WithoutAppend(a[1..], b, id);
    }
  }

  /** A row for another id survives, a row for the id does not. */
  lemma WithoutSingle(row: Row, id: string)
    ensures Without([row], id) == if Matches(row, id) then [] else [row]
  {
    assert [row][1..] == [];
  }

  /** After a delete the id is gone, and what is left is as long as the
      table minus the matching rows. */
  lemma {:induction false} DeleteThenGet(t: Table, id: string)
    ensures Get(Delete(t, id).1, id).None?
    ensures |Delete(t, id).1| + |MatchingRows(t, id)| == |t|
  {
    WithoutCount(t, id);
  }

  /** The rows for the id, in their order. */
  function MatchingRows(t: Table, id: string): seq<Row> {
    if t == [] then []
    else if Matches(t[0], id) then [t[0]] + MatchingRows(t[1..], id)
    else MatchingRows(t[1..], id)
  }

  lemma {:induction false} WithoutCount(t: Table, id: string)
    ensures |Without(t, id)| + |MatchingRows(t, id)| == |t|
  {
    if t != [] {
      WithoutCount(t[1..], id);
    }
  }

  /** An inserted record is found by its id unless an earlier row shadows
      it. */
  lemma GetAfterInsert(t: Table, r: MetadataRecord, stamp: string)
    ensures Get(Insert(t, r, stamp), r.documentId) ==
      if Get(t, r.documentId).Some? then Get(t, r.documentId) else Some(RecordToDict(r, stamp))
  {
    var t' := Insert(t, r, stamp);
    var id := r.documentId;
    RecordStamped(r, stamp);
    assert Matches(t'[|t|], id);
    assert forall i | 0 <= i < |t| :: t'[i] == t[i];
    var f := FirstIndex(t, id);
    if f.Some? {
      FirstIndexAt(t', id, f.value);
    } else {
      FirstIndexAt(t', id, |t|);
    }
  }

  // ---------------------------------------------------------------------
  // list_metadata and get_statistics.
  // ---------------------------------------------------------------------

  /** The date filters shared by listing and statistics; a falsy bound
      (absent or 0) is ignored. */
  predicate InDates(row: Row, startDate: Option<int>, endDate: Option<int>) {
    (!IntTruthy(startDate) || CreatedAt(row) >= startDate.value)
    && (!IntTruthy(endDate) || CreatedAt(row) <= endDate.value)
  }

  /** The four filters of `list_metadata`; falsy filters are ignored. */
  predicate Passes(row: Row, provider: Option<string>, tier: Option<string>,
                   startDate: Option<int>, endDate: Option<int>) {
    (!Truthy(provider) || FieldIs(row, "storage_provider", provider.value))
    && (!Truthy(tier) || FieldIs(row, "storage_tier", tier.value))
    && InDates(row, startDate, endDate)
  }

  /** `list_metadata`. */
  function List(t: Table, provider: Option<string>, tier: Option<string>,
                startDate: Option<int>, endDate: Option<int>): (r: Table)
    ensures |r| <= |t|
    ensures forall i | 0 <= i < |r| :: r[i] in t && Passes(r[i], provider, tier, startDate, endDate)
    ensures forall i | 0 <= i < |t| && Passes(t[i], provider, tier, startDate, endDate) :: t[i] in r
  {
    if t == [] then []
    else
      var rest := List(t[1..], provider, tier, startDate, endDate);
      assert forall i | 1 <= i < |t| :: t[i] == t[1..][i - 1];
      if Passes(t[0], provider, tier, startDate, endDate) then [t[0]] + rest else rest
  }

  /** Listing works line by line, keeping file order. */
  lemma {:induction false} ListAppend(a: Table, b: Table, provider: Option<string>, tier: Option<string>,
                                      startDate: Option<int>, endDate: Option<int>)
    ensures List(a + b, provider, tier, startDate, endDate) ==
      List(a, provider, tier, startDate, endDate) + List(b, provider, tier, startDate, endDate)
  {
    if a == [] {
      assert a + b == b;
    } else {
      assert (a + b)[1..] == a[1..] + b;
      ListAppend(a[1..], b, provider, tier, startDate, endDate);
    }
  }

  /** A row is listed exactly when it passes the filters. */
  lemma ListSingle(row: Row, provider: Option<string>, tier: Option<string>,
                   startDate: Option<int>, endDate: Option<int>)
    ensures List([row], provider, tier, startDate, endDate) ==
      if Passes(row, provider, tier, startDate, endDate) then [row] else []
  {
    assert [row][1..] == [];
  }

  /** With every filter falsy, including a start date of 0, the whole table
      is listed. */
  lemma {:induction false} ListFalsyFilters(t: Table, provider: Option<string>, tier: Option<string>,
                                            startDate: Option<int>, endDate: Option<int>)
    requires !Truthy(provider) && !Truthy(tier) && !IntTruthy(startDate) && !IntTruthy(endDate)
    ensures List(t, provider, tier, startDate, endDate) == t
  {
    if t != [] {
      ListFalsyFilters(t[1..], provider, tier, startDate, endDate);
      assert [t[0]] + t[1..] == t;
    }
  }

  /** The statistics dictionary. */
  datatype Stats = Stats(
    totalDocuments: int, totalSizeBytes: int,
    byProvider: map<Json, int>, byTier: map<Json, int>, byRestoreStatus: map<Json, int>)

  /** The truthy values of `key` in the rows, first to last. */
  function TruthyValues(rows: Table, key: string): (r: seq<Json>)
    ensures |r| <= |rows|
    ensures forall i | 0 <= i < |r| :: JsonTruthy(r[i])
  {
    if rows == [] then []
    else
      var rest := TruthyValues(rows[1..], key);
      if key in rows[0] && JsonTruthy(rows[0][key]) then [rows[0][key]] + rest else rest
  }

  /** The rows inside the date window. */
  function Dated(t: Table, startDate: Option<int>, endDate: Option<int>): (r: Table)
    ensures |r| <= |t|
    ensures forall i | 0 <= i < |r| :: r[i] in t && InDates(r[i], startDate, endDate)
  {
    if t == [] then []
    else
      var rest := Dated(t[1..], startDate, endDate);
      if InDates(t[0], startDate, endDate) then [t[0]] + rest else rest
  }

  function TotalSize(rows: Table): int {
    if rows == [] then 0 else SizeOf(rows[0]) + TotalSize(rows[1..])
  }

  /** `get_statistics`: counts over the rows in the date window; rows whose
      provider, tier or restore status is falsy are not counted under it. */
  function Statistics(t: Table, startDate: Option<int>, endDate: Option<int>): (s: Stats)
    ensures s.totalDocuments <= |t|
    ensures forall v | v in s.byProvider :: JsonTruthy(v) && s.byProvider[v] >= 1
    ensures forall v | v in s.byTier :: JsonTruthy(v) && s.byTier[v] >= 1
    ensures forall v | v in s.byRestoreStatus :: JsonTruthy(v) && s.byRestoreStatus[v] >= 1
  {
    var rows := Dated(t, startDate, endDate);
    Stats(|rows|, TotalSize(rows),
          Tally(TruthyValues(rows, "storage_provider")),
          Tally(TruthyValues(rows, "storage_tier")),
          Tally(TruthyValues(rows, "restore_status")))
  }

  /** The total counts the same rows a date-only listing returns, and each
      breakdown adds up to at most that total. */
  lemma StatisticsBounds(t: Table, startDate: Option<int>, endDate: Option<int>)
    ensures Statistics(t, startDate, endDate).totalDocuments == |List(t, None, None, startDate, endDate)|
    ensures MapSum(Statistics(t, startDate, endDate).byProvider) <= Statistics(t, startDate, endDate).totalDocuments
    ensures MapSum(Statistics(t, startDate, endDate).byTier) <= Statistics(t, startDate, endDate).totalDocuments
    ensures MapSum(Statistics(t, startDate, endDate).byRestoreStatus) <= Statistics(t, startDate, endDate).totalDocuments
  {
    var rows := Dated(t, startDate, endDate);
    DatedIsList(t, startDate, endDate);
    TallySum(TruthyValues(rows, "storage_provider"));
    TallySum(TruthyValues(rows, "storage_tier"));
    TallySum(TruthyValues(rows, "restore_status"));
  }

  /** Every row counted has a provider: then the provider breakdown adds up
      to the total exactly. */
  lemma StatisticsProviderExact(t: Table, startDate: Option<int>, endDate: Option<int>)
    requires forall i | 0 <= i < |t| :: "storage_provider" in t[i] && JsonTruthy(t[i]["storage_provider"])
    ensures MapSum(Statistics(t, startDate, endDate).byProvider) == Statistics(t, startDate, endDate).totalDocuments
  {
    var rows := Dated(t, startDate, endDate);
    assert forall i | 0 <= i < |rows| :: "storage_provider" in rows[i] && JsonTruthy(rows[i]["storage_provider"]);
    AllTruthy(rows, "storage_provider");
    TallySum(TruthyValues(rows, "storage_provider"));
  }

  lemma {:induction false} AllTruthy(rows: Table, key: string)
    requires forall i | 0 <= i < |rows| :: key in rows[i] && JsonTruthy(rows[i][key])
    ensures |TruthyValues(rows, key)| == |rows|
  {
    if rows != [] {
      assert forall i | 1 <= i < |rows| :: rows[1..][i - 1] == rows[i];
      AllTruthy(rows[1..], key);
    }
  }

  lemma {:induction false} DatedIsList(t: Table, startDate: Option<int>, endDate: Option<int>)
    ensures Dated(t, startDate, endDate) == List(t, None, None, startDate, endDate)
  {
    if t != [] {
      DatedIsList(t[1..], startDate, endDate);
    }
  }
}

=== FILE: middleware.dfy ===
/** The request-level decisions of the HTTP middleware: which requests need
    a bearer token and what the token check answers, how an audited request
    is classified (event type, resource type, resource id, outcome), and the
    role guard used by routes. The web framework, the token library and the
    clock are outside the model: token verification is a function argument,
    the measured time is a text argument. */
module Middleware {
  import opened Common
  import AuditService

  // ---------------------------------------------------------------------
  // AuthMiddleware.dispatch.
  // ---------------------------------------------------------------------

  /** Paths served without a token. */
  const ExemptPaths: set<string> :=
    {"/health", "/api/v1/auth/login", "/api/v1/auth/register", "/docs", "/openapi.json", "/redoc"}

  const BearerPrefix := "Bearer "

  /** A claim read from the token payload with `payload.get`: absent, a
      string, or a number (user ids are integers). */
  datatype Claim = Missing | Text(text: string) | Number(number: int)

  /** Python truthiness of a claim. */
  predicate ClaimTruthy(c: Claim) {
    match c
    case Missing => false
    case Text(s) => s != ""
    case Number(n) => n != 0
  }

  /** The claim as `f"{value}"` would show it, or nothing when absent. */
  function ClaimText(c: Claim): (r: Option<string>)
    ensures r.None? <==> c.Missing?
    ensures c.Number? && c.number >= 0 ==> AllDigits(r.value)
  {
    match c
    case Missing => None
    case Text(s) => Some(s)
    case Number(n) => Some(IntToString(n))
  }

  datatype Payload = Payload(userId: Claim, username: Option<string>, role: Option<string>)

  /** `verify_access_token`: the payload, or nothing when it raises (bad
      signature, expired, malformed). */
  type Verify = string -> Option<Payload>

  /** What the middleware leaves in `request.state`: nothing at all, the
      four user fields set to `None`, or the authenticated user. */
  datatype RequestState =
    | Untouched
    | Anonymous
    | Authenticated(userId: Claim, username: Option<string>, role: Option<string>, token: string)

  /** Either the request goes on to the handler with the given state, or
      the middleware answers it with a status and a `detail`. */
  datatype AuthReply = Forward(state: RequestState) | Reject(status: int, detail: string)

  /** Requests the middleware lets through before looking at anything else. */
  predicate Bypass(path: string, verb: string) {
    path in ExemptPaths || verb == "OPTIONS"
  }

  /** `AuthMiddleware.dispatch`; `header` is the `Authorization` header if
      sent. */
  function Authenticate(path: string, verb: string, authEnabled: bool, header: Option<string>, verify: Verify)
    : (r: AuthReply)
    ensures r.Reject? ==> r.status == 401
    ensures Bypass(path, verb) ==> r == Forward(Untouched)
    ensures !Bypass(path, verb) && !authEnabled ==> r == Forward(Anonymous)
    ensures r.Forward? && r.state.Authenticated? ==>
      header == Some(BearerPrefix + r.state.token) && ClaimTruthy(r.state.userId)
      && verify(r.state.token) == Some(Payload(r.state.userId, r.state.username, r.state.role))
  {
    if Bypass(path, verb) then Forward(Untouched)
    else if !authEnabled then Forward(Anonymous)
    else
      var h := header.GetOr("");
      if !StartsWith(h, BearerPrefix) then Reject(401, "Missing or invalid Authorization header")
      else
        var token := h[|BearerPrefix|..];
        assert h == BearerPrefix + token;
        match verify(token)
        case None => Reject(401, "Invalid or expired token")
        case Some(p) =>
          if !ClaimTruthy(p.userId) then Reject(401, "Invalid token")
          else Forward(Authenticated(p.userId, p.username, p.role, token))
  }

  /** A guarded request gets through exactly when it carries a bearer token
      whose payload verifies and names a user. */
  lemma AuthenticateGate(path: string, verb: string, header: Option<string>, verify: Verify)
    requires !Bypass(path, verb)
    ensures Authenticate(path, verb, true, header, verify).Forward? <==>
      var h := header.GetOr("");
      StartsWith(h, BearerPrefix) && verify(h[7..]).Some? && ClaimTruthy(verify(h[7..]).value.userId)
    ensures Authenticate(path, verb, true, header, verify).Forward? ==>
      Authenticate(path, verb, true, header, verify).state.Authenticated?
  {
  }

  /** The token the middleware hands on is the one the client sent after
      "Bearer ". */
  lemma BearerRoundTrip(path: string, verb: string, token: string, verify: Verify)
    requires !Bypass(path, verb)
    requires verify(token).Some? && ClaimTruthy(verify(token).value.userId)
    ensures Authenticate(path, verb, true, Some(BearerPrefix + token), verify) ==
      Forward(Authenticated(verify(token).value.userId, verify(token).value.username, verify(token).value.role, token))
  {
    assert (BearerPrefix + token)[..7] == BearerPrefix;
    assert (BearerPrefix + token)[7..] == token;
  }

  /** Why a guarded request is refused, one reason per failing check. */
  lemma RejectReasons(path: string, verb: string, header: Option<string>, verify: Verify)
    requires !Bypass(path, verb)
    ensures !StartsWith(header.GetOr(""), BearerPrefix) ==>
      Authenticate(path, verb, true, header, verify) == Reject(401, "Missing or invalid Authorization header")
    ensures StartsWith(header.GetOr(""), BearerPrefix) && verify(header.GetOr("")[7..]).None? ==>
      Authenticate(path, verb, true, header, verify) == Reject(401, "Invalid or expired token")
    ensures (StartsWith(header.GetOr(""), BearerPrefix) && verify(header.GetOr("")[7..]).Some?
             && !ClaimTruthy(verify(header.GetOr("")[7..]).value.userId)) ==>
      Authenticate(path, verb, true, header, verify) == Reject(401, "Invalid token")
  {
  }

  // ---------------------------------------------------------------------
  // AuditMiddleware: classification helpers.
  // ---------------------------------------------------------------------

  /** Paths never audited. */
  const AuditExemptPaths: set<string> := {"/health", "/docs", "/openapi.json", "/redoc"}

  /** `ENDPOINT_EVENT_TYPES`, in its declaration order. */
  const EndpointEventTypes: seq<(string, AuditService.EventType)> := [
    ("/auth/login", AuditService.Login),
    ("/auth/logout", AuditService.Logout),
    ("/auth/refresh", AuditService.TokenRefresh),
    ("/users", AuditService.UserCreate),
    ("/documents", AuditService.DocumentUpload),
    ("/archive", AuditService.DocumentUpload),
    ("/retrieve", AuditService.DocumentRetrieve),
    ("/delete", AuditService.DocumentDelete),
    ("/roles", AuditService.RoleCreate),
    ("/permissions", AuditService.PermissionGrant)
  ]

  /** The value of the first entry whose pattern occurs in `s`. */
  function FirstMatch<T>(table: seq<(string, T)>, s: string): (r: Option<T>)
    ensures r.None? <==> forall i | 0 <= i < |table| :: !Contains(s, table[i].0)
    ensures r.Some? ==> exists i | 0 <= i < |table| ::
      Contains(s, table[i].0) && r.value == table[i].1
      && forall j | 0 <= j < i :: !Contains(s, table[j].0)
  {
    if table == [] then None
    else if Contains(s, table[0].0) then Some(table[0].1)
    else
      var r := FirstMatch(table[1..], s);
      assert forall i | 1 <= i < |table| :: table[i] == table[1..][i - 1];
      r
  }

  /** What `_get_event_type` produces: an event type, the plain string
      "api_call", or an `AttributeError` (the GET fallback names
      `AuditEventType.DOCUMENT_VIEW`, which the enumeration lacks). */
  datatype Classified = Event(kind: AuditService.EventType) | ApiCall | Raises

  /** `_get_event_type`. */
  function EventTypeOf(endpoint: string, verb: string): (r: Classified)
    ensures r.Raises? <==> FirstMatch(EndpointEventTypes, endpoint).None? && verb == "GET"
    ensures FirstMatch(EndpointEventTypes, endpoint).Some? ==>
      r == Event(FirstMatch(EndpointEventTypes, endpoint).value)
  {
    match FirstMatch(EndpointEventTypes, endpoint)
    case Some(k) => Event(k)
    case None =>
      if verb == "POST" then Event(AuditService.DocumentUpload)
      else if verb == "GET" then Raises
      else if verb == "PUT" || verb == "PATCH" then Event(AuditService.DocumentUpload)
      else if verb == "DELETE" then Event(AuditService.DocumentDelete)
      else ApiCall
  }

  /** A path containing a table pattern, and none of the earlier ones, is
      classified by that pattern whatever the method. */
  lemma EventTypeByPattern(pre: string, k: nat, post: string, verb: string)
    requires k < |EndpointEventTypes|
    requires forall j | 0 <= j < k :: !Contains(pre + EndpointEventTypes[k].0 + post, EndpointEventTypes[j].0)
    ensures EventTypeOf(pre + EndpointEventTypes[k].0 + post, verb) == Event(EndpointEventTypes[k].1)
  {
    var path := pre + EndpointEventTypes[k].0 + post;
    ContainsSelf(path, pre, EndpointEventTypes[k].0, post);
    var r := FirstMatch(EndpointEventTypes, path);
    var i :| 0 <= i < |EndpointEventTypes| && Contains(path, EndpointEventTypes[i].0) && r.value == EndpointEventTypes[i].1
      && forall j | 0 <= j < i :: !Contains(path, EndpointEventTypes[j].0);
    assert i == k;
  }

  /** The fallback by method when no pattern matches. */
  lemma EventTypeFallback(endpoint: string, verb: string)
    requires forall i | 0 <= i < |EndpointEventTypes| :: !Contains(endpoint, EndpointEventTypes[i].0)
    ensures verb == "POST" || verb == "PUT" || verb == "PATCH" ==>
      EventTypeOf(endpoint, verb) == Event(AuditService.DocumentUpload)
    ensures verb == "DELETE" ==> EventTypeOf(endpoint, verb) == Event(AuditService.DocumentDelete)
    ensures verb !in {"POST", "PUT", "PATCH", "DELETE", "GET"} ==> EventTypeOf(endpoint, verb) == ApiCall
  {
  }

  /** The event type stored in the log: the classification's value is looked
      up among the enumeration's values, and anything unknown (the
      "api_call" string) becomes a document upload. */
  function LoggedEvent(c: Classified): (e: AuditService.EventType)
    requires !c.Raises?
    ensures c.Event? ==> e == c.kind
    ensures c.ApiCall? ==> e == AuditService.DocumentUpload
  {
    match c
    case Event(k) =>
      AuditService.ParseEventTypeValue(k);
      AuditService.ParseEventType(k.Value()).GetOr(AuditService.DocumentUpload)
    case ApiCall => AuditService.ParseEventType("api_call").GetOr(AuditService.DocumentUpload)
  }

  /** The path separator. */
  const Slash := '/'

  /** `_get_resource_type`. */
  function ResourceTypeOf(endpoint: string): string {
    if Contains(endpoint, "/users") then "user"
    else if Contains(endpoint, "/roles") then "role"
    else if Contains(endpoint, "/audit") then "audit_log"
    else if Contains(endpoint, "/documents") || Contains(endpoint, "/archive") then "document"
    else "unknown"
  }

  /** The same priority order written as a table. */
  const ResourcePatterns: seq<(string, string)> := [
    ("/users", "user"), ("/roles", "role"), ("/audit", "audit_log"),
    ("/documents", "document"), ("/archive", "document")
  ]

  /** The resource type is the first matching table entry, or "unknown". */
  lemma ResourceTypeIsFirstMatch(endpoint: string)
    ensures ResourceTypeOf(endpoint) == FirstMatch(ResourcePatterns, endpoint).GetOr("unknown")
  {
    var e := endpoint;
    FirstMatchCons(("/archive", "document"), [], e);
    FirstMatchCons(("/documents", "document"), [("/archive", "document")], e);
    FirstMatchCons(("/audit", "audit_log"), [("/documents", "document"), ("/archive", "document")], e);
    FirstMatchCons(("/roles", "role"), [("/audit", "audit_log"), ("/documents", "document"), ("/archive", "document")], e);
    FirstMatchCons(("/users", "user"), ResourcePatterns[1..], e);
    assert ResourcePatterns[1..] ==
      [("/roles", "role"), ("/audit", "audit_log"), ("/documents", "document"), ("/archive", "document")];
    assert [("/users", "user")] + ResourcePatterns[1..] == ResourcePatterns;
  }

  lemma FirstMatchCons<T>(head: (string, T), rest: seq<(string, T)>, s: string)
    ensures FirstMatch([head] + rest, s) == if Contains(s, head.0) then Some(head.1) else FirstMatch(rest, s)
  {
    assert ([head] + rest)[1..] == rest;
  }

  /** Query parameters in the order they appear in the URL. */
  type Query = seq<(string, string)>

  /** Where the last parameter named `key` sits. */
  function LastIndex(q: Query, key: string): (r: Option<nat>)
    ensures r.None? <==> forall i | 0 <= i < |q| :: q[i].0 != key
    ensures r.Some? ==> (r.value < |q| && q[r.value].0 == key
                         && forall j | r.value < j < |q| :: q[j].0 != key)
  {
    if q == [] then None
    else if q[|q| - 1].0 == key then Some(|q| - 1)
    else
      var r := LastIndex(q[..|q| - 1], key);
      assert forall i | 0 <= i < |q| - 1 :: q[..|q| - 1][i] == q[i];
      r
  }

  /** `request.query_params[key]` guarded by `key in request.query_params`:
      for a repeated key the last value wins. */
  function QueryGet(q: Query, key: string): (r: Option<string>)
    ensures r.None? <==> forall i | 0 <= i < |q| :: q[i].0 != key
  {
    match LastIndex(q, key)
    case None => None
    case Some(i) => Some(q[i].1)
  }

  /** The value returned is that of the last parameter with the name. */
  lemma QueryGetLast(q: Query, key: string, i: nat)
    requires i < |q| && q[i].0 == key
    requires forall j | i < j < |q| :: q[j].0 != key
    ensures QueryGet(q, key) == Some(q[i].1)
  {
    LastIndexAt(q, key, i);
  }

  lemma {:induction false} LastIndexAt(q: Query, key: string, i: nat)
    requires i < |q| && q[i].0 == key
    requires forall j | i < j < |q| :: q[j].0 != key
    ensures LastIndex(q, key) == Some(i)
  {
    if i < |q| - 1 {
      assert q[|q| - 1].0 != key;
      assert q[..|q| - 1][i] == q[i];
      assert forall j | i < j < |q| - 1 :: q[..|q| - 1][j] == q[j];
      LastIndexAt(q[..|q| - 1], key, i);
    }
  }

  /** The first path segment made only of digits. */
  function FirstDigits(parts: seq<string>): (r: Option<string>)
    ensures r.None? <==> forall i | 0 <= i < |parts| :: !AllDigits(parts[i])
    ensures r.Some? ==> exists i | 0 <= i < |parts| ::
      parts[i] == r.value && AllDigits(r.value) && forall j | 0 <= j < i :: !AllDigits(parts[j])
  {
    if parts == [] then None
    else if AllDigits(parts[0]) then Some(parts[0])
    else
      var r := FirstDigits(parts[1..]);
      assert forall i | 1 <= i < |parts| :: parts[i] == parts[1..][i - 1];
      r
  }

  /** `_get_resource_id`: a numeric path segment, else the `id`, then
      `document_id`, then `user_id` query parameter. */
  function ResourceIdOf(path: string, q: Query): (r: Option<string>)
    ensures r.None? ==> forall i | 0 <= i < |q| :: q[i].0 !in {"id", "document_id", "user_id"}
  {
    match FirstDigits(Split(path, Slash))
    case Some(part) => Some(part)
    case None =>
      if QueryGet(q, "id").Some? then QueryGet(q, "id")
      else if QueryGet(q, "document_id").Some? then QueryGet(q, "document_id")
      else QueryGet(q, "user_id")
  }

  /** Rebuilding a path from its segments: the numeric segment that comes
      first is the resource id, whatever the query says. */
  lemma PathIdRoundTrip(before: seq<string>, id: string, after: seq<string>, q: Query)
    requires AllDigits(id)
    requires forall i | 0 <= i < |before| :: !AllDigits(before[i]) && Slash !in before[i]
    requires forall i | 0 <= i < |after| :: Slash !in after[i]
    ensures ResourceIdOf(Join(before + [id] + after, "/"), q) == Some(id)
  {
    var parts := before + [id] + after;
    NoSeparator(before, id, after);
    SplitJoin(parts, Slash);
    assert parts[|before|] == id;
    FirstDigitsAt(parts, |before|);
  }

  lemma NoSeparator(before: seq<string>, id: string, after: seq<string>)
    requires AllDigits(id)
    requires forall i | 0 <= i < |before| :: Slash !in before[i]
    requires forall i | 0 <= i < |after| :: Slash !in after[i]
    ensures forall i | 0 <= i < |before + [id] + after| :: Slash !in (before + [id] + after)[i]
  {
    var parts := before + [id] + after;
    forall i | 0 <= i < |parts| ensures Slash !in parts[i] {
      if i < |before| {
        assert parts[i] == before[i];
      } else if i == |before| {
        assert parts[i] == id;
        assert forall c | c in id :: IsDigit(c);
      } else {
        assert parts[i] == after[i - |before| - 1];
      }
    }
  }

  /** The segment found is the first numeric one. */
  lemma {:induction false} FirstDigitsAt(parts: seq<string>, k: nat)
    requires k < |parts| && AllDigits(parts[k])
    requires forall j | 0 <= j < k :: !AllDigits(parts[j])
    ensures FirstDigits(parts) == Some(parts[k])
  {
    if k > 0 {
      assert !AllDigits(parts[0]);
      assert forall j | 0 <= j < k - 1 :: parts[1..][j] == parts[j + 1];
      FirstDigitsAt(parts[1..], k - 1);
    }
  }

  /** Without a numeric segment the query decides, `id` first and the last
      `id` when it is repeated. */
  lemma QueryIdFallback(path: string, q: Query, v: string)
    requires forall i | 0 <= i < |Split(path, Slash)| :: !AllDigits(Split(path, Slash)[i])
    ensures ResourceIdOf(path, q + [("id", v)]) == Some(v)
  {
  }

  /** `document_id` is consulted only when there is no `id`, and
      `user_id` only when there is neither. */
  lemma QueryPriority(path: string, q: Query)
    requires forall i | 0 <= i < |Split(path, Slash)| :: !AllDigits(Split(path, Slash)[i])
    requires forall i | 0 <= i < |q| :: q[i].0 != "id"
    ensures ResourceIdOf(path, q) ==
      (if QueryGet(q, "document_id").Some? then QueryGet(q, "document_id") else QueryGet(q, "user_id"))
  {
  }

  /** The audit status as a string (the variable `audit_status`). */
  function StatusText(code: int): string {
    var s := if 200 <= code < 300 then "success" else "failure";
    if 300 <= code < 400 then "partial" else s
  }

  /** The audit status as the enumeration the log stores. */
  function StatusOf(code: int): (r: AuditService.Status)
    ensures r == AuditService.Success <==> 200 <= code < 300
    ensures r == AuditService.Partial <==> 300 <= code < 400
    ensures r == AuditService.Failure <==> code < 200 || code >= 400
  {
    if 200 <= code < 300 then AuditService.Success
    else if 300 <= code < 400 then AuditService.Partial
    else AuditService.Failure
  }

  /** The two computations of the status agree for every code. */
  lemma StatusAgree(code: int)
    ensures StatusOf(code).Value() == StatusText(code)
  {
  }

  // ---------------------------------------------------------------------
  // AuditMiddleware.dispatch.
  // ---------------------------------------------------------------------

  /** What the audit middleware reads from the incoming request. */
  datatype Request = Request(
    path: string, verb: string, query: Query, client: Option<string>, userAgent: Option<string>)

  /** Requests the audit middleware looks at. */
  predicate Audited(path: string, verb: string, auditEnabled: bool) {
    path !in AuditExemptPaths && verb != "OPTIONS" && auditEnabled
  }

  /** `getattr(request.state, "user_id", None)` and
      `getattr(request.state, "username", "anonymous")`. */
  function StateUser(state: RequestState): (r: (Option<string>, Option<string>))
    ensures state.Untouched? ==> r == (None, Some("anonymous"))
    ensures state.Anonymous? ==> r == (None, None)
    ensures state.Authenticated? ==> r.0 == ClaimText(state.userId) && r.1 == state.username
  {
    match state
    case Untouched => (None, Some("anonymous"))
    case Anonymous => (None, None)
    case Authenticated(id, name, _, _) => (ClaimText(id), name)
  }

  /** The audit middleware's verdict: not audited, an `AuditLog` handed to
      `log_event`, or the `AttributeError` raised while classifying. */
  datatype AuditOutcome = Skipped | Logged(log: AuditService.AuditLog) | Raised

  /** The details dictionary; the elapsed time and the query dictionary
      arrive already rendered. */
  function AuditDetails(req: Request, code: int, elapsed: string, queryText: string): AuditService.Details {
    [("execution_time_ms", elapsed), ("query_params", queryText),
     ("http_status", IntToString(code)), ("http_endpoint", req.path)]
  }

  /** The log built for a classified request. */
  function AuditEntry(req: Request, kind: Classified, code: int, state: RequestState,
                      elapsed: string, queryText: string, now: int): (log: AuditService.AuditLog)
    requires !kind.Raises?
    ensures log.status == StatusOf(code) && log.action == Some(req.verb)
    ensures log.resourceType == Some(ResourceTypeOf(req.path))
    ensures log.resourceId == ResourceIdOf(req.path, req.query)
    ensures log.ipAddress == Some(req.client.GetOr("unknown"))
    ensures log.userAgent == Some(req.userAgent.GetOr("unknown"))
    ensures log.timestamp == now
    ensures (log.userId, log.username) == StateUser(state)
  {
    var user := StateUser(state);
    AuditService.NewAuditLog(
      LoggedEvent(kind), user.0, user.1, Some(ResourceTypeOf(req.path)), ResourceIdOf(req.path, req.query),
      Some(req.verb), StatusOf(code), Some(AuditDetails(req, code, elapsed, queryText)),
      Some(req.client.GetOr("unknown")), Some(req.userAgent.GetOr("unknown")), None, now)
  }

  /** `AuditMiddleware.dispatch` once the handler has answered with `code`
      (500 when it raised). */
  function AuditDispatch(req: Request, auditEnabled: bool, code: int, state: RequestState,
                         elapsed: string, queryText: string, now: int): (r: AuditOutcome)
    ensures r.Skipped? <==> !Audited(req.path, req.verb, auditEnabled)
    ensures r.Raised? <==> Audited(req.path, req.verb, auditEnabled) && EventTypeOf(req.path, req.verb).Raises?
  {
    if !Audited(req.path, req.verb, auditEnabled) then Skipped
    else
      var kind := EventTypeOf(req.path, req.verb);
      if kind.Raises? then Raised
      else Logged(AuditEntry(req, kind, code, state, elapsed, queryText, now))
  }

  /** A GET to a path outside the table fails inside the middleware: the
      fallback names an event type the enumeration does not have. */
  lemma UnlistedGetRaises(path: string, query: Query, client: Option<string>, userAgent: Option<string>,
                          code: int, state: RequestState, elapsed: string, queryText: string, now: int)
    requires path !in AuditExemptPaths
    requires forall i | 0 <= i < |EndpointEventTypes| :: !Contains(path, EndpointEventTypes[i].0)
    ensures AuditDispatch(Request(path, "GET", query, client, userAgent), true, code, state, elapsed, queryText, now) == Raised
  {
  }

  /** `_get_event_type` with the GET fallback pointing at a defined event
      type: a read is logged as a document retrieval. */
  function EventTypeFixed(endpoint: string, verb: string): (r: Classified)
    ensures !r.Raises?
    ensures !EventTypeOf(endpoint, verb).Raises? ==> r == EventTypeOf(endpoint, verb)
  {
    match EventTypeOf(endpoint, verb)
    case Raises => Event(AuditService.DocumentRetrieve)
    case other => other
  }

  /** The audit middleware with the corrected fallback. */
  function AuditDispatchFixed(req: Request, auditEnabled: bool, code: int, state: RequestState,
                              elapsed: string, queryText: string, now: int): (r: AuditOutcome)
    ensures !r.Raised?
    ensures r.Logged? <==> Audited(req.path, req.verb, auditEnabled)
  {
    if !Audited(req.path, req.verb, auditEnabled) then Skipped
    else Logged(AuditEntry(req, EventTypeFixed(req.path, req.verb), code, state, elapsed, queryText, now))
  }

  /** Every audited request is logged with the corrected fallback, and
      wherever the original did not fail both produce the same log. */
  lemma AuditFixedAgrees(req: Request, auditEnabled: bool, code: int, state: RequestState,
                         elapsed: string, queryText: string, now: int)
    ensures AuditDispatch(req, auditEnabled, code, state, elapsed, queryText, now).Raised? ||
      AuditDispatchFixed(req, auditEnabled, code, state, elapsed, queryText, now) ==
      AuditDispatch(req, auditEnabled, code, state, elapsed, queryText, now)
    ensures AuditDispatch(req, auditEnabled, code, state, elapsed, queryText, now).Raised? ==>
      AuditDispatchFixed(req, auditEnabled, code, state, elapsed, queryText, now).log.eventType
        == AuditService.DocumentRetrieve
  {
  }

  // ---------------------------------------------------------------------
  // The middleware stack of `app/main.py`.
  // ---------------------------------------------------------------------

  /** The answer the client gets: a refusal of the authentication layer,
      which is present only when authentication is enabled, or the
      handler's code. */
  function CodeAfterAuth(req: Request, authEnabled: bool, header: Option<string>, verify: Verify, code: int): (c: int)
    ensures authEnabled && Authenticate(req.path, req.verb, true, header, verify).Reject? ==> c == 401
    ensures !authEnabled || Authenticate(req.path, req.verb, true, header, verify).Forward? ==> c == code
  {
    if !authEnabled then code
    else match Authenticate(req.path, req.verb, true, header, verify)
      case Forward(_) => code
      case Reject(status, _) => status
  }

  /** The request state once the authentication layer has handled the
      request: what it wrote for a request it let through, and nothing for
      one it refused or when it is not installed. */
  function StateAfterAuth(req: Request, authEnabled: bool, header: Option<string>, verify: Verify): (st: RequestState)
    ensures !authEnabled ==> st.Untouched?
    ensures authEnabled && Authenticate(req.path, req.verb, true, header, verify).Forward? ==>
      st == Authenticate(req.path, req.verb, true, header, verify).state
    ensures st.Authenticated? ==> authEnabled && Authenticate(req.path, req.verb, true, header, verify) == Forward(st)
  {
    if !authEnabled then Untouched
    else match Authenticate(req.path, req.verb, true, header, verify)
      case Forward(st) => st
      case Reject(_, _) => Untouched
  }

  /** The stack as built: the audit middleware is added after the
      authentication middleware, so it is the outer layer, and it reads the
      user fields of the request state before calling the inner layers.
      Whatever the authentication step decides, the log sees the state
      untouched; a refused request is still logged, with the refusal's code. */
  function ServeAsWired(req: Request, authEnabled: bool, auditEnabled: bool, header: Option<string>, verify: Verify,
                        code: int, elapsed: string, queryText: string, now: int): (r: AuditOutcome)
    ensures r.Skipped? <==> !Audited(req.path, req.verb, auditEnabled)
    ensures r.Raised? <==> Audited(req.path, req.verb, auditEnabled) && EventTypeOf(req.path, req.verb).Raises?
    ensures r.Logged? ==> r.log.userId == None && r.log.username == Some("anonymous")
    ensures r.Logged? ==> r.log.status == StatusOf(CodeAfterAuth(req, authEnabled, header, verify, code))
  {
    AuditDispatch(req, auditEnabled, CodeAfterAuth(req, authEnabled, header, verify, code), Untouched,
      elapsed, queryText, now)
  }

  /** A request the authentication step accepted as a user is logged as
      `anonymous` with no user id, although its token named one. */
  lemma AuditNeverRecordsUser(req: Request, auditEnabled: bool, header: Option<string>, verify: Verify,
                              code: int, elapsed: string, queryText: string, now: int)
    requires Authenticate(req.path, req.verb, true, header, verify).Forward?
    requires Authenticate(req.path, req.verb, true, header, verify).state.Authenticated?
    requires Audited(req.path, req.verb, auditEnabled) && !EventTypeOf(req.path, req.verb).Raises?
    ensures var st := Authenticate(req.path, req.verb, true, header, verify).state;
      var r := ServeAsWired(req, true, auditEnabled, header, verify, code, elapsed, queryText, now);
      && ClaimText(st.userId).Some?
      && r.Logged? && r.log.userId == None && r.log.username == Some("anonymous")
  {
  }

  /** The stack with the user fields read once the inner layers have run,
      so that the log sees what the authentication step wrote. */
  function ServeFixed(req: Request, authEnabled: bool, auditEnabled: bool, header: Option<string>, verify: Verify,
                      code: int, elapsed: string, queryText: string, now: int): (r: AuditOutcome)
    ensures r.Logged? ==> (r.log.userId, r.log.username) == StateUser(StateAfterAuth(req, authEnabled, header, verify))
    ensures r.Logged? ==> r.log.status == StatusOf(CodeAfterAuth(req, authEnabled, header, verify, code))
  {
    AuditDispatch(req, auditEnabled, CodeAfterAuth(req, authEnabled, header, verify, code),
      StateAfterAuth(req, authEnabled, header, verify), elapsed, queryText, now)
  }

  /** With the fix, a request accepted as a user is logged under that
      user's id and name; the stack otherwise answers as built. */
  lemma FixedRecordsUser(req: Request, auditEnabled: bool, header: Option<string>, verify: Verify,
                         code: int, elapsed: string, queryText: string, now: int)
    requires Authenticate(req.path, req.verb, true, header, verify).Forward?
    requires Authenticate(req.path, req.verb, true, header, verify).state.Authenticated?
    requires Audited(req.path, req.verb, auditEnabled) && !EventTypeOf(req.path, req.verb).Raises?
    ensures var st := Authenticate(req.path, req.verb, true, header, verify).state;
      var r := ServeFixed(req, true, auditEnabled, header, verify, code, elapsed, queryText, now);
      && r.Logged? && r.log.userId == ClaimText(st.userId) && r.log.userId.Some?
      && r.log.username == st.username
  {
  }

  /** The fix changes nothing but the user fields: when the state is left
      untouched, or the request is not logged, both stacks agree. */
  lemma FixedAgreesOffUser(req: Request, authEnabled: bool, auditEnabled: bool, header: Option<string>, verify: Verify,
                           code: int, elapsed: string, queryText: string, now: int)
    ensures var a := ServeAsWired(req, authEnabled, auditEnabled, header, verify, code, elapsed, queryText, now);
      var f := ServeFixed(req, authEnabled, auditEnabled, header, verify, code, elapsed, queryText, now);
      && (a.Logged? <==> f.Logged?) && (a.Raised? <==> f.Raised?)
      && (a.Logged? ==> f.log == a.log.(userId := f.log.userId, username := f.log.username))
      && (StateAfterAuth(req, authEnabled, header, verify).Untouched? ==> a == f)
  {
  }

  // ---------------------------------------------------------------------
  // require_role.
  // ---------------------------------------------------------------------

  /** The route guard's answer: the caller's role, or an HTTP error. */
  datatype RoleCheck = Allowed(role: Option<string>) | Refused(status: int, detail: string)

  /** `require_role(*roles)` applied to the role left in the request state. */
  function RequireRole(roles: seq<string>, role: Option<string>, authEnabled: bool): (r: RoleCheck)
    ensures r.Allowed? ==> r.role == role
    ensures r.Allowed? <==> !authEnabled || (Truthy(role) && role.value in roles)
    ensures r == Refused(401, "Not authenticated") <==> authEnabled && !Truthy(role)
    ensures r.Refused? ==> r.status in {401, 403}
  {
    if !Truthy(role) && authEnabled then Refused(401, "Not authenticated")
    else if authEnabled && !(role.Some? && role.value in roles) then
      Refused(403, "This operation requires one of: " + Join(roles, ", "))
    else Allowed(role)
  }

  /** A 403 names every role that would have been accepted. */
  lemma RefusalNamesRoles(roles: seq<string>, role: Option<string>)
    requires RequireRole(roles, role, true).Refused? && RequireRole(roles, role, true).status == 403
    ensures forall i | 0 <= i < |roles| :: Contains(RequireRole(roles, role, true).detail, roles[i])
  {
    JoinContainsParts(roles, ", ");
    forall i | 0 <= i < |roles| ensures Contains(RequireRole(roles, role, true).detail, roles[i]) {
      ContainsAfter("This operation requires one of: ", Join(roles, ", "), roles[i]);
    }
  }

  /** With authentication off the guard lets everyone through. */
  lemma GuardOffAllows(roles: seq<string>, role: Option<string>)
    ensures RequireRole(roles, role, false) == Allowed(role)
  {
  }
}

=== FILE: provider.dfy ===
/** The configured storage provider seen through the abstract contract:
    one of the three registered cloud adapters together with its remote
    state. Each call dispatches to the adapter and keeps the backend kind. */
module Provider {
  import opened Common
  import opened StorageBase
  import Config
  import AwsS3
  import AzureBlob
  import GcpStorage

  datatype Backend =
    | S3(s3: AwsS3.Bucket)
    | Azure(azure: AzureBlob.Container)
    | Gcs(gcs: GcpStorage.Bucket)

  predicate SameKind(a: Backend, b: Backend) {
    (a.S3? && b.S3?) || (a.Azure? && b.Azure?) || (a.Gcs? && b.Gcs?)
  }

  /** `download`, read-only. */
  function Download(be: Backend, path: string): (r: RetrieveResult)
    ensures be.S3? && r.success ==> path in be.s3.objects && r.data == be.s3.objects[path].data
    ensures be.Azure? && r.success ==> path in be.azure.blobs && r.data == be.azure.blobs[path].data
    ensures be.Gcs? && r.success ==> path in be.gcs.objects && r.data == be.gcs.objects[path].data
  {
    match be
    case S3(b) => AwsS3.Download(b, path).0
    case Azure(c) => AzureBlob.Download(c, path)
    case Gcs(b) => GcpStorage.Download(b, path)
  }

  /** `move_to_archive`. A call that issues no mutating request leaves the
      remote state as it was, and a failure reports empty tiers. */
  function MoveToArchive(be: Backend, path: string, tier: string): (out: Outcome<ArchiveResult, Backend>)
    ensures SameKind(out.state, be)
    ensures !out.mutated ==> out.state == be
    ensures !out.result.success ==> out.state == be
    ensures out.result.success ==> out.result.newTier == tier
  {
    match be
    case S3(b) =>
      var o := AwsS3.MoveToArchive(b, path, tier);
      Outcome(o.result, S3(o.state), o.mutated)
    case Azure(c) =>
      var o := AzureBlob.MoveToArchive(c, path, tier);
      Outcome(o.result, Azure(o.state), o.mutated)
    case Gcs(b) =>
      var o := GcpStorage.MoveToArchive(b, path, tier);
      Outcome(o.result, Gcs(o.state), o.mutated)
  }

  /** On S3 and GCS a successful move repeated to the same tier sends no
      copy request and leaves the remote state alone. */
  lemma MoveRepeat(be: Backend, path: string, tier: string)
    requires be.S3? || be.Gcs?
    requires MoveToArchive(be, path, tier).result.success
    ensures var be' := MoveToArchive(be, path, tier).state;
      !MoveToArchive(be', path, tier).mutated && MoveToArchive(be', path, tier).state == be'
  {
    match be
    case S3(b) => AwsS3.MoveIdempotent(b, path, tier);
    case Gcs(b) => GcpStorage.MoveIdempotent(b, path, tier);
  }

  /** `restore_from_archive`. */
  function RestoreFromArchive(be: Backend, path: string, days: int, restoreTier: string): (out: Outcome<RestoreResult, Backend>)
    ensures SameKind(out.state, be)
    ensures !out.mutated ==> out.state == be
    ensures out.result.success ==> out.result.restoreStatus in Config.StatusValues
    ensures !out.result.success ==> !out.result.isRetrievable
  {
    match be
    case S3(b) =>
      var o := AwsS3.RestoreFromArchive(b, path, days, restoreTier);
      S3RestoreSane(b, path, days, restoreTier);
      Outcome(o.result, S3(o.state), o.mutated)
    case Azure(c) =>
      var o := AzureBlob.RestoreFromArchive(c, path, days, restoreTier);
      AzureRestoreSane(c, path, days, restoreTier);
      Outcome(o.result, Azure(o.state), o.mutated)
    case Gcs(b) =>
      var o := GcpStorage.RestoreFromArchive(b, path, days, restoreTier);
      GcsRestoreSane(b, path, days, restoreTier);
      Outcome(o.result, Gcs(o.state), o.mutated)
  }

  /** A restore answer that reports a known status on success and is never
      retrievable on failure. */
  predicate SaneRestore(r: RestoreResult) {
    (r.success ==> r.restoreStatus in Config.StatusValues) && (!r.success ==> !r.isRetrievable)
  }

  lemma S3RestoreSane(b: AwsS3.Bucket, path: string, days: int, restoreTier: string)
    ensures SaneRestore(AwsS3.RestoreFromArchive(b, path, days, restoreTier).result)
  {
  }

  lemma AzureRestoreSane(c: AzureBlob.Container, path: string, days: int, restoreTier: string)
    ensures SaneRestore(AzureBlob.RestoreFromArchive(c, path, days, restoreTier).result)
  {
  }

  lemma GcsRestoreSane(b: GcpStorage.Bucket, path: string, days: int, restoreTier: string)
    ensures SaneRestore(GcpStorage.RestoreFromArchive(b, path, days, restoreTier).result)
  {
  }

  /** `get_archive_status`, read-only: a successful probe reports one of the
      four restore statuses, and a failed one is never retrievable. */
  function GetArchiveStatus(be: Backend, path: string): (r: RestoreResult)
    ensures r.success ==> r.restoreStatus in Config.StatusValues
    ensures !r.success ==> !r.isRetrievable && r.restoreStatus == ""
    ensures be.Azure? ==> r.restoreStatus != "restored"
    ensures be.Gcs? && r.success ==> r.isRetrievable && r.restoreStatus != "in_progress"
  {
    match be
    case S3(b) => AwsS3.GetArchiveStatus(b, path)
    case Azure(c) => AzureBlob.GetArchiveStatus(c, path)
    case Gcs(b) => GcpStorage.GetArchiveStatus(b, path)
  }

  /** Every provider that reports "restored" also reports the object
      retrievable, and an in-progress probe is never retrievable. */
  lemma ProbeCoherent(be: Backend, path: string)
    ensures var r := GetArchiveStatus(be, path);
      && (r.success && r.restoreStatus == "restored" ==> r.isRetrievable)
      && (r.success && r.restoreStatus == "in_progress" ==> !r.isRetrievable)
  {
  }

  /** Only the S3 adapter can complete a restore as seen by the probe. */
  lemma OnlyS3ReportsRestored(be: Backend, path: string)
    requires GetArchiveStatus(be, path).restoreStatus == "restored"
    ensures be.S3?
  {
  }
}

=== FILE: report.dfy ===
/** The integer part of the document service's report: counts and sizes of
    the documents created in a period, grouped by content type, by tag and
    by upload day, and the ten most used tags. The day label of a
    timestamp (`strftime("%Y-%m-%d")`) is the input `dayOf`. */
module Report {
  import opened Common
  import opened Database

  /** One row of the `document_tags` table. */
  datatype TagRow = TagRow(documentId: DocId, tagKey: string, tagValue: string)

  // ---------------------------------------------------------------------
  // Selecting the period.
  // ---------------------------------------------------------------------

  predicate InPeriod(d: DocumentRecord, start: int, end: int) {
    start <= d.createdAt <= end
  }

  /** The documents created within `[start, end]`, in table order: each
      exactly once. */
  function DocumentsInPeriod(t: Table, start: int, end: int): (r: seq<DocumentRecord>)
    requires t.Valid()
    ensures forall i | 0 <= i < |r| :: InPeriod(r[i], start, end) && r[i].documentId in t.docs && t.docs[r[i].documentId] == r[i]
    ensures forall id | id in t.docs && InPeriod(t.docs[id], start, end) :: t.docs[id] in r
    ensures DistinctIds(r)
  {
    Select(t, d => InPeriod(d, start, end))
  }

  /** `sum(doc.size_bytes for doc in documents)`. */
  function SizeSum(docs: seq<DocumentRecord>): int {
    if docs == [] then 0 else SizeSum(docs[..|docs| - 1]) + docs[|docs| - 1].sizeBytes
  }

  /** The ids of a selection. */
  function Ids(docs: seq<DocumentRecord>): (r: set<DocId>)
    ensures forall i | 0 <= i < |docs| :: docs[i].documentId in r
    ensures forall id | id in r :: exists i | 0 <= i < |docs| :: docs[i].documentId == id
  {
    set i | 0 <= i < |docs| :: docs[i].documentId
  }

  /** The tag rows of the selected documents, in table order. */
  function RowsFor(rows: seq<TagRow>, ids: set<DocId>): (r: seq<TagRow>)
    ensures |r| <= |rows|
    ensures forall x | x in r :: x in rows && x.documentId in ids
    ensures forall x | x in rows && x.documentId in ids :: x in r
  {
    if rows == [] then []
    else
      var rest := RowsFor(rows[1..], ids);
      if rows[0].documentId in ids then [rows[0]] + rest else rest
  }

  // ---------------------------------------------------------------------
  // Daily uploads, sorted by date.
  // ---------------------------------------------------------------------

  /** Code-point order on strings, as Python compares them. */
  predicate Below(a: string, b: string)
    decreases |a|
  {
    if a == [] then b != []
    else b != [] && (a[0] < b[0] || (a[0] == b[0] && Below(a[1..], b[1..])))
  }

  /** Two different strings are ordered one way or the other. */
  lemma {:induction false} BelowTotal(a: string, b: string)
    requires a != b
    ensures Below(a, b) || Below(b, a)
    decreases |a|
  {
    if a != [] && b != [] && a[0] == b[0] {
      assert a == [a[0]] + a[1..] && b == [b[0]] + b[1..];
      BelowTotal(a[1..], b[1..]);
    }
  }

  /** Never both ways. */
  lemma {:induction false} BelowAsymmetric(a: string, b: string)
    requires Below(a, b)
    ensures !Below(b, a)
    decreases |a|
  {
    if a != [] && a[0] == b[0] {
      BelowAsymmetric(a[1..], b[1..]);
    }
  }

  datatype DailyUpload = DailyUpload(date: string, count: int, sizeBytes: int)

  /** Dates strictly ascending. */
  predicate ByDate(s: seq<DailyUpload>) {
    forall i | 0 <= i < |s| - 1 :: Below(s[i].date, s[i + 1].date)
  }

  /** The upload count and byte size recorded under a date. */
  function CountOn(s: seq<DailyUpload>, date: string): int {
    if s == [] then 0 else (if s[0].date == date then s[0].count else 0) + CountOn(s[1..], date)
  }

  function SizeOn(s: seq<DailyUpload>, date: string): int {
    if s == [] then 0 else (if s[0].date == date then s[0].sizeBytes else 0) + SizeOn(s[1..], date)
  }

  function TotalCount(s: seq<DailyUpload>): int {
    if s == [] then 0 else s[0].count + TotalCount(s[1..])
  }

  function TotalSize(s: seq<DailyUpload>): int {
    if s == [] then 0 else s[0].sizeBytes + TotalSize(s[1..])
  }

  /** Counting one upload of `size` bytes on `date` in a date-sorted list:
      bump the day's entry, or insert a new one in its place. */
  function AddUpload(s: seq<DailyUpload>, date: string, size: int): (r: seq<DailyUpload>)
    requires ByDate(s)
    ensures ByDate(r) && r != []
    ensures r[0].date == date || (s != [] && r[0].date == s[0].date)
    ensures forall x :: CountOn(r, x) == CountOn(s, x) + (if x == date then 1 else 0)
    ensures forall x :: SizeOn(r, x) == SizeOn(s, x) + (if x == date then size else 0)
    ensures TotalCount(r) == TotalCount(s) + 1 && TotalSize(r) == TotalSize(s) + size
  {
    if s == [] then [DailyUpload(date, 1, size)]
    else if s[0].date == date then
      [s[0].(count := s[0].count + 1, sizeBytes := s[0].sizeBytes + size)] + s[1..]
    else if Below(date, s[0].date) then [DailyUpload(date, 1, size)] + s
    else
      BelowTotal(date, s[0].date);
      var rest := AddUpload(s[1..], date, size);
      [s[0]] + rest
  }

  /** The documents created on a given day. */
  function UploadsOn(docs: seq<DocumentRecord>, dayOf: int -> string, date: string): nat {
    if docs == [] then 0
    else UploadsOn(docs[..|docs| - 1], dayOf, date) + (if dayOf(docs[|docs| - 1].createdAt) == date then 1 else 0)
  }

  function BytesOn(docs: seq<DocumentRecord>, dayOf: int -> string, date: string): int {
    if docs == [] then 0
    else BytesOn(docs[..|docs| - 1], dayOf, date) + (if dayOf(docs[|docs| - 1].createdAt) == date then docs[|docs| - 1].sizeBytes else 0)
  }

  /** `daily_uploads_list`: one entry per day, sorted by date. */
  function DailyUploads(docs: seq<DocumentRecord>, dayOf: int -> string): (r: seq<DailyUpload>)
    ensures ByDate(r)
    ensures TotalCount(r) == |docs| && TotalSize(r) == SizeSum(docs)
  {
    if docs == [] then []
    else
      var last := docs[|docs| - 1];
      AddUpload(DailyUploads(docs[..|docs| - 1], dayOf), dayOf(last.createdAt), last.sizeBytes)
  }

  /** Each day's entry counts exactly the documents created that day and
      their bytes. */
  lemma {:induction false} DailyUploadsPerDay(docs: seq<DocumentRecord>, dayOf: int -> string, date: string)
    ensures CountOn(DailyUploads(docs, dayOf), date) == UploadsOn(docs, dayOf, date)
    ensures SizeOn(DailyUploads(docs, dayOf), date) == BytesOn(docs, dayOf, date)
  {
    if docs != [] {
      DailyUploadsPerDay(docs[..|docs| - 1], dayOf, date);
    }
  }

  // ---------------------------------------------------------------------
  // Tag counts and the top ten.
  // ---------------------------------------------------------------------

  datatype TagCount = TagCount(tagKey: string, tagValue: string, count: int)

  function PairCount(s: seq<TagCount>, key: string, value: string): int {
    if s == [] then 0
    else (if s[0].tagKey == key && s[0].tagValue == value then s[0].count else 0) + PairCount(s[1..], key, value)
  }

  function TagTotal(s: seq<TagCount>): int {
    if s == [] then 0 else s[0].count + TagTotal(s[1..])
  }

  predicate HasKey(s: seq<TagCount>, key: string) {
    exists i | 0 <= i < |s| :: s[i].tagKey == key
  }

  /** `documents_by_tag[key][value] += 1` on the nested dictionary, kept as
      its iteration order: keys by first appearance, and within a key the
      values by first appearance. A new value goes after the key's last
      entry, a new key at the end. */
  function AddTag(s: seq<TagCount>, key: string, value: string): (r: seq<TagCount>)
    ensures forall k, v :: PairCount(r, k, v) == PairCount(s, k, v) + (if k == key && v == value then 1 else 0)
    ensures TagTotal(r) == TagTotal(s) + 1
  {
    if s == [] then [TagCount(key, value, 1)]
    else if s[0].tagKey == key && s[0].tagValue == value then [s[0].(count := s[0].count + 1)] + s[1..]
    else if s[0].tagKey == key && !HasKey(s[1..], key) then [s[0], TagCount(key, value, 1)] + s[1..]
    else [s[0]] + AddTag(s[1..], key, value)
  }

  function TagRowsWith(rows: seq<TagRow>, key: string, value: string): nat {
    if rows == [] then 0
    else TagRowsWith(rows[..|rows| - 1], key, value) + (if rows[|rows| - 1].tagKey == key && rows[|rows| - 1].tagValue == value then 1 else 0)
  }

  /** `documents_by_tag`, flattened in iteration order. */
  function TagCounts(rows: seq<TagRow>): (r: seq<TagCount>)
    ensures TagTotal(r) == |rows|
  {
    if rows == [] then []
    else
      var last := rows[|rows| - 1];
      AddTag(TagCounts(rows[..|rows| - 1]), last.tagKey, last.tagValue)
  }

  /** Each (key, value) pair counts exactly the rows carrying it. */
  lemma {:induction false} TagCountsPerPair(rows: seq<TagRow>, key: string, value: string)
    ensures PairCount(TagCounts(rows), key, value) == TagRowsWith(rows, key, value)
  {
    if rows != [] {
      TagCountsPerPair(rows[..|rows| - 1], key, value);
    }
  }

  predicate NonIncreasing(s: seq<TagCount>) {
    forall i | 0 <= i < |s| - 1 :: s[i].count >= s[i + 1].count
  }

  /** Inserting ahead of the first entry with a count no larger: equal
      counts keep their original order when the input is inserted back to
      front, as Python's stable sort does. */
  function InsertByCount(x: TagCount, s: seq<TagCount>): (r: seq<TagCount>)
    requires NonIncreasing(s)
    ensures NonIncreasing(r) && multiset(r) == multiset(s) + multiset{x}
    ensures r[0] == x || (s != [] && r[0] == s[0])
  {
    if s == [] || s[0].count <= x.count then [x] + s
    else
      var rest := InsertByCount(x, s[1..]);
      assert s == [s[0]] + s[1..];
      [s[0]] + rest
  }

  /** `sorted(..., key=count, reverse=True)`. */
  function SortByCount(s: seq<TagCount>): (r: seq<TagCount>)
    ensures NonIncreasing(r) && multiset(r) == multiset(s)
  {
    if s == [] then []
    else
      assert s == [s[0]] + s[1..];
      InsertByCount(s[0], SortByCount(s[1..]))
  }

  /** The entries with count `c`, in order. */
  function WithCount(s: seq<TagCount>, c: int): (r: seq<TagCount>)
    ensures |r| <= |s|
  {
    if s == [] then []
    else (if s[0].count == c then [s[0]] else []) + WithCount(s[1..], c)
  }

  lemma WithCountCons(x: TagCount, s: seq<TagCount>, c: int)
    ensures WithCount([x] + s, c) == (if x.count == c then [x] else []) + WithCount(s, c)
  {
    assert ([x] + s)[1..] == s;
  }

  /** Past a larger head, inserting goes into the tail. */
  lemma InsertByCountStep(x: TagCount, s: seq<TagCount>)
    requires NonIncreasing(s) && s != [] && s[0].count > x.count
    ensures NonIncreasing(s[1..]) && InsertByCount(x, s) == [s[0]] + InsertByCount(x, s[1..])
  {
  }

  lemma {:induction false} InsertByCountStable(x: TagCount, s: seq<TagCount>, c: int)
    requires NonIncreasing(s)
    ensures WithCount(InsertByCount(x, s), c) == (if x.count == c then [x] else []) + WithCount(s, c)
    decreases |s|
  {
    if s == [] || s[0].count <= x.count {
      WithCountCons(x, s, c);
    } else {
      InsertByCountStep(x, s);
      var rest := InsertByCount(x, s[1..]);
      InsertByCountStable(x, s[1..], c);
      WithCountCons(s[0], rest, c);
      WithCountCons(s[0], s[1..], c);
      assert [s[0]] + s[1..] == s;
      var w := WithCount(s[1..], c);
      if x.count == c {
        assert WithCount(rest, c) == [x] + w && WithCount(s, c) == w;
      } else if s[0].count == c {
        assert WithCount(rest, c) == w && WithCount(s, c) == [s[0]] + w;
      } else {
        assert WithCount(rest, c) == w && WithCount(s, c) == w;
      }
    }
  }


  /** The sort is stable, as Python's is even with `reverse=True`: entries
      with equal counts keep the order they had. */
  lemma {:induction false} SortByCountStable(s: seq<TagCount>, c: int)
    ensures WithCount(SortByCount(s), c) == WithCount(s, c)
  {
    if s != [] {
      SortByCountStable(s[1..], c);
      InsertByCountStable(s[0], SortByCount(s[1..]), c);
    }
  }

  /** The first ten entries of the sorted table. */
  function TopTags(s: seq<TagCount>): (r: seq<TagCount>)
    ensures |r| <= 10 && (|s| >= 10 ==> |r| == 10) && (|s| < 10 ==> |r| == |s|)
    ensures NonIncreasing(r) && multiset(r) <= multiset(s)
  {
    var sorted := SortByCount(s);
    var n := if |sorted| < 10 then |sorted| else 10;
    assert sorted == sorted[..n] + sorted[n..];
    sorted[..n]
  }

  /** No tag left out of the top ten is used more than one kept in it. */
  lemma TopTagsDominate(s: seq<TagCount>)
    ensures var r := TopTags(s);
      forall i, j | 0 <= i < |r| && 0 <= j < |s| && s[j] !in r :: s[j].count <= r[i].count
  {
    var sorted := SortByCount(s);
    var n := if |sorted| < 10 then |sorted| else 10;
    var r := TopTags(s);
    assert r == sorted[..n];
    NonIncreasingBound(sorted);
    forall i, j | 0 <= i < |r| && 0 <= j < |s| && s[j] !in r ensures s[j].count <= r[i].count {
      assert s[j] in multiset(sorted);
      var k :| 0 <= k < |sorted| && sorted[k] == s[j];
      assert k >= n;
    }
  }

  /** In a non-increasing list every earlier count bounds every later one. */
  lemma {:induction false} NonIncreasingBound(s: seq<TagCount>)
    requires NonIncreasing(s)
    ensures forall i, j | 0 <= i <= j < |s| :: s[i].count >= s[j].count
  {
    forall i, j | 0 <= i <= j < |s| ensures s[i].count >= s[j].count {
      var k := i;
      while k < j
        invariant i <= k <= j && s[i].count >= s[k].count
      {
        k := k + 1;
      }
    }
  }

  // ---------------------------------------------------------------------
  // generate_report.
  // ---------------------------------------------------------------------

  datatype ReportResponse = ReportResponse(
    totalDocuments: nat,
    totalSizeBytes: int,
    byContentType: map<string, int>,
    byTag: seq<TagCount>,
    dailyUploads: seq<DailyUpload>,
    topTags: seq<TagCount>)

  function ContentTypes(docs: seq<DocumentRecord>): (r: seq<string>)
    ensures |r| == |docs| && forall i | 0 <= i < |docs| :: r[i] == docs[i].contentType
  {
    seq(|docs|, i requires 0 <= i < |docs| => docs[i].contentType)
  }

  /** `generate_report` for the period `[start, end]`. */
  function GenerateReport(t: Table, tagRows: seq<TagRow>, start: int, end: int, dayOf: int -> string): (r: ReportResponse)
    requires t.Valid()
    ensures var docs := DocumentsInPeriod(t, start, end);
      && r.totalDocuments == |docs| && r.totalSizeBytes == SizeSum(docs)
      && ByDate(r.dailyUploads) && TotalCount(r.dailyUploads) == r.totalDocuments
      && TotalSize(r.dailyUploads) == r.totalSizeBytes
      && TagTotal(r.byTag) == |RowsFor(tagRows, Ids(docs))|
      && |r.topTags| <= 10 && NonIncreasing(r.topTags) && multiset(r.topTags) <= multiset(r.byTag)
  {
    var docs := DocumentsInPeriod(t, start, end);
    var byTag := TagCounts(RowsFor(tagRows, Ids(docs)));
    ReportResponse(|docs|, SizeSum(docs), Tally(ContentTypes(docs)), byTag, DailyUploads(docs, dayOf), TopTags(byTag))
  }

  /** The content-type counts: one key per content type present, each
      counting its documents, adding up to the number of documents. */
  lemma ContentTypeCounts(t: Table, tagRows: seq<TagRow>, start: int, end: int, dayOf: int -> string)
    requires t.Valid()
    ensures var docs := DocumentsInPeriod(t, start, end);
      var r := GenerateReport(t, tagRows, start, end, dayOf);
      && r.byContentType.Keys == (set i | 0 <= i < |docs| :: docs[i].contentType)
      && (forall c | c in r.byContentType :: r.byContentType[c] == multiset(ContentTypes(docs))[c])
      && MapSum(r.byContentType) == r.totalDocuments
  {
    var docs := DocumentsInPeriod(t, start, end);
    var r := GenerateReport(t, tagRows, start, end, dayOf);
    assert r.byContentType == Tally(ContentTypes(docs));
    TypeTally(docs);
  }

  lemma TypeTally(docs: seq<DocumentRecord>)
    ensures var m := Tally(ContentTypes(docs));
      && m.Keys == (set i | 0 <= i < |docs| :: docs[i].contentType)
      && (forall c | c in m :: m[c] == multiset(ContentTypes(docs))[c])
      && MapSum(m) == |docs|
  {
    var types := ContentTypes(docs);
    assert (set x | x in types) == (set i | 0 <= i < |docs| :: docs[i].contentType) by {
      forall x | x in types ensures exists i | 0 <= i < |docs| :: docs[i].contentType == x {
        var i :| 0 <= i < |types| && types[i] == x;
      }
    }
    TallySum(types);
  }
}

=== FILE: services.dfy ===
/** The single-document archive paths of the document service: moving a
    record to a deep tier, asking for a restore, probing the archive status
    and the combined Glacier retrieval. Each takes the world (metadata
    table, provider backend, event log) and returns the response together
    with the world afterwards. `commitErrors` names the documents whose
    database commit raises, with the error text. */
module Services {
  import opened Common
  import opened StorageBase
  import opened Database
  import opened Events
  import Provider
  import AwsS3
  import AzureBlob
  import GcpStorage
  import Lifecycle

  type World = Lifecycle.World

  /** Committing one changed record: `None` when the commit raises (the
      session is rolled back), else the table with that record replaced. */
  function Commit(t: Table, d: DocumentRecord, commitErrors: map<DocId, string>): (r: Option<Table>)
    requires t.Valid() && d.documentId in t.docs
    ensures r.None? <==> d.documentId in commitErrors
    ensures r.Some? ==> r.value.Valid() && r.value.rows == t.rows && r.value.docs.Keys == t.docs.Keys
    ensures r.Some? ==> Find(r.value, d.documentId) == Some(d)
    ensures r.Some? ==> forall id | id in t.docs && id != d.documentId :: r.value.docs[id] == t.docs[id]
  {
    if d.documentId in commitErrors then None
    else
      ValidKeyed(t);
      Reshaped(t, Save(t, d));
      Some(Save(t, d))
  }

  /** `restore_days or 7`: an absent or zero day count means the default
      restore window. */
  function RestoreDays(days: Option<int>): (n: int)
    ensures n != 0
    ensures days.Some? && days.value != 0 ==> n == days.value
  {
    if days.Some? && days.value != 0 then days.value else 7
  }

  /** `restore_tier or "Standard"`. */
  function RestoreTier(tier: Option<string>): (s: string)
    ensures s != ""
    ensures tier.Some? && tier.value != "" ==> s == tier.value
  {
    if tier.Some? && tier.value != "" then tier.value else "Standard"
  }

  /** The request defaults coincide with the configured restore window and
      tier. */
  lemma RestoreDefaults()
    ensures RestoreDays(None) == RestoreDays(Some(0)) == Config.Defaults.awsGlacierRestoreDays
    ensures RestoreTier(None) == RestoreTier(Some("")) == Config.Defaults.awsGlacierRestoreTier
  {
  }

  // ---------------------------------------------------------------------
  // move_to_deep_archive
  // ---------------------------------------------------------------------

  datatype DeepArchiveResponse = DeepArchiveResponse(
    success: bool, documentId: string, message: string,
    previousTier: string, newTier: string, archivedAt: int)

  /** `move_to_deep_archive`: one `move_to_archive` call for a known id;
      on success the record moves to the requested tier, is marked archived
      and stamped; a provider failure or a failing commit leaves the record
      as it was. Nothing is published. */
  function MoveToDeepArchive(w: World, documentId: DocId, tier: string, now: int, commitErrors: map<DocId, string>): (out: Lifecycle.Run<DeepArchiveResponse>)
    requires w.table.Valid()
    ensures out.report.documentId == documentId && out.world.events == w.events
    ensures out.world.table.Valid() && out.world.table.rows == w.table.rows && out.world.table.docs.Keys == w.table.docs.Keys
    ensures documentId !in w.table.docs ==>
      out.world == w && !out.report.success && out.report.message == "Document not found"
    ensures documentId in w.table.docs ==>
      var d := w.table.docs[documentId];
      var o := Provider.MoveToArchive(w.backend, d.storagePath, tier);
      && out.world.backend == o.state
      && (out.report.success <==> o.result.success && documentId !in commitErrors)
      && (!o.result.success ==> out.report.message == o.result.message && out.report.previousTier == Lifecycle.PreviousTier(d))
      && (o.result.success && documentId in commitErrors ==> out.report.message == "Error: " + commitErrors[documentId])
      && (out.report.success ==>
            && Find(out.world.table, documentId) == Some(Lifecycle.MarkArchived(d, tier, now))
            && out.report.previousTier == Lifecycle.PreviousTier(d) && out.report.newTier == tier)
      && (!out.report.success ==> out.world.table == w.table && out.report.newTier == "")
    ensures forall id | id in w.table.docs && id != documentId :: out.world.table.docs[id] == w.table.docs[id]
  {
    match Find(w.table, documentId)
    case None =>
      Lifecycle.Run(DeepArchiveResponse(false, documentId, "Document not found", "", "", now), w)
    case Some(d) =>
      var previous := Lifecycle.PreviousTier(d);
      var o := Provider.MoveToArchive(w.backend, d.storagePath, tier);
      var w1 := w.(backend := o.state);
      if !o.result.success then
        Lifecycle.Run(DeepArchiveResponse(false, documentId, o.result.message, previous, "", now), w1)
      else
        match Commit(w.table, Lifecycle.MarkArchived(d, tier, now), commitErrors)
        case None =>
          Lifecycle.Run(DeepArchiveResponse(false, documentId, "Error: " + commitErrors[documentId], "", "", now), w1)
        case Some(t') =>
          Lifecycle.Run(DeepArchiveResponse(true, documentId, o.result.message, previous, tier, now), w1.(table := t'))
  }

  /** On S3 and GCS a move is idempotent: repeating a successful move to the
      same tier at the same instant sends no copy request, reaches the same
      world and reports success again unless the metadata read fails. */
  lemma DeepArchiveRepeat(w: World, documentId: DocId, tier: string, now: int, commitErrors: map<DocId, string>)
    requires w.table.Valid() && (w.backend.S3? || w.backend.Gcs?)
    requires MoveToDeepArchive(w, documentId, tier, now, commitErrors).report.success
    ensures var w' := MoveToDeepArchive(w, documentId, tier, now, commitErrors).world;
      var d := w'.table.docs[documentId];
      && !Provider.MoveToArchive(w'.backend, d.storagePath, tier).mutated
      && (MoveToDeepArchive(w', documentId, tier, now, commitErrors).report.success ==>
            MoveToDeepArchive(w', documentId, tier, now, commitErrors).world == w')
  {
    var d := w.table.docs[documentId];
    var w' := MoveToDeepArchive(w, documentId, tier, now, commitErrors).world;
    var d' := w'.table.docs[documentId];
    assert d' == Lifecycle.MarkArchived(d, tier, now);
    Provider.MoveRepeat(w.backend, d.storagePath, tier);
    SecondMoveKeeps(w', documentId, tier, now, commitErrors);
  }

  /** A move whose provider call changes nothing, of a record already in
      its archived form, leaves the world as it was. */
  lemma SecondMoveKeeps(w: World, documentId: DocId, tier: string, now: int, commitErrors: map<DocId, string>)
    requires w.table.Valid() && documentId in w.table.docs
    requires var d := w.table.docs[documentId];
      Lifecycle.MarkArchived(d, tier, now) == d && Provider.MoveToArchive(w.backend, d.storagePath, tier).state == w.backend
    ensures MoveToDeepArchive(w, documentId, tier, now, commitErrors).report.success ==>
      MoveToDeepArchive(w, documentId, tier, now, commitErrors).world == w
  {
    var d := w.table.docs[documentId];
    assert w.table.docs[documentId := d] == w.table.docs;
  }

  // ---------------------------------------------------------------------
  // restore_from_deep_archive
  // ---------------------------------------------------------------------

  datatype RestoreResponse = RestoreResponse(
    success: bool, documentId: string, message: string, restoreStatus: string,
    estimatedCompletion: Option<string>, restoreExpiry: Option<int>)

  /** The record after a successful restore call: the reported status, and
      the reported expiry when it parses. */
  function RecordRestore(d: DocumentRecord, r: RestoreResult, parse: string -> Option<int>, now: int): (d': DocumentRecord)
    ensures d'.documentId == d.documentId && d'.storagePath == d.storagePath && d'.storageTier == d.storageTier
    ensures d'.restoreStatus == Some(r.restoreStatus)
    ensures r.restoreExpiry.None? ==> d'.restoreExpiry == d.restoreExpiry
  {
    Stamped(d, d.(restoreStatus := Some(r.restoreStatus), restoreExpiry := UpdatedExpiry(parse, r.restoreExpiry, d.restoreExpiry)), now)
  }

  /** Recording the same answer again changes nothing, whenever it is
      recorded: the status and expiry are already in place, so the flush
      writes no row and `updated_at` stays. */
  lemma RecordRestoreIdempotent(d: DocumentRecord, r: RestoreResult, parse: string -> Option<int>, now: int, now2: int)
    ensures RecordRestore(RecordRestore(d, r, parse, now), r, parse, now2) == RecordRestore(d, r, parse, now)
  {
    var d' := RecordRestore(d, r, parse, now);
    var e := UpdatedExpiry(parse, r.restoreExpiry, d.restoreExpiry);
    assert d'.restoreExpiry == e;
    assert UpdatedExpiry(parse, r.restoreExpiry, e) == e;
    assert d'.(restoreStatus := Some(r.restoreStatus), restoreExpiry := e) == d';
  }

  /** `restore_from_deep_archive`. A record stored as "standard" is
      answered without asking the provider; otherwise one restore call is
      made with the defaulted window and tier, and on success the reported
      status (and any parsable expiry) is persisted. */
  function RestoreFromDeepArchive(w: World, documentId: DocId, days: Option<int>, tier: Option<string>,
                                  parse: string -> Option<int>, now: int, commitErrors: map<DocId, string>): (out: Lifecycle.Run<RestoreResponse>)
    requires w.table.Valid()
    ensures out.report.documentId == documentId && out.world.events == w.events
    ensures out.world.table.Valid() && out.world.table.rows == w.table.rows && out.world.table.docs.Keys == w.table.docs.Keys
    ensures documentId !in w.table.docs ==>
      out.world == w && !out.report.success && out.report.message == "Document not found"
    ensures documentId in w.table.docs && w.table.docs[documentId].storageTier == "standard" ==>
      out.world == w && out.report.success && out.report.restoreStatus == "not_archived"
    ensures documentId in w.table.docs && w.table.docs[documentId].storageTier != "standard" ==>
      var d := w.table.docs[documentId];
      var o := Provider.RestoreFromArchive(w.backend, d.storagePath, RestoreDays(days), RestoreTier(tier));
      && out.world.backend == o.state
      && (out.report.success <==> o.result.success && documentId !in commitErrors)
      && (out.report.success ==>
            && Find(out.world.table, documentId) == Some(RecordRestore(d, o.result, parse, now))
            && out.report.restoreStatus == o.result.restoreStatus
            && out.report.restoreExpiry == RecordRestore(d, o.result, parse, now).restoreExpiry)
      && (!out.report.success ==> out.world.table == w.table && out.report.restoreStatus == "")
    ensures forall id | id in w.table.docs && id != documentId :: out.world.table.docs[id] == w.table.docs[id]
  {
    match Find(w.table, documentId)
    case None =>
      Lifecycle.Run(RestoreResponse(false, documentId, "Document not found", "", None, None), w)
    case Some(d) =>
      if d.storageTier == "standard" then
        Lifecycle.Run(RestoreResponse(true, documentId, "Document is in standard storage and immediately retrievable",
          "not_archived", None, None), w)
      else
        var o := Provider.RestoreFromArchive(w.backend, d.storagePath, RestoreDays(days), RestoreTier(tier));
        var w1 := w.(backend := o.state);
        if !o.result.success then
          Lifecycle.Run(RestoreResponse(false, documentId, o.result.message, "", None, None), w1)
        else
          var d' := RecordRestore(d, o.result, parse, now);
          match Commit(w.table, d', commitErrors)
          case None =>
            Lifecycle.Run(RestoreResponse(false, documentId, "Error: " + commitErrors[documentId], "", None, None), w1)
          case Some(t') =>
            Lifecycle.Run(RestoreResponse(true, documentId, o.result.message, o.result.restoreStatus,
              o.result.estimatedCompletion, d'.restoreExpiry), w1.(table := t'))
  }

  /** An S3 document whose object is archived, carries no restore and has
      no fault on the calls a restore makes. */
  predicate S3AwaitingRestore(w: World, documentId: DocId) {
    && w.backend.S3? && documentId in w.table.docs
    && var key := w.table.docs[documentId].storagePath;
    && AwsS3.Raises(w.backend.s3, key, AwsS3.HeadObject).None?
    && AwsS3.Raises(w.backend.s3, key, AwsS3.RestoreObject).None?
    && AwsS3.NeedsRestoreRequest(w.backend.s3.objects[key])
  }

  /** On S3, the first restore of an archived object sends the request, and
      asking again sends no second one: the object already carries the
      ongoing restore. */
  lemma RestoreRequestedOnce(w: World, documentId: DocId, days: Option<int>, tier: Option<string>,
                             parse: string -> Option<int>, now: int, commitErrors: map<DocId, string>)
    requires w.table.Valid() && S3AwaitingRestore(w, documentId)
    requires w.table.docs[documentId].storageTier != "standard"
    ensures var w' := RestoreFromDeepArchive(w, documentId, days, tier, parse, now, commitErrors).world;
      && w'.backend != w.backend
      && RestoreFromDeepArchive(w', documentId, days, tier, parse, now, commitErrors).world.backend == w'.backend
  {
    var d := w.table.docs[documentId];
    AwsS3.FreshRequestSent(w.backend.s3, d.storagePath, RestoreDays(days), RestoreTier(tier));
    var w' := RestoreFromDeepArchive(w, documentId, days, tier, parse, now, commitErrors).world;
    assert w'.table.docs[documentId].storagePath == d.storagePath;
    AwsS3.NoDuplicateRestore(w.backend.s3, d.storagePath, RestoreDays(days), RestoreTier(tier));
  }

  // ---------------------------------------------------------------------
  // get_archive_status
  // ---------------------------------------------------------------------

  datatype StatusResponse = StatusResponse(
    success: bool, documentId: string, storageTier: string, restoreStatus: string,
    restoreExpiry: Option<int>, isRetrievable: bool, message: string)

  /** `restore_status or ""`. */
  function StoredStatus(d: DocumentRecord): string {
    if d.restoreStatus.Some? then d.restoreStatus.value else ""
  }

  /** `get_archive_status`: probes the provider; a successful probe
      overwrites the stored status (and any parsable expiry), a failed one
      leaves the record alone and is answered from the stored status as not
      retrievable. A failing commit turns the answer into an error. */
  function GetArchiveStatus(w: World, documentId: DocId, parse: string -> Option<int>, now: int, commitErrors: map<DocId, string>): (out: Lifecycle.Run<StatusResponse>)
    requires w.table.Valid()
    ensures out.report.documentId == documentId
    ensures out.world.backend == w.backend && out.world.events == w.events
    ensures out.world.table.Valid() && out.world.table.rows == w.table.rows && out.world.table.docs.Keys == w.table.docs.Keys
    ensures documentId !in w.table.docs ==>
      out.world == w && !out.report.success && out.report.message == "Document not found"
    ensures documentId in w.table.docs ==>
      var d := w.table.docs[documentId];
      var r := Provider.GetArchiveStatus(w.backend, d.storagePath);
      && (out.report.success <==> !r.success || documentId !in commitErrors)
      && (r.success && out.report.success ==>
            && Find(out.world.table, documentId) == Some(RecordRestore(d, r, parse, now))
            && out.report.restoreStatus == r.restoreStatus && out.report.isRetrievable == r.isRetrievable)
      && (!r.success ==>
            out.world.table == w.table && out.report.restoreStatus == StoredStatus(d) && !out.report.isRetrievable)
      && (out.report.success ==> out.report.storageTier == Lifecycle.PreviousTier(d))
      && (!out.report.success ==> out.world.table == w.table)
    ensures forall id | id in w.table.docs && id != documentId :: out.world.table.docs[id] == w.table.docs[id]
  {
    match Find(w.table, documentId)
    case None =>
      Lifecycle.Run(StatusResponse(false, documentId, "", "", None, false, "Document not found"), w)
    case Some(d) =>
      var r := Provider.GetArchiveStatus(w.backend, d.storagePath);
      if !r.success then
        Lifecycle.Run(StatusResponse(true, documentId, Lifecycle.PreviousTier(d), StoredStatus(d), d.restoreExpiry, false, r.message), w)
      else
        var d' := RecordRestore(d, r, parse, now);
        match Commit(w.table, d', commitErrors)
        case None =>
          Lifecycle.Run(StatusResponse(false, documentId, "", "", None, false, "Error: " + commitErrors[documentId]), w)
        case Some(t') =>
          Lifecycle.Run(StatusResponse(true, documentId, Lifecycle.PreviousTier(d'), r.restoreStatus, d'.restoreExpiry, r.isRetrievable, r.message),
            w.(table := t'))
  }

  /** Probing twice answers the same and changes nothing the second time,
      however much later the second probe comes. */
  lemma StatusProbeIdempotent(w: World, documentId: DocId, parse: string -> Option<int>, now: int, now2: int,
                              commitErrors: map<DocId, string>)
    requires w.table.Valid()
    ensures var first := GetArchiveStatus(w, documentId, parse, now, commitErrors);
      var second := GetArchiveStatus(first.world, documentId, parse, now2, commitErrors);
      second == first.(world := first.world)
  {
    if documentId in w.table.docs {
      var r := Provider.GetArchiveStatus(w.backend, w.table.docs[documentId].storagePath);
      if r.success && documentId !in commitErrors {
        ProbeAfterRecord(w, documentId, parse, now, now2, commitErrors);
      }
    }
  }

  /** The second probe after a recorded one finds the record already
      carrying what the provider reports, and saving it again is a no-op. */
  lemma ProbeAfterRecord(w: World, documentId: DocId, parse: string -> Option<int>, now: int, now2: int,
                         commitErrors: map<DocId, string>)
    requires w.table.Valid() && documentId in w.table.docs && documentId !in commitErrors
    requires Provider.GetArchiveStatus(w.backend, w.table.docs[documentId].storagePath).success
    ensures var first := GetArchiveStatus(w, documentId, parse, now, commitErrors);
      GetArchiveStatus(first.world, documentId, parse, now2, commitErrors) == first
  {
    var d := w.table.docs[documentId];
    var r := Provider.GetArchiveStatus(w.backend, d.storagePath);
    var d' := RecordRestore(d, r, parse, now);
    ValidKeyed(w.table);
    var t' := Save(w.table, d');
    Reshaped(w.table, t');
    RecordRestoreIdempotent(d, r, parse, now, now2);
    assert Save(t', d') == t' by {
      assert t'.docs[documentId := d'] == t'.docs;
    }
    var first := Lifecycle.Run(StatusResponse(true, documentId, Lifecycle.PreviousTier(d'), r.restoreStatus,
                                              d'.restoreExpiry, r.isRetrievable, r.message), w.(table := t'));
    assert GetArchiveStatus(w, documentId, parse, now, commitErrors) == first;
    assert Find(t', documentId) == Some(d');
  }

  // ---------------------------------------------------------------------
  // retrieve_from_glacier
  // ---------------------------------------------------------------------

  /** The provider calls a request made, in order. */
  datatype Call = DownloadCall | ProbeCall | RestoreCall

  datatype GlacierResponse = GlacierResponse(
    success: bool, documentId: string, filename: string, storageTier: string,
    restoreStatus: string, isRetrievable: bool, document: Option<Bytes>,
    estimatedCompletion: Option<string>, restoreExpiry: Option<int>, message: string)

  /** A retrieval: the response, the provider calls made, the world after. */
  datatype Retrieval = Retrieval(response: GlacierResponse, calls: seq<Call>, world: World)

  /** The record once a restored copy has been downloaded. */
  function RecordRestored(d: DocumentRecord, probe: RestoreResult, parse: string -> Option<int>, now: int): (d': DocumentRecord)
    ensures d'.documentId == d.documentId && d'.storagePath == d.storagePath && d'.storageTier == d.storageTier
    ensures d'.restoreStatus == Some("restored")
    ensures d'.restoreExpiry == UpdatedExpiry(parse, probe.restoreExpiry, d.restoreExpiry)
  {
    Stamped(d, d.(restoreStatus := Some("restored"), restoreExpiry := UpdatedExpiry(parse, probe.restoreExpiry, d.restoreExpiry)), now)
  }

  /** The record once a restore request has been accepted. */
  function RecordInProgress(d: DocumentRecord, now: int): (d': DocumentRecord)
    ensures d'.documentId == d.documentId && d'.storagePath == d.storagePath && d'.storageTier == d.storageTier
    ensures d'.restoreStatus == Some("in_progress") && d'.restoreExpiry == d.restoreExpiry
  {
    Stamped(d, d.(restoreStatus := Some("in_progress")), now)
  }

  /** The standard-tier branch: one download, nothing recorded. */
  function RetrieveStandard(w: World, d: DocumentRecord): (out: Retrieval)
    ensures out.world == w && out.calls == [DownloadCall] && out.response.documentId == d.documentId
    ensures out.response.success <==> Provider.Download(w.backend, d.storagePath).success
    ensures out.response.success ==>
      out.response.restoreStatus == "not_archived" && out.response.isRetrievable &&
      out.response.document == Some(Provider.Download(w.backend, d.storagePath).data)
  {
    var tier := Lifecycle.PreviousTier(d);
    var r := Provider.Download(w.backend, d.storagePath);
    if r.success then
      Retrieval(GlacierResponse(true, d.documentId, d.filename, tier, "not_archived", true, Some(r.data), None, None,
        "Document retrieved successfully (standard storage)"), [DownloadCall], w)
    else
      Retrieval(GlacierResponse(false, d.documentId, d.filename, tier, "", false, None, None, None, r.message), [DownloadCall], w)
  }

  /** The branch for a retrievable probe: download; on success record the
      document as restored and publish one restore-ready event. */
  function DeliverRestored(w: World, d: DocumentRecord, probe: RestoreResult, parse: string -> Option<int>, now: int, commitErrors: map<DocId, string>): (out: Retrieval)
    requires w.table.Valid() && Find(w.table, d.documentId) == Some(d)
    ensures out.calls == [ProbeCall, DownloadCall] && out.world.backend == w.backend && out.response.documentId == d.documentId
    ensures d.documentId in out.world.table.docs && out.world.table.docs[d.documentId].storagePath == d.storagePath && out.world.table.docs[d.documentId].storageTier == d.storageTier
    ensures out.world.table.Valid() && out.world.table.rows == w.table.rows && out.world.table.docs.Keys == w.table.docs.Keys
    ensures var r := Provider.Download(w.backend, d.storagePath);
      && (out.response.success <==> r.success && d.documentId !in commitErrors)
      && (!r.success ==> out.response.message == "Restore complete but download failed: " + r.message)
      && (out.response.success ==>
            && Find(out.world.table, d.documentId) == Some(RecordRestored(d, probe, parse, now))
            && out.world.events == w.events + [RestoreReady(d.documentId)]
            && out.response.restoreStatus == "restored" && out.response.document == Some(r.data))
      && (!out.response.success ==> out.world == w)
    ensures forall id | id in w.table.docs && id != d.documentId :: out.world.table.docs[id] == w.table.docs[id]
  {
    var tier := Lifecycle.PreviousTier(d);
    var r := Provider.Download(w.backend, d.storagePath);
    if !r.success then
      Retrieval(GlacierResponse(false, d.documentId, d.filename, tier, probe.restoreStatus, false, None, None, None,
        "Restore complete but download failed: " + r.message), [ProbeCall, DownloadCall], w)
    else
      var d' := RecordRestored(d, probe, parse, now);
      match Commit(w.table, d', commitErrors)
      case None =>
        Retrieval(GlacierResponse(false, d.documentId, "", "", "", false, None, None, None,
          "Error: " + commitErrors[d.documentId]), [ProbeCall, DownloadCall], w)
      case Some(t') =>
        Retrieval(GlacierResponse(true, d.documentId, d.filename, tier, "restored", true, Some(r.data), None, d'.restoreExpiry,
          "Document retrieved successfully from Glacier"), [ProbeCall, DownloadCall],
          w.(table := t', events := w.events + [RestoreReady(d.documentId)]))
  }

  /** The branch that asks for a restore: one request; on success record
      in-progress, whatever status the provider gave, and publish one
      restore-initiated event. */
  function RequestRestore(w: World, d: DocumentRecord, days: Option<int>, tier: Option<string>, now: int, commitErrors: map<DocId, string>): (out: Retrieval)
    requires w.table.Valid() && Find(w.table, d.documentId) == Some(d)
    ensures out.calls == [ProbeCall, RestoreCall] && out.response.documentId == d.documentId
    ensures d.documentId in out.world.table.docs && out.world.table.docs[d.documentId].storagePath == d.storagePath && out.world.table.docs[d.documentId].storageTier == d.storageTier
    ensures out.world.table.Valid() && out.world.table.rows == w.table.rows && out.world.table.docs.Keys == w.table.docs.Keys
    ensures var o := Provider.RestoreFromArchive(w.backend, d.storagePath, RestoreDays(days), RestoreTier(tier));
      && out.world.backend == o.state
      && (out.response.success <==> o.result.success && d.documentId !in commitErrors)
      && (!o.result.success ==> out.response.message == "Failed to initiate restore: " + o.result.message)
      && (out.response.success ==>
            && Find(out.world.table, d.documentId) == Some(RecordInProgress(d, now))
            && out.world.events == w.events + [RestoreInitiated(d.documentId)]
            && out.response.restoreStatus == "in_progress" && !out.response.isRetrievable)
      && (!out.response.success ==> out.world.table == w.table && out.world.events == w.events)
    ensures forall id | id in w.table.docs && id != d.documentId :: out.world.table.docs[id] == w.table.docs[id]
  {
    var current := Lifecycle.PreviousTier(d);
    var o := Provider.RestoreFromArchive(w.backend, d.storagePath, RestoreDays(days), RestoreTier(tier));
    var w1 := w.(backend := o.state);
    if !o.result.success then
      Retrieval(GlacierResponse(false, d.documentId, d.filename, current, "", false, None, None, None,
        "Failed to initiate restore: " + o.result.message), [ProbeCall, RestoreCall], w1)
    else
      match Commit(w.table, RecordInProgress(d, now), commitErrors)
      case None =>
        Retrieval(GlacierResponse(false, d.documentId, "", "", "", false, None, None, None,
          "Error: " + commitErrors[d.documentId]), [ProbeCall, RestoreCall], w1)
      case Some(t') =>
        Retrieval(GlacierResponse(true, d.documentId, d.filename, current, "in_progress", false, None,
          o.result.estimatedCompletion, None, "Restore initiated. " + o.result.message), [ProbeCall, RestoreCall],
          w1.(table := t', events := w.events + [RestoreInitiated(d.documentId)]))
  }

  /** `retrieve_from_glacier`: a standard-tier record is downloaded
      directly; otherwise the archive status is probed, and the document is
      delivered when retrievable, left alone while a restore is in progress,
      and a restore is requested in every other case. */
  function RetrieveFromGlacier(w: World, documentId: DocId, days: Option<int>, tier: Option<string>,
                               parse: string -> Option<int>, now: int, commitErrors: map<DocId, string>): (out: Retrieval)
    requires w.table.Valid()
    ensures out.response.documentId == documentId
    ensures out.world.table.Valid() && out.world.table.rows == w.table.rows && out.world.table.docs.Keys == w.table.docs.Keys
    ensures documentId !in w.table.docs ==> out.world == w && out.calls == [] && !out.response.success
    ensures documentId in w.table.docs ==>
      var d := w.table.docs[documentId];
      && out.world.table.docs[documentId].storagePath == d.storagePath
      && out.world.table.docs[documentId].storageTier == d.storageTier
    ensures out.world.events == w.events ||
      (out.response.success && out.world.events in {w.events + [RestoreReady(documentId)], w.events + [RestoreInitiated(documentId)]})
    ensures forall id | id in w.table.docs && id != documentId :: out.world.table.docs[id] == w.table.docs[id]
  {
    match Find(w.table, documentId)
    case None =>
      Retrieval(GlacierResponse(false, documentId, "", "", "", false, None, None, None, "Document not found"), [], w)
    case Some(d) =>
      var current := Lifecycle.PreviousTier(d);
      if current == "standard" then RetrieveStandard(w, d)
      else
        var probe := Provider.GetArchiveStatus(w.backend, d.storagePath);
        if probe.success && probe.isRetrievable then DeliverRestored(w, d, probe, parse, now, commitErrors)
        else if probe.restoreStatus == "in_progress" then
          Retrieval(GlacierResponse(true, documentId, d.filename, current, "in_progress", false, None,
            probe.estimatedCompletion, None, "Restore is in progress. Please check back later."), [ProbeCall], w)
        else RequestRestore(w, d, days, tier, now, commitErrors)
  }

  /** A retrieval makes at most two provider calls, and the remote state
      changes only through the one restore request, which is only made for
      a record outside the standard tier. */
  lemma RetrievalCalls(w: World, documentId: DocId, days: Option<int>, tier: Option<string>,
                       parse: string -> Option<int>, now: int, commitErrors: map<DocId, string>)
    requires w.table.Valid()
    ensures var out := RetrieveFromGlacier(w, documentId, days, tier, parse, now, commitErrors);
      && |out.calls| <= 2
      && (RestoreCall !in out.calls ==> out.world.backend == w.backend)
      && (RestoreCall in out.calls ==>
            && documentId in w.table.docs
            && Lifecycle.PreviousTier(w.table.docs[documentId]) != "standard"
            && out.world.backend ==
                 Provider.RestoreFromArchive(w.backend, w.table.docs[documentId].storagePath, RestoreDays(days), RestoreTier(tier)).state)
  {
    var out := RetrieveFromGlacier(w, documentId, days, tier, parse, now, commitErrors);
    if documentId in w.table.docs {
      var d := w.table.docs[documentId];
      var probe := Provider.GetArchiveStatus(w.backend, d.storagePath);
      if Lifecycle.PreviousTier(d) == "standard" {
        assert out == RetrieveStandard(w, d);
      } else if probe.success && probe.isRetrievable {
        assert out == DeliverRestored(w, d, probe, parse, now, commitErrors);
      } else if probe.restoreStatus != "in_progress" {
        assert out == RequestRestore(w, d, days, tier, now, commitErrors);
      }
    }
  }

  /** A record whose tier reads as standard is downloaded directly: the
      archive status is never probed and nothing changes. */
  lemma StandardNeverProbes(w: World, documentId: DocId, days: Option<int>, tier: Option<string>,
                            parse: string -> Option<int>, now: int, commitErrors: map<DocId, string>)
    requires w.table.Valid() && documentId in w.table.docs
    requires w.table.docs[documentId].storageTier in {"", "standard"}
    ensures var out := RetrieveFromGlacier(w, documentId, days, tier, parse, now, commitErrors);
      && out.calls == [DownloadCall] && out.world == w
      && (out.response.success ==> out.response.restoreStatus == "not_archived")
  {
  }

  /** While the probe reports a restore in progress (and nothing
      retrievable), no restore request is made and nothing changes. */
  lemma InProgressNeverRequests(w: World, documentId: DocId, days: Option<int>, tier: Option<string>,
                                parse: string -> Option<int>, now: int, commitErrors: map<DocId, string>)
    requires w.table.Valid() && documentId in w.table.docs
    requires Lifecycle.PreviousTier(w.table.docs[documentId]) != "standard"
    requires Provider.GetArchiveStatus(w.backend, w.table.docs[documentId].storagePath).restoreStatus == "in_progress"
    ensures var out := RetrieveFromGlacier(w, documentId, days, tier, parse, now, commitErrors);
      && out.calls == [ProbeCall] && out.world == w
      && out.response.success && out.response.restoreStatus == "in_progress"
  {
    Provider.ProbeCoherent(w.backend, w.table.docs[documentId].storagePath);
  }

  /** A retrievable archived document that downloads and commits is
      recorded as restored and announced exactly once. */
  lemma DeliveredOnce(w: World, documentId: DocId, days: Option<int>, tier: Option<string>,
                      parse: string -> Option<int>, now: int, commitErrors: map<DocId, string>)
    requires w.table.Valid() && documentId in w.table.docs && documentId !in commitErrors
    requires var d := w.table.docs[documentId];
      && Lifecycle.PreviousTier(d) != "standard"
      && Provider.GetArchiveStatus(w.backend, d.storagePath).isRetrievable
      && Provider.Download(w.backend, d.storagePath).success
    ensures var out := RetrieveFromGlacier(w, documentId, days, tier, parse, now, commitErrors);
      && out.response.success && out.response.restoreStatus == "restored"
      && out.world.events == w.events + [RestoreReady(documentId)]
      && out.world.table.docs[documentId].restoreStatus == Some("restored")
      && RestoreCall !in out.calls
  {
    Provider.ProbeCoherent(w.backend, w.table.docs[documentId].storagePath);
  }

  /** On S3, a retrieval that sent a restore request is followed by one
      that only probes: the probe sees the ongoing restore, so no second
      request is made and nothing changes. */
  lemma NoDuplicateRestoreRequest(w: World, documentId: DocId, days: Option<int>, tier: Option<string>,
                                  parse: string -> Option<int>, now: int, commitErrors: map<DocId, string>)
    requires w.table.Valid() && S3AwaitingRestore(w, documentId)
    requires Lifecycle.PreviousTier(w.table.docs[documentId]) != "standard"
    ensures var first := RetrieveFromGlacier(w, documentId, days, tier, parse, now, commitErrors);
      var again := RetrieveFromGlacier(first.world, documentId, days, tier, parse, now, commitErrors);
      && first.calls == [ProbeCall, RestoreCall] && first.world.backend != w.backend
      && again.calls == [ProbeCall] && again.world == first.world
      && again.response.restoreStatus == "in_progress"
  {
    var d := w.table.docs[documentId];
    AwsS3.FreshRequestSent(w.backend.s3, d.storagePath, RestoreDays(days), RestoreTier(tier));
    var first := RetrieveFromGlacier(w, documentId, days, tier, parse, now, commitErrors);
    assert first == RequestRestore(w, d, days, tier, now, commitErrors);
    var w' := first.world;
    AwsS3.NoDuplicateRestore(w.backend.s3, d.storagePath, RestoreDays(days), RestoreTier(tier));
    InProgressNeverRequests(w', documentId, days, tier, parse, now, commitErrors);
  }

  // ---------------------------------------------------------------------
  // _prepare_embedding_text
  // ---------------------------------------------------------------------

  /** `f"{value}"` for the metadata values the `isinstance(value, (str,
      int, float))` test keeps; `None` for the rest. A boolean is an `int`
      in Python, so it is kept and renders as `True` / `False`. */
  function RenderScalar(v: MetaValue): (r: Option<string>)
    ensures r.None? <==> v.Other?
    ensures v.Text? ==> r == Some(v.s)
    ensures v.Boolean? ==> r == Some(if v.b then "True" else "False")
  {
    match v
    case Text(text) => Some(text)
    case Integer(n) => Some(IntToString(n))
    case Boolean(b) => Some(if b then "True" else "False")
    case Float(repr) => Some(repr)
    case Other => None
  }

  function TagParts(tags: seq<(string, string)>): (r: seq<string>)
    ensures |r| == |tags| && forall i | 0 <= i < |tags| :: r[i] == tags[i].0 + ": " + tags[i].1
  {
    seq(|tags|, i requires 0 <= i < |tags| => tags[i].0 + ": " + tags[i].1)
  }

  function MetaParts(meta: seq<(string, MetaValue)>): (r: seq<string>)
    ensures |r| <= |meta|
    ensures forall i | 0 <= i < |meta| && !meta[i].1.Other? :: meta[i].0 + ": " + RenderScalar(meta[i].1).value in r
  {
    if meta == [] then []
    else
      var rest := MetaParts(meta[1..]);
      assert forall i | 1 <= i < |meta| :: meta[i] == meta[1..][i - 1];
      match RenderScalar(meta[0].1)
      case None => rest
      case Some(text) => [meta[0].0 + ": " + text] + rest
  }

  /** `_prepare_embedding_text`: the filename, then `key: value` for each
      tag and each scalar metadata entry, joined by single spaces. */
  function PrepareEmbeddingText(filename: string, tags: seq<(string, string)>, meta: seq<(string, MetaValue)>): (r: string)
    ensures StartsWith(r, filename)
    ensures forall i | 0 <= i < |tags| :: Contains(r, tags[i].0 + ": " + tags[i].1)
    ensures forall i | 0 <= i < |meta| && !meta[i].1.Other? :: Contains(r, meta[i].0 + ": " + RenderScalar(meta[i].1).value)
    ensures tags == [] && (forall i | 0 <= i < |meta| :: meta[i].1.Other?) ==> r == filename
  {
    var parts := EmbeddingParts(filename, tags, meta);
    JoinContainsParts(parts, " ");
    TagsInText(filename, tags, meta);
    MetaInText(filename, tags, meta);
    OnlyOtherRendersNothing(meta);
    Join(parts, " ")
  }

  function EmbeddingParts(filename: string, tags: seq<(string, string)>, meta: seq<(string, MetaValue)>): seq<string> {
    [filename] + TagParts(tags) + MetaParts(meta)
  }

  lemma TagsInText(filename: string, tags: seq<(string, string)>, meta: seq<(string, MetaValue)>)
    ensures forall i | 0 <= i < |tags| :: Contains(Join(EmbeddingParts(filename, tags, meta), " "), tags[i].0 + ": " + tags[i].1)
  {
    var parts := EmbeddingParts(filename, tags, meta);
    JoinContainsParts(parts, " ");
    assert forall i | 0 <= i < |tags| :: parts[1 + i] == tags[i].0 + ": " + tags[i].1;
  }

  lemma MetaInText(filename: string, tags: seq<(string, string)>, meta: seq<(string, MetaValue)>)
    ensures forall i | 0 <= i < |meta| && !meta[i].1.Other? ::
      Contains(Join(EmbeddingParts(filename, tags, meta), " "), meta[i].0 + ": " + RenderScalar(meta[i].1).value)
  {
    var parts := EmbeddingParts(filename, tags, meta);
    JoinContainsParts(parts, " ");
    forall i | 0 <= i < |meta| && !meta[i].1.Other?
      ensures Contains(Join(parts, " "), meta[i].0 + ": " + RenderScalar(meta[i].1).value)
    {
      var m := meta[i].0 + ": " + RenderScalar(meta[i].1).value;
      assert m in MetaParts(meta);
      var k :| 0 <= k < |MetaParts(meta)| && MetaParts(meta)[k] == m;
      assert parts[1 + |tags| + k] == m;
    }
  }

  /** Metadata made only of non-scalar values contributes no part. */
  lemma {:induction false} OnlyOtherRendersNothing(meta: seq<(string, MetaValue)>)
    ensures (forall i | 0 <= i < |meta| :: meta[i].1.Other?) ==> MetaParts(meta) == []
  {
    if meta != [] && forall i | 0 <= i < |meta| :: meta[i].1.Other? {
      assert forall i | 1 <= i < |meta| :: meta[i] == meta[1..][i - 1];
      OnlyOtherRendersNothing(meta[1..]);
    }
  }

  /** Non-scalar metadata entries never change the text, wherever they sit. */
  lemma {:induction false} NonScalarIgnored(filename: string, tags: seq<(string, string)>,
                                            before: seq<(string, MetaValue)>, key: string, after: seq<(string, MetaValue)>)
    ensures PrepareEmbeddingText(filename, tags, before + [(key, Other)] + after) ==
            PrepareEmbeddingText(filename, tags, before + after)
  {
    SkipOther(before, key, after);
  }

  lemma {:induction false} SkipOther(before: seq<(string, MetaValue)>, key: string, after: seq<(string, MetaValue)>)
    ensures MetaParts(before + [(key, Other)] + after) == MetaParts(before + after)
  {
    if before == [] {
      assert (before + [(key, Other)] + after)[1..] == after;
      assert before + after == after;
    } else {
      SkipOther(before[1..], key, after);
      assert (before + [(key, Other)] + after)[1..] == before[1..] + [(key, Other)] + after;
      assert (before + after)[1..] == before[1..] + after;
    }
  }
}

=== FILE: storage_base.dfy ===
/** The result records every storage provider returns, the operations a
    provider must offer, and the shared storage-path layout. */
module StorageBase {
  import opened Common

  type Bytes = seq<int>

  /** A point in time as a provider reports it: an ISO-8601 rendering of a
      known instant (seconds), or provider text that still has to be parsed. */
  datatype TimeText = Iso(t: int) | Raw(text: string)

  /** `dateutil.parser.parse` on a reported expiry; `parse` stands for the
      parser on provider text and may fail. */
  function ParseTime(parse: string -> Option<int>, tt: TimeText): (r: Option<int>)
    ensures tt.Iso? ==> r == Some(tt.t)
  {
    match tt
    case Iso(t) => Some(t)
    case Raw(s) => parse(s)
  }

  /** Storing a reported expiry: only a non-empty report that parses
      replaces the stored instant; a parse failure is swallowed. */
  function UpdatedExpiry(parse: string -> Option<int>, reported: Option<TimeText>, stored: Option<int>): (r: Option<int>)
    ensures reported.None? ==> r == stored
    ensures reported.Some? && reported.value.Iso? ==> r == Some(reported.value.t)
    ensures r != stored ==> reported.Some? && r.Some? && ParseTime(parse, reported.value) == r
    ensures reported == Some(Raw("")) ==> r == stored
  {
    match reported
    case None => stored
    case Some(tt) =>
      if tt.Raw? && tt.text == "" then stored
      else
        var parsed := ParseTime(parse, tt);
        if parsed.Some? then parsed else stored
  }

  /** Result of an upload. */
  datatype StorageResult = StorageResult(success: bool, storagePath: string, message: string)

  /** Result of a download. */
  datatype RetrieveResult = RetrieveResult(success: bool, data: Bytes, message: string)

  /** Result of a tier change. */
  datatype ArchiveResult = ArchiveResult(success: bool, message: string, previousTier: string, newTier: string)

  /** Result of a restore request or status probe. */
  datatype RestoreResult = RestoreResult(
    success: bool,
    message: string,
    restoreStatus: string,
    estimatedCompletion: Option<string>,
    restoreExpiry: Option<TimeText>,
    isRetrievable: bool)

  /** A download failure: empty data. */
  function RetrieveFailure(message: string): (r: RetrieveResult)
    ensures !r.success && r.data == [] && r.message == message
  {
    RetrieveResult(false, [], message)
  }

  /** `ArchiveResult(success=False, message=...)`: both tiers keep their
      empty defaults. */
  function ArchiveFailure(message: string): (r: ArchiveResult)
    ensures !r.success && r.previousTier == "" && r.newTier == "" && r.message == message
  {
    ArchiveResult(false, message, "", "")
  }

  /** `RestoreResult(success=False, message=...)`: the remaining fields keep
      their defaults, so a failure is never retrievable and has no status. */
  function RestoreFailure(message: string): (r: RestoreResult)
    ensures !r.success && r.message == message
    ensures r.restoreStatus == "" && r.estimatedCompletion.None? && r.restoreExpiry.None? && !r.isRetrievable
  {
    RestoreResult(false, message, "", None, None, false)
  }

  /** `_generate_storage_path`: `archives/<date>/<document_id>/<filename>`,
      with `date` the `%Y/%m/%d` rendering of the clock. */
  function GenerateStoragePath(date: string, documentId: string, filename: string): (path: string)
    ensures StartsWith(path, "archives/")
    ensures |path| >= |filename| && path[|path| - |filename|..] == filename
    ensures Contains(path, "/" + documentId + "/")
  {
    var path := "archives/" + date + "/" + documentId + "/" + filename;
    ContainsSelf(path, "archives/" + date, "/" + documentId + "/", filename);
    path
  }
}

=== FILE: user_management.dfy ===
/** Users, roles and permissions: the fixed role-to-permission table, the
    salted password hash, and the user store operations. The store is the
    `users` table as a sequence in row order; the key-derivation function
    and the random salt are parameters. */
module UserManagement {
  import opened Common

  datatype Role = Admin | ArchiveManager | Auditor | User | Viewer {
    function Value(): string {
      match this
      case Admin => "admin"
      case ArchiveManager => "archive_manager"
      case Auditor => "auditor"
      case User => "user"
      case Viewer => "viewer"
    }
  }

  /** `UserRole(s)`: the role whose value is `s`; anything else raises
      `ValueError`. */
  function ParseRole(s: string): (r: Option<Role>)
    ensures r.Some? ==> r.value.Value() == s
    ensures forall role: Role :: role.Value() == s ==> r == Some(role)
  {
    if s == "admin" then Some(Admin)
    else if s == "archive_manager" then Some(ArchiveManager)
    else if s == "auditor" then Some(Auditor)
    else if s == "user" then Some(User)
    else if s == "viewer" then Some(Viewer)
    else None
  }

  datatype Permission =
    | DocumentCreate | DocumentRead | DocumentUpdate | DocumentDelete | DocumentArchive | DocumentRestore
    | UserCreate | UserRead | UserUpdate | UserDelete | UserManageRoles
    | RoleCreate | RoleRead | RoleUpdate | RoleDelete | PermissionManage
    | AuditRead | ReportRead
    | SystemConfig | SystemAdmin
  {
    function Value(): string {
      match this
      case DocumentCreate => "document:create"
      case DocumentRead => "document:read"
      case DocumentUpdate => "document:update"
      case DocumentDelete => "document:delete"
      case DocumentArchive => "document:archive"
      case DocumentRestore => "document:restore"
      case UserCreate => "user:create"
      case UserRead => "user:read"
      case UserUpdate => "user:update"
      case UserDelete => "user:delete"
      case UserManageRoles => "user:manage_roles"
      case RoleCreate => "role:create"
      case RoleRead => "role:read"
      case RoleUpdate => "role:update"
      case RoleDelete => "role:delete"
      case PermissionManage => "permission:manage"
      case AuditRead => "audit:read"
      case ReportRead => "report:read"
      case SystemConfig => "system:config"
      case SystemAdmin => "system:admin"
    }
  }

  /** The members of `Permission` in declaration order. */
  const AllPermissions: seq<Permission> := [
    DocumentCreate, DocumentRead, DocumentUpdate, DocumentDelete, DocumentArchive, DocumentRestore,
    UserCreate, UserRead, UserUpdate, UserDelete, UserManageRoles,
    RoleCreate, RoleRead, RoleUpdate, RoleDelete, PermissionManage,
    AuditRead, ReportRead,
    SystemConfig, SystemAdmin]

  function Values(ps: seq<Permission>): (r: seq<string>)
    ensures |r| == |ps| && forall i | 0 <= i < |ps| :: r[i] == ps[i].Value()
  {
    seq(|ps|, i requires 0 <= i < |ps| => ps[i].Value())
  }

  /** `DEFAULT_ROLE_PERMISSIONS`, as the permissions each role's list
      holds, in the listed order. */
  function RoleTable(role: Role): seq<Permission> {
    match role
    case Admin => AllPermissions
    case ArchiveManager =>
      [DocumentCreate, DocumentRead, DocumentUpdate, DocumentDelete, DocumentArchive,
       DocumentRestore, ReportRead, UserRead, AuditRead]
    case Auditor => [DocumentRead, AuditRead, ReportRead, UserRead]
    case User => [DocumentCreate, DocumentRead, DocumentUpdate, ReportRead]
    case Viewer => [DocumentRead, ReportRead]
  }

  /** The lists as stored: permission values. */
  function RolePermissions(role: Role): seq<string> {
    Values(RoleTable(role))
  }

  predicate Grants(role: Role, p: Permission) {
    p in RoleTable(role)
  }

  /** Two characters that tell the permission values apart: the position
      of the value in `AllPermissions`. */
  function Key(s: string): int {
    if |s| < 5 then -1
    else
      var (a, b) := (s[2], s[|s| - 4]);
      if a == 'c' then
        (if b == 'e' then 0 else if b == 'r' then 1 else if b == 'd' then 2
         else if b == 'l' then 3 else if b == 'h' then 4 else if b == 't' then 5 else -1)
      else if a == 'e' then
        (if b == 'e' then 6 else if b == 'r' then 7 else if b == 'd' then 8
         else if b == 'l' then 9 else if b == 'o' then 10 else -1)
      else if a == 'l' then
        (if b == 'e' then 11 else if b == 'r' then 12 else if b == 'd' then 13
         else if b == 'l' then 14 else -1)
      else if a == 'r' && b == 'n' then 15
      else if a == 'd' && b == 'r' then 16
      else if a == 'p' && b == 'r' then 17
      else if a == 's' && b == 'n' then 18
      else if a == 's' && b == 'd' then 19
      else -1
  }

  lemma KeyOf(p: Permission)
    ensures 0 <= Key(p.Value()) < 20 && AllPermissions[Key(p.Value())] == p
  {
    if p.DocumentCreate? || p.DocumentRead? || p.DocumentUpdate? || p.DocumentDelete? || p.DocumentArchive?
       || p.DocumentRestore? || p.UserCreate? || p.UserRead? || p.UserUpdate? || p.UserDelete? {
      KeyOfFirst(p);
    } else {
      KeyOfSecond(p);
    }
  }

  lemma KeyOfFirst(p: Permission)
    requires p.DocumentCreate? || p.DocumentRead? || p.DocumentUpdate? || p.DocumentDelete? || p.DocumentArchive?
             || p.DocumentRestore? || p.UserCreate? || p.UserRead? || p.UserUpdate? || p.UserDelete?
    ensures 0 <= Key(p.Value()) < 20 && AllPermissions[Key(p.Value())] == p
  {
  }

  lemma KeyOfSecond(p: Permission)
    requires !(p.DocumentCreate? || p.DocumentRead? || p.DocumentUpdate? || p.DocumentDelete? || p.DocumentArchive?
               || p.DocumentRestore? || p.UserCreate? || p.UserRead? || p.UserUpdate? || p.UserDelete?)
    ensures 0 <= Key(p.Value()) < 20 && AllPermissions[Key(p.Value())] == p
  {
  }

  /** Distinct permissions have distinct values. */
  lemma ValueInjective(p: Permission, q: Permission)
    requires p.Value() == q.Value()
    ensures p == q
  {
    KeyOf(p);
    KeyOf(q);
  }

  /** Looking a value up in a stored list is looking the permission up in
      the role's table. */
  lemma ValueIn(p: Permission, role: Role)
    ensures p.Value() in RolePermissions(role) <==> Grants(role, p)
  {
    var t := RoleTable(role);
    if p.Value() in RolePermissions(role) {
      var i :| 0 <= i < |t| && RolePermissions(role)[i] == p.Value();
      ValueInjective(t[i], p);
    }
  }

  /** The administrator holds every permission; its list has one entry per
      permission. */
  lemma AdminHoldsAll()
    ensures forall p: Permission :: Grants(Admin, p) && p.Value() in RolePermissions(Admin)
    ensures |RolePermissions(Admin)| == 20
  {
    forall p: Permission ensures Grants(Admin, p) && p.Value() in RolePermissions(Admin) {
      KeyOf(p);
      ValueIn(p, Admin);
    }
  }

  /** The roles below the administrator are nested: a viewer's rights are
      a user's, a user's and an auditor's are an archive manager's. */
  lemma RolesNested()
    ensures forall p: Permission :: Grants(Viewer, p) ==> Grants(User, p)
    ensures forall p: Permission :: Grants(User, p) ==> Grants(ArchiveManager, p)
    ensures forall p: Permission :: Grants(Auditor, p) ==> Grants(ArchiveManager, p)
    ensures forall p: Permission, r: Role :: Grants(r, p) ==> Grants(Admin, p)
  {
    AdminHoldsAll();
  }

  /** Only the administrator may manage users, roles or the system. */
  lemma AdministrationIsAdminOnly(r: Role)
    requires r != Admin
    ensures !Grants(r, UserCreate) && !Grants(r, UserManageRoles) && !Grants(r, SystemAdmin)
    ensures !Grants(r, PermissionManage) && !Grants(r, SystemConfig)
  {
  }

  // ---------------------------------------------------------------------
  // Password hashing.
  // ---------------------------------------------------------------------

  /** The key-derivation function, `pbkdf2_hmac('sha256', password, salt,
      100000)`: an uninterpreted function of the password and the salt. */
  type Kdf = (string, string) -> seq<byte>

  newtype byte = x: int | 0 <= x < 256

  function HexDigit(n: nat): (c: char)
    requires n < 16
    ensures c != '$'
  {
    if n < 10 then ('0' as int + n) as char else ('a' as int + n - 10) as char
  }

  /** `bytes.hex()`: two lower-case digits per byte. */
  function Hex(bs: seq<byte>): (r: string)
    ensures |r| == 2 * |bs| && '$' !in r
  {
    if bs == [] then ""
    else [HexDigit(bs[0] as int / 16), HexDigit(bs[0] as int % 16)] + Hex(bs[1..])
  }

  lemma HexDigitInjective(m: nat, n: nat)
    requires m < 16 && n < 16 && HexDigit(m) == HexDigit(n)
    ensures m == n
  {
  }

  lemma HexByteInjective(x: byte, y: byte)
    requires HexDigit(x as int / 16) == HexDigit(y as int / 16)
    requires HexDigit(x as int % 16) == HexDigit(y as int % 16)
    ensures x == y
  {
    var m, n := x as int, y as int;
    HexDigitInjective(m / 16, n / 16);
    HexDigitInjective(m % 16, n % 16);
  }

  /** Distinct bytes give distinct text. */
  lemma {:induction false} HexInjective(a: seq<byte>, b: seq<byte>)
    requires Hex(a) == Hex(b)
    ensures a == b
  {
    if a != [] {
      assert |b| == |a|;
      var ta, tb := Hex(a[1..]), Hex(b[1..]);
      var da := [HexDigit(a[0] as int / 16), HexDigit(a[0] as int % 16)];
      var db := [HexDigit(b[0] as int / 16), HexDigit(b[0] as int % 16)];
      assert Hex(a) == da + ta && Hex(b) == db + tb;
      assert da == Hex(a)[..2] == Hex(b)[..2] == db;
      assert ta == Hex(a)[2..] == Hex(b)[2..] == tb;
      HexByteInjective(a[0], b[0]);
      HexInjective(a[1..], b[1..]);
      assert a == [a[0]] + a[1..] && b == [b[0]] + b[1..];
    }
  }

  /** `hash_password`: a hex salt drawn from 32 random bytes, the separator
      and the hex digest. */
  function HashPassword(password: string, saltBytes: seq<byte>, kdf: Kdf): (h: string)
    requires |saltBytes| == 32
    ensures var salt := Hex(saltBytes);
      && |salt| == 64
      && Split(h, '$') == [salt, Hex(kdf(password, salt))]
  {
    var salt := Hex(saltBytes);
    var digest := Hex(kdf(password, salt));
    SplitOnce(salt, digest, '$');
    salt + "$" + digest
  }

  /** `verify_password`: the stored text must split into exactly a salt
      and a digest (the unpacking raises otherwise, and the exception is
      turned into `False`). */
  function VerifyPassword(password: string, hashed: string, kdf: Kdf): (ok: bool)
    ensures ok ==> multiset(hashed)['$'] == 1
  {
    var parts := Split(hashed, '$');
    SplitParts(hashed, '$');
    if |parts| != 2 then false
    else Hex(kdf(password, parts[0])) == parts[1]
  }

  /** A password verifies against its own hash. */
  lemma VerifyHashed(password: string, saltBytes: seq<byte>, kdf: Kdf)
    requires |saltBytes| == 32
    ensures VerifyPassword(password, HashPassword(password, saltBytes, kdf), kdf)
  {
  }

  /** Another password verifies against the hash exactly when the
      key-derivation function does not tell the two apart under that salt. */
  lemma VerifyOther(password: string, other: string, saltBytes: seq<byte>, kdf: Kdf)
    requires |saltBytes| == 32
    ensures var salt := Hex(saltBytes);
      VerifyPassword(other, HashPassword(password, saltBytes, kdf), kdf) <==>
      kdf(other, salt) == kdf(password, salt)
  {
    var salt := Hex(saltBytes);
    if VerifyPassword(other, HashPassword(password, saltBytes, kdf), kdf) {
      HexInjective(kdf(other, salt), kdf(password, salt));
    }
  }

  // ---------------------------------------------------------------------
  // The user store.
  // ---------------------------------------------------------------------

  /** A row of the `users` table. Times are seconds; the role is stored as
      its text. */
  datatype UserRow = UserRow(
    id: int, username: string, email: string, passwordHash: string,
    fullName: Option<string>, role: string, isActive: bool,
    createdAt: int, updatedAt: Option<int>)

  /** The rows in table order and the next id the table hands out. */
  datatype Users = Users(rows: seq<UserRow>, nextId: int)

  /** Ids are unique and below the next id, usernames are unique, and every
      stored role is a role's value. */
  predicate Valid(u: Users) {
    && (forall i, j | 0 <= i < j < |u.rows| :: u.rows[i].id != u.rows[j].id)
    && (forall i | 0 <= i < |u.rows| :: u.rows[i].id < u.nextId)
    && (forall i, j | 0 <= i < j < |u.rows| :: u.rows[i].username != u.rows[j].username)
    && (forall i | 0 <= i < |u.rows| :: ParseRole(u.rows[i].role).Some?)
  }

  /** `query(User).filter(User.id == id).first()`, as a row index. */
  function IndexOfId(rows: seq<UserRow>, id: int): (r: Option<nat>)
    ensures r.Some? ==> r.value < |rows| && rows[r.value].id == id
    ensures r.None? <==> forall i | 0 <= i < |rows| :: rows[i].id != id
  {
    if rows == [] then None
    else if rows[0].id == id then Some(0)
    else
      var rest := IndexOfId(rows[1..], id);
      assert forall i | 1 <= i < |rows| :: rows[i] == rows[1..][i - 1];
      if rest.Some? then Some(rest.value + 1) else None
  }

  /** `query(User).filter(User.username == name).first()`, as a row index. */
  function IndexOfName(rows: seq<UserRow>, name: string): (r: Option<nat>)
    ensures r.Some? ==> r.value < |rows| && rows[r.value].username == name
    ensures r.None? <==> forall i | 0 <= i < |rows| :: rows[i].username != name
  {
    if rows == [] then None
    else if rows[0].username == name then Some(0)
    else
      var rest := IndexOfName(rows[1..], name);
      assert forall i | 1 <= i < |rows| :: rows[i] == rows[1..][i - 1];
      if rest.Some? then Some(rest.value + 1) else None
  }

  /** What the write operations answer: the success payloads, or an error
      (the commit's exception text when the commit fails, rolled back). */
  datatype Response =
    | Created(userId: int, username: string, email: string, role: string)
    | Updated
    | RoleAssigned(newRole: Role, username: string)
    | Deleted(username: string)
    | Failed(error: string)

  const UsernameTaken := "Username already exists"
  const UserNotFound := "User not found"

  /** `create_user`. An existing username is refused and nothing is
      written; otherwise a row with a fresh id and the hashed password is
      appended, unless the commit fails. */
  function CreateUser(
    u: Users, username: string, email: string, password: string, fullName: Option<string>,
    role: Role, isActive: bool, now: int, saltBytes: seq<byte>, kdf: Kdf, commitError: Option<string>
  ): (out: (Response, Users))
    requires |saltBytes| == 32
    ensures IndexOfName(u.rows, username).Some? ==> out == (Failed(UsernameTaken), u)
    ensures IndexOfName(u.rows, username).None? && commitError.Some? ==> out == (Failed(commitError.value), u)
    ensures IndexOfName(u.rows, username).None? && commitError.None? ==>
      && out.0 == Created(u.nextId, username, email, role.Value())
      && |out.1.rows| == |u.rows| + 1 && out.1.rows[..|u.rows|] == u.rows
      && out.1.nextId == u.nextId + 1
      && var row := out.1.rows[|u.rows|];
         row.id == u.nextId && row.username == username && row.role == role.Value() && row.isActive == isActive
         && VerifyPassword(password, row.passwordHash, kdf)
  {
    if IndexOfName(u.rows, username).Some? then (Failed(UsernameTaken), u)
    else if commitError.Some? then (Failed(commitError.value), u)
    else
      var row := UserRow(u.nextId, username, email, HashPassword(password, saltBytes, kdf),
                         fullName, role.Value(), isActive, now, None);
      var u' := Users(u.rows + [row], u.nextId + 1);
      assert u'.rows[|u.rows|] == row;
      assert forall i | 0 <= i < |u.rows| :: u'.rows[i] == u.rows[i];
      VerifyHashed(password, saltBytes, kdf);
      (Created(row.id, username, email, row.role), u')
  }

  /** `update_user`: e-mail and full name are overwritten only by a
      non-empty value, the active flag by any given value; the update time
      is stamped. */
  function UpdateUser(
    u: Users, id: int, email: Option<string>, fullName: Option<string>, isActive: Option<bool>,
    now: int, commitError: Option<string>
  ): (out: (Response, Users))
    ensures IndexOfId(u.rows, id).None? ==> out == (Failed(UserNotFound), u)
    ensures IndexOfId(u.rows, id).Some? && commitError.Some? ==> out == (Failed(commitError.value), u)
    ensures IndexOfId(u.rows, id).Some? && commitError.None? ==>
      && out.0 == Updated && out.1.nextId == u.nextId && |out.1.rows| == |u.rows|
      && var i := IndexOfId(u.rows, id).value;
      var (old_, new_) := (u.rows[i], out.1.rows[i]);
      && (forall k | 0 <= k < |u.rows| && k != i :: out.1.rows[k] == u.rows[k])
      && new_.email == (if Truthy(email) then email.value else old_.email)
      && new_.fullName == (if Truthy(fullName) then fullName else old_.fullName)
      && new_.isActive == (if isActive.Some? then isActive.value else old_.isActive)
      && new_.updatedAt == Some(now)
      && new_.id == old_.id && new_.username == old_.username && new_.role == old_.role
      && new_.passwordHash == old_.passwordHash
  {
    match IndexOfId(u.rows, id)
    case None => (Failed(UserNotFound), u)
    case Some(i) =>
      if commitError.Some? then (Failed(commitError.value), u)
      else
        var r := u.rows[i];
        var r' := r.(
          email := if Truthy(email) then email.value else r.email,
          fullName := if Truthy(fullName) then fullName else r.fullName,
          isActive := if isActive.Some? then isActive.value else r.isActive,
          updatedAt := Some(now));
        (Updated, u.(rows := u.rows[i := r']))
  }

  /** `assign_role`. */
  function AssignRole(u: Users, id: int, role: Role, now: int, commitError: Option<string>): (out: (Response, Users))
    ensures IndexOfId(u.rows, id).None? ==> out == (Failed(UserNotFound), u)
    ensures IndexOfId(u.rows, id).Some? && commitError.Some? ==> out == (Failed(commitError.value), u)
    ensures IndexOfId(u.rows, id).Some? && commitError.None? ==>
      var i := IndexOfId(u.rows, id).value;
      && out.0 == RoleAssigned(role, u.rows[i].username)
      && out.1 == u.(rows := u.rows[i := u.rows[i].(role := role.Value(), updatedAt := Some(now))])
  {
    match IndexOfId(u.rows, id)
    case None => (Failed(UserNotFound), u)
    case Some(i) =>
      if commitError.Some? then (Failed(commitError.value), u)
      else
        var r := u.rows[i];
        (RoleAssigned(role, r.username), u.(rows := u.rows[i := r.(role := role.Value(), updatedAt := Some(now))]))
  }

  /** `delete_user`. */
  function DeleteUser(u: Users, id: int, commitError: Option<string>): (out: (Response, Users))
    ensures IndexOfId(u.rows, id).None? ==> out == (Failed(UserNotFound), u)
    ensures IndexOfId(u.rows, id).Some? && commitError.Some? ==> out == (Failed(commitError.value), u)
    ensures IndexOfId(u.rows, id).Some? && commitError.None? ==>
      var i := IndexOfId(u.rows, id).value;
      && out.0 == Deleted(u.rows[i].username)
      && out.1 == u.(rows := u.rows[..i] + u.rows[i + 1..])
  {
    match IndexOfId(u.rows, id)
    case None => (Failed(UserNotFound), u)
    case Some(i) =>
      if commitError.Some? then (Failed(commitError.value), u)
      else
        (Deleted(u.rows[i].username), u.(rows := u.rows[..i] + u.rows[i + 1..]))
  }

  /** Every write keeps ids and usernames unique and roles valid. */
  lemma CreateKeepsValid(
    u: Users, username: string, email: string, password: string, fullName: Option<string>,
    role: Role, isActive: bool, now: int, saltBytes: seq<byte>, kdf: Kdf, commitError: Option<string>)
    requires Valid(u) && |saltBytes| == 32
    ensures Valid(CreateUser(u, username, email, password, fullName, role, isActive, now, saltBytes, kdf, commitError).1)
  {
    var u' := CreateUser(u, username, email, password, fullName, role, isActive, now, saltBytes, kdf, commitError).1;
    if IndexOfName(u.rows, username).None? && commitError.None? {
      ExtendKeepsValid(u, u');
    }
  }

  /** Appending a row with the next id, a new username and a valid role keeps
      the store valid. */
  lemma ExtendKeepsValid(u: Users, u': Users)
    requires Valid(u) && |u'.rows| == |u.rows| + 1 && u'.rows[..|u.rows|] == u.rows
    requires u'.nextId == u.nextId + 1
    requires u'.rows[|u.rows|].id == u.nextId && ParseRole(u'.rows[|u.rows|].role).Some?
    requires IndexOfName(u.rows, u'.rows[|u.rows|].username).None?
    ensures Valid(u')
  {
    var rows := u'.rows;
    var n := |u.rows|;
    assert forall i | 0 <= i < n :: rows[i] == u.rows[i];
    forall a, b | 0 <= a < b < |rows|
      ensures rows[a].id != rows[b].id && rows[a].username != rows[b].username
    {
      if b == n {
        assert rows[a] == u.rows[a];
      }
    }
  }

  lemma UpdateKeepsValid(u: Users, id: int, email: Option<string>, fullName: Option<string>,
                         isActive: Option<bool>, now: int, commitError: Option<string>)
    requires Valid(u)
    ensures Valid(UpdateUser(u, id, email, fullName, isActive, now, commitError).1)
  {
  }

  lemma AssignKeepsValid(u: Users, id: int, role: Role, now: int, commitError: Option<string>)
    requires Valid(u)
    ensures Valid(AssignRole(u, id, role, now, commitError).1)
  {
  }

  lemma DeleteKeepsValid(u: Users, id: int, commitError: Option<string>)
    requires Valid(u)
    ensures Valid(DeleteUser(u, id, commitError).1)
  {
    if IndexOfId(u.rows, id).Some? && commitError.None? {
      DropKeepsValid(u, IndexOfId(u.rows, id).value);
    }
  }

  lemma DropKeepsValid(u: Users, i: nat)
    requires Valid(u) && i < |u.rows|
    ensures Valid(u.(rows := u.rows[..i] + u.rows[i + 1..]))
  {
    var rows := u.rows[..i] + u.rows[i + 1..];
    Dropped(u.rows, i);
    forall a, b | 0 <= a < b < |rows|
      ensures rows[a].id != rows[b].id && rows[a].username != rows[b].username
    {
      assert rows[a] == u.rows[if a < i then a else a + 1];
      assert rows[b] == u.rows[if b < i then b else b + 1];
    }
  }

  /** Where the rows after a deletion come from. */
  lemma Dropped(rows: seq<UserRow>, i: nat)
    requires i < |rows|
    ensures var rest := rows[..i] + rows[i + 1..];
      |rest| == |rows| - 1 && forall k | 0 <= k < |rest| :: rest[k] == rows[if k < i then k else k + 1]
  {
  }

  // ---------------------------------------------------------------------
  // Reads.
  // ---------------------------------------------------------------------

  /** `get_user`'s dictionary. */
  datatype Detail = Detail(id: int, username: string, email: string, fullName: Option<string>,
                           role: string, isActive: bool, createdAt: int, updatedAt: Option<int>)

  /** `get_user_by_username`'s dictionary: no update time. */
  datatype Summary = Summary(id: int, username: string, email: string, fullName: Option<string>,
                             role: string, isActive: bool, createdAt: int)

  /** One entry of `list_users`: no times. */
  datatype Listing = Listing(id: int, username: string, email: string, fullName: Option<string>,
                             role: string, isActive: bool)

  /** `authenticate_user`'s dictionary. */
  datatype Identity = Identity(id: int, username: string, email: string, fullName: Option<string>, role: string)

  function GetUser(u: Users, id: int): (r: Option<Detail>)
    ensures r.None? <==> IndexOfId(u.rows, id).None?
    ensures r.Some? ==> r.value.id == id
  {
    match IndexOfId(u.rows, id)
    case None => None
    case Some(i) =>
      var x := u.rows[i];
      Some(Detail(x.id, x.username, x.email, x.fullName, x.role, x.isActive, x.createdAt, x.updatedAt))
  }

  function GetUserByUsername(u: Users, name: string): (r: Option<Summary>)
    ensures r.None? <==> IndexOfName(u.rows, name).None?
    ensures r.Some? ==> r.value.username == name
  {
    match IndexOfName(u.rows, name)
    case None => None
    case Some(i) =>
      var x := u.rows[i];
      Some(Summary(x.id, x.username, x.email, x.fullName, x.role, x.isActive, x.createdAt))
  }

  /** SQLite's `OFFSET`: a negative offset counts as none. */
  function OffsetOf(skip: int, n: nat): (k: nat)
    ensures k <= n
  {
    if skip < 0 then 0 else if skip > n then n else skip
  }

  /** `list_users`: the rows after `skip`, at most `limit` of them (SQLite
      takes a negative limit as no limit). */
  function ListUsers(u: Users, skip: int, limit: int): (r: seq<Listing>)
    ensures var from := OffsetOf(skip, |u.rows|);
      && |r| == (if limit < 0 || from + limit > |u.rows| then |u.rows| - from else limit)
      && forall k | 0 <= k < |r| :: r[k].id == u.rows[from + k].id && r[k].username == u.rows[from + k].username
  {
    var from := OffsetOf(skip, |u.rows|);
    var to := if limit < 0 || from + limit > |u.rows| then |u.rows| else from + limit;
    seq(to - from, k requires 0 <= k < to - from =>
      var x := u.rows[from + k];
      Listing(x.id, x.username, x.email, x.fullName, x.role, x.isActive))
  }

  /** What a call does when the stored role is not a role's value: the
      `UserRole(...)` conversion raises. */
  datatype Checked<T> = Returns(value: T) | InvalidRole(role: string)

  /** `check_permission`: false for a missing or inactive user, otherwise
      whether the user's role grants the permission. */
  function CheckPermission(u: Users, id: int, p: Permission): (r: Checked<bool>)
    ensures IndexOfId(u.rows, id).None? ==> r == Returns(false)
    ensures IndexOfId(u.rows, id).Some? ==>
      var x := u.rows[IndexOfId(u.rows, id).value];
      && (!x.isActive ==> r == Returns(false))
      && (x.isActive ==> match ParseRole(x.role)
                         case None => r == InvalidRole(x.role)
                         case Some(role) => r == Returns(Grants(role, p)))
  {
    match IndexOfId(u.rows, id)
    case None => Returns(false)
    case Some(i) =>
      var x := u.rows[i];
      if !x.isActive then Returns(false)
      else match ParseRole(x.role)
        case None => InvalidRole(x.role)
        case Some(role) =>
          ValueIn(p, role);
          Returns(p.Value() in RolePermissions(role))
  }

  /** `get_user_permissions`: the role's list; unlike the check above, an
      inactive user still gets it. */
  function GetUserPermissions(u: Users, id: int): (r: Checked<seq<string>>)
    ensures IndexOfId(u.rows, id).None? ==> r == Returns([])
    ensures IndexOfId(u.rows, id).Some? ==>
      var x := u.rows[IndexOfId(u.rows, id).value];
      match ParseRole(x.role)
      case None => r == InvalidRole(x.role)
      case Some(role) => r == Returns(RolePermissions(role))
  {
    match IndexOfId(u.rows, id)
    case None => Returns([])
    case Some(i) =>
      match ParseRole(u.rows[i].role)
      case None => InvalidRole(u.rows[i].role)
      case Some(role) => Returns(RolePermissions(role))
  }

  /** `authenticate_user`: nothing for a missing or inactive user or a
      password that does not verify. */
  function AuthenticateUser(u: Users, username: string, password: string, kdf: Kdf): (r: Option<Identity>)
    ensures r.Some? <==>
      && IndexOfName(u.rows, username).Some?
      && u.rows[IndexOfName(u.rows, username).value].isActive
      && VerifyPassword(password, u.rows[IndexOfName(u.rows, username).value].passwordHash, kdf)
    ensures r.Some? ==> r.value.username == username
  {
    match IndexOfName(u.rows, username)
    case None => None
    case Some(i) =>
      var x := u.rows[i];
      if !x.isActive || !VerifyPassword(password, x.passwordHash, kdf) then None
      else Some(Identity(x.id, x.username, x.email, x.fullName, x.role))
  }

  // ---------------------------------------------------------------------
  // Properties across operations.
  // ---------------------------------------------------------------------

  /** The permission check and the permission list agree for an active
      user: the check is membership in the list. */
  lemma CheckMatchesList(u: Users, id: int, p: Permission)
    requires Valid(u)
    ensures CheckPermission(u, id, p).Returns? && GetUserPermissions(u, id).Returns?
    ensures IndexOfId(u.rows, id).Some? && u.rows[IndexOfId(u.rows, id).value].isActive ==>
      (CheckPermission(u, id, p).value <==> p.Value() in GetUserPermissions(u, id).value)
  {
  }

  /** In a valid store the role conversion never raises, so neither read
      fails. */
  lemma ValidNeverRaises(u: Users, id: int, p: Permission)
    requires Valid(u)
    ensures CheckPermission(u, id, p).Returns? && GetUserPermissions(u, id).Returns?
  {
  }

  /** A created user is found by name, holds the assigned role, and logs in
      with the password it was created with when it is active. */
  lemma CreateThenAuthenticate(
    u: Users, username: string, email: string, password: string, fullName: Option<string>,
    role: Role, now: int, saltBytes: seq<byte>, kdf: Kdf)
    requires Valid(u) && |saltBytes| == 32 && IndexOfName(u.rows, username).None?
    ensures var u' := CreateUser(u, username, email, password, fullName, role, true, now, saltBytes, kdf, None).1;
      && GetUserByUsername(u', username).Some?
      && GetUserByUsername(u', username).value.id == u.nextId
      && AuthenticateUser(u', username, password, kdf) == Some(Identity(u.nextId, username, email, fullName, role.Value()))
      && (forall p: Permission :: CheckPermission(u', u.nextId, p) == Returns(Grants(role, p)))
  {
    var u' := CreateUser(u, username, email, password, fullName, role, true, now, saltBytes, kdf, None).1;
    var n := |u.rows|;
    assert forall i | 0 <= i < n :: u'.rows[i] == u.rows[i];
    assert IndexOfName(u'.rows, username) == Some(n) by {
      NameAt(u'.rows, username, n);
    }
    assert IndexOfId(u'.rows, u.nextId) == Some(n) by {
      IdAt(u'.rows, u.nextId, n);
    }
  }

  lemma IdAt(rows: seq<UserRow>, id: int, n: nat)
    requires n < |rows| && rows[n].id == id && forall i | 0 <= i < n :: rows[i].id != id
    ensures IndexOfId(rows, id) == Some(n)
  {
    if n > 0 {
      IdAt(rows[1..], id, n - 1);
    }
  }

  lemma NameAt(rows: seq<UserRow>, name: string, n: nat)
    requires n < |rows| && rows[n].username == name && forall i | 0 <= i < n :: rows[i].username != name
    ensures IndexOfName(rows, name) == Some(n)
  {
    if n > 0 {
      NameAt(rows[1..], name, n - 1);
    }
  }

  /** Creating the same username twice: the second attempt fails and
      changes nothing. */
  lemma CreateTwiceRefused(
    u: Users, username: string, email: string, password: string, fullName: Option<string>,
    role: Role, isActive: bool, now: int, saltBytes: seq<byte>, kdf: Kdf,
    email2: string, password2: string, fullName2: Option<string>, role2: Role, isActive2: bool, now2: int)
    requires |saltBytes| == 32 && IndexOfName(u.rows, username).None?
    ensures var u' := CreateUser(u, username, email, password, fullName, role, isActive, now, saltBytes, kdf, None).1;
      CreateUser(u', username, email2, password2, fullName2, role2, isActive2, now2, saltBytes, kdf, None) == (Failed(UsernameTaken), u')
  {
    var u' := CreateUser(u, username, email, password, fullName, role, isActive, now, saltBytes, kdf, None).1;
    assert u'.rows[|u.rows|].username == username;
    assert IndexOfName(u'.rows, username).Some?;
  }

  /** After a deletion the user is gone, and in a valid store no other user
      is. */
  lemma DeleteThenGone(u: Users, id: int, other: int)
    requires Valid(u) && IndexOfId(u.rows, id).Some? && other != id
    ensures var u' := DeleteUser(u, id, None).1;
      && GetUser(u', id).None?
      && (GetUser(u', other).Some? <==> GetUser(u, other).Some?)
  {
    var i := IndexOfId(u.rows, id).value;
    assert DeleteUser(u, id, None).1.rows == u.rows[..i] + u.rows[i + 1..];
    DroppedIds(u.rows, i, id);
    DroppedIds(u.rows, i, other);
  }

  /** In rows with unique ids, dropping row `i` loses exactly its id. */
  lemma DroppedIds(rows: seq<UserRow>, i: nat, x: int)
    requires i < |rows| && forall a, b | 0 <= a < b < |rows| :: rows[a].id != rows[b].id
    ensures IndexOfId(rows[..i] + rows[i + 1..], x).Some? <==> IndexOfId(rows, x).Some? && x != rows[i].id
  {
    if IndexOfId(rows[..i] + rows[i + 1..], x).Some? {
      DroppedIdWasThere(rows, i, x);
    }
    if IndexOfId(rows, x).Some? && x != rows[i].id {
      DroppedIdStays(rows, i, x);
    }
  }

  lemma DroppedIdWasThere(rows: seq<UserRow>, i: nat, x: int)
    requires i < |rows| && forall a, b | 0 <= a < b < |rows| :: rows[a].id != rows[b].id
    requires IndexOfId(rows[..i] + rows[i + 1..], x).Some?
    ensures IndexOfId(rows, x).Some? && x != rows[i].id
  {
    var rest := rows[..i] + rows[i + 1..];
    var k := IndexOfId(rest, x).value;
    var j := if k < i then k else k + 1;
    assert rest[k] == rows[j];
    assert rows[j].id == x && j != i;
  }

  lemma DroppedIdStays(rows: seq<UserRow>, i: nat, x: int)
    requires i < |rows| && IndexOfId(rows, x).Some? && x != rows[i].id
    ensures IndexOfId(rows[..i] + rows[i + 1..], x).Some?
  {
    var rest := rows[..i] + rows[i + 1..];
    var j := IndexOfId(rows, x).value;
    var k := if j < i then j else j - 1;
    assert rest[k] == rows[j];
  }

  /** Assigning a role decides every later permission check of an active
      user. */
  lemma AssignThenCheck(u: Users, id: int, role: Role, now: int, p: Permission)
    requires Valid(u) && IndexOfId(u.rows, id).Some?
    ensures var u' := AssignRole(u, id, role, now, None).1;
      CheckPermission(u', id, p) ==
        Returns(u.rows[IndexOfId(u.rows, id).value].isActive && Grants(role, p))
  {
    var i := IndexOfId(u.rows, id).value;
    var u' := AssignRole(u, id, role, now, None).1;
    IdAt(u'.rows, id, i);
  }

  /** Deactivating a user shuts them out of logging in and of every
      permission, but not of the permission list. */
  lemma DeactivateShutsOut(u: Users, id: int, now: int, username: string, password: string, kdf: Kdf, p: Permission)
    requires Valid(u) && IndexOfId(u.rows, id).Some?
    requires u.rows[IndexOfId(u.rows, id).value].username == username
    ensures var u' := UpdateUser(u, id, None, None, Some(false), now, None).1;
      && CheckPermission(u', id, p) == Returns(false)
      && AuthenticateUser(u', username, password, kdf).None?
      && GetUserPermissions(u', id) == GetUserPermissions(u, id)
  {
    var i := IndexOfId(u.rows, id).value;
    var u' := UpdateUser(u, id, None, None, Some(false), now, None).1;
    IdAt(u'.rows, id, i);
    NameAt(u'.rows, username, i);
  }
}
